=== FILE: README.md ===
# NDR marshalling, DCE/RPC connectionless header, and the UDP tool codecs

A Dafny model of the byte-level core of two small Java code bases.

- **jdce**: an implementation of the Network Data Representation (NDR) transfer syntax of chapter 14 of Open Group C706. It covers:
  - the data-representation format label;
  - the alignment-counting input and output streams;
  - the NDR reader and writer for numbers, arrays, strings and pointer references;
  - the UUID of appendix A of C706, in its 16-byte NDR form and its 36-character string form;
  - the PDU flag bytes;
  - the PDU type, authentication protocol and rejection code enumerations;
  - the 80-byte connectionless PDU header of chapter 12 of C706, which composes all of the above.
- **udp-tools**: the hex conversions of `Utils`, `MACAddress`, and the Wake-on-LAN magic packet `WOLPacket`.

The model also covers the WireShark-style hex and bits dumps of `WireSharkViewer`.

## How the model is built

- **Streams** are immutable values. A writer is its output sink plus `totalBytesWritten`; a reader is the remaining input plus `totalBytesRead`. Each one also carries the active format label.
- **Operations are pure functions.** A read returns `Result<Step<T>>`, holding the value and the reader after it. A write returns the next writer.
- **Java exceptions** become error tags of `Wrappers.Error`: `IllegalState`, `IllegalArgument`, `IO`, `Unsupported`, `NullPointer`, `IndexOutOfBounds` and `NegativeArraySize`.
- **Java nulls** are `Option` values.
- **Java `byte`, `short`, `int` and `long`** are bounded integer subset types:
  - the casts between them are written out (`Bytes.Wrap` and `Bytes.Signed`);
  - 32-bit `int` addition wraps explicitly (`Bytes.AddInt`).
- **Character sets** are a pair of functions, one byte per character: `FormatLabels.Charset`, selected by the label's character code through `FormatLabels.Charsets`.
- **Referents of `writeReference`** carry an identity tag next to their payload. This is how the writer's `==` lookup is modelled.

Each operation has a partner in the model:
- every write has a round-trip lemma stating what the matching read gets back and where the reader stops;
- every parser has a lemma relating it to its printer;
- every flag update has its inverse and its "nothing else changes" property;
- every layout has a lemma giving the exact bytes.

## Model

| member | source | states |
|---|---|---|
| Bytes.Wrap | spoocr/src/main/java/nl/bransom/jdce/ndr/NDRWriter.java:380-400 | the bit pattern written for a value is below 256^n and equals the value when the value is already in range |
| Bytes.Signed | spoocr/src/main/java/nl/bransom/jdce/ndr/NDRReader.java:381-409 | an n-byte pattern read as a Java signed number is in the signed range, equals the pattern below half the range, and is negative from half upwards |
| Bytes.SignedWrap | spoocr/src/main/java/nl/bransom/jdce/ndr/NDRReader.java:381-409 | a signed number taken to its n-byte pattern and read back signed is the same number |
| Bytes.WrapSigned | spoocr/src/main/java/nl/bransom/jdce/ndr/NDRWriter.java:380-400 | a pattern read as signed and narrowed again is the same pattern |
| Bytes.AddInt | spoocr/src/main/java/nl/bransom/jdce/ndr/NDRWriter.java:402-415 | Java `int` addition: exact when the sum fits, 2^32 lower on positive overflow, 2^32 higher on negative overflow |
| FormatLabels.CodesAreDistinct | spoocr/src/main/java/nl/bransom/jdce/ndr/FormatLabelFloat.java:8-16 | within each sub-label, distinct members have distinct wire codes, so parsing a code is unambiguous |
| FormatLabels.PatchInt | spoocr/src/main/java/nl/bransom/jdce/ndr/FormatLabelInteger.java:38-44 | a null buffer, or one shorter than offset + 3 (an `int` sum that wraps), fails with IllegalArgument, and only then; a byte[offset] outside the buffer (a negative offset, or one whose sum wrapped) fails with IndexOutOfBounds; otherwise the high nibble of byte[offset] becomes the endianness code, and its low nibble and every other byte are unchanged |
| FormatLabels.ParseInt | spoocr/src/main/java/nl/bransom/jdce/ndr/FormatLabelInteger.java:55-67 | a null or short buffer (wrapping offset + 3) fails with IllegalArgument, and an offset outside the buffer with IndexOutOfBounds; otherwise parsing succeeds exactly when the high nibble of byte[offset] is a known endianness code (whatever the low nibble), fails with Unsupported if not, and returns the member with that code |
| FormatLabels.ParsePatchInt | spoocr/src/main/java/nl/bransom/jdce/ndr/FormatLabelInteger.java:38-67 | whenever the patch succeeds, parsing at the same offset returns the patched endianness |
| FormatLabels.PatchChar | spoocr/src/main/java/nl/bransom/jdce/ndr/FormatLabelCharacter.java:51-57 | a null or short buffer (wrapping offset + 3) fails with IllegalArgument, and only then; an offset outside the buffer fails with IndexOutOfBounds; otherwise the low nibble of byte[offset] becomes the character code, and its high nibble and every other byte are unchanged |
| FormatLabels.ParseChar | spoocr/src/main/java/nl/bransom/jdce/ndr/FormatLabelCharacter.java:68-80 | a null or short buffer (wrapping offset + 3) fails with IllegalArgument, and an offset outside the buffer with IndexOutOfBounds; otherwise parsing succeeds exactly when the low nibble of byte[offset] is a known character code (whatever the endianness nibble), fails with Unsupported if not, and returns the member with that code |
| FormatLabels.ParsePatchChar | spoocr/src/main/java/nl/bransom/jdce/ndr/FormatLabelCharacter.java:51-80 | whenever the patch succeeds, parsing at the same offset returns the patched character set |
| FormatLabels.PatchIntCharCommute | spoocr/src/main/java/nl/bransom/jdce/ndr/FormatLabelCharacter.java:51-57 | for an offset that passes the length check and lies inside the buffer, patching the endianness and the character set commutes, and byte[offset] ends as the sum of the two codes |
| FormatLabels.PatchFloat | spoocr/src/main/java/nl/bransom/jdce/ndr/FormatLabelFloat.java:41-47 | a null or short buffer (fewer than the wrapping offset + 3 bytes, although only offset + 1 is touched) fails with IllegalArgument, and only then; a byte[offset + 1] outside the buffer (the sum also wraps) fails with IndexOutOfBounds; otherwise only that byte changes, and it becomes the float code |
| FormatLabels.ParseFloat | spoocr/src/main/java/nl/bransom/jdce/ndr/FormatLabelFloat.java:58-70 | a null or short buffer fails with IllegalArgument, and a byte[offset + 1] outside the buffer with IndexOutOfBounds; otherwise parsing succeeds exactly when byte[offset + 1] is a known float code, ignoring byte[offset], and fails with Unsupported if not |
| FormatLabels.ParsePatchFloat | spoocr/src/main/java/nl/bransom/jdce/ndr/FormatLabelFloat.java:41-70 | whenever the patch succeeds, parsing at the same offset returns the patched float representation |
| FormatLabels.NegativeOffsetOutOfBounds | spoocr/src/main/java/nl/bransom/jdce/ndr/FormatLabelInteger.java:38-44 | a negative offset passes the length check and then fails with IndexOutOfBounds on the nibble access; an offset of -1 still patches byte 0 with the float code, and -2 fails there too |
| FormatLabels.WrappedOffsetOutOfBounds | spoocr/src/main/java/nl/bransom/jdce/ndr/FormatLabelFloat.java:58-70 | an offset of 0x7FFFFFFE wraps offset + 3 negative, so the length check passes for every buffer shorter than 0x7FFFFFFE bytes, and both the endianness and the float parse fail with IndexOutOfBounds |
| FormatLabels.DecodeEncode | spoocr/src/main/java/nl/bransom/jdce/ndr/FormatLabelCharacter.java:31-41 | decoding the encoding of a string the character set can represent gives the string back |
| FormatLabels.VerifyFormatLabel | spoocr/src/main/java/nl/bransom/jdce/ndr/NDRWriter.java:417-421 | succeeds exactly when a label is present and initialized, returns it, and otherwise fails with IllegalState |
| FormatLabels.Set | spoocr/src/main/java/nl/bransom/jdce/ndr/FormatLabel.java:61-75 | `set` stores the three components, and the label is initialized exactly when all three are non-null |
| FormatLabels.Patch | spoocr/src/main/java/nl/bransom/jdce/ndr/FormatLabel.java:100-108 | an uninitialized label fails with IllegalState before any buffer check; then a null or short buffer fails with IllegalArgument, and byte[offset] or byte[offset + 1] outside the buffer with IndexOutOfBounds; it succeeds exactly when none of these holds, and then byte[offset] holds endianness plus character code, byte[offset + 1] holds the float code, and nothing else changes |
| FormatLabels.ToByteArray | spoocr/src/main/java/nl/bransom/jdce/ndr/FormatLabel.java:84-88 | a negative size fails with NegativeArraySize, an uninitialized label with IllegalState, and a size below 3 with IllegalArgument; otherwise the result has n bytes: the packed codes in bytes 0 and 1, zeros after |
| FormatLabels.Parse | spoocr/src/main/java/nl/bransom/jdce/ndr/FormatLabel.java:148-151 | a null or short buffer fails with IllegalArgument and byte[offset] outside the buffer with IndexOutOfBounds; when only byte[offset + 1] is outside, an unknown byte-0 code still fails first with Unsupported; parsing succeeds exactly when both bytes are inside and all three codes are known, and yields an initialized label with exactly those codes |
| FormatLabels.EqualsIsStructural | spoocr/src/main/java/nl/bransom/jdce/ndr/FormatLabel.java:111-120 | `equals` holds exactly when the three components are equal, so an uninitialized label never equals an initialized one |
| FormatLabels.ParseToByteArray | spoocr/src/main/java/nl/bransom/jdce/ndr/FormatLabel.java:84-151 | parsing `toByteArray(n)` gives the label back, for every initialized label and n ≥ 3 |
| FormatLabels.ToByteArrayParse | spoocr/src/main/java/nl/bransom/jdce/ndr/FormatLabel.java:84-151 | a parsable n-byte buffer that is zero after its first two bytes is exactly `toByteArray(n)` of the label it parses to |
| AlignedStreams.PaddingAligns | spoocr/src/main/java/nl/bransom/jdce/ndr/AlignedOutputStream.java:61-68 | the alignment padding brings a non-negative count to a multiple of k, is zero exactly when the count is already aligned, and is zero for a negative count (Java's `%`) |
| AlignedStreams.WriteOne | spoocr/src/main/java/nl/bransom/jdce/ndr/AlignedOutputStream.java:31-34 | appends exactly the one byte and adds 1 to the counter, so the counter keeps matching the bytes emitted |
| AlignedStreams.WriteSlice | spoocr/src/main/java/nl/bransom/jdce/ndr/AlignedOutputStream.java:48-51 | a null buffer fails with NullPointer and a slice outside the buffer with IndexOutOfBounds; otherwise exactly bytes[off..off+len) is appended and len is added to the counter |
| AlignedStreams.WriteAlignment | spoocr/src/main/java/nl/bransom/jdce/ndr/AlignedOutputStream.java:61-68 | appends the padding as zero bytes and counts them |
| AlignedStreams.WriteAlignmentAligns | spoocr/src/main/java/nl/bransom/jdce/ndr/AlignedOutputStream.java:61-68 | afterwards the counter is a multiple of k; fewer than k bytes were added, all of them 0x00; an aligned stream is left unchanged |
| AlignedStreams.WriteAlignmentIdempotent | spoocr/src/main/java/nl/bransom/jdce/ndr/AlignedOutputStream.java:62-63 | aligning twice is the same as aligning once |
| AlignedStreams.ReadOne | spoocr/src/main/java/nl/bransom/jdce/ndr/AlignedInputStream.java:30-37 | succeeds exactly when a byte remains and it is not 0xFF (the value is narrowed before the end-of-stream test), and fails with IO otherwise; returns that byte and advances the counter by one |
| AlignedStreams.ReadOneIntended | spoocr/src/main/java/nl/bransom/jdce/ndr/AlignedInputStream.java:30-37 | without the narrowing, the single-byte read fails only at the end of the stream |
| AlignedStreams.ReadOneRejectsFF | spoocr/src/main/java/nl/bransom/jdce/ndr/AlignedInputStream.java:31-34 | on every stream whose next byte is 0xFF, the read as written fails with IO, while the intended read returns 0xFF and advances the counter by one |
| AlignedStreams.ReadOneAgreesBelowFF | spoocr/src/main/java/nl/bransom/jdce/ndr/AlignedInputStream.java:31-34 | the two reads agree on every stream whose next byte is not 0xFF |
| AlignedStreams.ReadInto | spoocr/src/main/java/nl/bransom/jdce/ndr/AlignedInputStream.java:66-70 | a range outside the buffer fails with IndexOutOfBounds, and only then. At end of stream with len > 0 it returns -1, leaves the buffer unchanged and lowers the counter by one. Otherwise it returns n = min(len, available), fills buf[off..off+n) with the next n bytes, leaves every other cell unchanged and adds n to the counter |
| AlignedStreams.ReadAll | spoocr/src/main/java/nl/bransom/jdce/ndr/AlignedInputStream.java:48-50 | `read(buf)` is `read(buf, 0, buf.length)` |
| AlignedStreams.SkipAlignment | spoocr/src/main/java/nl/bransom/jdce/ndr/AlignedInputStream.java:80-87 | consumes the padding whatever its content; the counter advances by the full padding even past the end of the stream, which never fails |
| AlignedStreams.SkipAlignmentAligns | spoocr/src/main/java/nl/bransom/jdce/ndr/AlignedInputStream.java:80-87 | afterwards a non-negative counter is a multiple of k; an aligned stream is left unchanged |
| AlignedStreams.SkipAlignmentIdempotent | spoocr/src/main/java/nl/bransom/jdce/ndr/AlignedInputStream.java:81-82 | skipping twice is the same as skipping once |
| NdrNumbers.Alignment | spoocr/src/main/java/nl/bransom/jdce/ndr/NDRConstants.java:11 | a number of `size` bytes aligns to min(8, size) |
| NdrNumbers.DecodeEncodeNumber | spoocr/src/main/java/nl/bransom/jdce/ndr/NDRReader.java:381-409 | assembling, in one byte order, the bytes a number was split into in the same byte order gives back the number |
| NdrNumbers.EncodeDecodeNumber | spoocr/src/main/java/nl/bransom/jdce/ndr/NDRWriter.java:380-400 | splitting an assembled number again gives back the same bytes |
| NdrWriter.WriteFormatLabel | spoocr/src/main/java/nl/bransom/jdce/ndr/NDRWriter.java:48-51 | no ready label fails with IllegalState, a negative size with NegativeArraySize, and a size below 3 with IllegalArgument; otherwise exactly `toByteArray(n)` is appended, without alignment, and those bytes parse back to the writer's label |
| NdrWriter.WriteBoolean | spoocr/src/main/java/nl/bransom/jdce/ndr/NDRWriter.java:75-77 | appends one unaligned byte, which is non-zero exactly for true and is 0 or 1 |
| NdrWriter.WriteByte | spoocr/src/main/java/nl/bransom/jdce/ndr/NDRWriter.java:89-91 | appends the byte as given, without alignment |
| NdrWriter.WriteNumber | spoocr/src/main/java/nl/bransom/jdce/ndr/NDRWriter.java:380-400 | fails with IllegalState exactly when no label is ready; otherwise appends zero padding to a min(8, size) boundary, then the size-byte two's-complement pattern in the label's byte order |
| NdrWriter.WriteNumberAligned | spoocr/src/main/java/nl/bransom/jdce/ndr/NDRWriter.java:380-400 | the number's bytes start on a min(8, size) boundary |
| NdrWriter.WriteShort | spoocr/src/main/java/nl/bransom/jdce/ndr/NDRWriter.java:103-105 | a 2-byte aligned number in the label's byte order, or IllegalState without a label |
| NdrWriter.WriteInt | spoocr/src/main/java/nl/bransom/jdce/ndr/NDRWriter.java:117-119 | a 4-byte aligned number in the label's byte order, or IllegalState without a label |
| NdrWriter.WriteLong | spoocr/src/main/java/nl/bransom/jdce/ndr/NDRWriter.java:131-133 | an 8-byte aligned number in the label's byte order, or IllegalState without a label |
| NdrWriter.WriteFloat | spoocr/src/main/java/nl/bransom/jdce/ndr/NDRWriter.java:145-147 | the raw 32-bit pattern, written as an int; the float sub-label is not consulted |
| NdrWriter.WriteDouble | spoocr/src/main/java/nl/bransom/jdce/ndr/NDRWriter.java:159-161 | the raw 64-bit pattern, written as a long; the float sub-label is not consulted |
| NdrWriter.WriteBytesFixed | spoocr/src/main/java/nl/bransom/jdce/ndr/NDRWriter.java:178-180 | a null buffer fails with NullPointer; the write succeeds exactly for a slice inside the buffer, and appends that slice unaligned, leaving the label alone |
| NdrWriter.VerifyDataLength | spoocr/src/main/java/nl/bransom/jdce/ndr/NDRWriter.java:402-415 | fails with IllegalArgument for a null buffer, for a length above max, or when offset + length (with `int` overflow) exceeds the buffer; otherwise it passes |
| NdrWriter.WriteBytesConformant | spoocr/src/main/java/nl/bransom/jdce/ndr/NDRWriter.java:202-216 | errors come in source order: IllegalArgument from the data check, then IllegalState; a slice outside the buffer fails too. Otherwise it writes an aligned u32 max, the slice, then max - buffer.length zero bytes (as written) |
| NdrWriter.WriteBytesConformantIntended | spoocr/src/main/java/nl/bransom/jdce/ndr/NDRWriter.java:202-216 | the corrected writer pads by max - length, so exactly max bytes follow the count |
| NdrWriter.VaryingHeader | spoocr/src/main/java/nl/bransom/jdce/ndr/NDRWriter.java:236-244 | two aligned u32 values follow: the NDR offset, then the length |
| NdrWriter.WriteBytesVarying | spoocr/src/main/java/nl/bransom/jdce/ndr/NDRWriter.java:236-244 | fails with IllegalState without a label; otherwise writes the offset and length, then the slice, with no validation of the length against anything |
| NdrWriter.WriteBytesConformantVarying | spoocr/src/main/java/nl/bransom/jdce/ndr/NDRWriter.java:267-279 | runs the data check first, then the label check; writes u32 max before the varying form |
| NdrWriter.TerminatedLength | spoocr/src/main/java/nl/bransom/jdce/ndr/NDRWriter.java:297-302 | the varying length of a string is its length plus one for the terminator, as an `int`; a text of 2^31 - 1 characters or more fails with NegativeArraySize |
| NdrWriter.WriteStringVarying | spoocr/src/main/java/nl/bransom/jdce/ndr/NDRWriter.java:297-302 | fails with IllegalState without a label; otherwise writes offset, length + 1, the text encoded in the label's character set, and one 0x00 |
| NdrWriter.WriteStringConformantVarying | spoocr/src/main/java/nl/bransom/jdce/ndr/NDRWriter.java:322-329 | also writes u32 max first, and fails with IllegalArgument when the text plus its terminator does not fit in max |
| NdrWriter.DenseInsert | spoocr/src/main/java/nl/bransom/jdce/ndr/NDRWriter.java:366-372 | in a referent map whose keys are exactly 1..size, key size + 1 is free, and inserting there keeps the keys dense |
| NdrWriter.WriteReference | spoocr/src/main/java/nl/bransom/jdce/ndr/NDRWriter.java:350-378 | a null referent writes int 0 and leaves the map alone. A referent already in the map by identity writes its key and leaves the map alone. Any other referent is put under size + 1 and that key is written, or, when the key was taken, the entry is overwritten and the call fails with IllegalArgument. A dense map never fails and stays dense |
| NdrReader.ReadFormatLabel | spoocr/src/main/java/nl/bransom/jdce/ndr/NDRReader.java:52-56 | a negative size fails with NegativeArraySize; otherwise n bytes are consumed and the parsed label replaces the active one, even a preset one; parse errors pass through |
| NdrReader.ReadBoolean | spoocr/src/main/java/nl/bransom/jdce/ndr/NDRReader.java:106-108 | any non-zero byte is true; fails exactly where the single-byte read fails |
| NdrReader.ReadByte | spoocr/src/main/java/nl/bransom/jdce/ndr/NDRReader.java:117-119 | returns the next byte unaligned, and fails with IO at the end of the stream or on 0xFF |
| NdrReader.ReadNumber | spoocr/src/main/java/nl/bransom/jdce/ndr/NDRReader.java:381-409 | without a ready label fails with IllegalState; otherwise skips to a min(8, size) boundary, fails with IO if fewer than size bytes remain, and else assembles them in the label's byte order |
| NdrReader.ReadNumberAligned | spoocr/src/main/java/nl/bransom/jdce/ndr/NDRReader.java:381-409 | the number's bytes were taken from a min(8, size) boundary |
| NdrReader.ReadSigned | spoocr/src/main/java/nl/bransom/jdce/ndr/NDRReader.java:381-409 | the result is the signed number whose bit pattern is the assembled value |
| NdrReader.ReadShort | spoocr/src/main/java/nl/bransom/jdce/ndr/NDRReader.java:128-130 | a 2-byte signed aligned number |
| NdrReader.ReadInt | spoocr/src/main/java/nl/bransom/jdce/ndr/NDRReader.java:139-141 | a 4-byte signed aligned number |
| NdrReader.ReadLong | spoocr/src/main/java/nl/bransom/jdce/ndr/NDRReader.java:150-152 | an 8-byte signed aligned number |
| NdrReader.VerifyFormatLabelFloat | spoocr/src/main/java/nl/bransom/jdce/ndr/NDRReader.java:424-430 | fails with IllegalState without a label and with Unsupported unless the float representation is IEEE |
| NdrReader.ReadFloat | spoocr/src/main/java/nl/bransom/jdce/ndr/NDRReader.java:161-164 | reads the raw 32-bit pattern only under an IEEE label |
| NdrReader.ReadDouble | spoocr/src/main/java/nl/bransom/jdce/ndr/NDRReader.java:173-176 | reads the raw 64-bit pattern only under an IEEE label |
| NdrReader.VerifyBufferLength | spoocr/src/main/java/nl/bransom/jdce/ndr/NDRReader.java:411-416 | passes exactly when the buffer is long enough, and fails with IllegalArgument otherwise |
| NdrReader.ReadBytesFixed | spoocr/src/main/java/nl/bransom/jdce/ndr/NDRReader.java:196-206 | a buffer shorter than offset + length (`int` arithmetic) fails with IllegalArgument before anything is consumed, then a negative range with IndexOutOfBounds, and too few input bytes with IO; otherwise buf[off..off+len) is filled from the input, other cells are unchanged, and len is returned |
| NdrReader.ReadBytesConformant | spoocr/src/main/java/nl/bransom/jdce/ndr/NDRReader.java:224-232 | reads u32 max, fails with IllegalArgument unless offset + max fits the buffer, then reads exactly max bytes at the offset |
| NdrReader.ReadBytesVarying | spoocr/src/main/java/nl/bransom/jdce/ndr/NDRReader.java:251-263 | reads offset and length, then stores length bytes at store + offset and returns offset + length |
| NdrReader.ReadBytesConformantVarying | spoocr/src/main/java/nl/bransom/jdce/ndr/NDRReader.java:284-294 | reads u32 max, fails with IllegalArgument unless store + max fits, and fails with IO when the varying part's offset + length exceeds max |
| NdrReader.ReadTerminated | spoocr/src/main/java/nl/bransom/jdce/ndr/NDRReader.java:306-323 | a zero size fails with IO, and an empty input with IndexOutOfBounds; otherwise it succeeds exactly when the last byte read is 0x00, and returns the decoding of the bytes before it |
| NdrReader.ReadStringVarying | spoocr/src/main/java/nl/bransom/jdce/ndr/NDRReader.java:306-323 | fails with IllegalState without a label, with Unsupported for a positive offset, and with NegativeArraySize for a negative size; otherwise reads offset + length bytes and decodes them without the terminator |
| NdrReader.ReadStringConformantVarying | spoocr/src/main/java/nl/bransom/jdce/ndr/NDRReader.java:335-343 | reads u32 max first and fails with IO when the decoded string is longer than max |
| NdrReader.ReadReference | spoocr/src/main/java/nl/bransom/jdce/ndr/NDRReader.java:359-379 | id 0 gives an empty payload and leaves the map alone; a known id gives its stored payload and consumes nothing more; otherwise a negative expected size fails with NegativeArraySize, and expected bytes are read, stored under the id and returned |
| NdrRoundTrip.FormatLabelRoundTrip | spoocr/src/main/java/nl/bransom/jdce/ndr/NDRReader.java:52-56 | reading the label the writer wrote installs the writer's label, and leaves the reader where the writer stopped |
| NdrRoundTrip.BooleanRoundTrip | spoocr/src/main/java/nl/bransom/jdce/ndr/NDRReader.java:106-108 | a written boolean reads back as itself |
| NdrRoundTrip.ByteRoundTrip | spoocr/src/main/java/nl/bransom/jdce/ndr/NDRReader.java:117-119 | every written byte except 0xFF reads back as itself; 0xFF fails with IO |
| NdrRoundTrip.EmittedNumber | spoocr/src/main/java/nl/bransom/jdce/ndr/NDRWriter.java:380-400 | a written number occupies its padding zeros followed by its encoded pattern, and the counter moves by exactly that many bytes |
| NdrRoundTrip.UnsignedRoundTrip | spoocr/src/main/java/nl/bransom/jdce/ndr/NDRReader.java:381-409 | under the same label and counter, the reader assembles the written value modulo 256^size |
| NdrRoundTrip.NumberRoundTrip | spoocr/src/main/java/nl/bransom/jdce/ndr/NDRReader.java:391-408 | a signed value in range reads back as itself |
| NdrRoundTrip.ShortRoundTrip | spoocr/src/main/java/nl/bransom/jdce/ndr/NDRReader.java:128-130 | `readShort` after `writeShort` gives the value and stops where the writer stopped |
| NdrRoundTrip.IntRoundTrip | spoocr/src/main/java/nl/bransom/jdce/ndr/NDRReader.java:139-141 | `readInt` after `writeInt` gives the value and stops where the writer stopped |
| NdrRoundTrip.LongRoundTrip | spoocr/src/main/java/nl/bransom/jdce/ndr/NDRReader.java:150-152 | `readLong` after `writeLong` gives the value and stops where the writer stopped |
| NdrRoundTrip.FloatRoundTrip | spoocr/src/main/java/nl/bransom/jdce/ndr/NDRReader.java:161-164 | the written float pattern reads back under an IEEE label; under any other label the read fails with Unsupported |
| NdrRoundTrip.DoubleRoundTrip | spoocr/src/main/java/nl/bransom/jdce/ndr/NDRReader.java:173-176 | the written double pattern reads back under an IEEE label; under any other label the read fails with Unsupported |
| NdrRoundTrip.FixedRoundTrip | spoocr/src/main/java/nl/bransom/jdce/ndr/NDRReader.java:196-206 | a written fixed slice is stored back at the destination offset, and every other cell is unchanged |
| NdrRoundTrip.ConformantRoundTrip | spoocr/src/main/java/nl/bransom/jdce/ndr/NDRReader.java:224-232 | a whole buffer written as a conformant array reads back as the buffer followed by zeros up to max |
| NdrRoundTrip.ConformantPartialSliceFails | spoocr/src/main/java/nl/bransom/jdce/ndr/NDRWriter.java:213 | when the slice written is shorter than its buffer, the reader runs out of input: IO |
| NdrRoundTrip.ConformantPartialSliceExample | spoocr/src/main/java/nl/bransom/jdce/ndr/NDRWriter.java:202-216 | concretely: two bytes of a four-byte buffer with max 4 cannot be read back |
| NdrRoundTrip.ConformantIntendedRoundTrip | spoocr/src/main/java/nl/bransom/jdce/ndr/NDRReader.java:224-232 | with the corrected padding, every slice reads back, followed by zeros up to max |
| NdrRoundTrip.VaryingRoundTrip | spoocr/src/main/java/nl/bransom/jdce/ndr/NDRReader.java:251-263 | a written varying slice is stored at store + offset, and offset + length is returned |
| NdrRoundTrip.ConformantVaryingRoundTrip | spoocr/src/main/java/nl/bransom/jdce/ndr/NDRReader.java:284-294 | a written conformant-varying slice that fits in max reads back the same way |
| NdrRoundTrip.StringVaryingRoundTrip | spoocr/src/main/java/nl/bransom/jdce/ndr/NDRReader.java:306-323 | a representable string written with offset 0 reads back as itself |
| NdrRoundTrip.StringPositiveOffsetUnsupported | spoocr/src/main/java/nl/bransom/jdce/ndr/NDRReader.java:312-314 | a string written with a positive offset is refused by the reader with Unsupported |
| NdrRoundTrip.StringConformantVaryingRoundTrip | spoocr/src/main/java/nl/bransom/jdce/ndr/NDRReader.java:335-343 | a representable string that fits in max reads back as itself |
| NdrRoundTrip.Payloads | spoocr/src/main/java/nl/bransom/jdce/ndr/NDRReader.java:359-379 | the reader's map has the writer's keys, each mapped to its referent's payload |
| NdrRoundTrip.NullReferenceRoundTrip | spoocr/src/main/java/nl/bransom/jdce/ndr/NDRReader.java:361-366 | a written null reference reads back as an empty payload, and the map is unchanged |
| NdrRoundTrip.KnownReferenceRoundTrip | spoocr/src/main/java/nl/bransom/jdce/ndr/NDRReader.java:368-372 | a reference to a referent already mapped reads back as that payload, and nothing more is consumed |
| NdrRoundTrip.NewReferenceRoundTrip | spoocr/src/main/java/nl/bransom/jdce/ndr/NDRReader.java:373-378 | a new referent written as its id and payload reads back as the payload, and the reader's map gains the same entry as the writer's |
| HexDigits.HexValueOfHexNat | spoocr/src/main/java/nl/bransom/jdce/rpc/UUID.java:200-203 | printing a number in lowercase hex and reading the digits back gives the number |
| HexDigits.HexNatOfHexValue | spoocr/src/main/java/nl/bransom/jdce/rpc/UUID.java:167-169 | reading lowercase digits as a number and printing it at the same width gives the digits back |
| HexDigits.BytesOfHexBytes | udp-tools/src/main/java/nl/bransom/udptools/Utils.java:16-21 | the hex text of a byte sequence, read back pairwise, is that sequence |
| HexDigits.HexBytesOfHex | udp-tools/src/main/java/nl/bransom/udptools/Utils.java:35-49 | the bytes of an even-length hex text, printed again, are that text in lower case |
| Uuids.NewUuid | spoocr/src/main/java/nl/bransom/jdce/rpc/UUID.java:69-85 | a null node, or one of length other than 6, fails with IllegalArgument; otherwise every field is stored as given |
| Uuids.ToString | spoocr/src/main/java/nl/bransom/jdce/rpc/UUID.java:200-203 | 36 characters: hyphens at 8, 13, 18 and 23, and lowercase hex digits everywhere else |
| Uuids.JavaSplit | spoocr/src/main/java/nl/bransom/jdce/rpc/UUID.java:157 | the parts `split("-")` gives contain no hyphen |
| Uuids.Parse | spoocr/src/main/java/nl/bransom/jdce/rpc/UUID.java:153-177 | every failure, including null input, is IllegalArgument |
| Uuids.ParseAccepts | spoocr/src/main/java/nl/bransom/jdce/rpc/UUID.java:153-165 | parsing succeeds exactly when the trimmed text is 36 characters splitting into five groups of lengths 8, 4, 4, 4 and 12 that `parseLong`/`parseInt`/`parseShort` accept |
| Uuids.ParseShaped | spoocr/src/main/java/nl/bransom/jdce/rpc/UUID.java:153-177 | for text of that shape, the split groups are the five positional groups, decoded field by field |
| Uuids.ParseOkShaped | spoocr/src/main/java/nl/bransom/jdce/rpc/UUID.java:154-165 | whatever parses has that shape |
| Uuids.CanonicalAccepted | spoocr/src/main/java/nl/bransom/jdce/rpc/UUID.java:153-177 | every 8-4-4-4-12 hex string, in either case, is accepted |
| Uuids.SignedExampleParses | spoocr/src/main/java/nl/bransom/jdce/rpc/UUID.java:167-173 | groups with a leading '+', which Java's number parsers accept, parse too: `+0000000-+000-0000-0000-+0+0+0+0+0+0` gives the all-zero UUID |
| Uuids.ClockOfHex | spoocr/src/main/java/nl/bransom/jdce/rpc/UUID.java:170-176 | the fourth group's first two digits give clock_seq_hi and its last two give clock_seq_low |
| Uuids.FromUuidGroups | spoocr/src/main/java/nl/bransom/jdce/rpc/UUID.java:167-176 | decoding the printed groups of a UUID gives back every field |
| Uuids.ParseToString | spoocr/src/main/java/nl/bransom/jdce/rpc/UUID.java:153-203 | `parse(toString(u)) == u` |
| Uuids.ToStringParse | spoocr/src/main/java/nl/bransom/jdce/rpc/UUID.java:153-203 | `toString(parse(s)) == s` for every lowercase canonical s |
| Uuids.Serialize | spoocr/src/main/java/nl/bransom/jdce/rpc/UUID.java:180-187 | fails with IllegalState exactly when no label is ready; otherwise only appends, and keeps the label |
| Uuids.WriteClockAndNode | spoocr/src/main/java/nl/bransom/jdce/rpc/UUID.java:184-186 | the two clock bytes and the six node bytes follow unaligned, in order |
| Uuids.Deserialize | spoocr/src/main/java/nl/bransom/jdce/rpc/UUID.java:190-197 | fails with IllegalState without a ready label, and keeps the label |
| Uuids.SerializeLayout | spoocr/src/main/java/nl/bransom/jdce/rpc/UUID.java:180-187 | starting 4-aligned, exactly 16 bytes are written, with no internal padding |
| Uuids.TimeFieldsRoundTrip | spoocr/src/main/java/nl/bransom/jdce/rpc/UUID.java:191-193 | the int and the two shorts read back in order |
| Uuids.SerializeRoundTrip | spoocr/src/main/java/nl/bransom/jdce/rpc/UUID.java:190-197 | a serialized UUID reads back as itself, unless a clock byte is 0xFF, in which case the read fails with IO |
| Uuids.ClockAndNodeRead | spoocr/src/main/java/nl/bransom/jdce/rpc/UUID.java:194-196 | the two clock bytes and the node read back, or fail with IO on the first 0xFF clock byte |
| PduFlags.MasksAreBits | spoocr/src/main/java/nl/bransom/jdce/pdu/PDUFlag1.java:10-28 | every flag mask is one bit, and distinct flags of the same byte have disjoint masks |
| PduFlags.Set1 | spoocr/src/main/java/nl/bransom/jdce/pdu/PDUFlags.java:53-55 | afterwards the flag is set, every other flag of the first byte is as before, and the second byte is untouched |
| PduFlags.Unset1 | spoocr/src/main/java/nl/bransom/jdce/pdu/PDUFlags.java:63-65 | afterwards the flag is clear, every other flag of the first byte is as before, and the second byte is untouched |
| PduFlags.Set2 | spoocr/src/main/java/nl/bransom/jdce/pdu/PDUFlags.java:73-75 | afterwards the flag is set, every other flag of the second byte is as before, and the first byte is untouched |
| PduFlags.Unset2 | spoocr/src/main/java/nl/bransom/jdce/pdu/PDUFlags.java:83-85 | afterwards the flag is clear, every other flag of the second byte is as before, and the first byte is untouched |
| PduFlags.FlagsDetermine | spoocr/src/main/java/nl/bransom/jdce/pdu/PDUFlags.java:32-45 | two flag sets that agree on `isSet` for every flag are equal |
| PduFlags.SetUnsetInverse1 | spoocr/src/main/java/nl/bransom/jdce/pdu/PDUFlags.java:53-65 | setting is a no-op exactly when the flag is set, and unsetting exactly when it is clear; unset undoes set and set undoes unset |
| PduFlags.SetUnsetInverse2 | spoocr/src/main/java/nl/bransom/jdce/pdu/PDUFlags.java:73-85 | the same for the second flag byte |
| PduFlags.EqualsHashCode | spoocr/src/main/java/nl/bransom/jdce/pdu/PDUFlags.java:100-111 | `equals` holds exactly when both bytes are equal, and so does equality of `hashCode` |
| PduFlags.Serialize | spoocr/src/main/java/nl/bransom/jdce/pdu/PDUFlags.java:88-91 | two unaligned raw bytes, flags1 then flags2 |
| PduFlags.Deserialize | spoocr/src/main/java/nl/bransom/jdce/pdu/PDUFlags.java:94-97 | succeeds exactly when two bytes remain and neither is 0xFF, taking them in order; fails with IO otherwise |
| PduFlags.SerializeRoundTrip | spoocr/src/main/java/nl/bransom/jdce/pdu/PDUFlags.java:88-97 | serialized flags read back as themselves unless a byte is 0xFF, which fails with IO |
| PduEnums.Find | spoocr/src/main/java/nl/bransom/jdce/pdu/PDUType.java:74-81 | the linear lookup returns a member with the wanted code, and returns none exactly when no member has it |
| PduEnums.ParsePduType | spoocr/src/main/java/nl/bransom/jdce/pdu/PDUType.java:74-81 | a result has the byte as its value; anything else is IllegalArgument |
| PduEnums.PduTypesDistinct | spoocr/src/main/java/nl/bransom/jdce/pdu/PDUType.java:10-46 | the PDU type values are pairwise distinct |
| PduEnums.ParsePduTypeValue | spoocr/src/main/java/nl/bransom/jdce/pdu/PDUType.java:63-81 | `parse(getValue(t)) == t`, and equal values mean equal types |
| PduEnums.ParsePduTypeAccepts | spoocr/src/main/java/nl/bransom/jdce/pdu/PDUType.java:10-46 | exactly the bytes 0-15 and 17-19 parse |
| PduEnums.ParseAuthProtocolId | spoocr/src/main/java/nl/bransom/jdce/pdu/AuthenticationProtocolId.java:36-43 | a result has the byte as its value; anything else is IllegalArgument |
| PduEnums.ParseAuthProtocolIdValue | spoocr/src/main/java/nl/bransom/jdce/pdu/AuthenticationProtocolId.java:10-43 | `parse(getValue(a)) == a`, and exactly the bytes 0 and 1 parse |
| PduEnums.ParseRejectionCode | spoocr/src/main/java/nl/bransom/jdce/pdu/PDURejectionCode.java:70-77 | a result has the int as its value; anything else is IllegalArgument |
| PduEnums.RejectionCodesDistinct | spoocr/src/main/java/nl/bransom/jdce/pdu/PDURejectionCode.java:10-45 | the 17 rejection code values are pairwise distinct |
| PduEnums.ParseRejectionCodeValue | spoocr/src/main/java/nl/bransom/jdce/pdu/PDURejectionCode.java:59-77 | `parse(getValue(c)) == c`, and equal values mean equal codes |
| PduEnums.ParseRejectionCodeRejects | spoocr/src/main/java/nl/bransom/jdce/pdu/PDURejectionCode.java:70-77 | an int parses exactly when some code has it as value |
| PduHeader.NewHeaderNeedsType | spoocr/src/main/java/nl/bransom/jdce/pdu/PDUConnectionlessHeader.java:72-77 | a new header fails to serialize with NullPointer, because its type is null; with a type set, it fails with IllegalState, because its label is uninitialized |
| PduHeader.SerialBytes | spoocr/src/main/java/nl/bransom/jdce/pdu/PDUConnectionlessHeader.java:222-235 | the high and low serial bytes written together determine the serial number |
| PduHeader.SerialAsWrittenValue | spoocr/src/main/java/nl/bransom/jdce/pdu/PDUConnectionlessHeader.java:247-260 | the serial rebuilt by or-assigning the low byte is the short 256·hi + lo when lo < 0x80, and the sign-extended low byte alone (lo - 256) otherwise, so the high byte is lost |
| PduHeader.SerialAsWrittenLosesHighByte | spoocr/src/main/java/nl/bransom/jdce/pdu/PDUConnectionlessHeader.java:260 | serial 0x0180 comes back as -128 |
| PduHeader.SerialAsWrittenRoundTrip | spoocr/src/main/java/nl/bransom/jdce/pdu/PDUConnectionlessHeader.java:222-260 | a serial number survives writing and rebuilding exactly when its low byte is below 0x80 or its high byte is 0xFF |
| PduHeader.SerialIntended | spoocr/src/main/java/nl/bransom/jdce/pdu/PDUConnectionlessHeader.java:260 | the corrected rebuild (low byte masked) is 256·hi + lo, wrapped to a short |
| PduHeader.SerialIntendedRoundTrip | spoocr/src/main/java/nl/bransom/jdce/pdu/PDUConnectionlessHeader.java:222-260 | with the corrected rebuild, every serial number survives |
| PduHeader.PreambleBytes | spoocr/src/main/java/nl/bransom/jdce/pdu/PDUConnectionlessHeader.java:218-222 | 8 bytes: version 4, the type and the two flag bytes in bytes 0-3, and the serial's high byte at 7 |
| PduHeader.WritePreamble | spoocr/src/main/java/nl/bransom/jdce/pdu/PDUConnectionlessHeader.java:216-222 | a null type or null flags fail with NullPointer, and an uninitialized label with IllegalState; otherwise exactly the preamble bytes are appended and the header's label becomes the writer's |
| PduHeader.WriteIds | spoocr/src/main/java/nl/bransom/jdce/pdu/PDUConnectionlessHeader.java:223-225 | a null UUID fails with NullPointer |
| PduHeader.WriteTrailer | spoocr/src/main/java/nl/bransom/jdce/pdu/PDUConnectionlessHeader.java:234-235 | a null authentication protocol fails with NullPointer; otherwise its byte and the serial's low byte are appended |
| PduHeader.Serialize | spoocr/src/main/java/nl/bransom/jdce/pdu/PDUConnectionlessHeader.java:216-236 | succeeds exactly when every field is set and the label is initialized; a null field fails with NullPointer, and only an uninitialized label (with type and flags set) fails with IllegalState; the header's label stays on the writer |
| PduHeader.ReadHead | spoocr/src/main/java/nl/bransom/jdce/pdu/PDUConnectionlessHeader.java:240-242 | the version byte is taken as is, the type byte must parse, and the flags follow |
| PduHeader.ReadPreamble | spoocr/src/main/java/nl/bransom/jdce/pdu/PDUConnectionlessHeader.java:240-247 | the preamble's fields in order; the embedded label replaces the reader's |
| PduHeader.ReadTrailer | spoocr/src/main/java/nl/bransom/jdce/pdu/PDUConnectionlessHeader.java:259-260 | the authentication byte must parse; the serial's low byte follows |
| PduHeader.Assemble | spoocr/src/main/java/nl/bransom/jdce/pdu/PDUConnectionlessHeader.java:239-261 | a read header is complete and carries the label read |
| PduHeader.Deserialize | spoocr/src/main/java/nl/bransom/jdce/pdu/PDUConnectionlessHeader.java:239-261 | succeeds exactly when every part reads; the result is complete, and its serial is rebuilt as the source does |
| PduHeader.DeserializeIntended | spoocr/src/main/java/nl/bransom/jdce/pdu/PDUConnectionlessHeader.java:247-260 | with the corrected rebuild, the serial's pattern is 256·hi + lo |
| PduHeader.DeserializeAgree | spoocr/src/main/java/nl/bransom/jdce/pdu/PDUConnectionlessHeader.java:247-260 | both readings agree on everything but the serial, and on the serial too when its low byte is below 0x80 |
| PduHeader.PresetLabelIgnored | spoocr/src/main/java/nl/bransom/jdce/pdu/PDUConnectionlessHeader.java:243-246 | the reader's preset label has no effect on what is read |
| PduHeader.UnknownTypeRejected | spoocr/src/main/java/nl/bransom/jdce/pdu/PDUConnectionlessHeader.java:241 | an unknown type byte fails with IllegalArgument |
| PduHeader.UnknownAuthRejected | spoocr/src/main/java/nl/bransom/jdce/pdu/PDUConnectionlessHeader.java:259 | an unknown authentication byte fails with IllegalArgument |
| PduHeader.PreambleRoundTrip | spoocr/src/main/java/nl/bransom/jdce/pdu/PDUConnectionlessHeader.java:240-247 | a written preamble reads back with version 4 and the header's type, flags and label |
| PduHeader.IdsRoundTrip | spoocr/src/main/java/nl/bransom/jdce/pdu/PDUConnectionlessHeader.java:248-250 | the three UUIDs read back in order |
| PduHeader.CountersRoundTrip | spoocr/src/main/java/nl/bransom/jdce/pdu/PDUConnectionlessHeader.java:251-253 | the three ints read back in order |
| PduHeader.HintsRoundTrip | spoocr/src/main/java/nl/bransom/jdce/pdu/PDUConnectionlessHeader.java:254-258 | the five shorts read back in order |
| PduHeader.TrailerRoundTrip | spoocr/src/main/java/nl/bransom/jdce/pdu/PDUConnectionlessHeader.java:259-260 | the authentication protocol and the serial's low byte read back |
| PduHeader.SerializeRoundTrip | spoocr/src/main/java/nl/bransom/jdce/pdu/PDUConnectionlessHeader.java:216-261 | a complete header whose single bytes are not 0xFF reads back with version 4 when its low serial byte is below 0x80; otherwise the serial comes back changed |
| PduHeader.IntendedRoundTrip | spoocr/src/main/java/nl/bransom/jdce/pdu/PDUConnectionlessHeader.java:216-261 | with the corrected rebuild, every such header reads back with version 4 and nothing else changed |
| PduHeader.HeaderBytes | spoocr/src/main/java/nl/bransom/jdce/pdu/PDUConnectionlessHeader.java:216-236 | 80 bytes: version 4 at 0, type at 1, label at 4-6, serial high at 7, authentication at 78, serial low at 79 |
| PduHeader.HeaderLayout | spoocr/src/main/java/nl/bransom/jdce/pdu/PDUConnectionlessHeader.java:216-236 | from a 4-aligned position, serializing writes exactly those 80 bytes with no padding |
| NdrSerializables.Write | spoocr/src/main/java/nl/bransom/jdce/ndr/NDRWriter.java:61-63 | a null object fails with NullPointer; otherwise the object writes itself, and succeeds exactly when it can; a header installs its own label |
| NdrSerializables.Read | spoocr/src/main/java/nl/bransom/jdce/ndr/NDRReader.java:69-83 | the object returned is of the class asked for; a UUID needs a ready label |
| NdrSerializables.ReadBack | spoocr/src/main/java/nl/bransom/jdce/ndr/NDRSerializable.java:10-31 | what reads back keeps the class, and only a header changes (its version and its serial rebuild) |
| NdrSerializables.RoundTrip | spoocr/src/main/java/nl/bransom/jdce/ndr/NDRReader.java:69-83 | `read` of the class of an object `write` wrote gives that object back, as `ReadBack` describes, and stops where the writer stopped |
| HexUtils.HexCharIndex | udp-tools/src/main/java/nl/bransom/udptools/Utils.java:41-42 | the index in "0123456789abcdef" is the digit's value for lowercase digits and -1 for anything else |
| HexUtils.BytesToHex | udp-tools/src/main/java/nl/bransom/udptools/Utils.java:12-22 | null gives null, and an empty or negative length gives ""; otherwise the call fails with IndexOutOfBounds unless the range is inside the array, and else gives 2·length lowercase digits that read back as the slice |
| HexUtils.BufferToHex | udp-tools/src/main/java/nl/bransom/udptools/Utils.java:24-29 | null gives null; otherwise the hex of the buffer's remaining bytes |
| HexUtils.EvenHex | udp-tools/src/main/java/nl/bransom/udptools/Utils.java:35-38 | the padded text has even length, one more than the input when that is odd, and is lowercase hex exactly when the input is hex |
| HexUtils.DecodePairs | udp-tools/src/main/java/nl/bransom/udptools/Utils.java:39-49 | succeeds exactly when every character is a lowercase hex digit, fails with IllegalArgument otherwise, and gives 16·high + low per pair |
| HexUtils.HexToBytes | udp-tools/src/main/java/nl/bransom/udptools/Utils.java:31-51 | null gives null; succeeds exactly on hex text in either case, fails with IllegalArgument otherwise, and the bytes print back as the padded lowercase text |
| HexUtils.HexToBytesOfHex | udp-tools/src/main/java/nl/bransom/udptools/Utils.java:12-51 | `hexToBytes(bytesToHex(b)) == b` |
| HexUtils.HexToBytesOdd | udp-tools/src/main/java/nl/bransom/udptools/Utils.java:36-38 | odd-length input decodes like the same input with a leading '0' |
| MacAddresses.HexDigitsOf | udp-tools/src/main/java/nl/bransom/udptools/MACAddress.java:13 | dropping every non-hex character leaves only hex digits and never lengthens the text |
| MacAddresses.Parse | udp-tools/src/main/java/nl/bransom/udptools/MACAddress.java:9-18 | null gives null; so does text with fewer than 11 hex digits (fewer than 6 bytes); otherwise the first 6 decoded bytes |
| MacAddresses.FromBytes | udp-tools/src/main/java/nl/bransom/udptools/MACAddress.java:26-31 | succeeds exactly when bytes[offset..offset+6) exists, and copies it; a null array, one shorter than the wrapping offset + 6, or a range whose wrapped end falls before the offset fails with IllegalArgument; a negative offset that passes the length test fails with IndexOutOfBounds |
| MacAddresses.OfBytes | udp-tools/src/main/java/nl/bransom/udptools/MACAddress.java:22-24 | succeeds exactly for a present array of at least 6 bytes, and copies the first 6; fails with IllegalArgument otherwise |
| MacAddresses.AddressHex | udp-tools/src/main/java/nl/bransom/udptools/MACAddress.java:39 | the address's hex is its 12 lowercase digits |
| MacAddresses.ToString | udp-tools/src/main/java/nl/bransom/udptools/MACAddress.java:38-44 | 17 characters: six uppercase two-digit groups separated by ':' |
| MacAddresses.ToStringDigits | udp-tools/src/main/java/nl/bransom/udptools/MACAddress.java:38-44 | the hex digits of the printed address are the uppercase hex of its bytes |
| MacAddresses.ParseToString | udp-tools/src/main/java/nl/bransom/udptools/MACAddress.java:9-44 | parsing the printed address gives the same bytes |
| WolPackets.FrameIsRepetition | udp-tools/src/main/java/nl/bransom/udptools/WOLPacket.java:25-38 | a frame passes the checks exactly when it starts with six 0xFF and repeats its first MAC slot 16 times |
| WolPackets.FrameLayout | udp-tools/src/main/java/nl/bransom/udptools/WOLPacket.java:57-69 | a built frame is 102 bytes plus the password, passes the frame checks, and carries the MAC after the prefix and the password at 102 |
| WolPackets.Password | udp-tools/src/main/java/nl/bransom/udptools/WOLPacket.java:47-55 | null or empty hex means no password; hex decoding to 6 bytes gives the password; anything else fails with IllegalArgument |
| WolPackets.Build | udp-tools/src/main/java/nl/bransom/udptools/WOLPacket.java:45-70 | a bad password fails with IllegalArgument, and an unparsable MAC address with NullPointer; otherwise the datagram is 102 or 108 bytes with that MAC and password |
| WolPackets.MacAddressOf | udp-tools/src/main/java/nl/bransom/udptools/WOLPacket.java:80-82 | the six bytes after the prefix, taken from the start of the data |
| WolPackets.SecureOnPassword | udp-tools/src/main/java/nl/bransom/udptools/WOLPacket.java:84-90 | bytes 102..107 exactly when the length is 108, and nothing otherwise |
| WolPackets.PasswordHex | udp-tools/src/main/java/nl/bransom/udptools/WOLPacket.java:94-96 | the password part of the text is the hex of bytes 102..107, present exactly for a 108-byte packet |
| WolPackets.ToText | udp-tools/src/main/java/nl/bransom/udptools/WOLPacket.java:93-97 | the printed MAC address, followed by " [hex]" exactly when there is a password |
| WolPackets.ParseAsWritten | udp-tools/src/main/java/nl/bransom/udptools/WOLPacket.java:17-41 | accepts exactly lengths 102 and 108 whose data, read from index 0, is a frame |
| WolPackets.ParseIntended | udp-tools/src/main/java/nl/bransom/udptools/WOLPacket.java:17-41 | the corrected parse reads the frame from the datagram's offset |
| WolPackets.BuildParse | udp-tools/src/main/java/nl/bransom/udptools/WOLPacket.java:17-70 | every built packet is accepted by both parses, and gives back its MAC address and password |
| WolPackets.ParseIntendedAnywhere | udp-tools/src/main/java/nl/bransom/udptools/WOLPacket.java:17-41 | a frame at any offset of a larger buffer is accepted by the corrected parse, with its MAC address and password |
| WolPackets.ParseAsWrittenMissesOffset | udp-tools/src/main/java/nl/bransom/udptools/WOLPacket.java:25-40 | a valid frame at offset 6 is rejected by the parse as written, and accepted by the corrected one |
| WireSharkViewer.LineCount | spoocr/src/main/java/nl/bransom/jdce/ndr/WireSharkViewer.java:59 | ceil(numBytes / perLine) lines, none for a non-positive count or when the `int` sum overflows |
| WireSharkViewer.ViewCover | spoocr/src/main/java/nl/bransom/jdce/ndr/WireSharkViewer.java:59-60 | the lines' chunks, concatenated, are exactly the bytes shown |
| WireSharkViewer.HexCellsAt | spoocr/src/main/java/nl/bransom/jdce/ndr/WireSharkViewer.java:71-73 | each present byte shows as two lowercase digits at its column |
| WireSharkViewer.HexCellsBlank | spoocr/src/main/java/nl/bransom/jdce/ndr/WireSharkViewer.java:75-77 | each absent slot shows as blanks |
| WireSharkViewer.CellEnd | spoocr/src/main/java/nl/bransom/jdce/ndr/WireSharkViewer.java:66-70 | an extra space precedes columns 0 and 8 |
| WireSharkViewer.ReadableGroups | spoocr/src/main/java/nl/bransom/jdce/ndr/WireSharkViewer.java:66-74 | the text column is the first 8 characters and the rest, each group after a space |
| WireSharkViewer.HexLineLayout | spoocr/src/main/java/nl/bransom/jdce/ndr/WireSharkViewer.java:64-80 | a hex line: the 4-digit address (reading back as the address), every byte's digits at its column, blanks for absent slots, three spaces, then the trimmed text |
| WireSharkViewer.HexLineRoundTrip | spoocr/src/main/java/nl/bransom/jdce/ndr/WireSharkViewer.java:71-73 | the bytes can be read back from a hex line's columns |
| WireSharkViewer.HexLines | spoocr/src/main/java/nl/bransom/jdce/ndr/WireSharkViewer.java:59-65 | the view has one line per chunk, and every line l reads back: its hex prefix as the address 16·l, and its digit pairs at the byte columns as the l-th 16-byte chunk of the data (`HexLineShows`) |
| WireSharkViewer.HexView | spoocr/src/main/java/nl/bransom/jdce/ndr/WireSharkViewer.java:57-83 | "" when there are no lines; a null array fails with NullPointer, and a range outside the array with IndexOutOfBounds; otherwise the lines joined by newlines, covering exactly the bytes shown |
| WireSharkViewer.BitsOfByteRoundTrip | spoocr/src/main/java/nl/bransom/jdce/ndr/WireSharkViewer.java:129-137 | the eight binary digits, most significant first, read back as the byte |
| WireSharkViewer.BitsLineLayout | spoocr/src/main/java/nl/bransom/jdce/ndr/WireSharkViewer.java:112-124 | a bits line: the 4-digit address, every byte's eight bits at its column, three spaces, then the trimmed text |
| WireSharkViewer.BitsLines | spoocr/src/main/java/nl/bransom/jdce/ndr/WireSharkViewer.java:106-112 | the view has one line per chunk, and every line l reads back: its hex prefix as the address 8·l, and the eight binary digits of each cell as the matching byte of the l-th 8-byte chunk of the data (`BitsLineShows`) |
| WireSharkViewer.BitsView | spoocr/src/main/java/nl/bransom/jdce/ndr/WireSharkViewer.java:104-127 | "" when there are no lines; a null array fails with NullPointer, and a range outside the array with IndexOutOfBounds; otherwise the lines joined by newlines, covering exactly the bytes shown |

## Left out

- Java I/O. The wrapped `InputStream`/`OutputStream` are the byte sequences of the streams, and `DatagramPacket` is a record of data, offset and length. The logging calls are left out.
- The stream counters are unbounded integers. `totalBytesRead`/`totalBytesWritten` would wrap after 2^31 bytes, a length no model input reaches.
- Floating point: `floatToRawIntBits`/`intBitsToFloat` are the identity on the raw 32-bit and 64-bit patterns, so float and double values are their bit patterns.
- Character sets: ISO-8859-15 and CP1047 are two abstract one-byte-per-character encodings, and round trips assume a representable string. The viewer's `new String(byte[], charset)` is the same abstract decoding, applied to bytes from 0x10 upward.
- Unicode: `Character.digit` and `toLowerCase`/`toUpperCase` are modelled for ASCII letters and digits only. The non-ASCII digits Java's number parsers also accept are not modelled.
- `read(T)`, which reads into an existing object. On success every implementation overwrites every field, so it agrees with `read(Class)` (`NdrSerializables.Read`); the partly filled object left behind by a failure is not modelled.
- The reflective construction in `read(Class)`. Its `InstantiationException`/`IllegalAccessException` cannot occur for the three implementations, which all have public no-argument constructors.
- The header's getters and setters are the fields of the `Header` record.
- `hashCode` of `FormatLabel` and `UUID` (UUID's adds `clockSeqLow` twice). Their equality is modelled; `PDUFlags.hashCode` is modelled.
- The reference 80-byte vector of the header test is not replayed. `PduHeader.HeaderLayout` and `PduHeader.SerializeRoundTrip` state the layout and the round trip for every header.
- Exception messages are left out, including `hexToBytes`'s `errorPosition`; only the exception class is kept.
- `HashMap` iteration order in `writeReference`. The lookup by identity finds the one key that holds the referent, whichever order the map is walked in.
- The viewer's `String.format("%04x")` of addresses of 0x10000 and above, which prints more than four digits. The model prints as many digits as needed, so the statements hold for every address.
- Uuids.Deserialize: its contract states only the label requirement and that the label is kept; what it reads is stated by `Uuids.SerializeRoundTrip` and `Uuids.ClockAndNodeRead`.
- NdrWriter.WriteBytesFixed: its contract states success and the bytes written; which of IndexOutOfBounds or IllegalArgument an out-of-range slice raises is not stated.
- AlignedStreams.ReadInto: models a stream that hands over every requested byte it holds and answers 0 to a zero-length read even at the end of the stream. A `ByteArrayInputStream` answers -1 at the end of the stream before it looks at the length, so a zero-length fixed or conformant array as the last field fails in Java (IOException, NDRReader.java:200-202) where the model succeeds, and a zero-length varying string there throws ArrayIndexOutOfBounds (NDRReader.java:318-319) where the model answers IO. A socket stream may also hand over fewer bytes than are coming, which NDRReader.java:201 turns into an IOException the model does not raise.
- Partial effects of a failing operation. The Java writers and readers work on live streams and buffers. When they throw, the bytes already written or consumed stay where they are. For example, a header serializer that meets a null field at PDUConnectionlessHeader.java:216-219 has already written the format label and the version byte, and `FormatLabel.patch` can throw after patching some of the buffer's bytes. An `Err` in the model carries no stream or buffer, so it says nothing about that state. Only the exception class is modelled.
- Null destination arrays of the reader. `readBytesFixed`, `readBytesConformant`, `readBytesVarying` and `readBytesConformantVarying` dereference their array's length (NDRReader.java:198, 227, 255, 288), so a null array throws NullPointerException. In the model these destinations are plain sequences, which cannot be null. `Option` stands for a null reference only where the source tests for null itself.

## Findings

| source | as written | input that shows it | evidently intended | confidence | as-written member | corrected member |
|---|---|---|---|---|---|---|
| spoocr/src/main/java/nl/bransom/jdce/ndr/AlignedInputStream.java:31-34 | the byte read is narrowed by `(byte)` before the `-1` end-of-stream test, so 0xFF reads as end of stream | a stream whose next byte is 0xFF: `readByte`, a UUID clock byte of 0xFF, or a flag byte of 0xFF all fail with IOException | only a real end of stream fails | high; not executed | AlignedStreams.ReadOneRejectsFF | AlignedStreams.ReadOneIntended |
| spoocr/src/main/java/nl/bransom/jdce/ndr/NDRWriter.java:213 | the zero fill runs from `conformantBytes.length` to max | buffer [1,2,3,4], offset 0, length 2, max 4: two data bytes follow the count, where the reader takes four | fill from `dataLength` to max, so exactly max bytes follow | high; not executed | NdrRoundTrip.ConformantPartialSliceExample | NdrRoundTrip.ConformantIntendedRoundTrip |
| spoocr/src/main/java/nl/bransom/jdce/pdu/PDUConnectionlessHeader.java:260 | the low byte is or-assigned into `serialNumber` straight from `readByte()`, so it is sign-extended | serial 0x0180 is read back as -128 (0xFF80): the high byte 0x01 is lost | or in the low byte masked with 0xFF | high; not executed | PduHeader.SerialAsWrittenLosesHighByte | PduHeader.SerialIntendedRoundTrip |
| udp-tools/src/main/java/nl/bransom/udptools/WOLPacket.java:25-40 | the frame is checked from `arrayOffset()`, which is 0 for a wrapped array, instead of from the packet's offset | a datagram with offset 6 into a buffer that holds a valid frame from index 6 is rejected | check the frame from the packet's offset | medium; not executed | WolPackets.ParseAsWrittenMissesOffset | WolPackets.ParseIntendedAnywhere |

=== FILE: aligned_streams.dfy ===
/** The byte-counting stream wrappers the NDR reader and writer align with.

    The wrapped `InputStream` is modelled as the sequence of bytes it still
    holds and behaves like a `ByteArrayInputStream`: a bulk read returns as
    many bytes as are available, up to the requested length.  The wrapped
    `OutputStream` is modelled as the sequence of bytes it has received.
 */
module AlignedStreams {
  import opened Wrappers
  import opened Bytes

  /** Number of padding bytes that bring `count` to a multiple of `k`.
      Java's `%` truncates toward zero, so a negative counter leaves a
      remainder that is not positive and gets no padding at all. */
  function Padding(count: int, k: nat): (r: nat)
    requires k > 0
    ensures r < k
  {
    var alignError := if count >= 0 then count % k else -((-count) % k);
    if alignError > 0 then k - alignError else 0
  }

  /** The padding reaches the next multiple of `k`, and there is none
      exactly when `count` is already a multiple; a negative counter is
      never padded. */
  lemma PaddingAligns(count: int, k: nat)
    requires k > 0
    ensures count >= 0 ==> (count + Padding(count, k)) % k == 0
    ensures count >= 0 ==> (count % k == 0 <==> Padding(count, k) == 0)
    ensures count < 0 ==> Padding(count, k) == 0
  {
    if count >= 0 {
      var alignError := count % k;
      if alignError > 0 {
        ModUnique(count + (k - alignError), k, count / k + 1, 0);
      }
    }
  }

  /** The source's bounds check for a slice `b[off..off+len)`
      (`IndexOutOfBoundsException` otherwise). */
  predicate InBounds(size: nat, off: int, len: int) {
    0 <= off && 0 <= len && off + len <= size
  }

  // ---------------------------------------------------------------- output

  /** `AlignedOutputStream`: what the wrapped stream has received and the
      counter `numBytesWritten`. */
  datatype OutStream = OutStream(sink: seq<byte>, count: nat) {
    /** The counter equals the number of bytes emitted. */
    predicate Valid() {
      count == |sink|
    }
  }

  const EmptyOut := OutStream([], 0)

  /** `write(byte)`: appends one byte. */
  function WriteOne(s: OutStream, b: byte): (r: OutStream)
    ensures r.sink == s.sink + [b] && r.count == s.count + 1
    ensures s.Valid() ==> r.Valid()
  {
    OutStream(s.sink + [b], s.count + 1)
  }

  /** `write(bytes, off, len)`: appends the slice; the wrapped stream throws
      on a null array or an out-of-range slice. */
  function WriteSlice(s: OutStream, buf: Option<seq<byte>>, off: int, len: int): (r: Result<OutStream>)
    ensures buf.None? ==> r == Err(NullPointer)
    ensures buf.Some? && !InBounds(|buf.value|, off, len) ==> r == Err(IndexOutOfBounds)
    ensures r.Ok? <==> buf.Some? && InBounds(|buf.value|, off, len)
    ensures r.Ok? ==> r.value.sink == s.sink + buf.value[off..off + len]
    ensures r.Ok? ==> r.value.count == s.count + len
    ensures r.Ok? && s.Valid() ==> r.value.Valid()
  {
    if buf.None? then Err(NullPointer)
    else if !InBounds(|buf.value|, off, len) then Err(IndexOutOfBounds)
    else Ok(OutStream(s.sink + buf.value[off..off + len], s.count + len))
  }

  /** `write(bytes)` of a whole non-null array. */
  function WriteAll(s: OutStream, bytes: seq<byte>): (r: OutStream)
    ensures r.sink == s.sink + bytes && r.count == s.count + |bytes|
    ensures s.Valid() ==> r.Valid()
  {
    assert bytes[0..|bytes|] == bytes;
    WriteSlice(s, Some(bytes), 0, |bytes|).value
  }

  /** `n` zero bytes. */
  function Zeros(n: nat): (r: seq<byte>)
    ensures |r| == n && forall i :: 0 <= i < n ==> r[i] == 0
  {
    seq(n, _ => 0)
  }

  /** `writeAlignment(k)`: zero bytes up to the next multiple of `k`. */
  function WriteAlignment(s: OutStream, k: nat): (r: OutStream)
    requires k > 0
    ensures r.sink == s.sink + Zeros(Padding(s.count, k)) && r.count == s.count + Padding(s.count, k)
    ensures s.Valid() ==> r.Valid()
  {
    WriteAll(s, Zeros(Padding(s.count, k)))
  }

  /** After the padding the counter is a multiple of `k`; fewer than `k`
      zero bytes were added, and none when the counter was aligned. */
  lemma WriteAlignmentAligns(s: OutStream, k: nat)
    requires k > 0
    ensures WriteAlignment(s, k).count % k == 0
    ensures WriteAlignment(s, k).count - s.count < k
    ensures forall i :: |s.sink| <= i < |WriteAlignment(s, k).sink| ==> WriteAlignment(s, k).sink[i] == 0
    ensures s.count % k == 0 ==> WriteAlignment(s, k) == s
  {
    PaddingAligns(s.count, k);
    assert Zeros(0) == [];
    if s.count % k == 0 {
      assert s.sink + [] == s.sink;
    }
  }

  lemma WriteAlignmentIdempotent(s: OutStream, k: nat)
    requires k > 0
    ensures WriteAlignment(WriteAlignment(s, k), k) == WriteAlignment(s, k)
  {
    WriteAlignmentAligns(s, k);
    WriteAlignmentAligns(WriteAlignment(s, k), k);
  }

  // ----------------------------------------------------------------- input

  /** `AlignedInputStream`: the bytes the wrapped stream still holds and the
      counter `totalBytesRead`.  The counter goes down by one whenever a bulk
      read at the end of the stream returns -1, so it can become negative. */
  datatype InStream = InStream(rest: seq<byte>, count: int)

  /** The result of a read: a value and the stream after it. */
  datatype Read<+T> = Read(value: T, next: InStream)

  /** `read()`: one byte.  The source narrows the value to a signed byte
      before comparing it with -1, so both the end of the stream and a 0xFF
      byte are reported as an `IOException`. */
  function ReadOne(s: InStream): (r: Result<Read<byte>>)
    ensures r.Ok? <==> |s.rest| > 0 && s.rest[0] != 0xFF
    ensures r.Err? ==> r.error == IO
    ensures r.Ok? ==> r.value.value == s.rest[0]
    ensures r.Ok? ==> r.value.next == InStream(s.rest[1..], s.count + 1)
  {
    if |s.rest| == 0 then Err(IO)
    else
      var narrowed := Signed(s.rest[0], 1);
      if narrowed == -1 then Err(IO)
      else Ok(Read(s.rest[0], InStream(s.rest[1..], s.count + 1)))
  }

  /** `read()` as evidently intended: only the end of the stream fails. */
  function ReadOneIntended(s: InStream): (r: Result<Read<byte>>)
    ensures r.Ok? <==> |s.rest| > 0
    ensures r.Err? ==> r.error == IO
    ensures r.Ok? ==> r.value == Read(s.rest[0], InStream(s.rest[1..], s.count + 1))
  {
    if |s.rest| == 0 then Err(IO)
    else Ok(Read(s.rest[0], InStream(s.rest[1..], s.count + 1)))
  }

  /** The input `[0xFF]` holds a byte, yet the single-byte read reports the
      end of the stream; the intended read returns the byte. */
  lemma ReadOneRejectsFF(s: InStream)
    requires |s.rest| > 0 && s.rest[0] == 0xFF
    ensures ReadOne(s) == Err(IO)
    ensures ReadOneIntended(s) == Ok(Read(0xFF, InStream(s.rest[1..], s.count + 1)))
  {
  }

  /** The two reads agree on every byte other than 0xFF. */
  lemma ReadOneAgreesBelowFF(s: InStream)
    requires |s.rest| == 0 || s.rest[0] != 0xFF
    ensures ReadOne(s) == ReadOneIntended(s)
  {
  }

  /** The result of a bulk read: what `read` returned (-1 at the end of the
      stream), the caller's array with the bytes stored, and the stream after
      them. */
  datatype Filled = Filled(n: int, buf: seq<byte>, next: InStream) {
    /** The number of bytes that actually arrived. */
    function Got(): nat {
      if n < 0 then 0 else n
    }
  }

  /** `read(bytes, off, len)`, following the `InputStream` contract: an
      out-of-range slice throws, a zero length reads nothing, a stream with
      no bytes left answers -1, and otherwise up to `len` available bytes are
      stored at `off`.  The wrapper adds the answer, -1 included, to its
      counter. */
  function ReadInto(s: InStream, buf: seq<byte>, off: int, len: int): (r: Result<Filled>)
    ensures !InBounds(|buf|, off, len) <==> r == Err(IndexOutOfBounds)
    ensures r.Ok? && len > 0 && |s.rest| == 0 ==> r.value == Filled(-1, buf, InStream(s.rest, s.count - 1))
    ensures r.Ok? && (len == 0 || |s.rest| > 0) ==> r.value.n == if len <= |s.rest| then len else |s.rest|
    ensures r.Ok? ==> |r.value.buf| == |buf|
    ensures r.Ok? ==> r.value.buf[off..off + r.value.Got()] == s.rest[..r.value.Got()]
    ensures r.Ok? ==> forall i :: 0 <= i < |buf| && !(off <= i < off + r.value.Got()) ==> r.value.buf[i] == buf[i]
    ensures r.Ok? ==> r.value.next == InStream(s.rest[r.value.Got()..], s.count + r.value.n)
  {
    if !InBounds(|buf|, off, len) then Err(IndexOutOfBounds)
    else if len > 0 && |s.rest| == 0 then
      assert buf[..off] + buf[off..] == buf;
      Ok(Filled(-1, buf, InStream(s.rest, s.count - 1)))
    else
      var n := if len <= |s.rest| then len else |s.rest|;
      Ok(Filled(n, buf[..off] + s.rest[..n] + buf[off + n..], InStream(s.rest[n..], s.count + n)))
  }

  /** `read(bytes)` is `read(bytes, 0, bytes.length)`. */
  function ReadAll(s: InStream, buf: seq<byte>): (r: Filled)
    ensures ReadInto(s, buf, 0, |buf|) == Ok(r)
  {
    ReadInto(s, buf, 0, |buf|).value
  }

  /** `read(new byte[n])`: a fresh zeroed array of n bytes filled with as
      many bytes as the stream still holds, the rest left zero; -1 when n is
      positive and the stream is exhausted. */
  function ReadFresh(s: InStream, n: nat): (r: Filled)
    ensures n > 0 && |s.rest| == 0 ==> r.n == -1
    ensures n == 0 || |s.rest| > 0 ==> r.n == if n <= |s.rest| then n else |s.rest|
    ensures r.Got() <= |s.rest| && r.Got() <= n
    ensures r.buf == s.rest[..r.Got()] + Zeros(n - r.Got())
    ensures r.next == InStream(s.rest[r.Got()..], s.count + r.n)
    ensures n <= |s.rest| ==> r.n == n && r.buf == s.rest[..n]
  {
    var f := ReadAll(s, Zeros(n));
    FreshFill(s, n);
    assert f.Got() == n ==> s.rest[..f.Got()] + Zeros(n - f.Got()) == s.rest[..n];
    f
  }

  /** The zeroed array after the bulk read. */
  lemma FreshFill(s: InStream, n: nat)
    ensures var f := ReadAll(s, Zeros(n));
      && f.Got() <= |s.rest| && f.Got() <= n
      && f.buf == s.rest[..f.Got()] + Zeros(n - f.Got())
  {
    var f := ReadAll(s, Zeros(n));
    FreshContents(f.buf, s.rest[..f.Got()], n);
  }

  lemma FreshContents(buf: seq<byte>, got: seq<byte>, n: nat)
    requires |got| <= n && |buf| == n && buf[0..|got|] == got
    requires forall i :: 0 <= i < n && !(0 <= i < |got|) ==> buf[i] == Zeros(n)[i]
    ensures buf == got + Zeros(n - |got|)
  {
    forall i | 0 <= i < n
      ensures buf[i] == (got + Zeros(n - |got|))[i]
    {
      if i < |got| {
        assert buf[i] == buf[0..|got|][i];
      }
    }
  }

  /** `skipAlignment(k)`: discards padding up to the next multiple of `k`,
      whatever the padding holds and even past the end of the stream; the
      counter advances by the full padding. */
  function SkipAlignment(s: InStream, k: nat): (r: InStream)
    requires k > 0
    ensures r.count == s.count + Padding(s.count, k)
    ensures Padding(s.count, k) <= |s.rest| ==> r.rest == s.rest[Padding(s.count, k)..]
    ensures Padding(s.count, k) > |s.rest| ==> r.rest == []
  {
    var pad := Padding(s.count, k);
    var consumed := if pad <= |s.rest| then pad else |s.rest|;
    InStream(s.rest[consumed..], s.count + pad)
  }

  /** After skipping, a counter that is not negative is a multiple of `k`;
      an aligned stream, or one whose counter went negative, is left as it
      is. */
  lemma SkipAlignmentAligns(s: InStream, k: nat)
    requires k > 0
    ensures s.count >= 0 ==> SkipAlignment(s, k).count % k == 0
    ensures s.count < 0 || s.count % k == 0 ==> SkipAlignment(s, k) == s
  {
    PaddingAligns(s.count, k);
    if s.count < 0 || s.count % k == 0 {
      assert s.rest[0..] == s.rest;
    }
  }

  lemma SkipAlignmentIdempotent(s: InStream, k: nat)
    requires k > 0
    ensures SkipAlignment(SkipAlignment(s, k), k) == SkipAlignment(s, k)
  {
    SkipAlignmentAligns(s, k);
    SkipAlignmentAligns(SkipAlignment(s, k), k);
  }
}

=== FILE: bytes.dfy ===
/** Java's fixed-width integers and the big- and little-endian byte layouts
    of chapter 14 of the Open Group DCE 1.1 RPC specification (C706).

    A Java `byte` is kept as its unsigned bit pattern 0..255; Java `short`,
    `int` and `long` are kept as their signed values.  The conversions between
    the two views (two's complement) are written out explicitly.
 */
module Bytes {

  /** The bit pattern of a Java `byte` (what `b & 0xff` yields). */
  type byte = x: int | 0 <= x < 256

  /** The values of Java's signed `short`, `int` and `long`. */
  type int16 = x: int | -0x8000 <= x < 0x8000
  type int32 = x: int | -0x8000_0000 <= x < 0x8000_0000
  type int64 = x: int | -0x8000_0000_0000_0000 <= x < 0x8000_0000_0000_0000

  /** The most elements a Java array can hold (its length is an `int`). */
  const MaxArrayLength := 0x7FFF_FFFF

  /** 256 to the power n: the number of distinct n-byte patterns. */
  function Pow256(n: nat): (r: nat)
    ensures r >= 1
    ensures n >= 1 ==> r >= 256 && r % 2 == 0
  {
    if n == 0 then 1 else 256 * Pow256(n - 1)
  }

  /** The values a Java integer of n bytes can hold. */
  predicate InSigned(v: int, n: nat) {
    -(Pow256(n) / 2) <= v < Pow256(n) / 2
  }

  /** Euclidean division is unique: any quotient and in-range remainder
      that rebuild `a` are the ones `/` and `%` compute. */
  lemma ModUnique(a: int, k: nat, q: int, r: int)
    requires k > 0 && 0 <= r < k && a == k * q + r
    ensures a % k == r && a / k == q
  {
    var q', r' := a / k, a % k;
    var d := q - q';
    assert k * d == r' - r by {
      assert k * q + r == k * q' + r';
    }
    if d >= 1 {
      MulAtLeast(k, d);
    } else if d <= -1 {
      MulAtLeast(k, -d);
    }
  }

  lemma {:induction false} MulAtLeast(k: nat, d: int)
    requires d >= 1
    ensures k * d >= k
    decreases d
  {
    if d > 1 {
      MulAtLeast(k, d - 1);
      assert k * d == k * (d - 1) + k;
    }
  }

  /** The low n bytes of any integer as an unsigned pattern: what remains of
      a two's-complement value after Java's `(byte) (value >>> shift)` for
      each of its n bytes. */
  function Wrap(v: int, n: nat): (r: nat)
    ensures r < Pow256(n)
    ensures 0 <= v < Pow256(n) ==> r == v
  {
    if 0 <= v < Pow256(n) then
      ModUnique(v, Pow256(n), 0, v);
      v % Pow256(n)
    else
      v % Pow256(n)
  }

  /** The signed value of an n-byte two's-complement pattern (a Java narrowing cast). */
  function Signed(u: nat, n: nat): (r: int)
    requires n >= 1 && u < Pow256(n)
    ensures InSigned(r, n)
    ensures u < Pow256(n) / 2 ==> r == u
    ensures u >= Pow256(n) / 2 ==> r < 0
  {
    if u < Pow256(n) / 2 then u else u - Pow256(n)
  }

  /** Reading back a truncated value restores it when it fits in n bytes. */
  lemma SignedWrap(v: int, n: nat)
    requires n >= 1 && InSigned(v, n)
    ensures Signed(Wrap(v, n), n) == v
  {
    if v < 0 {
      ModUnique(v, Pow256(n), -1, v + Pow256(n));
    }
  }

  /** Java `int` addition: the exact sum wrapped into 32 bits.  It equals the
      exact sum when that fits, and is off by 2^32 otherwise. */
  function AddInt(a: int32, b: int32): (r: int32)
    ensures InSigned(a + b, 4) ==> r == a + b
    ensures -0x8000_0000 <= a + b < 0x8000_0000 ==> r == a + b
    ensures a + b >= 0x8000_0000 ==> r == a + b - 0x1_0000_0000
    ensures a + b < -0x8000_0000 ==> r == a + b + 0x1_0000_0000
  {
    assert Pow256(4) == 0x1_0000_0000;
    if InSigned(a + b, 4) then
      SignedWrap(a + b, 4);
      Signed(Wrap(a + b, 4), 4)
    else if a + b >= 0x8000_0000 then
      Signed(Wrap(a + b, 4), 4)
    else
      ModUnique(a + b, Pow256(4), -1, a + b + 0x1_0000_0000);
      Signed(Wrap(a + b, 4), 4)
  }

  /** Truncating a sign-extended pattern restores it. */
  lemma WrapSigned(u: nat, n: nat)
    requires n >= 1 && u < Pow256(n)
    ensures Wrap(Signed(u, n), n) == u
  {
    if u >= Pow256(n) / 2 {
      ModUnique(u - Pow256(n), Pow256(n), -1, u);
    }
  }

  /** The n bytes of v, least significant first (little-endian). */
  function LeBytes(v: nat, n: nat): (r: seq<byte>)
    ensures |r| == n
  {
    if n == 0 then [] else [v % 256] + LeBytes(v / 256, n - 1)
  }

  /** The n bytes of v, most significant first (big-endian). */
  function BeBytes(v: nat, n: nat): (r: seq<byte>)
    ensures |r| == n
  {
    if n == 0 then [] else BeBytes(v / 256, n - 1) + [v % 256]
  }

  /** The unsigned value of a little-endian byte sequence. */
  function LeValue(s: seq<byte>): (r: nat)
    ensures r < Pow256(|s|)
  {
    if |s| == 0 then 0 else s[0] + 256 * LeValue(s[1..])
  }

  /** The unsigned value of a big-endian byte sequence. */
  function BeValue(s: seq<byte>): (r: nat)
    ensures r < Pow256(|s|)
  {
    if |s| == 0 then 0 else 256 * BeValue(s[..|s| - 1]) + s[|s| - 1]
  }

  lemma {:induction false} LeValueOfBytes(v: nat, n: nat)
    requires v < Pow256(n)
    ensures LeValue(LeBytes(v, n)) == v
    decreases n
  {
    if n > 0 {
      var s := LeBytes(v, n);
      assert s[1..] == LeBytes(v / 256, n - 1);
      LeValueOfBytes(v / 256, n - 1);
    }
  }

  lemma {:induction false} BeValueOfBytes(v: nat, n: nat)
    requires v < Pow256(n)
    ensures BeValue(BeBytes(v, n)) == v
    decreases n
  {
    if n > 0 {
      var s := BeBytes(v, n);
      assert s[..n - 1] == BeBytes(v / 256, n - 1);
      BeValueOfBytes(v / 256, n - 1);
    }
  }

  lemma {:induction false} LeBytesOfValue(s: seq<byte>)
    ensures LeBytes(LeValue(s), |s|) == s
    decreases |s|
  {
    if |s| > 0 {
      LeBytesOfValue(s[1..]);
      assert s == [s[0]] + s[1..];
    }
  }

  lemma {:induction false} BeBytesOfValue(s: seq<byte>)
    ensures BeBytes(BeValue(s), |s|) == s
    decreases |s|
  {
    if |s| > 0 {
      var init, last := s[..|s| - 1], s[|s| - 1];
      var v := 256 * BeValue(init) + last;
      assert v % 256 == last && v / 256 == BeValue(init);
      BeBytesOfValue(init);
      assert BeBytes(v, |s|) == BeBytes(BeValue(init), |init|) + [last];
      assert s == init + [last];
    }
  }

  /** The two layouts hold the same bytes in opposite orders. */
  lemma {:induction false} BeIsReversedLe(v: nat, n: nat)
    ensures |BeBytes(v, n)| == |LeBytes(v, n)|
    ensures forall i :: 0 <= i < n ==> BeBytes(v, n)[i] == LeBytes(v, n)[n - 1 - i]
    decreases n
  {
    if n > 0 {
      BeIsReversedLe(v / 256, n - 1);
    }
  }

  // -------------------------------------------------------------- slices

  /** Appending keeps what was there. */
  lemma SliceOfAppend<T>(a: seq<T>, b: seq<T>, x: nat, y: nat)
    requires x <= y <= |a|
    ensures (a + b)[x..y] == a[x..y]
  {
  }

  /** What is appended follows what was there. */
  lemma SliceOfAppended<T>(a: seq<T>, b: seq<T>, x: nat, y: nat)
    requires |a| <= x <= y <= |a| + |b|
    ensures (a + b)[x..y] == b[x - |a|..y - |a|]
  {
  }

  /** A slice of a slice. */
  lemma SliceOfSlice<T>(s: seq<T>, x: nat, y: nat, u: nat, v: nat)
    requires x <= y <= |s| && u <= v <= y - x
    ensures s[x..y][u..v] == s[x + u..x + v]
  {
    var inner := s[x..y];
    forall k | 0 <= k < v - u
      ensures inner[u..v][k] == s[x + u..x + v][k]
    {
      assert inner[u..v][k] == inner[u + k] == s[x + u + k];
    }
  }
}

=== FILE: format_label.dfy ===
/** The NDR format label of section 14.1 of the Open Group DCE 1.1 RPC
    specification (C706): the integer byte order in the high nibble of the
    first byte, the character set in its low nibble, and the floating-point
    representation in the second byte.

    A label buffer is an `Option<seq<byte>>` because the Java code accepts a
    null array and rejects it explicitly.
 */
module FormatLabels {
  import opened Wrappers
  import opened Bytes

  /** Fewest bytes a label buffer must hold after the offset (NDRConstants). */
  const MinFormatLabelLength: nat := 3
  /** Label length in connection-oriented PDUs. */
  const FormatLabelLength: nat := 4
  /** Label length in connectionless PDUs. */
  const ConnectionlessFormatLabelLength: nat := 3

  /** Integer representation, stored in the high nibble of byte 0. */
  datatype IntRep = BigEndian | LittleEndian {
    function Code(): (r: byte)
      ensures r % 16 == 0 && r < 0x20
    {
      match this
      case BigEndian => 0x00
      case LittleEndian => 0x10
    }
  }

  /** Character representation, stored in the low nibble of byte 0. */
  datatype CharRep = Ascii | Ebcdic {
    function Code(): (r: byte)
      ensures r < 2
    {
      match this
      case Ascii => 0x00
      case Ebcdic => 0x01
    }
  }

  /** Floating-point representation, stored in byte 1. */
  datatype FloatRep = Ieee | Vax | Cray | Ibm {
    function Code(): (r: byte)
      ensures r < 4
    {
      match this
      case Ieee => 0x00
      case Vax => 0x01
      case Cray => 0x02
      case Ibm => 0x03
    }
  }

  lemma CodesAreDistinct()
    ensures forall a: IntRep, b: IntRep :: a.Code() == b.Code() ==> a == b
    ensures forall a: CharRep, b: CharRep :: a.Code() == b.Code() ==> a == b
    ensures forall a: FloatRep, b: FloatRep :: a.Code() == b.Code() ==> a == b
  {
  }

  /** The check every sub-label codec makes first: a non-null buffer whose
      length is at least `byteOffset + 3`, the sum taken in Java's wrapping
      `int` arithmetic. */
  predicate Adequate(buf: Option<seq<byte>>, off: int32) {
    buf.Some? && |buf.value| >= AddInt(off, MinFormatLabelLength)
  }

  /** The array access at `i` stays inside the buffer; outside it Java throws
      `ArrayIndexOutOfBoundsException`. */
  predicate Reaches(buf: Option<seq<byte>>, i: int) {
    buf.Some? && 0 <= i < |buf.value|
  }

  /** Writes the byte-order code into the high nibble of `buf[off]`. */
  function PatchInt(e: IntRep, buf: Option<seq<byte>>, off: int32): (r: Result<seq<byte>>)
    ensures !Adequate(buf, off) <==> r == Err(IllegalArgument)
    ensures Adequate(buf, off) && !Reaches(buf, off) ==> r == Err(IndexOutOfBounds)
    ensures r.Ok? <==> Adequate(buf, off) && Reaches(buf, off)
    ensures r.Ok? ==> |r.value| == |buf.value|
    ensures r.Ok? ==> r.value[off] / 16 * 16 == e.Code() && r.value[off] % 16 == buf.value[off] % 16
    ensures r.Ok? ==> forall i :: 0 <= i < |r.value| && i != off ==> r.value[i] == buf.value[i]
  {
    if !Adequate(buf, off) then Err(IllegalArgument)
    else if !Reaches(buf, off) then Err(IndexOutOfBounds)
    else Ok(buf.value[off := e.Code() + buf.value[off] % 16])
  }

  /** Reads the byte-order code from the high nibble of `buf[off]`. */
  function ParseInt(buf: Option<seq<byte>>, off: int32): (r: Result<IntRep>)
    ensures !Adequate(buf, off) ==> r == Err(IllegalArgument)
    ensures Adequate(buf, off) && !Reaches(buf, off) ==> r == Err(IndexOutOfBounds)
    ensures Adequate(buf, off) && Reaches(buf, off) ==>
      (r.Ok? <==> exists e: IntRep :: e.Code() == buf.value[off] / 16 * 16)
    ensures Adequate(buf, off) && Reaches(buf, off) && r.Err? ==> r.error == Unsupported
    ensures r.Ok? ==> Reaches(buf, off) && r.value.Code() == buf.value[off] / 16 * 16
  {
    if !Adequate(buf, off) then Err(IllegalArgument)
    else if !Reaches(buf, off) then Err(IndexOutOfBounds)
    else
      var masked := buf.value[off] / 16 * 16;
      if masked == BigEndian.Code() then Ok(BigEndian)
      else if masked == LittleEndian.Code() then Ok(LittleEndian)
      else Err(Unsupported)
  }

  /** Writes the character-set code into the low nibble of `buf[off]`. */
  function PatchChar(c: CharRep, buf: Option<seq<byte>>, off: int32): (r: Result<seq<byte>>)
    ensures !Adequate(buf, off) <==> r == Err(IllegalArgument)
    ensures Adequate(buf, off) && !Reaches(buf, off) ==> r == Err(IndexOutOfBounds)
    ensures r.Ok? <==> Adequate(buf, off) && Reaches(buf, off)
    ensures r.Ok? ==> |r.value| == |buf.value|
    ensures r.Ok? ==> r.value[off] % 16 == c.Code() && r.value[off] / 16 == buf.value[off] / 16
    ensures r.Ok? ==> forall i :: 0 <= i < |r.value| && i != off ==> r.value[i] == buf.value[i]
  {
    if !Adequate(buf, off) then Err(IllegalArgument)
    else if !Reaches(buf, off) then Err(IndexOutOfBounds)
    else Ok(buf.value[off := buf.value[off] / 16 * 16 + c.Code()])
  }

  /** Reads the character-set code from the low nibble of `buf[off]`. */
  function ParseChar(buf: Option<seq<byte>>, off: int32): (r: Result<CharRep>)
    ensures !Adequate(buf, off) ==> r == Err(IllegalArgument)
    ensures Adequate(buf, off) && !Reaches(buf, off) ==> r == Err(IndexOutOfBounds)
    ensures Adequate(buf, off) && Reaches(buf, off) ==>
      (r.Ok? <==> exists c: CharRep :: c.Code() == buf.value[off] % 16)
    ensures Adequate(buf, off) && Reaches(buf, off) && r.Err? ==> r.error == Unsupported
    ensures r.Ok? ==> Reaches(buf, off) && r.value.Code() == buf.value[off] % 16
  {
    if !Adequate(buf, off) then Err(IllegalArgument)
    else if !Reaches(buf, off) then Err(IndexOutOfBounds)
    else
      var masked := buf.value[off] % 16;
      if masked == Ascii.Code() then Ok(Ascii)
      else if masked == Ebcdic.Code() then Ok(Ebcdic)
      else Err(Unsupported)
  }

  /** Writes the floating-point code into `buf[off + 1]` (a wrapping sum);
      the length check still demands three bytes. */
  function PatchFloat(f: FloatRep, buf: Option<seq<byte>>, off: int32): (r: Result<seq<byte>>)
    ensures !Adequate(buf, off) <==> r == Err(IllegalArgument)
    ensures Adequate(buf, off) && !Reaches(buf, AddInt(off, 1)) ==> r == Err(IndexOutOfBounds)
    ensures r.Ok? <==> Adequate(buf, off) && Reaches(buf, AddInt(off, 1))
    ensures r.Ok? ==> |r.value| == |buf.value| && r.value[AddInt(off, 1)] == f.Code()
    ensures r.Ok? ==> forall i :: 0 <= i < |r.value| && i != AddInt(off, 1) ==> r.value[i] == buf.value[i]
  {
    if !Adequate(buf, off) then Err(IllegalArgument)
    else if !Reaches(buf, AddInt(off, 1)) then Err(IndexOutOfBounds)
    else Ok(buf.value[AddInt(off, 1) := f.Code()])
  }

  /** Reads the floating-point code from `buf[off + 1]` (a wrapping sum). */
  function ParseFloat(buf: Option<seq<byte>>, off: int32): (r: Result<FloatRep>)
    ensures !Adequate(buf, off) ==> r == Err(IllegalArgument)
    ensures Adequate(buf, off) && !Reaches(buf, AddInt(off, 1)) ==> r == Err(IndexOutOfBounds)
    ensures Adequate(buf, off) && Reaches(buf, AddInt(off, 1)) ==>
      (r.Ok? <==> exists f: FloatRep :: f.Code() == buf.value[AddInt(off, 1)])
    ensures Adequate(buf, off) && Reaches(buf, AddInt(off, 1)) && r.Err? ==> r.error == Unsupported
    ensures r.Ok? ==> Reaches(buf, AddInt(off, 1)) && r.value.Code() == buf.value[AddInt(off, 1)]
  {
    if !Adequate(buf, off) then Err(IllegalArgument)
    else if !Reaches(buf, AddInt(off, 1)) then Err(IndexOutOfBounds)
    else
      var b := buf.value[AddInt(off, 1)];
      if b == Ieee.Code() then Ok(Ieee)
      else if b == Vax.Code() then Ok(Vax)
      else if b == Cray.Code() then Ok(Cray)
      else if b == Ibm.Code() then Ok(Ibm)
      else Err(Unsupported)
  }

  lemma ParsePatchInt(e: IntRep, buf: Option<seq<byte>>, off: int32)
    requires PatchInt(e, buf, off).Ok?
    ensures ParseInt(Some(PatchInt(e, buf, off).value), off) == Ok(e)
  {
  }

  lemma ParsePatchChar(c: CharRep, buf: Option<seq<byte>>, off: int32)
    requires PatchChar(c, buf, off).Ok?
    ensures ParseChar(Some(PatchChar(c, buf, off).value), off) == Ok(c)
  {
  }

  lemma ParsePatchFloat(f: FloatRep, buf: Option<seq<byte>>, off: int32)
    requires PatchFloat(f, buf, off).Ok?
    ensures ParseFloat(Some(PatchFloat(f, buf, off).value), off) == Ok(f)
  {
  }

  /** A negative offset passes the length check and then fails on the array
      access of a nibble; the float byte sits one further on, so an offset of
      -1 still reaches byte 0 for it. */
  lemma NegativeOffsetOutOfBounds(buf: seq<byte>, f: FloatRep)
    requires |buf| >= 2
    ensures PatchInt(BigEndian, Some(buf), -1) == Err(IndexOutOfBounds)
    ensures ParseChar(Some(buf), -1) == Err(IndexOutOfBounds)
    ensures PatchFloat(f, Some(buf), -1) == Ok(buf[0 := f.Code()])
    ensures PatchFloat(f, Some(buf), -2) == Err(IndexOutOfBounds)
  {
  }

  /** An offset near the top of the `int` range wraps `off + 3` negative:
      the length check passes and the access fails. */
  lemma WrappedOffsetOutOfBounds(buf: seq<byte>)
    requires |buf| < 0x7FFF_FFFE
    ensures Adequate(Some(buf), 0x7FFF_FFFE)
    ensures ParseInt(Some(buf), 0x7FFF_FFFE) == Err(IndexOutOfBounds)
    ensures ParseFloat(Some(buf), 0x7FFF_FFFE) == Err(IndexOutOfBounds)
  {
  }

  /** The two nibbles of byte 0 are independent: patching the byte order and
      the character set commute, and either order leaves exactly the two codes
      in byte 0, whatever it held before. */
  lemma PatchIntCharCommute(e: IntRep, c: CharRep, buf: Option<seq<byte>>, off: int32)
    requires Adequate(buf, off) && Reaches(buf, off)
    ensures PatchChar(c, Some(PatchInt(e, buf, off).value), off)
         == PatchInt(e, Some(PatchChar(c, buf, off).value), off)
    ensures PatchChar(c, Some(PatchInt(e, buf, off).value), off).value[off] == e.Code() + c.Code()
  {
    var both := buf.value[off := e.Code() + c.Code()];
    assert PatchChar(c, Some(PatchInt(e, buf, off).value), off).value == both;
    assert PatchInt(e, Some(PatchChar(c, buf, off).value), off).value == both;
  }

  /** A character set that maps every character to one byte and back; the
      ISO-8859-15 and CP1047 tables themselves are parameters of the model. */
  datatype Charset = Charset(encodeChar: char -> byte, decodeByte: byte -> char)

  /** The charsets the two character representations name. */
  datatype Charsets = Charsets(iso8859_15: Charset, cp1047: Charset) {
    function Of(c: CharRep): Charset {
      match c
      case Ascii => iso8859_15
      case Ebcdic => cp1047
    }
  }

  /** `String.getBytes(charset)` for a single-byte charset. */
  function Encode(cs: Charset, text: string): (r: seq<byte>)
    ensures |r| == |text|
    ensures forall i :: 0 <= i < |text| ==> r[i] == cs.encodeChar(text[i])
  {
    seq(|text|, i requires 0 <= i < |text| => cs.encodeChar(text[i]))
  }

  /** `new String(bytes, charset)` for a single-byte charset. */
  function Decode(cs: Charset, bytes: seq<byte>): (r: string)
    ensures |r| == |bytes|
    ensures forall i :: 0 <= i < |bytes| ==> r[i] == cs.decodeByte(bytes[i])
  {
    seq(|bytes|, i requires 0 <= i < |bytes| => cs.decodeByte(bytes[i]))
  }

  /** A text the charset represents: decoding its encoding gives it back. */
  predicate Representable(cs: Charset, text: string) {
    forall i :: 0 <= i < |text| ==> cs.decodeByte(cs.encodeChar(text[i])) == text[i]
  }

  lemma DecodeEncode(cs: Charset, text: string)
    requires Representable(cs, text)
    ensures Decode(cs, Encode(cs, text)) == text
  {
  }

  /** The whole label; a null component is `None`. */
  datatype FormatLabel = FormatLabel(integer: Option<IntRep>, character: Option<CharRep>, float: Option<FloatRep>) {
    predicate IsInitialized() {
      integer.Some? && character.Some? && float.Some?
    }
  }

  /** The check `formatLabel == null || !formatLabel.isInitialized()` that the
      reader and the writer make before any label-dependent operation. */
  predicate Ready(l: Option<FormatLabel>) {
    l.Some? && l.value.IsInitialized()
  }

  /** Fails with `IllegalStateException` unless the active label is ready;
      returns the label otherwise. */
  function VerifyFormatLabel(l: Option<FormatLabel>): (r: Result<FormatLabel>)
    ensures r.Ok? <==> Ready(l)
    ensures r.Err? ==> r.error == IllegalState
    ensures r.Ok? ==> r.value == l.value
  {
    if Ready(l) then Ok(l.value) else Err(IllegalState)
  }

  /** The label with no component set (`new FormatLabel()`). */
  const Uninitialized := FormatLabel(None, None, None)

  /** `FormatLabel.set`: replaces all three components. */
  function Set(l: FormatLabel, e: Option<IntRep>, c: Option<CharRep>, f: Option<FloatRep>): (r: FormatLabel)
    ensures r.integer == e && r.character == c && r.float == f
    ensures r.IsInitialized() <==> e.Some? && c.Some? && f.Some?
  {
    FormatLabel(e, c, f)
  }

  /** Patches byte order, character set and float representation, in that
      order, into the buffer; the first component that fails decides the
      error. */
  function Patch(l: FormatLabel, buf: Option<seq<byte>>, off: int32): (r: Result<seq<byte>>)
    ensures !l.IsInitialized() ==> r == Err(IllegalState)
    ensures l.IsInitialized() && !Adequate(buf, off) ==> r == Err(IllegalArgument)
    ensures l.IsInitialized() && Adequate(buf, off) && !(Reaches(buf, off) && Reaches(buf, AddInt(off, 1)))
            ==> r == Err(IndexOutOfBounds)
    ensures r.Ok? <==> l.IsInitialized() && Adequate(buf, off) && Reaches(buf, off) && Reaches(buf, AddInt(off, 1))
    ensures r.Ok? ==> AddInt(off, 1) == off + 1 && |r.value| == |buf.value|
    ensures r.Ok? ==> r.value[off] == l.integer.value.Code() + l.character.value.Code()
    ensures r.Ok? ==> r.value[off + 1] == l.float.value.Code()
    ensures r.Ok? ==> forall i :: 0 <= i < |r.value| && i != off && i != off + 1 ==> r.value[i] == buf.value[i]
  {
    if !l.IsInitialized() then Err(IllegalState)
    else
      var b1 :- PatchInt(l.integer.value, buf, off);
      // the character set repeats the byte order's checks on a buffer of the
      // same length, so it cannot fail once the byte order succeeded
      var b2 := PatchChar(l.character.value, Some(b1), off).value;
      PatchFloat(l.float.value, Some(b2), off)
  }

  /** Serializes the label into a fresh zeroed array of n bytes. */
  function ToByteArray(l: FormatLabel, n: int): (r: Result<seq<byte>>)
    ensures n < 0 ==> r == Err(NegativeArraySize)
    ensures n >= 0 && !l.IsInitialized() ==> r == Err(IllegalState)
    ensures n >= 0 && l.IsInitialized() && n < MinFormatLabelLength ==> r == Err(IllegalArgument)
    ensures r.Ok? <==> l.IsInitialized() && n >= MinFormatLabelLength
    ensures r.Ok? ==> |r.value| == n
    ensures r.Ok? ==> r.value[0] == l.integer.value.Code() + l.character.value.Code()
    ensures r.Ok? ==> r.value[1] == l.float.value.Code()
    ensures r.Ok? ==> forall i :: 2 <= i < n ==> r.value[i] == 0
  {
    if n < 0 then Err(NegativeArraySize)
    else Patch(l, Some(seq(n, _ => 0)), 0)
  }

  /** Reads all three components; the first failing component decides the
      error. */
  function Parse(buf: Option<seq<byte>>, off: int32): (r: Result<FormatLabel>)
    ensures !Adequate(buf, off) ==> r == Err(IllegalArgument)
    ensures Adequate(buf, off) && !Reaches(buf, off) ==> r == Err(IndexOutOfBounds)
    ensures Adequate(buf, off) && Reaches(buf, off) && !Reaches(buf, AddInt(off, 1)) ==>
      r == if buf.value[off] / 16 < 2 && buf.value[off] % 16 < 2 then Err(IndexOutOfBounds) else Err(Unsupported)
    ensures Adequate(buf, off) && Reaches(buf, off) && Reaches(buf, AddInt(off, 1)) && r.Err? ==> r.error == Unsupported
    ensures r.Ok? <==> Adequate(buf, off) && Reaches(buf, off) && Reaches(buf, AddInt(off, 1))
                       && buf.value[off] / 16 < 2 && buf.value[off] % 16 < 2 && buf.value[AddInt(off, 1)] < 4
    ensures r.Ok? ==> AddInt(off, 1) == off + 1 && r.value.IsInitialized()
    ensures r.Ok? ==> r.value.integer.value.Code() + r.value.character.value.Code() == buf.value[off]
    ensures r.Ok? ==> r.value.float.value.Code() == buf.value[off + 1]
  {
    var e :- ParseInt(buf, off);
    var c :- ParseChar(buf, off);
    var f :- ParseFloat(buf, off);
    Ok(FormatLabel(Some(e), Some(c), Some(f)))
  }

  /** `FormatLabel.equals`: the three components compare by identity, and enum
      constants are unique, so two labels are equal exactly when their
      components are. */
  predicate Equals(a: FormatLabel, b: FormatLabel) {
    a.character == b.character && a.float == b.float && a.integer == b.integer
  }

  lemma EqualsIsStructural(a: FormatLabel, b: FormatLabel)
    ensures Equals(a, b) <==> a == b
    ensures !a.IsInitialized() && b.IsInitialized() ==> !Equals(a, b)
  {
  }

  /** A serialized label parses back to itself. */
  lemma ParseToByteArray(l: FormatLabel, n: int)
    requires l.IsInitialized() && n >= MinFormatLabelLength
    ensures Parse(Some(ToByteArray(l, n).value), 0) == Ok(l)
  {
    var bytes := ToByteArray(l, n).value;
    var p := Parse(Some(bytes), 0);
    assert p.Ok?;
    CodesAreDistinct();
  }

  /** A parsed label serializes back to the bytes it came from, up to the
      zero bytes after the first two. */
  lemma ToByteArrayParse(buf: seq<byte>, n: int)
    requires n == |buf| && Parse(Some(buf), 0).Ok?
    requires forall i :: 2 <= i < n ==> buf[i] == 0
    ensures ToByteArray(Parse(Some(buf), 0).value, n) == Ok(buf)
  {
    var r := ToByteArray(Parse(Some(buf), 0).value, n);
    assert r.value == buf;
  }
}

=== FILE: hex_digits.dfy ===
/** Hexadecimal digits and numerals as Java's `String.format("%0Nx")`,
    `Integer.parseInt(s, 16)` and the `HEX_CHARS` tables produce and read
    them.  Only the ASCII digits `0-9`, `a-f` and `A-F` are hex digits here.
 */
module HexDigits {
  import opened Bytes

  predicate IsHexDigit(c: char) {
    '0' <= c <= '9' || 'a' <= c <= 'f' || 'A' <= c <= 'F'
  }

  predicate IsLowerHexDigit(c: char) {
    '0' <= c <= '9' || 'a' <= c <= 'f'
  }

  predicate IsHex(s: string) {
    forall i :: 0 <= i < |s| ==> IsHexDigit(s[i])
  }

  predicate IsLowerHex(s: string) {
    forall i :: 0 <= i < |s| ==> IsLowerHexDigit(s[i])
  }

  /** The value of one hex digit, in either case. */
  function DigitValue(c: char): (r: nat)
    requires IsHexDigit(c)
    ensures r < 16
  {
    if '0' <= c <= '9' then c as int - '0' as int
    else if 'a' <= c <= 'f' then c as int - 'a' as int + 10
    else c as int - 'A' as int + 10
  }

  /** `"0123456789abcdef".charAt(d)`. */
  function LowerDigit(d: nat): (r: char)
    requires d < 16
    ensures IsLowerHexDigit(r) && DigitValue(r) == d
  {
    if d < 10 then ('0' as int + d) as char else ('a' as int + d - 10) as char
  }

  /** The digit `LowerDigit` gives, as `toUpperCase` renders it. */
  function UpperDigit(d: nat): (r: char)
    requires d < 16
    ensures IsHexDigit(r) && DigitValue(r) == d && !('a' <= r <= 'f')
  {
    if d < 10 then ('0' as int + d) as char else ('A' as int + d - 10) as char
  }

  /** Java's `Character.toLowerCase` on ASCII letters; other characters stay. */
  function ToLower(c: char): (r: char)
    ensures IsHexDigit(c) ==> IsLowerHexDigit(r) && DigitValue(r) == DigitValue(c)
    ensures !IsHexDigit(c) ==> !IsHexDigit(r)
  {
    if 'A' <= c <= 'Z' then (c as int + 32) as char else c
  }

  /** Java's `Character.toUpperCase` on ASCII letters; other characters stay. */
  function ToUpper(c: char): (r: char)
    ensures 'a' <= c <= 'z' ==> 'A' <= r <= 'Z' && ToLower(r) == c
    ensures !('a' <= c <= 'z') ==> r == c
  {
    if 'a' <= c <= 'z' then (c as int - 32) as char else c
  }

  /** A digit rendered in upper case reads as the same digit. */
  lemma UpperOfLowerDigit(d: nat)
    requires d < 16
    ensures ToUpper(LowerDigit(d)) == UpperDigit(d)
  {
  }

  function LowerString(s: string): (r: string)
    ensures |r| == |s| && forall i :: 0 <= i < |s| ==> r[i] == ToLower(s[i])
  {
    if |s| == 0 then "" else [ToLower(s[0])] + LowerString(s[1..])
  }

  function UpperString(s: string): (r: string)
    ensures |r| == |s| && forall i :: 0 <= i < |s| ==> r[i] == ToUpper(s[i])
  {
    if |s| == 0 then "" else [ToUpper(s[0])] + UpperString(s[1..])
  }

  /** 16 to the power n. */
  function Pow16(n: nat): (r: nat)
    ensures r >= 1
  {
    if n == 0 then 1 else 16 * Pow16(n - 1)
  }

  /** Two hex digits per byte: 16^(2n) is 256^n. */
  lemma {:induction false} Pow16Twice(n: nat)
    ensures Pow16(2 * n) == Pow256(n)
  {
    if n > 0 {
      Pow16Twice(n - 1);
      assert Pow16(2 * n) == 16 * (16 * Pow16(2 * (n - 1)));
    }
  }

  /** The value of a hex numeral, most significant digit first. */
  function HexValue(s: string): (r: nat)
    requires IsHex(s)
    ensures r < Pow16(|s|)
  {
    if |s| == 0 then 0 else 16 * HexValue(s[..|s| - 1]) + DigitValue(s[|s| - 1])
  }

  /** Java's `%0<width>x` of a non-negative value: its lower-case hex digits,
      zero-padded on the left to at least `width` characters. */
  function HexNat(v: nat, width: nat): (r: string)
    ensures IsLowerHex(r) && |r| >= 1 && |r| >= width
    decreases v, width
  {
    if v < 16 && width <= 1 then [LowerDigit(v)]
    else HexNat(v / 16, if width == 0 then 0 else width - 1) + [LowerDigit(v % 16)]
  }

  /** A value below 16^width takes exactly `width` digits. */
  lemma {:induction false} HexNatLength(v: nat, width: nat)
    requires width >= 1 && v < Pow16(width)
    ensures |HexNat(v, width)| == width
    decreases width
  {
    if !(v < 16 && width <= 1) {
      HexNatLength(v / 16, width - 1);
    }
  }

  /** Reading a printed numeral gives the value back. */
  lemma {:induction false} HexValueOfHexNat(v: nat, width: nat)
    ensures HexValue(HexNat(v, width)) == v
    decreases v, width
  {
    if !(v < 16 && width <= 1) {
      var r := HexNat(v, width);
      var w' := if width == 0 then 0 else width - 1;
      assert r[..|r| - 1] == HexNat(v / 16, w');
      HexValueOfHexNat(v / 16, w');
    }
  }

  /** Printing a lower-case numeral's value at its own width gives it back. */
  lemma {:induction false} HexNatOfHexValue(s: string)
    requires |s| >= 1 && IsLowerHex(s)
    ensures HexNat(HexValue(s), |s|) == s
    decreases |s|
  {
    var init, last := s[..|s| - 1], s[|s| - 1];
    var v := HexValue(s);
    assert v == 16 * HexValue(init) + DigitValue(last);
    ModUnique(v, 16, HexValue(init), DigitValue(last));
    if |s| == 1 {
      assert HexValue(init) == 0;
    } else {
      HexNatOfHexValue(init);
      assert s == init + [last];
    }
  }

  /** The value of two numerals written one after the other. */
  lemma {:induction false} HexValueAppend(a: string, b: string)
    requires IsHex(a) && IsHex(b)
    ensures IsHex(a + b)
    ensures HexValue(a + b) == HexValue(a) * Pow16(|b|) + HexValue(b)
    decreases |b|
  {
    if |b| > 0 {
      var ab, b' := a + b, b[..|b| - 1];
      assert ab[..|ab| - 1] == a + b' && ab[|ab| - 1] == b[|b| - 1];
      HexValueAppend(a, b');
      var x, p := HexValue(a), Pow16(|b'|);
      assert HexValue(ab) == 16 * (x * p + HexValue(b')) + DigitValue(b[|b| - 1]);
      ShiftDigit(x, p);
    } else {
      assert a + b == a;
    }
  }

  lemma ShiftDigit(x: nat, p: nat)
    ensures 16 * (x * p) == x * (16 * p)
  {
  }

  /** One byte as two lower-case digits, high nibble first (`HEX_CHARS`
      indexed by `(b & 0xF0) >> 4` and by `b & 0x0F`). */
  function ByteHex(b: byte): (r: string)
    ensures |r| == 2 && IsLowerHex(r)
  {
    [LowerDigit(b / 16), LowerDigit(b % 16)]
  }

  /** `%02x` of a byte is its two-digit form. */
  lemma HexNatOfByte(b: byte)
    ensures HexNat(b, 2) == ByteHex(b)
  {
  }

  /** The byte two hex digits spell. */
  function PairValue(hi: char, lo: char): (r: byte)
    requires IsHexDigit(hi) && IsHexDigit(lo)
  {
    16 * DigitValue(hi) + DigitValue(lo)
  }

  lemma PairOfByteHex(b: byte)
    ensures PairValue(ByteHex(b)[0], ByteHex(b)[1]) == b
  {
  }

  /** The lower-case digit of a digit's value is the digit in lower case. */
  lemma LowerDigitOf(c: char)
    requires IsHexDigit(c)
    ensures LowerDigit(DigitValue(c)) == ToLower(c)
  {
  }

  /** Printing the byte two digits spell gives them back in lower case. */
  lemma ByteHexOfPair(hi: char, lo: char)
    requires IsHexDigit(hi) && IsHexDigit(lo)
    ensures ByteHex(PairValue(hi, lo)) == [ToLower(hi), ToLower(lo)]
  {
    ModUnique(PairValue(hi, lo), 16, DigitValue(hi), DigitValue(lo));
    LowerDigitOf(hi);
    LowerDigitOf(lo);
  }

  /** Bytes as lower-case hex, two digits per byte. */
  function HexBytes(bs: seq<byte>): (r: string)
    ensures |r| == 2 * |bs| && IsLowerHex(r)
  {
    if |bs| == 0 then "" else ByteHex(bs[0]) + HexBytes(bs[1..])
  }

  /** The bytes an even-length hex string spells, pair by pair. */
  function BytesOfHex(s: string): (r: seq<byte>)
    requires IsHex(s) && |s| % 2 == 0
    ensures |r| == |s| / 2
  {
    if |s| == 0 then [] else [PairValue(s[0], s[1])] + BytesOfHex(s[2..])
  }

  /** Byte i of the bytes is digits 2i and 2i + 1 of the string. */
  lemma {:induction false} BytesOfHexAt(s: string, i: nat)
    requires IsHex(s) && |s| % 2 == 0 && i < |s| / 2
    ensures BytesOfHex(s)[i] == PairValue(s[2 * i], s[2 * i + 1])
    decreases i
  {
    if i > 0 {
      BytesOfHexAt(s[2..], i - 1);
    }
  }

  /** Digits 2i and 2i + 1 of the string are byte i in hex. */
  lemma {:induction false} HexBytesAt(bs: seq<byte>, i: nat)
    requires i < |bs|
    ensures HexBytes(bs)[2 * i..2 * i + 2] == ByteHex(bs[i])
    decreases i
  {
    var r := HexBytes(bs);
    if i > 0 {
      HexBytesAt(bs[1..], i - 1);
      assert r[2 * i..2 * i + 2] == HexBytes(bs[1..])[2 * (i - 1)..2 * (i - 1) + 2];
    }
  }

  /** Hex of bytes, followed by hex of more bytes. */
  lemma {:induction false} HexBytesAppend(a: seq<byte>, b: seq<byte>)
    ensures HexBytes(a + b) == HexBytes(a) + HexBytes(b)
    decreases |a|
  {
    if |a| > 0 {
      assert (a + b)[1..] == a[1..] + b;
      HexBytesAppend(a[1..], b);
    } else {
      assert a + b == b;
    }
  }

  lemma {:induction false} BytesOfHexBytes(bs: seq<byte>)
    ensures BytesOfHex(HexBytes(bs)) == bs
    decreases |bs|
  {
    if |bs| > 0 {
      var s := HexBytes(bs);
      assert s[2..] == HexBytes(bs[1..]);
      BytesOfHexBytes(bs[1..]);
      PairOfByteHex(bs[0]);
    }
  }

  /** Printing the bytes of a hex string gives it back in lower case. */
  lemma {:induction false} HexBytesOfHex(s: string)
    requires IsHex(s) && |s| % 2 == 0
    ensures HexBytes(BytesOfHex(s)) == LowerString(s)
    decreases |s|
  {
    if |s| > 0 {
      HexBytesOfHex(s[2..]);
      ByteHexOfPair(s[0], s[1]);
      var l := LowerString(s);
      assert l == [ToLower(s[0]), ToLower(s[1])] + LowerString(s[2..]);
    }
  }
}

=== FILE: hex_utils.dfy ===
/** `Utils` of the UDP tools: bytes to lower-case hex and back.  Only the
    ASCII letters change case here; Java's `toLowerCase` would also fold
    other letters, none of which becomes a hex digit.
 */
module HexUtils {
  import opened Wrappers
  import opened Bytes
  import opened HexDigits

  /** `HEX_CHARS`. */
  const HexChars: string := "0123456789abcdef"

  lemma HexCharsAt(d: nat)
    requires d < 16
    ensures |HexChars| == 16 && HexChars[d] == LowerDigit(d)
  {
  }

  /** `String.indexOf(char)`: the first position of `c`, or -1. */
  function IndexOf(s: string, c: char): (r: int)
    ensures -1 <= r < |s|
    ensures r >= 0 ==> s[r] == c && forall j | 0 <= j < r :: s[j] != c
    ensures r < 0 ==> forall j | 0 <= j < |s| :: s[j] != c
  {
    if |s| == 0 then -1
    else if s[0] == c then 0
    else
      var k := IndexOf(s[1..], c);
      if k < 0 then -1 else k + 1
  }

  /** `HEX_CHARS.indexOf(c)` is the digit's value for a lower-case hex digit
      and -1 for anything else. */
  lemma HexCharIndex(c: char)
    ensures IsLowerHexDigit(c) ==> IndexOf(HexChars, c) == DigitValue(c)
    ensures !IsLowerHexDigit(c) ==> IndexOf(HexChars, c) == -1
  {
    var r := IndexOf(HexChars, c);
    if IsLowerHexDigit(c) {
      var d := DigitValue(c);
      HexCharsAt(d);
      LowerDigitOf(c);
      assert HexChars[d] == c;
      HexCharsAt(r);
    } else if r >= 0 {
      HexCharsAt(r);
    }
  }

  // ------------------------------------------------------------ bytesToHex

  /** `bytesToHex(bytes, offset, length)`: null gives null; otherwise the
      loop runs `i` from `offset` while `i < offset + length`, the sum taken
      in Java `int` arithmetic, and reads `bytes[i]`, which throws outside
      the array. */
  function BytesToHex(bytes: Option<seq<byte>>, offset: int32, length: int32): (r: Result<Option<string>>)
    ensures bytes.None? ==> r == Ok(None)
    ensures bytes.Some? && AddInt(offset, length) <= offset ==> r == Ok(Some(""))
    ensures bytes.Some? && AddInt(offset, length) > offset ==>
      (r.Ok? <==> 0 <= offset && AddInt(offset, length) <= |bytes.value|)
    ensures r.Err? ==> r.error == IndexOutOfBounds
    ensures r.Ok? && r.value.Some? && AddInt(offset, length) > offset ==>
      && AddInt(offset, length) == offset + length
      && |r.value.value| == 2 * length
      && IsLowerHex(r.value.value)
      && IsHex(r.value.value)
      && BytesOfHex(r.value.value) == bytes.value[offset..offset + length]
  {
    match bytes
    case None => Ok(None)
    case Some(bs) =>
      var end := AddInt(offset, length);
      if end <= offset then Ok(Some(""))
      else if offset < 0 || end > |bs| then Err(IndexOutOfBounds)
      else
        BytesOfHexBytes(bs[offset..end]);
        Ok(Some(HexBytes(bs[offset..end])))
  }

  /** A `ByteBuffer` backed by an array `data`: the buffer's window starts at
      `arrayOffset` in the array, and its remaining bytes run from
      `position` to `limit` within the window. */
  datatype ByteBuffer = ByteBuffer(data: seq<byte>, arrayOffset: nat, position: nat, limit: nat) {
    predicate Valid() {
      position <= limit && arrayOffset + limit <= |data| && |data| <= MaxArrayLength
    }

    /** The bytes `remaining()` counts. */
    function Remaining(): seq<byte>
      requires Valid()
    {
      data[arrayOffset + position..arrayOffset + limit]
    }
  }

  /** `bytesToHex(byteBuffer)`: the remaining bytes, without consuming them. */
  function BufferToHex(buffer: Option<ByteBuffer>): (r: Option<string>)
    requires buffer.Some? ==> buffer.value.Valid()
    ensures buffer.None? <==> r.None?
    ensures r.Some? ==>
      && |r.value| == 2 * |buffer.value.Remaining()|
      && IsLowerHex(r.value)
      && IsHex(r.value)
      && BytesOfHex(r.value) == buffer.value.Remaining()
  {
    match buffer
    case None => None
    case Some(b) =>
      if b.position == b.limit then
        Some("")
      else
        var offset: int32 := b.arrayOffset + b.position;
        var length: int32 := b.limit - b.position;
        assert AddInt(offset, length) == offset + length;
        BytesToHex(Some(b.data), offset, length).value
  }

  // ------------------------------------------------------------ hexToBytes

  /** The string the decoding loop walks: lower-cased, with a `0` in front
      when its length is odd. */
  function EvenHex(hex: string): (r: string)
    ensures |r| % 2 == 0 && |r| == 2 * ((|hex| + 1) / 2)
    ensures IsHex(hex) <==> IsLowerHex(r)
  {
    var lower := LowerString(hex);
    if |hex| % 2 != 0 then
      assert IsLowerHex(lower) ==> IsLowerHex("0" + lower);
      assert IsLowerHex("0" + lower) ==> forall i | 0 <= i < |lower| :: ("0" + lower)[i + 1] == lower[i];
      "0" + lower
    else lower
  }

  /** A string is lower-case hex when its first pair and the rest are. */
  lemma LowerHexSplit(s: string)
    requires |s| >= 2
    ensures IsLowerHex(s) <==> IsLowerHexDigit(s[0]) && IsLowerHexDigit(s[1]) && IsLowerHex(s[2..])
  {
    if IsLowerHexDigit(s[0]) && IsLowerHexDigit(s[1]) && IsLowerHex(s[2..]) {
      forall i | 2 <= i < |s| ensures IsLowerHexDigit(s[i]) {
        assert s[i] == s[2..][i - 2];
      }
    }
  }

  /** One step of the decoding loop: the pair at the front, looked up in
      `HEX_CHARS`, or nothing when either digit is not there. */
  function DecodePair(hi: char, lo: char): (r: Option<byte>)
    ensures r.Some? <==> IsLowerHexDigit(hi) && IsLowerHexDigit(lo)
    ensures r.Some? ==> r.value == PairValue(hi, lo)
  {
    var msb := IndexOf(HexChars, hi);
    var lsb := IndexOf(HexChars, lo);
    HexCharIndex(hi);
    HexCharIndex(lo);
    if msb < 0 || lsb < 0 then None else Some(msb * 16 + lsb)
  }

  /** The loop of `hexToBytes` over the digit pairs, which throws at the
      first digit missing from `HEX_CHARS`. */
  function DecodePairs(even: string): (r: Result<seq<byte>>)
    requires |even| % 2 == 0
    ensures r.Ok? <==> IsLowerHex(even)
    ensures r.Err? ==> r.error == IllegalArgument
    ensures r.Ok? ==> r.value == BytesOfHex(even)
    decreases |even|
  {
    if |even| == 0 then Ok([])
    else
      LowerHexSplit(even);
      var b := DecodePair(even[0], even[1]);
      if b.None? then Err(IllegalArgument)
      else
        var rest :- DecodePairs(even[2..]);
        Ok([b.value] + rest)
  }

  /** `hexToBytes`: null gives null; otherwise the bytes the digits spell,
      two digits per byte, the first digit alone when the count is odd. */
  function HexToBytes(hex: Option<string>): (r: Result<Option<seq<byte>>>)
    ensures hex.None? ==> r == Ok(None)
    ensures hex.Some? ==> (r.Ok? <==> IsHex(hex.value))
    ensures r.Err? ==> r.error == IllegalArgument
    ensures hex.Some? && r.Ok? ==>
      && r.value.Some?
      && |r.value.value| == (|hex.value| + 1) / 2
      && HexBytes(r.value.value) == EvenHex(hex.value)
  {
    match hex
    case None => Ok(None)
    case Some(s) =>
      var even := EvenHex(s);
      var bytes :- DecodePairs(even);
      HexBytesOfHex(even);
      assert LowerString(even) == even by {
        forall i | 0 <= i < |even| ensures LowerString(even)[i] == even[i] {
        }
      }
      Ok(Some(bytes))
  }

  /** Hex printed by `bytesToHex` decodes to the bytes it came from. */
  lemma HexToBytesOfHex(bs: seq<byte>)
    ensures HexToBytes(Some(HexBytes(bs))) == Ok(Some(bs))
  {
    var s := HexBytes(bs);
    assert LowerString(s) == s by {
      forall i | 0 <= i < |s| ensures LowerString(s)[i] == s[i] {
      }
    }
    assert EvenHex(s) == s;
    BytesOfHexBytes(bs);
  }

  /** An odd-length string decodes as if it had a leading zero. */
  lemma HexToBytesOdd(s: string)
    requires |s| % 2 != 0
    ensures HexToBytes(Some(s)) == HexToBytes(Some("0" + s))
  {
    var z := "0" + s;
    assert LowerString(z) == "0" + LowerString(s) by {
      forall i | 0 <= i < |z| ensures LowerString(z)[i] == ("0" + LowerString(s))[i] {
        if i > 0 {
          assert z[i] == s[i - 1];
        }
      }
    }
    assert EvenHex(s) == EvenHex(z);
    assert IsHex(s) <==> IsHex(z) by {
      if IsHex(s) {
        forall i | 0 <= i < |z| ensures IsHexDigit(z[i]) {
          if i > 0 {
            assert z[i] == s[i - 1];
          }
        }
      }
      if IsHex(z) {
        forall i | 0 <= i < |s| ensures IsHexDigit(s[i]) {
          assert s[i] == z[i + 1];
        }
      }
    }
  }
}

=== FILE: mac_address.dfy ===
/** `MACAddress` of the UDP tools: six bytes, read from loosely formatted
    hex and printed as upper-case pairs separated by colons.
 */
module MacAddresses {
  import opened Wrappers
  import opened Bytes
  import opened HexDigits
  import opened HexUtils

  /** `NUM_BYTES`. */
  const NumBytes := 6

  type MacAddress = bs: seq<byte> | |bs| == NumBytes witness [0, 0, 0, 0, 0, 0]

  // ---------------------------------------------------------------- parse

  /** `replaceAll("[^0-9a-fA-F]", "")`: the hex digits of `s`, in order. */
  function HexDigitsOf(s: string): (r: string)
    ensures IsHex(r) && |r| <= |s|
  {
    if |s| == 0 then ""
    else if IsHexDigit(s[0]) then [s[0]] + HexDigitsOf(s[1..])
    else HexDigitsOf(s[1..])
  }

  lemma {:induction false} HexDigitsOfAppend(a: string, b: string)
    ensures HexDigitsOf(a + b) == HexDigitsOf(a) + HexDigitsOf(b)
    decreases |a|
  {
    if |a| == 0 {
      assert a + b == b;
    } else {
      assert (a + b)[1..] == a[1..] + b;
      HexDigitsOfAppend(a[1..], b);
    }
  }

  lemma {:induction false} HexDigitsOfHex(s: string)
    requires IsHex(s)
    ensures HexDigitsOf(s) == s
    decreases |s|
  {
    if |s| > 0 {
      HexDigitsOfHex(s[1..]);
    }
  }

  /** `MACAddress.parse`: null gives null, and so do fewer than twelve hex
      digits (eleven when padded to an even count); otherwise the first six
      bytes the digits spell, whatever else the string holds. */
  function Parse(s: Option<string>): (r: Option<MacAddress>)
    ensures s.None? ==> r.None?
    ensures s.Some? ==> (r.Some? <==> |HexDigitsOf(s.value)| >= 2 * NumBytes - 1)
    ensures r.Some? ==> HexBytes(r.value) == EvenHex(HexDigitsOf(s.value))[..2 * NumBytes]
  {
    match s
    case None => None
    case Some(text) =>
      var digits := HexDigitsOf(text);
      var bytes := HexToBytes(Some(digits)).value.value;
      if |bytes| < NumBytes then None
      else
        var mac: MacAddress := bytes[..NumBytes];
        assert bytes == mac + bytes[NumBytes..];
        HexBytesAppend(mac, bytes[NumBytes..]);
        Some(mac)
  }

  // ---------------------------------------------------------- constructor

  /** `new MACAddress(bytes, offset)`: null, or an array shorter than
      `offset + 6` in Java `int` arithmetic, is rejected; `copyOfRange`
      then rejects a range whose end wrapped below its start and throws
      for a negative start. */
  function FromBytes(bytes: Option<seq<byte>>, offset: int32): (r: Result<MacAddress>)
    requires bytes.Some? ==> |bytes.value| <= MaxArrayLength
    ensures r.Ok? <==> bytes.Some? && 0 <= offset && offset + NumBytes <= |bytes.value|
    ensures r.Ok? ==> r.value == bytes.value[offset..offset + NumBytes]
    ensures bytes.Some? && offset < 0 && AddInt(offset, NumBytes) <= |bytes.value| ==> r == Err(IndexOutOfBounds)
    ensures r.Err? && !(bytes.Some? && offset < 0 && AddInt(offset, NumBytes) <= |bytes.value|) ==> r == Err(IllegalArgument)
  {
    if bytes.None? || |bytes.value| < AddInt(offset, NumBytes) then Err(IllegalArgument)
    else if AddInt(offset, NumBytes) < offset then Err(IllegalArgument)
    else if offset < 0 then Err(IndexOutOfBounds)
    else Ok(bytes.value[offset..offset + NumBytes])
  }

  /** `new MACAddress(bytes)`: the first six bytes. */
  function OfBytes(bytes: Option<seq<byte>>): (r: Result<MacAddress>)
    requires bytes.Some? ==> |bytes.value| <= MaxArrayLength
    ensures r.Ok? <==> bytes.Some? && |bytes.value| >= NumBytes
    ensures r.Ok? ==> r.value == bytes.value[..NumBytes]
    ensures r.Err? ==> r.error == IllegalArgument
  {
    FromBytes(bytes, 0)
  }

  // ------------------------------------------------------------- toString

  /** `replaceAll(".{2}", ":$0")`: a colon in front of every pair of
      characters, a last odd character left alone. */
  function ColonPairs(s: string): (r: string)
    decreases |s|
  {
    if |s| < 2 then s else ":" + s[..2] + ColonPairs(s[2..])
  }

  /** For an even-length string, every third character is a colon, each
      followed by the next pair. */
  lemma {:induction false} ColonPairsAt(s: string, k: nat)
    requires |s| % 2 == 0 && k < |s| / 2
    ensures |ColonPairs(s)| == 3 * |s| / 2
    ensures ColonPairs(s)[3 * k] == ':' && ColonPairs(s)[3 * k + 1..3 * k + 3] == s[2 * k..2 * k + 2]
    decreases |s|
  {
    var r := ColonPairs(s);
    ColonPairsLength(s);
    if k > 0 {
      ColonPairsAt(s[2..], k - 1);
      assert r[3 * k..3 * k + 3] == ColonPairs(s[2..])[3 * (k - 1)..3 * (k - 1) + 3];
      assert s[2..][2 * (k - 1)..2 * (k - 1) + 2] == s[2 * k..2 * k + 2];
    }
  }

  lemma {:induction false} ColonPairsLength(s: string)
    requires |s| % 2 == 0
    ensures |ColonPairs(s)| == 3 * |s| / 2
    decreases |s|
  {
    if |s| >= 2 {
      ColonPairsLength(s[2..]);
    }
  }

  /** `bytesToHex(bytes, 0, NUM_BYTES)` of an address is its hex. */
  lemma AddressHex(mac: MacAddress)
    ensures BytesToHex(Some(mac), 0, NumBytes) == Ok(Some(HexBytes(mac)))
  {
    var hex := BytesToHex(Some(mac), 0, NumBytes).value.value;
    assert mac[0..NumBytes] == mac;
    HexBytesOfHex(hex);
    LowerOfLowerHex(hex);
  }

  /** `MACAddress.toString`: the twelve hex digits with colons between the
      pairs, in upper case. */
  function ToString(mac: MacAddress): (r: string)
    ensures |r| == 3 * NumBytes - 1
    ensures forall k | 0 <= k < NumBytes :: r[3 * k..3 * k + 2] == UpperString(ByteHex(mac[k]))
    ensures forall k | 0 <= k < NumBytes - 1 :: r[3 * k + 2] == ':'
  {
    var hex := BytesToHex(Some(mac), 0, NumBytes).value.value;
    AddressHex(mac);
    var colons := ColonPairs(hex);
    ColonPairsLength(hex);
    var r := UpperString(colons[1..]);
    forall k | 0 <= k < NumBytes
      ensures r[3 * k..3 * k + 2] == UpperString(ByteHex(mac[k]))
    {
      ColonPairsAt(hex, k);
      HexBytesAt(mac, k);
      assert colons[1..][3 * k..3 * k + 2] == hex[2 * k..2 * k + 2];
    }
    forall k | 0 <= k < NumBytes - 1
      ensures r[3 * k + 2] == ':'
    {
      ColonPairsAt(hex, k + 1);
    }
    r
  }

  /** A lower-case hex string is its own lower case. */
  lemma LowerOfLowerHex(s: string)
    requires IsLowerHex(s)
    ensures LowerString(s) == s
  {
    assert forall i | 0 <= i < |s| :: LowerString(s)[i] == s[i];
  }

  /** Upper-casing lower-case hex and lower-casing it again is the identity. */
  lemma LowerOfUpperHex(s: string)
    requires IsLowerHex(s)
    ensures IsHex(UpperString(s)) && LowerString(UpperString(s)) == s
  {
    var u := UpperString(s);
    assert forall i | 0 <= i < |s| :: LowerString(u)[i] == s[i];
  }

  /** Hex digits survive upper-casing. */
  lemma {:induction false} UpperColonPairsDigits(s: string)
    requires IsLowerHex(s)
    ensures HexDigitsOf(UpperString(ColonPairs(s))) == UpperString(s)
    decreases |s|
  {
    if |s| < 2 {
      LowerOfUpperHex(s);
      HexDigitsOfHex(UpperString(s));
    } else {
      UpperColonPairsDigits(s[2..]);
      UpperAppend(":" + s[..2], ColonPairs(s[2..]));
      UpperAppend(":", s[..2]);
      UpperAppend(s[..2], s[2..]);
      assert s == s[..2] + s[2..];
      LowerOfUpperHex(s[..2]);
      HexDigitsOfAppend(UpperString(":" + s[..2]), UpperString(ColonPairs(s[2..])));
      HexDigitsOfAppend(UpperString(":"), UpperString(s[..2]));
      HexDigitsOfHex(UpperString(s[..2]));
      assert HexDigitsOf(UpperString(":")) == "";
    }
  }

  lemma UpperAppend(a: string, b: string)
    ensures UpperString(a + b) == UpperString(a) + UpperString(b)
  {
    var l := UpperString(a + b);
    var r := UpperString(a) + UpperString(b);
    assert forall i | 0 <= i < |l| :: l[i] == r[i] by {
      forall i | 0 <= i < |l| ensures l[i] == r[i] {
        if i < |a| {
          assert (a + b)[i] == a[i];
        } else {
          assert (a + b)[i] == b[i - |a|];
        }
      }
    }
  }

  /** The hex digits of what `toString` prints are the address's hex in
      upper case. */
  lemma ToStringDigits(mac: MacAddress)
    ensures HexDigitsOf(ToString(mac)) == UpperString(HexBytes(mac))
  {
    var hex := HexBytes(mac);
    var colons := ColonPairs(hex);
    var s := ToString(mac);
    AddressHex(mac);
    assert s == UpperString(colons[1..]);
    assert colons == [':'] + colons[1..];
    UpperAppend([':'], colons[1..]);
    assert UpperString([':']) == [':'];
    HexDigitsOfAppend([':'], s);
    UpperColonPairsDigits(hex);
    assert HexDigitsOf([':']) == "";
  }

  /** Parsing what `toString` prints gives the address back. */
  lemma ParseToString(mac: MacAddress)
    ensures Parse(Some(ToString(mac))) == Some(mac)
  {
    var hex := HexBytes(mac);
    var digits := HexDigitsOf(ToString(mac));
    ToStringDigits(mac);
    LowerOfUpperHex(hex);
    assert EvenHex(digits) == hex;
    var r := Parse(Some(ToString(mac)));
    assert HexBytes(r.value) == hex;
    BytesOfHexBytes(r.value);
    BytesOfHexBytes(mac);
  }
}

=== FILE: ndr_numbers.dfy ===
/** The primitive integer layout shared by the NDR reader and writer: a
    field of `size` bytes is aligned to `min(8, size)` and stored in the byte
    order the format label names (section 14.2 of C706). */
module NdrNumbers {
  import opened Bytes
  import opened FormatLabels

  /** Largest alignment NDR ever asks for (NDRConstants). */
  const MaxNumAlignmentBytes: nat := 8

  /** `Math.min(MAX_NUM_ALIGNMENT_BYTES, sizeInBytes)`. */
  function Alignment(size: nat): (r: nat)
    requires size >= 1
    ensures 1 <= r <= MaxNumAlignmentBytes && r <= size
    ensures size <= MaxNumAlignmentBytes ==> r == size
  {
    if size < MaxNumAlignmentBytes then size else MaxNumAlignmentBytes
  }

  /** The `size` bytes of an unsigned pattern in the given byte order. */
  function EncodeNumber(e: IntRep, u: nat, size: nat): (r: seq<byte>)
    ensures |r| == size
  {
    match e
    case BigEndian => BeBytes(u, size)
    case LittleEndian => LeBytes(u, size)
  }

  /** The unsigned pattern held by `s` in the given byte order. */
  function DecodeNumber(e: IntRep, s: seq<byte>): (r: nat)
    ensures r < Pow256(|s|)
  {
    match e
    case BigEndian => BeValue(s)
    case LittleEndian => LeValue(s)
  }

  lemma DecodeEncodeNumber(e: IntRep, u: nat, size: nat)
    requires u < Pow256(size)
    ensures DecodeNumber(e, EncodeNumber(e, u, size)) == u
  {
    match e
    case BigEndian => BeValueOfBytes(u, size);
    case LittleEndian => LeValueOfBytes(u, size);
  }

  lemma EncodeDecodeNumber(e: IntRep, s: seq<byte>)
    ensures EncodeNumber(e, DecodeNumber(e, s), |s|) == s
  {
    match e
    case BigEndian => BeBytesOfValue(s);
    case LittleEndian => LeBytesOfValue(s);
  }
}

=== FILE: ndr_reader.dfy ===
/** `NDRReader`: unmarshals primitives, byte arrays, strings and pointers
    from an NDR byte stream (chapter 14 of C706).

    A caller-supplied byte array the source fills in place is passed in as a
    sequence and returned, updated, next to the result.
 */
module NdrReader {
  import opened Wrappers
  import opened Bytes
  import opened FormatLabels
  import opened AlignedStreams
  import opened NdrNumbers

  /** The input stream with its counter, and the active format label. */
  datatype Reader = Reader(input: InStream, formatLabel: Option<FormatLabel>)

  /** A value read and the reader after it. */
  datatype Step<+T> = Step(value: T, next: Reader)

  /** What a bulk read returns (a count) and the caller's array after it. */
  datatype Stored = Stored(count: int, buf: seq<byte>)

  /** `new NDRReader(inputStream)` over the given bytes, with no label. */
  function NewReader(bytes: seq<byte>): (r: Reader)
    ensures r.input.rest == bytes && r.input.count == 0 && r.formatLabel.None?
  {
    Reader(InStream(bytes, 0), None)
  }

  function SetFormatLabel(rd: Reader, l: Option<FormatLabel>): (r: Reader)
    ensures r.formatLabel == l && r.input == rd.input
  {
    rd.(formatLabel := l)
  }

  /** `readFormatLabel(n)`: reads up to n bytes into a zeroed array, whether
      or not all of them arrive, and makes the label parsed from them the
      active one, replacing any label set before.  On an exhausted stream the
      read answers -1, which the counter takes on. */
  function ReadFormatLabel(rd: Reader, n: int): (r: Result<Reader>)
    ensures n < 0 ==> r == Err(NegativeArraySize)
    ensures n >= 0 && n <= |rd.input.rest| ==>
      && (r.Ok? <==> Parse(Some(rd.input.rest[..n]), 0).Ok?)
      && (r.Err? ==> r == Parse(Some(rd.input.rest[..n]), 0).PropagateFailure())
      && (r.Ok? ==> r.value == Reader(InStream(rd.input.rest[n..], rd.input.count + n),
                                      Some(Parse(Some(rd.input.rest[..n]), 0).value)))
    ensures n > |rd.input.rest| && r.Ok? ==>
      r.value.input == InStream([], rd.input.count + if |rd.input.rest| == 0 then -1 else |rd.input.rest|)
    ensures r.Ok? ==> Ready(r.value.formatLabel)
  {
    if n < 0 then Err(NegativeArraySize)
    else
      var f := ReadFresh(rd.input, n);
      var l :- Parse(Some(f.buf), 0);
      Ok(Reader(f.next, Some(l)))
  }

  /** `readBoolean`: one byte, true unless it is 0x00. */
  function ReadBoolean(rd: Reader): (r: Result<Step<bool>>)
    ensures r.Ok? <==> ReadOne(rd.input).Ok?
    ensures r.Err? ==> r.error == IO
    ensures r.Ok? ==> r.value.value == (rd.input.rest[0] != 0)
    ensures r.Ok? ==> r.value.next == Reader(InStream(rd.input.rest[1..], rd.input.count + 1), rd.formatLabel)
  {
    var b :- ReadOne(rd.input);
    Ok(Step(b.value != 0, Reader(b.next, rd.formatLabel)))
  }

  /** `readByte`: one byte, unaligned. */
  function ReadByte(rd: Reader): (r: Result<Step<byte>>)
    ensures r.Ok? <==> |rd.input.rest| > 0 && rd.input.rest[0] != 0xFF
    ensures r.Err? ==> r.error == IO
    ensures r.Ok? ==> r.value == Step(rd.input.rest[0], Reader(InStream(rd.input.rest[1..], rd.input.count + 1), rd.formatLabel))
  {
    var b :- ReadOne(rd.input);
    Ok(Step(b.value, Reader(b.next, rd.formatLabel)))
  }

  /** `readNumber(size)`: skips the padding to `min(8, size)`, reads `size`
      bytes and assembles their unsigned value in the label's byte order. */
  function ReadNumber(rd: Reader, size: nat): (r: Result<Step<nat>>)
    requires size >= 1
    ensures !Ready(rd.formatLabel) ==> r == Err(IllegalState)
    ensures Ready(rd.formatLabel) ==>
      var skipped := SkipAlignment(rd.input, Alignment(size));
      && (r.Ok? <==> size <= |skipped.rest|)
      && (r.Err? ==> r.error == IO)
      && (r.Ok? ==> r.value.value == DecodeNumber(rd.formatLabel.value.integer.value, skipped.rest[..size]))
      && (r.Ok? ==> r.value.next == Reader(InStream(skipped.rest[size..], skipped.count + size), rd.formatLabel))
  {
    var l :- VerifyFormatLabel(rd.formatLabel);
    var skipped := SkipAlignment(rd.input, Alignment(size));
    var f := ReadFresh(skipped, size);
    if f.n < size then Err(IO)
    else
      Ok(Step(DecodeNumber(l.integer.value, f.buf), Reader(f.next, rd.formatLabel)))
  }

  /** A number read starts on a multiple of its alignment: the count after
      it, less its size, is aligned. */
  lemma ReadNumberAligned(rd: Reader, size: nat)
    requires size >= 1 && rd.input.count >= 0 && ReadNumber(rd, size).Ok?
    ensures (ReadNumber(rd, size).value.next.input.count - size) % Alignment(size) == 0
  {
    SkipAlignmentAligns(rd.input, Alignment(size));
  }

  /** The signed value of an n-byte number (the narrowing cast of the result). */
  function ReadSigned(rd: Reader, size: nat): (r: Result<Step<int>>)
    requires size >= 1
    ensures r.Ok? <==> ReadNumber(rd, size).Ok?
    ensures r.Err? ==> r.error == ReadNumber(rd, size).error
    ensures r.Ok? ==> InSigned(r.value.value, size)
    ensures r.Ok? ==> Wrap(r.value.value, size) == ReadNumber(rd, size).value.value
    ensures r.Ok? ==> r.value.next == ReadNumber(rd, size).value.next
  {
    var u :- ReadNumber(rd, size);
    WrapSigned(u.value, size);
    Ok(Step(Signed(u.value, size), u.next))
  }

  function ReadShort(rd: Reader): (r: Result<Step<int16>>)
    ensures r.Ok? <==> ReadSigned(rd, 2).Ok?
    ensures r.Ok? ==> r.value.value == ReadSigned(rd, 2).value.value && r.value.next == ReadSigned(rd, 2).value.next
    ensures r.Err? ==> r.error == ReadSigned(rd, 2).error
  {
    var s :- ReadSigned(rd, 2);
    Ok(Step(s.value as int16, s.next))
  }

  function ReadInt(rd: Reader): (r: Result<Step<int32>>)
    ensures r.Ok? <==> ReadSigned(rd, 4).Ok?
    ensures r.Ok? ==> r.value.value == ReadSigned(rd, 4).value.value && r.value.next == ReadSigned(rd, 4).value.next
    ensures r.Err? ==> r.error == ReadSigned(rd, 4).error
  {
    var s :- ReadSigned(rd, 4);
    Ok(Step(s.value as int32, s.next))
  }

  function ReadLong(rd: Reader): (r: Result<Step<int64>>)
    ensures r.Ok? <==> ReadSigned(rd, 8).Ok?
    ensures r.Ok? ==> r.value.value == ReadSigned(rd, 8).value.value && r.value.next == ReadSigned(rd, 8).value.next
    ensures r.Err? ==> r.error == ReadSigned(rd, 8).error
  {
    var s :- ReadSigned(rd, 8);
    Ok(Step(s.value as int64, s.next))
  }

  /** `verifyFormatLabelFloat`: a ready label whose float sub-label is IEEE. */
  function VerifyFormatLabelFloat(l: Option<FormatLabel>): (r: Result<()>)
    ensures !Ready(l) ==> r == Err(IllegalState)
    ensures Ready(l) && l.value.float.value != Ieee ==> r == Err(Unsupported)
    ensures r.Ok? <==> Ready(l) && l.value.float.value == Ieee
  {
    var fl :- VerifyFormatLabel(l);
    if fl.float.value != Ieee then Err(Unsupported) else Ok(())
  }

  /** `readFloat`: the raw bits of an IEEE single, only under an IEEE label. */
  function ReadFloat(rd: Reader): (r: Result<Step<int32>>)
    ensures VerifyFormatLabelFloat(rd.formatLabel).Err? ==> r == VerifyFormatLabelFloat(rd.formatLabel).PropagateFailure()
    ensures VerifyFormatLabelFloat(rd.formatLabel).Ok? ==> r == ReadInt(rd)
  {
    var _ :- VerifyFormatLabelFloat(rd.formatLabel);
    ReadInt(rd)
  }

  /** `readDouble`: the raw bits of an IEEE double, only under an IEEE label. */
  function ReadDouble(rd: Reader): (r: Result<Step<int64>>)
    ensures VerifyFormatLabelFloat(rd.formatLabel).Err? ==> r == VerifyFormatLabelFloat(rd.formatLabel).PropagateFailure()
    ensures VerifyFormatLabelFloat(rd.formatLabel).Ok? ==> r == ReadLong(rd)
  {
    var _ :- VerifyFormatLabelFloat(rd.formatLabel);
    ReadLong(rd)
  }

  /** `verifyBufferLength`: the array must hold `needed` bytes. */
  function VerifyBufferLength(size: nat, needed: int): (r: Result<()>)
    ensures r.Ok? <==> needed <= size
    ensures r.Err? ==> r.error == IllegalArgument
  {
    if size < needed then Err(IllegalArgument) else Ok(())
  }

  /** `readBytesFixed(buf, off, len)`: exactly `len` bytes into `buf[off..]`.
      The length check adds `off + len` as Java `int`s, so a sum that wraps
      to a negative value passes it and the bulk read's own bounds check
      throws instead. */
  function ReadBytesFixed(rd: Reader, buf: seq<byte>, off: int32, len: int32): (r: Result<Step<Stored>>)
    ensures AddInt(off, len) > |buf| ==> r == Err(IllegalArgument)
    ensures AddInt(off, len) <= |buf| && !InBounds(|buf|, off, len) ==> r == Err(IndexOutOfBounds)
    ensures InBounds(|buf|, off, len) && |rd.input.rest| < len ==> r == Err(IO)
    ensures r.Ok? <==> InBounds(|buf|, off, len) && len <= |rd.input.rest|
    ensures r.Ok? ==>
      && r.value.value.count == len
      && |r.value.value.buf| == |buf|
      && r.value.value.buf[off..off + len] == rd.input.rest[..len]
      && (forall i :: 0 <= i < |buf| && !(off <= i < off + len) ==> r.value.value.buf[i] == buf[i])
      && r.value.next == Reader(InStream(rd.input.rest[len..], rd.input.count + len), rd.formatLabel)
  {
    var _ :- VerifyBufferLength(|buf|, AddInt(off, len));
    var f :- ReadInto(rd.input, buf, off, len);
    if f.n < len then Err(IO)
    else Ok(Step(Stored(f.n, f.buf), Reader(f.next, rd.formatLabel)))
  }

  /** `readBytesConformant(buf, off)`: the maximum count, then that many
      bytes into `buf[off..]`; returns the count. */
  function ReadBytesConformant(rd: Reader, buf: seq<byte>, off: int32): (r: Result<Step<Stored>>)
    ensures ReadInt(rd).Err? ==> r == ReadInt(rd).PropagateFailure()
    ensures ReadInt(rd).Ok? ==>
      var max := ReadInt(rd).value;
      && (AddInt(off, max.value) > |buf| ==> r == Err(IllegalArgument))
      && (AddInt(off, max.value) <= |buf| ==> r == ReadBytesFixed(max.next, buf, off, max.value))
  {
    var max :- ReadInt(rd);
    var _ :- VerifyBufferLength(|buf|, AddInt(off, max.value));
    ReadBytesFixed(max.next, buf, off, max.value)
  }

  /** The part of `readBytesVarying` after its two counts: the bulk read of
      `len` bytes into `buf[store + off..]`, answering `off + len` as the
      count, every sum a Java `int` sum.  Its checks are exactly those of
      `readBytesFixed(buf, store + off, len)`. */
  function ReadVaryingBody(rd: Reader, buf: seq<byte>, store: int32, off: int32, len: int32): (r: Result<Step<Stored>>)
    ensures var fixed := ReadBytesFixed(rd, buf, AddInt(store, off), len);
      && (r.Ok? <==> fixed.Ok?)
      && (r.Err? ==> r.error == fixed.error)
      && (r.Ok? ==> r.value.value.count == AddInt(off, len))
      && (r.Ok? ==> r.value.value.buf == fixed.value.value.buf && r.value.next == fixed.value.next)
  {
    var fixed :- ReadBytesFixed(rd, buf, AddInt(store, off), len);
    Ok(Step(Stored(AddInt(off, len), fixed.value.buf), fixed.next))
  }

  /** `readBytesVarying(buf, store)`: the offset and the actual count, then
      that many bytes into `buf[store + offset..]`; returns offset + count. */
  function ReadBytesVarying(rd: Reader, buf: seq<byte>, store: int32): (r: Result<Step<Stored>>)
    ensures ReadInt(rd).Err? ==> r == ReadInt(rd).PropagateFailure()
    ensures ReadInt(rd).Ok? && ReadInt(ReadInt(rd).value.next).Err? ==> r == ReadInt(ReadInt(rd).value.next).PropagateFailure()
    ensures ReadInt(rd).Ok? && ReadInt(ReadInt(rd).value.next).Ok? ==>
      var off := ReadInt(rd).value;
      var len := ReadInt(off.next).value;
      r == ReadVaryingBody(len.next, buf, store, off.value, len.value)
  {
    var off :- ReadInt(rd);
    var len :- ReadInt(off.next);
    ReadVaryingBody(len.next, buf, store, off.value, len.value)
  }

  /** `readBytesConformantVarying(buf, store)`: the maximum count, then a
      varying array whose offset + count may not exceed it. */
  function ReadBytesConformantVarying(rd: Reader, buf: seq<byte>, store: int32): (r: Result<Step<Stored>>)
    ensures ReadInt(rd).Err? ==> r == ReadInt(rd).PropagateFailure()
    ensures ReadInt(rd).Ok? ==>
      var max := ReadInt(rd).value;
      var inner := ReadBytesVarying(max.next, buf, store);
      && (AddInt(store, max.value) > |buf| ==> r == Err(IllegalArgument))
      && (AddInt(store, max.value) <= |buf| && inner.Err? ==> r == inner)
      && (AddInt(store, max.value) <= |buf| && inner.Ok? && inner.value.value.count > max.value ==> r == Err(IO))
      && (AddInt(store, max.value) <= |buf| && inner.Ok? && inner.value.value.count <= max.value ==> r == inner)
  {
    var max :- ReadInt(rd);
    var _ :- VerifyBufferLength(|buf|, AddInt(store, max.value));
    var inner :- ReadBytesVarying(max.next, buf, store);
    if inner.value.count > max.value then Err(IO) else Ok(inner)
  }

  /** The array read of `readStringVarying`: `size` bytes are requested
      into a zeroed array; the last byte that arrives must be the NUL
      terminator, and the text is the decoding of the first `size - 1` array
      bytes (zeros where the stream ran short).  An empty array fails the
      terminator check; on an exhausted stream the read answers -1 and the
      check indexes `buffer[-2]`, which throws
      `ArrayIndexOutOfBoundsException`. */
  function ReadTerminated(input: InStream, cs: Charset, size: nat): (r: Result<Read<string>>)
    ensures size == 0 ==> r == Err(IO)
    ensures size > 0 && |input.rest| == 0 ==> r == Err(IndexOutOfBounds)
    ensures |input.rest| > 0 ==>
      var n := if size <= |input.rest| then size else |input.rest|;
      && (r.Ok? <==> n > 0 && input.rest[n - 1] == 0)
      && (r.Err? ==> r.error == IO)
      && (r.Ok? ==> r.value.value == Decode(cs, (input.rest[..n] + Zeros(size - n))[..size - 1]))
      && (r.Ok? ==> r.value.next == InStream(input.rest[n..], input.count + n))
  {
    var f := ReadFresh(input, size);
    var n := if size <= |input.rest| then size else |input.rest|;
    assert |input.rest| > 0 ==> f.n == n && f.Got() == n && f.buf == input.rest[..n] + Zeros(size - n);
    if f.n == 0 then Err(IO)
    else if f.n < 0 then Err(IndexOutOfBounds)
    else if f.buf[f.n - 1] != 0 then Err(IO)
    else Ok(Read(Decode(cs, f.buf[..size - 1]), f.next))
  }

  /** `readStringVarying`: an offset that must not be positive and a count,
      then a terminated array of `offset + count` bytes, the size being the
      Java `int` sum. */
  function ReadStringVarying(rd: Reader, cs: Charsets): (r: Result<Step<string>>)
    ensures !Ready(rd.formatLabel) ==> r == Err(IllegalState)
    ensures Ready(rd.formatLabel) && ReadInt(rd).Err? ==> r == ReadInt(rd).PropagateFailure()
    ensures Ready(rd.formatLabel) && ReadInt(rd).Ok? && ReadInt(ReadInt(rd).value.next).Err? ==>
      r == ReadInt(ReadInt(rd).value.next).PropagateFailure()
    ensures Ready(rd.formatLabel) && ReadInt(rd).Ok? && ReadInt(ReadInt(rd).value.next).Ok? ==>
      var off := ReadInt(rd).value;
      var len := ReadInt(off.next).value;
      && (off.value > 0 ==> r == Err(Unsupported))
      && (off.value <= 0 && AddInt(off.value, len.value) < 0 ==> r == Err(NegativeArraySize))
      && (off.value <= 0 && AddInt(off.value, len.value) >= 0 ==>
            var body := ReadTerminated(len.next.input, cs.Of(rd.formatLabel.value.character.value), AddInt(off.value, len.value));
            && (body.Err? ==> r == body.PropagateFailure())
            && (body.Ok? ==> r == Ok(Step(body.value.value, Reader(body.value.next, rd.formatLabel)))))
  {
    var l :- VerifyFormatLabel(rd.formatLabel);
    var off :- ReadInt(rd);
    var len :- ReadInt(off.next);
    if off.value > 0 then Err(Unsupported)
    else if AddInt(off.value, len.value) < 0 then Err(NegativeArraySize)
    else
      var body :- ReadTerminated(len.next.input, cs.Of(l.character.value), AddInt(off.value, len.value));
      Ok(Step(body.value, Reader(body.next, rd.formatLabel)))
  }

  /** `readStringConformantVarying`: a maximum count, then a varying string
      whose decoded length may not exceed it. */
  function ReadStringConformantVarying(rd: Reader, cs: Charsets): (r: Result<Step<string>>)
    ensures ReadInt(rd).Err? ==> r == ReadInt(rd).PropagateFailure()
    ensures ReadInt(rd).Ok? ==>
      var max := ReadInt(rd).value;
      var inner := ReadStringVarying(max.next, cs);
      && (inner.Err? ==> r == inner)
      && (inner.Ok? && |inner.value.value| > max.value ==> r == Err(IO))
      && (inner.Ok? && |inner.value.value| <= max.value ==> r == inner)
  {
    var max :- ReadInt(rd);
    var inner :- ReadStringVarying(max.next, cs);
    if |inner.value| > max.value then Err(IO) else Ok(inner)
  }

  /** What `readReference` returns: the referent and the map after it. */
  datatype Pointee = Pointee(referent: seq<byte>, refs: map<int, seq<byte>>)

  /** `readReference(map, expected)`: a reference ID; 0 is the null pointer
      (an empty array), a known ID returns the stored referent without
      reading further, and a new ID is followed by `expected` referent bytes,
      which are stored under it. */
  function ReadReference(rd: Reader, refs: map<int, seq<byte>>, expected: int32): (r: Result<Step<Pointee>>)
    ensures ReadInt(rd).Err? ==> r == ReadInt(rd).PropagateFailure()
    ensures ReadInt(rd).Ok? ==>
      var id := ReadInt(rd).value;
      && (id.value == 0 ==> r == Ok(Step(Pointee([], refs), id.next)))
      && (id.value != 0 && id.value in refs ==> r == Ok(Step(Pointee(refs[id.value], refs), id.next)))
      && (id.value != 0 && id.value !in refs && expected < 0 ==> r == Err(NegativeArraySize))
      && (id.value != 0 && id.value !in refs && expected >= 0 ==>
            && (r.Ok? <==> expected <= |id.next.input.rest|)
            && (r.Err? ==> r.error == IO)
            && (r.Ok? ==> r.value.value.referent == id.next.input.rest[..expected])
            && (r.Ok? ==> r.value.value.refs == refs[id.value := id.next.input.rest[..expected]])
            && (r.Ok? ==> r.value.next == Reader(InStream(id.next.input.rest[expected..], id.next.input.count + expected),
                                                 rd.formatLabel)))
  {
    var id :- ReadInt(rd);
    if id.value == 0 then Ok(Step(Pointee([], refs), id.next))
    else if id.value in refs then Ok(Step(Pointee(refs[id.value], refs), id.next))
    else if expected < 0 then Err(NegativeArraySize)
    else
      var fixed :- ReadBytesFixed(id.next, Zeros(expected), 0, expected);
      var referent := fixed.value.buf;
      assert referent == referent[0..expected];
      Ok(Step(Pointee(referent, refs[id.value := referent]), fixed.next))
  }
}

=== FILE: ndr_round_trip.dfy ===
/** Reading back what the writer emitted.

    Each lemma starts from a writer `w` and a reader `rd` that stand at the
    same byte count under the same label, with the reader's stream holding
    exactly the bytes the writer emits for one operation followed by an
    arbitrary `tail`.  It concludes that the matching read returns the value
    written and leaves the reader at the writer's new count with `tail`
    still to come, so the lemmas chain from one field to the next.
 */
module NdrRoundTrip {
  import opened Wrappers
  import opened Bytes
  import opened FormatLabels
  import opened AlignedStreams
  import opened NdrNumbers
  import opened NdrWriter
  import opened NdrReader

  /** The reader stands where the writer stands: same count, same label. */
  predicate Synced(w: Writer, rd: Reader) {
    rd.input.count == w.out.count && rd.formatLabel == w.formatLabel
  }

  /** The reader that has consumed everything `w2` emitted, with `tail` left. */
  function After(w2: Writer, tail: seq<byte>): Reader {
    Reader(InStream(tail, w2.out.count), w2.formatLabel)
  }

  /** A field followed by the rest of the stream splits back into the two. */
  lemma Split(field: seq<byte>, tail: seq<byte>)
    ensures (field + tail)[..|field|] == field && (field + tail)[|field|..] == tail
  {
  }

  lemma Assoc(a: seq<byte>, b: seq<byte>, c: seq<byte>)
    ensures (a + b) + c == a + (b + c)
  {
  }

  /** Reading a label from bytes that parse. */
  lemma ReadParsedLabel(rd: Reader, n: nat, field: seq<byte>, tail: seq<byte>, l: Option<FormatLabel>)
    requires l.Some? && |field| == n && rd.input.rest == field + tail
    requires Parse(Some(field), 0).Ok? && Parse(Some(field), 0).value == l.value
    ensures ReadFormatLabel(rd, n).Ok?
    ensures ReadFormatLabel(rd, n).value.input == InStream(tail, rd.input.count + n)
    ensures ReadFormatLabel(rd, n).value.formatLabel == l
  {
    Split(field, tail);
  }

  lemma FormatLabelRoundTrip(w: Writer, rd: Reader, n: int, tail: seq<byte>)
    requires Ready(w.formatLabel) && n >= MinFormatLabelLength && rd.input.count == w.out.count
    requires rd.input.rest == Emitted(w, WriteFormatLabel(w, n).value) + tail
    ensures ReadFormatLabel(rd, n) == Ok(After(WriteFormatLabel(w, n).value, tail))
  {
    var w2 := WriteFormatLabel(w, n).value;
    ReadParsedLabel(rd, n, Emitted(w, w2), tail, w.formatLabel);
    ReaderIs(ReadFormatLabel(rd, n), After(w2, tail));
  }

  lemma BooleanRoundTrip(w: Writer, rd: Reader, b: bool, tail: seq<byte>)
    requires Synced(w, rd)
    requires rd.input.rest == Emitted(w, WriteBoolean(w, b)) + tail
    ensures ReadBoolean(rd) == Ok(Step(b, After(WriteBoolean(w, b), tail)))
  {
    assert rd.input.rest[1..] == tail;
  }

  /** A byte survives the trip unless it is 0xFF, which the single-byte read
      mistakes for the end of the stream. */
  lemma ByteRoundTrip(w: Writer, rd: Reader, b: byte, tail: seq<byte>)
    requires Synced(w, rd)
    requires rd.input.rest == Emitted(w, WriteByte(w, b)) + tail
    ensures b != 0xFF ==> ReadByte(rd) == Ok(Step(b, After(WriteByte(w, b), tail)))
    ensures b == 0xFF ==> ReadByte(rd) == Err(IO)
  {
    assert rd.input.rest[1..] == tail;
  }

  /** Skipping the padding the writer emitted lands on what follows it. */
  lemma SkipPadding(s: InStream, k: nat, field: seq<byte>, tail: seq<byte>)
    requires k > 0 && s.rest == Zeros(Padding(s.count, k)) + field + tail
    ensures SkipAlignment(s, k) == InStream(field + tail, s.count + Padding(s.count, k))
  {
    assert s.rest == Zeros(Padding(s.count, k)) + (field + tail);
    assert s.rest[Padding(s.count, k)..] == field + tail;
  }

  /** Assembles a successful read from its parts.  Stating the parts first
      and the whole afterwards keeps the solver away from the definitions of
      the read functions. */
  lemma StepIs<T>(r: Result<Step<T>>, v: T, next: Reader)
    requires r.Ok? && r.value.value == v && r.value.next == next
    ensures r == Ok(Step(v, next))
  {
  }

  lemma ReaderIs(r: Result<Reader>, rd: Reader)
    requires r.Ok? && r.value.input == rd.input && r.value.formatLabel == rd.formatLabel
    ensures r == Ok(rd)
  {
  }

  /** Reading a number whose bytes follow the padding. */
  lemma ReadAfterPadding(rd: Reader, size: nat, u: nat, tail: seq<byte>, count: int, end: int)
    requires size >= 1 && u < Pow256(size) && Ready(rd.formatLabel) && end == count + size
    requires SkipAlignment(rd.input, Alignment(size))
             == InStream(EncodeNumber(rd.formatLabel.value.integer.value, u, size) + tail, count)
    ensures ReadNumber(rd, size) == Ok(Step(u, Reader(InStream(tail, end), rd.formatLabel)))
  {
    var e := rd.formatLabel.value.integer.value;
    var enc := EncodeNumber(e, u, size);
    var skipped := SkipAlignment(rd.input, Alignment(size));
    assert skipped.rest[..size] == enc;
    assert skipped.rest[size..] == tail;
    DecodeEncodeNumber(e, u, size);
    var r := ReadNumber(rd, size);
    assert r.Ok? && r.value.value == DecodeNumber(e, skipped.rest[..size]);
    assert r.value.next == Reader(InStream(tail, end), rd.formatLabel);
  }

  /** Reading a number from a stream that holds its padding and its bytes. */
  lemma ReadEmittedNumber(rd: Reader, size: nat, u: nat, field: seq<byte>, tail: seq<byte>)
    requires size >= 1 && u < Pow256(size) && Ready(rd.formatLabel)
    requires field == Zeros(Padding(rd.input.count, Alignment(size))) + EncodeNumber(rd.formatLabel.value.integer.value, u, size)
    requires rd.input.rest == field + tail
    ensures ReadNumber(rd, size) == Ok(Step(u, Reader(InStream(tail, rd.input.count + |field|), rd.formatLabel)))
  {
    var k := Alignment(size);
    var enc := EncodeNumber(rd.formatLabel.value.integer.value, u, size);
    SkipPadding(rd.input, k, enc, tail);
    ReadAfterPadding(rd, size, u, tail, rd.input.count + Padding(rd.input.count, k), rd.input.count + |field|);
    StepIs(ReadNumber(rd, size), u, Reader(InStream(tail, rd.input.count + |field|), rd.formatLabel));
  }

  /** What `WriteNumber` appends: the padding, then the encoded pattern. */
  lemma EmittedNumber(w: Writer, v: int, size: nat)
    requires size >= 1 && Ready(w.formatLabel)
    ensures Emitted(w, WriteNumber(w, v, size).value)
            == Zeros(Padding(w.out.count, Alignment(size))) + EncodeNumber(w.formatLabel.value.integer.value, Wrap(v, size), size)
    ensures WriteNumber(w, v, size).value.out.count == w.out.count + |Emitted(w, WriteNumber(w, v, size).value)|
  {
    var w2 := WriteNumber(w, v, size).value;
    var pad := Padding(w.out.count, Alignment(size));
    var enc := EncodeNumber(w.formatLabel.value.integer.value, Wrap(v, size), size);
    assert w2.out.sink == w.out.sink + (Zeros(pad) + enc);
  }

  /** The core of every multi-byte field: padding skipped, then the unsigned
      pattern reassembled in the same byte order. */
  lemma UnsignedRoundTrip(w: Writer, rd: Reader, v: int, size: nat, tail: seq<byte>)
    requires size >= 1 && Ready(w.formatLabel) && Synced(w, rd)
    requires rd.input.rest == Emitted(w, WriteNumber(w, v, size).value) + tail
    ensures ReadNumber(rd, size) == Ok(Step(Wrap(v, size), After(WriteNumber(w, v, size).value, tail)))
  {
    var w2 := WriteNumber(w, v, size).value;
    EmittedNumber(w, v, size);
    ReadEmittedNumber(rd, size, Wrap(v, size), Emitted(w, w2), tail);
    StepIs(ReadNumber(rd, size), Wrap(v, size), After(w2, tail));
  }

  /** A value that fits in `size` signed bytes comes back unchanged. */
  lemma NumberRoundTrip(w: Writer, rd: Reader, v: int, size: nat, tail: seq<byte>)
    requires size >= 1 && InSigned(v, size) && Ready(w.formatLabel) && Synced(w, rd)
    requires rd.input.rest == Emitted(w, WriteNumber(w, v, size).value) + tail
    ensures ReadSigned(rd, size) == Ok(Step(v, After(WriteNumber(w, v, size).value, tail)))
  {
    UnsignedRoundTrip(w, rd, v, size, tail);
    SignedWrap(v, size);
  }

  lemma ShortRoundTrip(w: Writer, rd: Reader, v: int16, tail: seq<byte>)
    requires Ready(w.formatLabel) && Synced(w, rd)
    requires rd.input.rest == Emitted(w, WriteShort(w, v).value) + tail
    ensures ReadShort(rd) == Ok(Step(v, After(WriteShort(w, v).value, tail)))
  {
    NumberRoundTrip(w, rd, v, 2, tail);
  }

  lemma IntRoundTrip(w: Writer, rd: Reader, v: int32, tail: seq<byte>)
    requires Ready(w.formatLabel) && Synced(w, rd)
    requires rd.input.rest == Emitted(w, WriteInt(w, v).value) + tail
    ensures ReadInt(rd) == Ok(Step(v, After(WriteInt(w, v).value, tail)))
  {
    NumberRoundTrip(w, rd, v, 4, tail);
  }

  lemma LongRoundTrip(w: Writer, rd: Reader, v: int64, tail: seq<byte>)
    requires Ready(w.formatLabel) && Synced(w, rd)
    requires rd.input.rest == Emitted(w, WriteLong(w, v).value) + tail
    ensures ReadLong(rd) == Ok(Step(v, After(WriteLong(w, v).value, tail)))
  {
    NumberRoundTrip(w, rd, v, 8, tail);
  }

  /** Floats come back bit for bit under an IEEE label; under any other
      float representation the reader refuses them although the writer did
      not. */
  lemma FloatRoundTrip(w: Writer, rd: Reader, bits: int32, tail: seq<byte>)
    requires Ready(w.formatLabel) && Synced(w, rd)
    requires rd.input.rest == Emitted(w, WriteFloat(w, bits).value) + tail
    ensures w.formatLabel.value.float.value == Ieee ==> ReadFloat(rd) == Ok(Step(bits, After(WriteFloat(w, bits).value, tail)))
    ensures w.formatLabel.value.float.value != Ieee ==> ReadFloat(rd) == Err(Unsupported)
  {
    NumberRoundTrip(w, rd, bits, 4, tail);
  }

  lemma DoubleRoundTrip(w: Writer, rd: Reader, bits: int64, tail: seq<byte>)
    requires Ready(w.formatLabel) && Synced(w, rd)
    requires rd.input.rest == Emitted(w, WriteDouble(w, bits).value) + tail
    ensures w.formatLabel.value.float.value == Ieee ==> ReadDouble(rd) == Ok(Step(bits, After(WriteDouble(w, bits).value, tail)))
    ensures w.formatLabel.value.float.value != Ieee ==> ReadDouble(rd) == Err(Unsupported)
  {
    NumberRoundTrip(w, rd, bits, 8, tail);
  }

  // ---------------------------------------------------------------- arrays

  /** The caller's array `dst` with `data` stored from index `at` on. */
  function Overwrite(dst: seq<byte>, at: nat, data: seq<byte>): (r: seq<byte>)
    requires at + |data| <= |dst|
    ensures |r| == |dst| && r[at..at + |data|] == data
    ensures forall i :: 0 <= i < |dst| && !(at <= i < at + |data|) ==> r[i] == dst[i]
  {
    dst[..at] + data + dst[at + |data|..]
  }

  /** An array that agrees with `Overwrite` everywhere is `Overwrite`. */
  lemma OverwriteIs(b: seq<byte>, dst: seq<byte>, at: nat, data: seq<byte>)
    requires at + |data| <= |dst| && |b| == |dst| && b[at..at + |data|] == data
    requires forall i :: 0 <= i < |dst| && !(at <= i < at + |data|) ==> b[i] == dst[i]
    ensures b == Overwrite(dst, at, data)
  {
    var o := Overwrite(dst, at, data);
    forall i | 0 <= i < |b|
      ensures b[i] == o[i]
    {
      if at <= i < at + |data| {
        assert b[i] == b[at..at + |data|][i - at];
        assert o[i] == o[at..at + |data|][i - at];
      }
    }
  }

  /** Bytes emitted by two successive operations. */
  lemma EmittedChain(w: Writer, w1: Writer, w2: Writer)
    requires w.out.sink <= w1.out.sink <= w2.out.sink
    ensures Emitted(w, w2) == Emitted(w, w1) + Emitted(w1, w2)
  {
  }

  /** The stream holding what three successive writers emitted, seen as the
      first operation's bytes followed by everything after them. */
  lemma Peel(w: Writer, w1: Writer, w2: Writer, rd: Reader, tail: seq<byte>)
    requires w.out.sink <= w1.out.sink <= w2.out.sink
    requires rd.input.rest == Emitted(w, w2) + tail
    ensures rd.input.rest == Emitted(w, w1) + (Emitted(w1, w2) + tail)
  {
    EmittedChain(w, w1, w2);
    Assoc(Emitted(w, w1), Emitted(w1, w2), tail);
  }

  /** Reading `|data|` bytes that the stream holds next. */
  lemma ReadFixedOf(rd: Reader, data: seq<byte>, tail: seq<byte>, dst: seq<byte>, dstOff: nat)
    requires rd.input.rest == data + tail && dstOff + |data| <= |dst| <= MaxArrayLength
    ensures ReadBytesFixed(rd, dst, dstOff, |data|).Ok?
    ensures ReadBytesFixed(rd, dst, dstOff, |data|).value.value == Stored(|data|, Overwrite(dst, dstOff, data))
    ensures ReadBytesFixed(rd, dst, dstOff, |data|).value.next == Reader(InStream(tail, rd.input.count + |data|), rd.formatLabel)
  {
    Split(data, tail);
    var r := ReadBytesFixed(rd, dst, dstOff, |data|);
    OverwriteIs(r.value.value.buf, dst, dstOff, data);
  }

  /** A fixed array comes back into any array that has room for it. */
  lemma FixedRoundTrip(w: Writer, rd: Reader, src: seq<byte>, srcOff: int32, len: int32,
                       dst: seq<byte>, dstOff: nat, tail: seq<byte>)
    requires Synced(w, rd) && InBounds(|src|, srcOff, len) && dstOff + len <= |dst| <= MaxArrayLength
    requires rd.input.rest == Emitted(w, WriteBytesFixed(w, Some(src), srcOff, len).value) + tail
    ensures ReadBytesFixed(rd, dst, dstOff, len).Ok?
    ensures ReadBytesFixed(rd, dst, dstOff, len).value.value
            == Stored(len, Overwrite(dst, dstOff, src[srcOff..srcOff + len]))
    ensures ReadBytesFixed(rd, dst, dstOff, len).value.next == After(WriteBytesFixed(w, Some(src), srcOff, len).value, tail)
  {
    var w2 := WriteBytesFixed(w, Some(src), srcOff, len).value;
    assert Emitted(w, w2) == src[srcOff..srcOff + len];
    ReadFixedOf(rd, src[srcOff..srcOff + len], tail, dst, dstOff);
  }

  /** What `WriteBytesConformant` appends after the maximum count when the
      whole buffer is written. */
  lemma EmittedConformant(w: Writer, src: seq<byte>, max: int32)
    requires Ready(w.formatLabel) && |src| <= max
    ensures var w1 := WriteInt(w, max).value;
            var w2 := WriteBytesConformant(w, Some(src), 0, |src|, max).value;
            && w.out.sink <= w1.out.sink <= w2.out.sink
            && Emitted(w1, w2) == src + Zeros(max - |src|)
            && w2.out.count == w1.out.count + max
            && w2.formatLabel == w.formatLabel
  {
    assert src[0..|src|] == src;
  }

  /** A conformant array written from a whole buffer comes back as the
      buffer followed by zeros up to the maximum count. */
  lemma ConformantRoundTrip(w: Writer, rd: Reader, src: seq<byte>, max: int32,
                            dst: seq<byte>, dstOff: nat, tail: seq<byte>)
    requires Ready(w.formatLabel) && Synced(w, rd) && |src| <= max && dstOff + max <= |dst| <= MaxArrayLength
    requires rd.input.rest == Emitted(w, WriteBytesConformant(w, Some(src), 0, |src|, max).value) + tail
    ensures ReadBytesConformant(rd, dst, dstOff).Ok?
    ensures ReadBytesConformant(rd, dst, dstOff).value.value
            == Stored(max, Overwrite(dst, dstOff, src + Zeros(max - |src|)))
    ensures ReadBytesConformant(rd, dst, dstOff).value.next
            == After(WriteBytesConformant(w, Some(src), 0, |src|, max).value, tail)
  {
    var w1 := WriteInt(w, max).value;
    var w2 := WriteBytesConformant(w, Some(src), 0, |src|, max).value;
    var body := src + Zeros(max - |src|);
    assert |body| == max;
    EmittedConformant(w, src, max);
    EmittedChain(w, w1, w2);
    Assoc(Emitted(w, w1), body, tail);
    assert rd.input.rest == Emitted(w, w1) + (body + tail);
    IntRoundTrip(w, rd, max, body + tail);
    var rd1 := After(w1, body + tail);
    assert ReadInt(rd).value == Step(max, rd1);
    ReadFixedOf(rd1, body, tail, dst, dstOff);
    assert ReadBytesConformant(rd, dst, dstOff) == ReadBytesFixed(rd1, dst, dstOff, max);
    assert After(w2, tail) == Reader(InStream(tail, rd1.input.count + |body|), rd1.formatLabel);
  }

  /** As written, a slice shorter than its buffer leaves the array short:
      with nothing after it in the stream, reading it back fails. */
  lemma ConformantPartialSliceFails(w: Writer, rd: Reader, src: seq<byte>, off: int32, len: int32, max: int32,
                                    dst: seq<byte>, dstOff: nat)
    requires Ready(w.formatLabel) && Synced(w, rd) && InBounds(|src|, off, len) && len < |src| <= max
    requires dstOff + max <= |dst| <= MaxArrayLength
    requires rd.input.rest == Emitted(w, WriteBytesConformant(w, Some(src), off, len, max).value)
    ensures ReadBytesConformant(rd, dst, dstOff) == Err(IO)
  {
    var w1 := WriteInt(w, max).value;
    var w2 := WriteBytesConformant(w, Some(src), off, len, max).value;
    var body := src[off..off + len] + Zeros(max - |src|);
    assert |body| < max;
    assert w2.out.sink == w1.out.sink + body;
    EmittedChain(w, w1, w2);
    assert Emitted(w1, w2) == body;
    assert rd.input.rest == Emitted(w, w1) + (body + []);
    IntRoundTrip(w, rd, max, body + []);
    var rd1 := After(w1, body + []);
    assert ReadInt(rd).value == Step(max, rd1);
    assert ReadBytesConformant(rd, dst, dstOff) == ReadBytesFixed(rd1, dst, dstOff, max);
  }

  /** The buffer `[1, 2, 3, 4]` written as a conformant array of maximum
      count 4 from offset 0 with length 2 cannot be read back. */
  lemma ConformantPartialSliceExample(w: Writer, dst: seq<byte>)
    requires Ready(w.formatLabel) && 4 <= |dst| <= MaxArrayLength
    ensures var w2 := WriteBytesConformant(w, Some([1, 2, 3, 4]), 0, 2, 4).value;
            ReadBytesConformant(Reader(InStream(Emitted(w, w2), w.out.count), w.formatLabel), dst, 0) == Err(IO)
  {
    var w2 := WriteBytesConformant(w, Some([1, 2, 3, 4]), 0, 2, 4).value;
    ConformantPartialSliceFails(w, Reader(InStream(Emitted(w, w2), w.out.count), w.formatLabel), [1, 2, 3, 4], 0, 2, 4, dst, 0);
  }

  /** The intended conformant array: any slice comes back followed by zeros
      up to the maximum count. */
  lemma ConformantIntendedRoundTrip(w: Writer, rd: Reader, src: seq<byte>, off: int32, len: int32, max: int32,
                                    dst: seq<byte>, dstOff: nat, tail: seq<byte>)
    requires Ready(w.formatLabel) && Synced(w, rd) && InBounds(|src|, off, len) && len <= max
    requires dstOff + max <= |dst| <= MaxArrayLength
    requires rd.input.rest == Emitted(w, WriteBytesConformantIntended(w, Some(src), off, len, max).value) + tail
    ensures ReadBytesConformant(rd, dst, dstOff).Ok?
    ensures ReadBytesConformant(rd, dst, dstOff).value.value
            == Stored(max, Overwrite(dst, dstOff, src[off..off + len] + Zeros(max - len)))
    ensures ReadBytesConformant(rd, dst, dstOff).value.next
            == After(WriteBytesConformantIntended(w, Some(src), off, len, max).value, tail)
  {
    var w1 := WriteInt(w, max).value;
    var w2 := WriteBytesConformantIntended(w, Some(src), off, len, max).value;
    var body := src[off..off + len] + Zeros(max - len);
    assert |body| == max;
    assert w2.out.sink == w1.out.sink + body;
    EmittedChain(w, w1, w2);
    assert Emitted(w1, w2) == body;
    assert rd.input.rest == Emitted(w, w1) + (body + tail);
    IntRoundTrip(w, rd, max, body + tail);
    var rd1 := After(w1, body + tail);
    assert ReadInt(rd).value == Step(max, rd1);
    ReadFixedOf(rd1, body, tail, dst, dstOff);
    assert ReadBytesConformant(rd, dst, dstOff) == ReadBytesFixed(rd1, dst, dstOff, max);
    assert After(w2, tail) == Reader(InStream(tail, rd1.input.count + |body|), rd1.formatLabel);
  }

  /** Reading the two headers of a varying array: its offset and its actual
      count, each written as a 4-byte integer. */
  lemma ReadVaryingHeader(w: Writer, rd: Reader, ndrOffset: int32, len: int32, rest: seq<byte>)
    requires Ready(w.formatLabel) && Synced(w, rd)
    requires rd.input.rest == Emitted(w, WriteInt(WriteInt(w, ndrOffset).value, len).value) + rest
    ensures ReadInt(rd).Ok? && ReadInt(rd).value.value == ndrOffset
    ensures ReadInt(ReadInt(rd).value.next).Ok? && ReadInt(ReadInt(rd).value.next).value.value == len
    ensures ReadInt(ReadInt(rd).value.next).value.next == After(WriteInt(WriteInt(w, ndrOffset).value, len).value, rest)
  {
    var w1 := WriteInt(w, ndrOffset).value;
    var w2 := WriteInt(w1, len).value;
    EmittedChain(w, w1, w2);
    assert rd.input.rest == Emitted(w, w1) + (Emitted(w1, w2) + rest);
    IntRoundTrip(w, rd, ndrOffset, Emitted(w1, w2) + rest);
    IntRoundTrip(w1, After(w1, Emitted(w1, w2) + rest), len, rest);
  }

  /** The bulk read of a varying array whose bytes are next in the stream. */
  lemma ReadVaryingBodyOf(rd: Reader, data: seq<byte>, tail: seq<byte>, dst: seq<byte>, store: int32,
                          off: int32, len: int32)
    requires |data| == len && rd.input.rest == data + tail
    requires 0 <= store + off && store + off + len <= |dst| <= MaxArrayLength
    ensures ReadVaryingBody(rd, dst, store, off, len).Ok?
    ensures ReadVaryingBody(rd, dst, store, off, len).value.value == Stored(AddInt(off, len), Overwrite(dst, store + off, data))
    ensures ReadVaryingBody(rd, dst, store, off, len).value.next == Reader(InStream(tail, rd.input.count + |data|), rd.formatLabel)
  {
    ReadFixedOf(rd, data, tail, dst, store + off);
  }

  /** A varying array comes back at its offset, and the count returned is
      offset plus actual count. */
  lemma VaryingRoundTrip(w: Writer, rd: Reader, src: seq<byte>, srcOff: int32, len: int32, ndrOffset: int32,
                         dst: seq<byte>, store: int32, tail: seq<byte>)
    requires Ready(w.formatLabel) && Synced(w, rd) && InBounds(|src|, srcOff, len)
    requires 0 <= store + ndrOffset && store + ndrOffset + len <= |dst| <= MaxArrayLength
    requires rd.input.rest == Emitted(w, WriteBytesVarying(w, Some(src), srcOff, len, ndrOffset).value) + tail
    ensures ReadBytesVarying(rd, dst, store).Ok?
    ensures ReadBytesVarying(rd, dst, store).value.value
            == Stored(AddInt(ndrOffset, len), Overwrite(dst, store + ndrOffset, src[srcOff..srcOff + len]))
    ensures ReadBytesVarying(rd, dst, store).value.next
            == After(WriteBytesVarying(w, Some(src), srcOff, len, ndrOffset).value, tail)
  {
    var wh := WriteInt(WriteInt(w, ndrOffset).value, len).value;
    var w2 := WriteBytesVarying(w, Some(src), srcOff, len, ndrOffset).value;
    var data := src[srcOff..srcOff + len];
    assert w2.out.sink == wh.out.sink + data;
    EmittedChain(w, wh, w2);
    assert Emitted(wh, w2) == data;
    Assoc(Emitted(w, wh), data, tail);
    assert rd.input.rest == Emitted(w, wh) + (data + tail);
    ReadVaryingHeader(w, rd, ndrOffset, len, data + tail);
    var rd2 := After(wh, data + tail);
    assert ReadBytesVarying(rd, dst, store) == ReadVaryingBody(rd2, dst, store, ndrOffset, len);
    ReadVaryingBodyOf(rd2, data, tail, dst, store, ndrOffset, len);
    assert After(w2, tail) == Reader(InStream(tail, rd2.input.count + |data|), rd2.formatLabel);
  }

  /** A conformant varying array is its maximum count followed by a varying
      array. */
  lemma EmittedConformantVarying(w: Writer, src: seq<byte>, srcOff: int32, len: int32, max: int32, ndrOffset: int32)
    requires Ready(w.formatLabel) && InBounds(|src|, srcOff, len) && len <= max
    ensures WriteBytesConformantVarying(w, Some(src), srcOff, len, max, ndrOffset).Ok?
    ensures var w1 := WriteInt(w, max).value;
            var w2 := WriteBytesConformantVarying(w, Some(src), srcOff, len, max, ndrOffset).value;
            && w2 == WriteBytesVarying(w1, Some(src), srcOff, len, ndrOffset).value
            && w.out.sink <= w1.out.sink <= w2.out.sink
  {
  }

  /** Once its maximum count is read, a conformant varying array is read as
      a varying one; the source then checks the count returned against the
      maximum. */
  lemma ReadConformantVaryingOf(rd: Reader, rd1: Reader, max: int32, dst: seq<byte>, store: int32)
    requires ReadInt(rd) == Ok(Step(max, rd1)) && 0 <= store + max <= |dst|
    ensures ReadBytesVarying(rd1, dst, store).Ok? && ReadBytesVarying(rd1, dst, store).value.value.count <= max ==>
            ReadBytesConformantVarying(rd, dst, store) == ReadBytesVarying(rd1, dst, store)
  {
  }

  /** A conformant varying array comes back like a varying one when its
      offset and count fit the maximum. */
  lemma ConformantVaryingRoundTrip(w: Writer, rd: Reader, src: seq<byte>, srcOff: int32, len: int32, max: int32,
                                   ndrOffset: int32, dst: seq<byte>, store: int32, tail: seq<byte>)
    requires Ready(w.formatLabel) && Synced(w, rd) && InBounds(|src|, srcOff, len)
    requires 0 <= ndrOffset && ndrOffset + len <= max && 0 <= store + ndrOffset && store + max <= |dst| <= MaxArrayLength
    requires rd.input.rest == Emitted(w, WriteBytesConformantVarying(w, Some(src), srcOff, len, max, ndrOffset).value) + tail
    ensures ReadBytesConformantVarying(rd, dst, store).Ok?
    ensures ReadBytesConformantVarying(rd, dst, store).value.value
            == Stored(ndrOffset + len, Overwrite(dst, store + ndrOffset, src[srcOff..srcOff + len]))
    ensures ReadBytesConformantVarying(rd, dst, store).value.next
            == After(WriteBytesConformantVarying(w, Some(src), srcOff, len, max, ndrOffset).value, tail)
  {
    var w1 := WriteInt(w, max).value;
    var w2 := WriteBytesConformantVarying(w, Some(src), srcOff, len, max, ndrOffset).value;
    EmittedConformantVarying(w, src, srcOff, len, max, ndrOffset);
    Peel(w, w1, w2, rd, tail);
    IntRoundTrip(w, rd, max, Emitted(w1, w2) + tail);
    var rd1 := After(w1, Emitted(w1, w2) + tail);
    VaryingRoundTrip(w1, rd1, src, srcOff, len, ndrOffset, dst, store, tail);
    var inner := ReadBytesVarying(rd1, dst, store);
    assert AddInt(ndrOffset, len) == ndrOffset + len;
    assert inner.value.value.count <= max;
    ReadConformantVaryingOf(rd, rd1, max, dst, store);
    assert ReadBytesConformantVarying(rd, dst, store) == inner;
  }



  // --------------------------------------------------------------- strings

  /** The terminated encoding of `text`, next in the stream, reads back as
      `text`. */
  lemma ReadTerminatedOf(input: InStream, cs: Charset, text: string, tail: seq<byte>)
    requires Representable(cs, text)
    requires input.rest == (Encode(cs, text) + [0]) + tail
    ensures ReadTerminated(input, cs, |text| + 1).Ok?
    ensures ReadTerminated(input, cs, |text| + 1).value.value == text
    ensures ReadTerminated(input, cs, |text| + 1).value.next == InStream(tail, input.count + |text| + 1)
  {
    var field := Encode(cs, text) + [0];
    Split(field, tail);
    assert input.rest[|text|] == 0;
    assert (input.rest[..|text| + 1] + Zeros(0))[..|text|] == Encode(cs, text);
    DecodeEncode(cs, text);
  }

  /** A string written as a varying array at offset 0 reads back unchanged
      when its characters survive the label's charset. */
  lemma StringVaryingRoundTrip(w: Writer, rd: Reader, cs: Charsets, text: string, tail: seq<byte>)
    requires Ready(w.formatLabel) && Synced(w, rd) && |text| + 1 < 0x8000_0000
    requires Representable(cs.Of(w.formatLabel.value.character.value), text)
    requires rd.input.rest == Emitted(w, WriteStringVarying(w, cs, text, 0).value) + tail
    ensures ReadStringVarying(rd, cs).Ok?
    ensures ReadStringVarying(rd, cs).value.value == text
    ensures ReadStringVarying(rd, cs).value.next == After(WriteStringVarying(w, cs, text, 0).value, tail)
  {
    var l := w.formatLabel.value;
    var bytes := Terminated(cs, l, text);
    var len: int32 := |bytes|;
    var wh := WriteInt(WriteInt(w, 0).value, len).value;
    var w2 := WriteStringVarying(w, cs, text, 0).value;
    assert w2 == WriteBytesVarying(w, Some(bytes), 0, len, 0).value;
    assert bytes[0..len] == bytes;
    assert w2.out.sink == wh.out.sink + bytes;
    EmittedChain(w, wh, w2);
    Assoc(Emitted(w, wh), bytes, tail);
    assert rd.input.rest == Emitted(w, wh) + (bytes + tail);
    ReadVaryingHeader(w, rd, 0, len, bytes + tail);
    var rd2 := After(wh, bytes + tail);
    var c := cs.Of(l.character.value);
    assert bytes == Encode(c, text) + [0];
    ReadTerminatedOf(rd2.input, c, text, tail);
    assert ReadStringVarying(rd, cs)
           == Ok(Step(ReadTerminated(rd2.input, c, len).value.value,
                      Reader(ReadTerminated(rd2.input, c, len).value.next, rd.formatLabel)));
    assert After(w2, tail) == Reader(InStream(tail, rd2.input.count + len), rd.formatLabel);
  }

  /** `readStringVarying` refuses any positive offset, whatever follows. */
  lemma StringPositiveOffsetUnsupported(w: Writer, rd: Reader, cs: Charsets, text: string, ndrOffset: int32,
                                        tail: seq<byte>)
    requires Ready(w.formatLabel) && Synced(w, rd) && |text| + 1 < 0x8000_0000 && ndrOffset > 0
    requires rd.input.rest == Emitted(w, WriteStringVarying(w, cs, text, ndrOffset).value) + tail
    ensures ReadStringVarying(rd, cs) == Err(Unsupported)
  {
    var bytes := Terminated(cs, w.formatLabel.value, text);
    var len: int32 := |bytes|;
    var wh := WriteInt(WriteInt(w, ndrOffset).value, len).value;
    var w2 := WriteStringVarying(w, cs, text, ndrOffset).value;
    assert w2 == WriteBytesVarying(w, Some(bytes), 0, len, ndrOffset).value;
    assert bytes[0..len] == bytes;
    assert w2.out.sink == wh.out.sink + bytes;
    EmittedChain(w, wh, w2);
    Assoc(Emitted(w, wh), bytes, tail);
    ReadVaryingHeader(w, rd, ndrOffset, len, bytes + tail);
  }

  /** A string written as a conformant varying array reads back unchanged,
      its length being within the maximum count. */
  lemma StringConformantVaryingRoundTrip(w: Writer, rd: Reader, cs: Charsets, text: string, max: int32,
                                         tail: seq<byte>)
    requires Ready(w.formatLabel) && Synced(w, rd) && |text| + 1 <= max
    requires Representable(cs.Of(w.formatLabel.value.character.value), text)
    requires rd.input.rest == Emitted(w, WriteStringConformantVarying(w, cs, text, max, 0).value) + tail
    ensures ReadStringConformantVarying(rd, cs).Ok?
    ensures ReadStringConformantVarying(rd, cs).value.value == text
    ensures ReadStringConformantVarying(rd, cs).value.next
            == After(WriteStringConformantVarying(w, cs, text, max, 0).value, tail)
  {
    var bytes := Terminated(cs, w.formatLabel.value, text);
    var w1 := WriteInt(w, max).value;
    var w2 := WriteStringConformantVarying(w, cs, text, max, 0).value;
    assert w2 == WriteStringVarying(w1, cs, text, 0).value;
    assert w.out.sink <= w1.out.sink <= w2.out.sink;
    EmittedChain(w, w1, w2);
    Assoc(Emitted(w, w1), Emitted(w1, w2), tail);
    assert rd.input.rest == Emitted(w, w1) + (Emitted(w1, w2) + tail);
    IntRoundTrip(w, rd, max, Emitted(w1, w2) + tail);
    var rd1 := After(w1, Emitted(w1, w2) + tail);
    assert ReadInt(rd).value == Step(max, rd1);
    StringVaryingRoundTrip(w1, rd1, cs, text, tail);
    var inner := ReadStringVarying(rd1, cs);
    assert inner.Ok? && |inner.value.value| <= max;
    assert ReadStringConformantVarying(rd, cs) == inner;
  }

  // -------------------------------------------------------------- pointers

  /** The reader's view of the writer's referent map: the bytes under each ID. */
  function Payloads(refs: map<int, Referent>): (r: map<int, seq<byte>>)
    ensures r.Keys == refs.Keys
    ensures forall k | k in refs :: r[k] == refs[k].payload
  {
    map k | k in refs :: refs[k].payload
  }

  /** Adding a referent on the writer's side adds its bytes on the reader's. */
  lemma PayloadsInsert(refs: map<int, Referent>, id: int, x: Referent)
    ensures Payloads(refs[id := x]) == Payloads(refs)[id := x.payload]
  {
    var a, b := Payloads(refs[id := x]), Payloads(refs)[id := x.payload];
    assert a.Keys == b.Keys;
    assert forall k | k in a :: a[k] == b[k];
  }

  /** A null pointer reads back as an empty referent and leaves the map alone. */
  lemma NullReferenceRoundTrip(w: Writer, rd: Reader, refs: map<int, Referent>, expected: int32, tail: seq<byte>)
    requires Ready(w.formatLabel) && Synced(w, rd)
    requires rd.input.rest == Emitted(w, WriteInt(w, 0).value) + tail
    ensures ReadReference(rd, Payloads(refs), expected) == Ok(Step(Pointee([], Payloads(refs)), After(WriteInt(w, 0).value, tail)))
  {
    IntRoundTrip(w, rd, 0, tail);
  }

  /** A pointer to a referent already in the map is just its ID; reading it
      returns the stored bytes without consuming any more of the stream. */
  lemma KnownReferenceRoundTrip(w: Writer, rd: Reader, refs: map<int, Referent>, k: int, expected: int32,
                                tail: seq<byte>)
    requires Ready(w.formatLabel) && Synced(w, rd)
    requires k in refs && k != 0 && InSigned(k, 4)
    requires rd.input.rest == Emitted(w, WriteNumber(w, k, 4).value) + tail
    ensures ReadReference(rd, Payloads(refs), expected)
            == Ok(Step(Pointee(refs[k].payload, Payloads(refs)), After(WriteNumber(w, k, 4).value, tail)))
  {
    IntRoundTrip(w, rd, k, tail);
  }

  /** A pointer to a new referent is the fresh ID `size + 1` followed by the
      referent's bytes; reading it with the referent's size returns those
      bytes and records them under the same ID as the writer did. */
  lemma NewReferenceRoundTrip(w: Writer, rd: Reader, refs: map<int, Referent>, x: Referent, tail: seq<byte>)
    requires Ready(w.formatLabel) && Synced(w, rd) && Dense(refs) && InSigned(|refs| + 1, 4)
    requires |x.payload| <= MaxArrayLength
    requires rd.input.rest
             == Emitted(w, WriteBytesFixed(WriteNumber(w, |refs| + 1, 4).value, Some(x.payload), 0, |x.payload|).value)
                + tail
    ensures ReadReference(rd, Payloads(refs), |x.payload|).Ok?
    ensures ReadReference(rd, Payloads(refs), |x.payload|).value.value
            == Pointee(x.payload, Payloads(refs[|refs| + 1 := x]))
    ensures ReadReference(rd, Payloads(refs), |x.payload|).value.next
            == After(WriteBytesFixed(WriteNumber(w, |refs| + 1, 4).value, Some(x.payload), 0, |x.payload|).value, tail)
  {
    var id: int32 := |refs| + 1;
    var w1 := WriteInt(w, id).value;
    var w2 := WriteBytesFixed(w1, Some(x.payload), 0, |x.payload|).value;
    assert x.payload[0..|x.payload|] == x.payload;
    assert w2.out.sink == w1.out.sink + x.payload;
    EmittedChain(w, w1, w2);
    Assoc(Emitted(w, w1), x.payload, tail);
    assert rd.input.rest == Emitted(w, w1) + (x.payload + tail);
    IntRoundTrip(w, rd, id, x.payload + tail);
    var rd1 := After(w1, x.payload + tail);
    assert ReadInt(rd).value == Step(id, rd1);
    DenseInsert(refs, x);
    assert id !in Payloads(refs);
    Split(x.payload, tail);
    var r := ReadReference(rd, Payloads(refs), |x.payload|);
    assert r.Ok? && r.value.value.referent == x.payload;
    PayloadsInsert(refs, id, x);
    assert r.value.value.refs == Payloads(refs[id := x]);
    assert r.value.value == Pointee(x.payload, Payloads(refs[|refs| + 1 := x]));
    assert w2.out.count == w1.out.count + |x.payload| && w2.formatLabel == rd.formatLabel;
    assert r.value.next == After(w2, tail);
  }
}

=== FILE: ndr_serializable.dfy ===
/** `NDRSerializable` and the two delegating calls of the writer and the
    reader.  The interface is closed here over its three implementations in
    the core: `UUID`, `PDUFlags` and `PDUConnectionlessHeader`.  A `Kind`
    stands for the `Class` object handed to `read`.
 */
module NdrSerializables {
  import opened Wrappers
  import opened Bytes
  import opened FormatLabels
  import opened NdrWriter
  import opened NdrReader
  import opened NdrRoundTrip
  import PduFlags
  import Uuids
  import PduHeader

  datatype Serializable =
    | UuidValue(uuid: Uuids.Uuid)
    | FlagsValue(flags: PduFlags.Flags)
    | HeaderValue(header: PduHeader.Header)

  datatype Kind = UuidKind | FlagsKind | HeaderKind

  function KindOf(x: Serializable): Kind {
    match x
    case UuidValue(_) => UuidKind
    case FlagsValue(_) => FlagsKind
    case HeaderValue(_) => HeaderKind
  }

  /** When an object's `ndrSerialize` goes through: a UUID needs a ready
      label on the writer, a header needs every field set (it brings its own
      label), the flags always write. */
  predicate Writable(w: Writer, x: Serializable) {
    match x
    case UuidValue(_) => Ready(w.formatLabel)
    case FlagsValue(_) => true
    case HeaderValue(h) => PduHeader.Complete(h)
  }

  /** `NDRWriter.write(ndrSerializable)`: the object writes itself; a null
      object throws. */
  function Write(w: Writer, x: Option<Serializable>): (r: Result<Writer>)
    ensures x.None? ==> r == Err(NullPointer)
    ensures x.Some? ==> (r.Ok? <==> Writable(w, x.value))
    ensures r.Ok? ==> w.out.sink <= r.value.out.sink
    ensures r.Ok? && !x.value.HeaderValue? ==> r.value.formatLabel == w.formatLabel
  {
    match x
    case None => Err(NullPointer)
    case Some(UuidValue(u)) => Uuids.Serialize(w, u)
    case Some(FlagsValue(f)) => Ok(PduFlags.Serialize(w, f))
    case Some(HeaderValue(h)) => PduHeader.Serialize(w, h)
  }

  /** `NDRReader.read(Class)`: a new instance of the class reads itself and
      is returned. */
  function Read(rd: Reader, k: Kind): (r: Result<Step<Serializable>>)
    ensures r.Ok? ==> KindOf(r.value.value) == k
    ensures k == UuidKind && !Ready(rd.formatLabel) ==> r == Err(IllegalState)
  {
    match k
    case UuidKind =>
      var s :- Uuids.Deserialize(rd);
      Ok(Step(UuidValue(s.value), s.next))
    case FlagsKind =>
      var s :- PduFlags.Deserialize(rd);
      Ok(Step(FlagsValue(s.value), s.next))
    case HeaderKind =>
      var s :- PduHeader.Deserialize(rd);
      Ok(Step(HeaderValue(s.value), s.next))
  }

  /** The bytes whose single-byte read would come back as -1 are absent. */
  predicate ReadsBack(x: Serializable) {
    match x
    case UuidValue(u) => PduHeader.ClockClear(u)
    case FlagsValue(f) => f.flags1 != 0xFF && f.flags2 != 0xFF
    case HeaderValue(h) => PduHeader.Complete(h) && PduHeader.SingleBytesClear(h)
  }

  /** What a written object reads back as: a header comes back with version
      4 and its serial number rebuilt from its two bytes as
      `ndrDeserialize` does it; anything else comes back unchanged. */
  function ReadBack(x: Serializable): (r: Serializable)
    ensures KindOf(r) == KindOf(x)
    ensures !x.HeaderValue? ==> r == x
  {
    match x
    case HeaderValue(h) =>
      var s := h.serialNumber;
      HeaderValue(h.(rpcVersion := PduHeader.RpcVersion,
                     serialNumber := PduHeader.SerialAsWritten(PduHeader.SerialHigh(s), PduHeader.SerialLow(s))))
    case _ => x
  }

  /** Whatever `write` puts on a stream, `read` of the same class takes off
      it, and leaves the reader where the writer stopped.  A header sets its
      own label, so the reader's label only matters for the other two. */
  lemma RoundTrip(w: Writer, rd: Reader, x: Serializable, tail: seq<byte>)
    requires Writable(w, x) && ReadsBack(x) && rd.input.count == w.out.count
    requires !x.HeaderValue? ==> rd.formatLabel == w.formatLabel
    requires rd.input.rest == Emitted(w, Write(w, Some(x)).value) + tail
    ensures Read(rd, KindOf(x)) == Ok(Step(ReadBack(x), After(Write(w, Some(x)).value, tail)))
  {
    match x
    case UuidValue(u) =>
      Uuids.SerializeRoundTrip(w, rd, u, tail);
    case FlagsValue(f) =>
      PduFlags.SerializeRoundTrip(w, rd, f, tail);
    case HeaderValue(h) =>
      var s := h.serialNumber;
      var hi, lo := PduHeader.SerialHigh(s), PduHeader.SerialLow(s);
      PduHeader.SerializeRoundTrip(w, rd, h, tail);
      PduHeader.SerialAsWrittenRoundTrip(s);
      PduHeader.SerialAsWrittenValue(hi, lo);
  }

}

=== FILE: ndr_writer.dfy ===
/** `NDRWriter`: marshals primitives, byte arrays, strings and pointers into
    an NDR byte stream (chapter 14 of C706).

    Every operation maps a writer state to a new one or to the exception the
    source throws.  A failed operation returns no state: the bytes the source
    may already have emitted before throwing are not tracked.
 */
module NdrWriter {
  import opened Wrappers
  import opened Bytes
  import opened FormatLabels
  import opened AlignedStreams
  import opened NdrNumbers

  /** The output stream with its counter, and the active format label. */
  datatype Writer = Writer(out: OutStream, formatLabel: Option<FormatLabel>)

  /** `new NDRWriter(outputStream)`: nothing written, no label. */
  const NewWriter := Writer(EmptyOut, None)

  /** The bytes `w2` holds beyond `w1`. */
  function Emitted(w1: Writer, w2: Writer): seq<byte>
    requires |w1.out.sink| <= |w2.out.sink|
  {
    w2.out.sink[|w1.out.sink|..]
  }

  function SetFormatLabel(w: Writer, l: Option<FormatLabel>): (r: Writer)
    ensures r.formatLabel == l && r.out == w.out
  {
    w.(formatLabel := l)
  }

  /** `writeFormatLabel(n)`: the active label as `toByteArray(n)`, unaligned. */
  function WriteFormatLabel(w: Writer, n: int): (r: Result<Writer>)
    ensures !Ready(w.formatLabel) ==> r == Err(IllegalState)
    ensures Ready(w.formatLabel) && n < 0 ==> r == Err(NegativeArraySize)
    ensures Ready(w.formatLabel) && 0 <= n < MinFormatLabelLength ==> r == Err(IllegalArgument)
    ensures r.Ok? <==> Ready(w.formatLabel) && n >= MinFormatLabelLength
    ensures r.Ok? ==> r.value.formatLabel == w.formatLabel && r.value.out.count == w.out.count + n
    ensures r.Ok? ==> r.value.out.sink == w.out.sink + ToByteArray(w.formatLabel.value, n).value
    ensures r.Ok? ==> Parse(Some(Emitted(w, r.value)), 0) == Ok(w.formatLabel.value)
  {
    var l :- VerifyFormatLabel(w.formatLabel);
    var bytes :- ToByteArray(l, n);
    ParseToByteArray(l, n);
    Ok(w.(out := WriteAll(w.out, bytes)))
  }

  /** `writeBoolean`: one unaligned byte, 0x01 for true and 0x00 for false. */
  function WriteBoolean(w: Writer, b: bool): (r: Writer)
    ensures r.formatLabel == w.formatLabel && r.out.count == w.out.count + 1
    ensures |r.out.sink| == |w.out.sink| + 1 && r.out.sink[..|w.out.sink|] == w.out.sink
    ensures r.out.sink[|w.out.sink|] != 0 <==> b
    ensures r.out.sink[|w.out.sink|] < 2
  {
    w.(out := WriteOne(w.out, if b then 0x01 else 0x00))
  }

  /** `writeByte`: one unaligned byte. */
  function WriteByte(w: Writer, b: byte): (r: Writer)
    ensures r.formatLabel == w.formatLabel && r.out.count == w.out.count + 1
    ensures r.out.sink == w.out.sink + [b]
  {
    w.(out := WriteOne(w.out, b))
  }

  /** `r` is `w` followed by zero padding up to the alignment of a
      `size`-byte number and then the low `size` bytes of `v` in the byte
      order of `w`'s label. */
  predicate NumberAppended(w: Writer, r: Writer, v: int, size: nat)
    requires size >= 1 && Ready(w.formatLabel)
  {
    var pad := Padding(w.out.count, Alignment(size));
    && r.formatLabel == w.formatLabel
    && r.out.count == w.out.count + pad + size
    && r.out.sink == w.out.sink + Zeros(pad) + EncodeNumber(w.formatLabel.value.integer.value, Wrap(v, size), size)
  }

  /** `writeNumber(value, size)`: zero padding to `min(8, size)`, then the low
      `size` bytes of `v` in the label's byte order. */
  function WriteNumber(w: Writer, v: int, size: nat): (r: Result<Writer>)
    requires size >= 1
    ensures !Ready(w.formatLabel) <==> r == Err(IllegalState)
    ensures r.Ok? ==> NumberAppended(w, r.value, v, size)
  {
    var l :- VerifyFormatLabel(w.formatLabel);
    var aligned := WriteAlignment(w.out, Alignment(size));
    Ok(w.(out := WriteAll(aligned, EncodeNumber(l.integer.value, Wrap(v, size), size))))
  }

  /** The number itself starts at a multiple of its alignment. */
  lemma WriteNumberAligned(w: Writer, v: int, size: nat)
    requires size >= 1 && Ready(w.formatLabel)
    ensures (WriteNumber(w, v, size).value.out.count - size) % Alignment(size) == 0
  {
    PaddingAligns(w.out.count, Alignment(size));
  }

  /** `writeShort`: two bytes on a 2-byte boundary. */
  function WriteShort(w: Writer, v: int16): (r: Result<Writer>)
    ensures !Ready(w.formatLabel) <==> r == Err(IllegalState)
    ensures r.Ok? ==> NumberAppended(w, r.value, v, 2)
  {
    WriteNumber(w, v, 2)
  }

  /** `writeInt`: four bytes on a 4-byte boundary. */
  function WriteInt(w: Writer, v: int32): (r: Result<Writer>)
    ensures !Ready(w.formatLabel) <==> r == Err(IllegalState)
    ensures r.Ok? ==> NumberAppended(w, r.value, v, 4)
  {
    WriteNumber(w, v, 4)
  }

  /** `writeLong`: eight bytes on an 8-byte boundary. */
  function WriteLong(w: Writer, v: int64): (r: Result<Writer>)
    ensures !Ready(w.formatLabel) <==> r == Err(IllegalState)
    ensures r.Ok? ==> NumberAppended(w, r.value, v, 8)
  {
    WriteNumber(w, v, 8)
  }

  /** `writeFloat`: the raw IEEE-754 bits as a 4-byte number; the float
      sub-label is not consulted. */
  function WriteFloat(w: Writer, bits: int32): (r: Result<Writer>)
    ensures !Ready(w.formatLabel) <==> r == Err(IllegalState)
    ensures r.Ok? ==> NumberAppended(w, r.value, bits, 4)
  {
    WriteNumber(w, bits, 4)
  }

  /** `writeDouble`: the raw IEEE-754 bits as an 8-byte number. */
  function WriteDouble(w: Writer, bits: int64): (r: Result<Writer>)
    ensures !Ready(w.formatLabel) <==> r == Err(IllegalState)
    ensures r.Ok? ==> NumberAppended(w, r.value, bits, 8)
  {
    WriteNumber(w, bits, 8)
  }

  /** `writeBytesFixed`: the slice, unaligned and unchecked. */
  function WriteBytesFixed(w: Writer, buf: Option<seq<byte>>, off: int32, len: int32): (r: Result<Writer>)
    ensures buf.None? ==> r == Err(NullPointer)
    ensures r.Ok? <==> buf.Some? && InBounds(|buf.value|, off, len)
    ensures r.Ok? ==> r.value.formatLabel == w.formatLabel && r.value.out.count == w.out.count + len
    ensures r.Ok? ==> r.value.out.sink == w.out.sink + buf.value[off..off + len]
  {
    var out :- WriteSlice(w.out, buf, off, len);
    Ok(w.(out := out))
  }

  /** `verifyDataLength`: a non-null buffer, `len <= max`, and the slice end
      `off + len`, a Java `int` sum, inside the buffer, checked in that
      order. */
  function VerifyDataLength(buf: Option<seq<byte>>, off: int32, len: int32, max: int32): (r: Result<seq<byte>>)
    ensures r.Ok? <==> buf.Some? && len <= max && AddInt(off, len) <= |buf.value|
    ensures r.Err? ==> r.error == IllegalArgument
    ensures r.Ok? ==> r.value == buf.value
    ensures buf.Some? && len <= max && InBounds(|buf.value|, off, len) ==> r.Ok?
  {
    if buf.None? then Err(IllegalArgument)
    else if len > max then Err(IllegalArgument)
    else if AddInt(off, len) > |buf.value| then Err(IllegalArgument)
    else Ok(buf.value)
  }

  /** `writeBytesConformant`: the maximum count, the slice, then one zero byte
      for every position from the END OF THE WHOLE BUFFER up to `max`. */
  function WriteBytesConformant(w: Writer, buf: Option<seq<byte>>, off: int32, len: int32, max: int32): (r: Result<Writer>)
    ensures VerifyDataLength(buf, off, len, max).Err? ==> r == Err(IllegalArgument)
    ensures VerifyDataLength(buf, off, len, max).Ok? && !Ready(w.formatLabel) ==> r == Err(IllegalState)
    ensures r.Ok? <==> VerifyDataLength(buf, off, len, max).Ok? && Ready(w.formatLabel) && InBounds(|buf.value|, off, len)
    ensures r.Ok? ==>
      var header := WriteInt(w, max).value;
      && r.value.formatLabel == w.formatLabel
      && r.value.out.sink == header.out.sink + buf.value[off..off + len] + Zeros(if max > |buf.value| then max - |buf.value| else 0)
      && r.value.out.count == header.out.count + len + (if max > |buf.value| then max - |buf.value| else 0)
  {
    var bytes :- VerifyDataLength(buf, off, len, max);
    var header :- WriteInt(w, max);
    var body :- WriteBytesFixed(header, buf, off, len);
    Ok(body.(out := WriteAll(body.out, Zeros(if max > |bytes| then max - |bytes| else 0))))
  }

  /** `writeBytesConformant` as evidently intended: the padding fills the
      `max`-byte array after the `len` bytes actually written. */
  function WriteBytesConformantIntended(w: Writer, buf: Option<seq<byte>>, off: int32, len: int32, max: int32): (r: Result<Writer>)
    ensures r.Ok? <==> VerifyDataLength(buf, off, len, max).Ok? && Ready(w.formatLabel) && InBounds(|buf.value|, off, len)
    ensures r.Ok? ==>
      var header := WriteInt(w, max).value;
      && r.value.formatLabel == w.formatLabel
      && r.value.out.sink == header.out.sink + buf.value[off..off + len] + Zeros(max - len)
      && r.value.out.count == header.out.count + max
  {
    var _ :- VerifyDataLength(buf, off, len, max);
    var header :- WriteInt(w, max);
    var body :- WriteBytesFixed(header, buf, off, len);
    Ok(body.(out := WriteAll(body.out, Zeros(max - len))))
  }

  /** The two 4-byte counts in front of a varying array: its offset, then
      its actual count. */
  function VaryingHeader(w: Writer, ndrOffset: int32, len: int32): (r: Writer)
    requires Ready(w.formatLabel)
    ensures r.formatLabel == w.formatLabel
    ensures NumberAppended(w, WriteInt(w, ndrOffset).value, ndrOffset, 4)
    ensures NumberAppended(WriteInt(w, ndrOffset).value, r, len, 4)
  {
    WriteInt(WriteInt(w, ndrOffset).value, len).value
  }

  /** `writeBytesVarying`: the offset and the actual count, then the slice;
      nothing is validated first. */
  function WriteBytesVarying(w: Writer, buf: Option<seq<byte>>, off: int32, len: int32, ndrOffset: int32): (r: Result<Writer>)
    ensures !Ready(w.formatLabel) ==> r == Err(IllegalState)
    ensures r.Ok? <==> Ready(w.formatLabel) && buf.Some? && InBounds(|buf.value|, off, len)
    ensures r.Ok? ==>
      var header := VaryingHeader(w, ndrOffset, len);
      && r.value.formatLabel == w.formatLabel
      && r.value.out.sink == header.out.sink + buf.value[off..off + len]
      && r.value.out.count == header.out.count + len
  {
    var w1 :- WriteInt(w, ndrOffset);
    var w2 := WriteInt(w1, len).value;
    WriteBytesFixed(w2, buf, off, len)
  }

  /** `writeBytesConformantVarying`: validated like the conformant form, then
      the maximum count, the offset and the actual count, then the slice. */
  function WriteBytesConformantVarying(w: Writer, buf: Option<seq<byte>>, off: int32, len: int32, max: int32,
                                       ndrOffset: int32): (r: Result<Writer>)
    ensures VerifyDataLength(buf, off, len, max).Err? ==> r == Err(IllegalArgument)
    ensures VerifyDataLength(buf, off, len, max).Ok? && !Ready(w.formatLabel) ==> r == Err(IllegalState)
    ensures r.Ok? <==> VerifyDataLength(buf, off, len, max).Ok? && Ready(w.formatLabel) && InBounds(|buf.value|, off, len)
    ensures r.Ok? ==>
      var w1 := WriteInt(w, max).value;
      var header := VaryingHeader(w1, ndrOffset, len);
      && NumberAppended(w, w1, max, 4)
      && r.value.formatLabel == w.formatLabel
      && r.value.out.sink == header.out.sink + buf.value[off..off + len]
      && r.value.out.count == header.out.count + len
  {
    var _ :- VerifyDataLength(buf, off, len, max);
    var w1 :- WriteInt(w, max);
    WriteBytesVarying(w1, buf, off, len, ndrOffset)
  }

  /** The bytes of a string on the wire: its encoding plus a NUL terminator. */
  function Terminated(cs: Charsets, l: FormatLabel, text: string): (r: seq<byte>)
    requires l.IsInitialized()
    ensures |r| == |text| + 1 && r[|text|] == 0
    ensures r[..|text|] == Encode(cs.Of(l.character.value), text)
  {
    Encode(cs.Of(l.character.value), text) + [0]
  }

  /** Java arrays hold at most 2^31 - 1 bytes, so `length + 1` for the
      terminator wraps to a negative size only when the encoding already has
      that many; `Arrays.copyOf` then throws `NegativeArraySizeException`.
      Longer texts, which Java cannot hold, are treated alike. */
  function TerminatedLength(text: string): (r: Result<int32>)
    ensures r.Ok? <==> |text| < 0x7FFF_FFFF
    ensures r.Err? ==> r.error == NegativeArraySize
    ensures r.Ok? ==> r.value == |text| + 1
  {
    if |text| >= 0x7FFF_FFFF then Err(NegativeArraySize) else Ok(|text| + 1)
  }

  /** `writeStringVarying`: the terminated encoding as a varying array. */
  function WriteStringVarying(w: Writer, cs: Charsets, text: string, ndrOffset: int32): (r: Result<Writer>)
    ensures !Ready(w.formatLabel) ==> r == Err(IllegalState)
    ensures Ready(w.formatLabel) && |text| >= 0x7FFF_FFFF ==> r == Err(NegativeArraySize)
    ensures r.Ok? <==> Ready(w.formatLabel) && |text| < 0x7FFF_FFFF
    ensures r.Ok? ==>
      var header := VaryingHeader(w, ndrOffset, |text| + 1);
      && r.value.formatLabel == w.formatLabel
      && r.value.out.sink == header.out.sink + Encode(cs.Of(w.formatLabel.value.character.value), text) + [0]
      && r.value.out.count == header.out.count + |text| + 1
  {
    var l :- VerifyFormatLabel(w.formatLabel);
    var bytes := Terminated(cs, l, text);
    var len :- TerminatedLength(text);
    assert bytes[0..len] == bytes;
    WriteBytesVarying(w, Some(bytes), 0, len, ndrOffset)
  }

  /** `writeStringConformantVarying`: fails when the terminated encoding is
      longer than `max`. */
  function WriteStringConformantVarying(w: Writer, cs: Charsets, text: string, max: int32, ndrOffset: int32): (r: Result<Writer>)
    ensures !Ready(w.formatLabel) ==> r == Err(IllegalState)
    ensures Ready(w.formatLabel) && |text| >= 0x7FFF_FFFF ==> r == Err(NegativeArraySize)
    ensures Ready(w.formatLabel) && |text| < 0x7FFF_FFFF && |text| + 1 > max ==> r == Err(IllegalArgument)
    ensures r.Ok? <==> Ready(w.formatLabel) && |text| + 1 <= max
    ensures r.Ok? ==>
      var w1 := WriteInt(w, max).value;
      var header := VaryingHeader(w1, ndrOffset, |text| + 1);
      && NumberAppended(w, w1, max, 4)
      && r.value.formatLabel == w.formatLabel
      && r.value.out.sink == header.out.sink + Encode(cs.Of(w.formatLabel.value.character.value), text) + [0]
      && r.value.out.count == header.out.count + |text| + 1
  {
    var l :- VerifyFormatLabel(w.formatLabel);
    var bytes := Terminated(cs, l, text);
    var len :- TerminatedLength(text);
    var _ :- VerifyDataLength(Some(bytes), 0, len, max);
    assert bytes[0..len] == bytes;
    WriteBytesConformantVarying(w, Some(bytes), 0, len, max, ndrOffset)
  }

  // -------------------------------------------------------------- pointers

  /** A referent byte array with its object identity.  The source compares
      referents with `==`, that is by reference: two referents are the same
      array exactly when their identities agree, whatever their bytes. */
  datatype Referent = Referent(identity: nat, payload: seq<byte>)

  /** The referent map the source expects: keys exactly 1 .. size. */
  predicate Dense<V>(refs: map<int, V>) {
    && (forall k | k in refs :: 1 <= k <= |refs|)
    && (forall k | 1 <= k <= |refs| :: k in refs)
  }

  /** Adding under key size + 1 keeps a dense map dense and never collides. */
  lemma DenseInsert<V>(refs: map<int, V>, x: V)
    requires Dense(refs)
    ensures |refs| + 1 !in refs
    ensures Dense(refs[|refs| + 1 := x])
  {
    var refs' := refs[|refs| + 1 := x];
    assert |refs'| == |refs| + 1;
  }

  /** Whether a non-zero key of `refs` holds this very array. */
  predicate Known(refs: map<int, Referent>, x: Referent) {
    exists k :: k in refs && k != 0 && refs[k].identity == x.identity
  }

  /** `writeReference(map, referent)`: writes only the 4-byte reference ID.
      A null referent is ID 0.  Otherwise the map is searched for the
      referent by identity, in the map's iteration order (left open here);
      if it is absent, or found under key 0, it is put under the new key
      `size + 1`.  When that key was already taken the source throws
      `IllegalArgumentException`, after `put` has replaced the old entry. */
  method WriteReference(w: Writer, refs: map<int, Referent>, referent: Option<Referent>)
    returns (r: Result<Writer>, refs': map<int, Referent>)
    ensures referent.None? ==> refs' == refs && r == WriteInt(w, 0)
    ensures referent.Some? ==>
      || (refs' == refs && exists k :: k in refs && k != 0 && refs[k].identity == referent.value.identity && r == WriteNumber(w, k, 4))
      || (&& refs' == refs[|refs| + 1 := referent.value]
          && (if |refs| + 1 in refs then r == Err(IllegalArgument) else r == WriteNumber(w, |refs| + 1, 4)))
    ensures referent.Some? && !Known(refs, referent.value) ==> refs' == refs[|refs| + 1 := referent.value]
    ensures referent.Some? && Known(refs, referent.value) && Dense(refs) ==> refs' == refs
    ensures r.Ok? ==> referent.None? || Known(refs', referent.value)
    ensures Dense(refs) ==> Dense(refs') && r != Err(IllegalArgument)
  {
    if referent.None? {
      r, refs' := WriteInt(w, 0), refs;
      return;
    }
    var x := referent.value;
    var found: int := 0;
    if exists k :: k in refs && refs[k].identity == x.identity {
      // the first entry in iteration order that holds the referent
      found :| found in refs && refs[found].identity == x.identity;
    }
    if found != 0 {
      assert Known(refs, x);
      r, refs' := WriteNumber(w, found, 4), refs;
      return;
    }
    assert Dense(refs) ==> !Known(refs, x);
    var id := |refs| + 1;
    var replaced := id in refs;
    refs' := refs[id := x];
    assert Known(refs', x) by {
      assert id in refs' && id != 0 && refs'[id].identity == x.identity;
    }
    if Dense(refs) {
      DenseInsert(refs, x);
    }
    if replaced {
      r := Err(IllegalArgument);
    } else {
      r := WriteNumber(w, id, 4);
    }
  }
}

=== FILE: pdu_enums.dfy ===
/** The value tables of the PDU layer: `PDUType`,
    `AuthenticationProtocolId` and `PDURejectionCode`.  Each Java enum
    carries a wire value, and its static `parse` walks `values()` in
    declaration order and returns the first constant with the value, or
    throws an `IllegalArgumentException`.
 */
module PduEnums {
  import opened Wrappers
  import opened Bytes

  // ------------------------------------------------------ the enum lookup

  /** The first of `values` whose code is `v`: the loop over `values()`. */
  function Find<T>(values: seq<T>, code: T -> int, v: int): (r: Option<T>)
    ensures r.Some? ==> r.value in values && code(r.value) == v
    ensures r.None? <==> forall i | 0 <= i < |values| :: code(values[i]) != v
  {
    if |values| == 0 then None
    else if code(values[0]) == v then Some(values[0])
    else Find(values[1..], code, v)
  }

  /** No two of the values share a code. */
  predicate Distinct<T>(values: seq<T>, code: T -> int) {
    forall i, j | 0 <= i < j < |values| :: code(values[i]) != code(values[j])
  }

  /** With distinct codes, the lookup of a value's code finds that value. */
  lemma {:induction false} FindDistinct<T>(values: seq<T>, code: T -> int, i: nat)
    requires Distinct(values, code) && i < |values|
    ensures Find(values, code, code(values[i])) == Some(values[i])
    decreases i
  {
    if i > 0 {
      assert code(values[0]) != code(values[i]);
      assert Distinct(values[1..], code) by {
        forall a, b | 0 <= a < b < |values[1..]|
          ensures code(values[1..][a]) != code(values[1..][b])
        {
          assert values[1..][a] == values[a + 1] && values[1..][b] == values[b + 1];
        }
      }
      assert values[1..][i - 1] == values[i];
      FindDistinct(values[1..], code, i - 1);
    }
  }

  /** Codes that increase along the sequence are distinct. */
  lemma {:induction false} IncreasingDistinct<T>(values: seq<T>, code: T -> int)
    requires forall i | 0 < i < |values| :: code(values[i - 1]) < code(values[i])
    ensures Distinct(values, code)
  {
    forall i, j | 0 <= i < j < |values|
      ensures code(values[i]) < code(values[j])
    {
      Increasing(values, code, i, j);
    }
  }

  lemma {:induction false} Increasing<T>(values: seq<T>, code: T -> int, i: nat, j: nat)
    requires forall k | 0 < k < |values| :: code(values[k - 1]) < code(values[k])
    requires i < j < |values|
    ensures code(values[i]) < code(values[j])
    decreases j - i
  {
    if i + 1 < j {
      Increasing(values, code, i + 1, j);
    }
  }

  // -------------------------------------------------------------- PDUType

  /** `PDUType`. */
  datatype PduType =
    | Request | Ping | Response | Fault | Working | NoCall | Reject | Ack | ClCancel | Fack
    | CancelAck | Bind | BindAck | BindNack | AlterContext | AlterContextResp | Shutdown | CoCancel | Orphaned
  {
    /** `getValue`: the packet type byte. */
    function Value(): byte {
      match this
      case Request => 0
      case Ping => 1
      case Response => 2
      case Fault => 3
      case Working => 4
      case NoCall => 5
      case Reject => 6
      case Ack => 7
      case ClCancel => 8
      case Fack => 9
      case CancelAck => 10
      case Bind => 11
      case BindAck => 12
      case BindNack => 13
      case AlterContext => 14
      case AlterContextResp => 15
      case Shutdown => 17
      case CoCancel => 18
      case Orphaned => 19
    }
  }

  /** `PDUType.values()`, in declaration order. */
  const PduTypes: seq<PduType> := [Request, Ping, Response, Fault, Working, NoCall, Reject, Ack, ClCancel, Fack,
    CancelAck, Bind, BindAck, BindNack, AlterContext, AlterContextResp, Shutdown, CoCancel, Orphaned]

  function PduTypeValue(t: PduType): int {
    t.Value()
  }

  /** `PDUType.parse`. */
  function ParsePduType(v: byte): (r: Result<PduType>)
    ensures r.Ok? ==> r.value.Value() == v
    ensures r.Err? ==> r.error == IllegalArgument
  {
    match Find(PduTypes, PduTypeValue, v)
    case Some(t) => Ok(t)
    case None => Err(IllegalArgument)
  }

  /** Where a packet type stands in `values()`: its byte, less one above
      the gap at 16. */
  function PduTypeIndex(t: PduType): (i: nat)
    ensures i < |PduTypes| && PduTypes[i] == t
  {
    if t.Value() <= 15 then t.Value() else t.Value() - 1
  }

  lemma PduTypesDistinct()
    ensures Distinct(PduTypes, PduTypeValue)
  {
    forall i | 0 < i < |PduTypes|
      ensures PduTypeValue(PduTypes[i - 1]) < PduTypeValue(PduTypes[i])
    {
      PduTypeAt(i - 1);
      PduTypeAt(i);
    }
    IncreasingDistinct(PduTypes, PduTypeValue);
  }

  /** `parse` undoes `getValue`, so no two packet types share a byte. */
  lemma ParsePduTypeValue(t: PduType, u: PduType)
    ensures ParsePduType(t.Value()) == Ok(t)
    ensures t.Value() == u.Value() ==> t == u
  {
    PduTypesDistinct();
    FindDistinct(PduTypes, PduTypeValue, PduTypeIndex(t));
    FindDistinct(PduTypes, PduTypeValue, PduTypeIndex(u));
  }

  /** The bytes `parse` accepts: 0 to 15 and 17 to 19. */
  lemma ParsePduTypeAccepts(v: byte)
    ensures ParsePduType(v).Ok? <==> v <= 15 || 17 <= v <= 19
  {
    if v <= 15 || 17 <= v <= 19 {
      var i := if v <= 15 then v else v - 1;
      PduTypeAt(i);
    } else if ParsePduType(v).Ok? {
      PduTypeRange(ParsePduType(v).value);
    }
  }

  lemma PduTypeAt(i: nat)
    requires i < |PduTypes|
    ensures PduTypeValue(PduTypes[i]) == if i <= 15 then i else i + 1
  {
  }

  lemma PduTypeRange(t: PduType)
    ensures t.Value() <= 19 && t.Value() != 16
  {
  }

  // --------------------------------------------- AuthenticationProtocolId

  /** `AuthenticationProtocolId`. */
  datatype AuthProtocolId = NoAuthentication | OsfDcePrivateKey {
    function Value(): byte {
      match this
      case NoAuthentication => 0
      case OsfDcePrivateKey => 1
    }
  }

  const AuthProtocolIds: seq<AuthProtocolId> := [NoAuthentication, OsfDcePrivateKey]

  function AuthProtocolValue(a: AuthProtocolId): int {
    a.Value()
  }

  /** `AuthenticationProtocolId.parse`. */
  function ParseAuthProtocolId(v: byte): (r: Result<AuthProtocolId>)
    ensures r.Ok? ==> r.value.Value() == v
    ensures r.Err? ==> r.error == IllegalArgument
  {
    match Find(AuthProtocolIds, AuthProtocolValue, v)
    case Some(a) => Ok(a)
    case None => Err(IllegalArgument)
  }

  /** `parse` undoes `getValue` and accepts exactly the bytes 0 and 1. */
  lemma ParseAuthProtocolIdValue(a: AuthProtocolId, v: byte)
    ensures ParseAuthProtocolId(a.Value()) == Ok(a)
    ensures ParseAuthProtocolId(v).Ok? <==> v <= 1
  {
    IncreasingDistinct(AuthProtocolIds, AuthProtocolValue);
    var i := if a == NoAuthentication then 0 else 1;
    FindDistinct(AuthProtocolIds, AuthProtocolValue, i);
  }

  // ----------------------------------------------------- PDURejectionCode

  /** `PDURejectionCode`. */
  datatype RejectionCode =
    | RpcVersionMismatch | UnspecReject | BadActId | WhoAreYouFailed | ManagerNotEntered
    | OpRangeError | UnknownInterface | WrongBootTime | YouCrashed | ProtocolError | OutArgsTooBig
    | ServerTooBusy | UnsupportedType | InvalidPresContextId | UnsupportedAuthnLevel | InvalidChecksum
    | InvalidCrc
  {
    /** `getValue`: the 32-bit status code. */
    function Value(): int32 {
      match this
      case RpcVersionMismatch => 0x1c000008
      case UnspecReject => 0x1c000009
      case BadActId => 0x1c00000a
      case WhoAreYouFailed => 0x1c00000b
      case ManagerNotEntered => 0x1c00000c
      case OpRangeError => 0x1c010002
      case UnknownInterface => 0x1c010003
      case WrongBootTime => 0x1c010006
      case YouCrashed => 0x1c010009
      case ProtocolError => 0x1c01000b
      case OutArgsTooBig => 0x1c010013
      case ServerTooBusy => 0x1c010014
      case UnsupportedType => 0x1c010017
      case InvalidPresContextId => 0x1c00001c
      case UnsupportedAuthnLevel => 0x1c00001d
      case InvalidChecksum => 0x1c00001f
      case InvalidCrc => 0x1c000020
    }
  }

  /** `PDURejectionCode.values()`, in declaration order: three runs of
      increasing codes. */
  const RejectionCodes: seq<RejectionCode> := EarlyCodes + RangeCodes + LateCodes

  const EarlyCodes: seq<RejectionCode> :=
    [RpcVersionMismatch, UnspecReject, BadActId, WhoAreYouFailed, ManagerNotEntered]
  const RangeCodes: seq<RejectionCode> := [OpRangeError, UnknownInterface, WrongBootTime, YouCrashed,
    ProtocolError, OutArgsTooBig, ServerTooBusy, UnsupportedType]
  const LateCodes: seq<RejectionCode> := [InvalidPresContextId, UnsupportedAuthnLevel, InvalidChecksum, InvalidCrc]

  function RejectionValue(c: RejectionCode): int {
    c.Value()
  }

  /** `PDURejectionCode.parse`. */
  function ParseRejectionCode(v: int32): (r: Result<RejectionCode>)
    ensures r.Ok? ==> r.value.Value() == v
    ensures r.Err? ==> r.error == IllegalArgument
  {
    match Find(RejectionCodes, RejectionValue, v)
    case Some(c) => Ok(c)
    case None => Err(IllegalArgument)
  }

  predicate Within<T>(values: seq<T>, code: T -> int, lo: int, hi: int) {
    forall i | 0 <= i < |values| :: lo <= code(values[i]) <= hi
  }

  predicate Outside<T>(values: seq<T>, code: T -> int, lo: int, hi: int) {
    forall i | 0 <= i < |values| :: code(values[i]) < lo || hi < code(values[i])
  }

  /** Two runs of distinct codes, one within a range of values and the
      other outside it, make one run of distinct codes. */
  lemma {:induction false} DistinctRuns<T>(a: seq<T>, b: seq<T>, code: T -> int, lo: int, hi: int)
    requires Distinct(a, code) && Distinct(b, code)
    requires (Within(a, code, lo, hi) && Outside(b, code, lo, hi)) || (Outside(a, code, lo, hi) && Within(b, code, lo, hi))
    ensures Distinct(a + b, code)
  {
    var s := a + b;
    forall i, j | 0 <= i < j < |s| ensures code(s[i]) != code(s[j]) {
      if j < |a| {
        assert s[i] == a[i] && s[j] == a[j];
      } else if |a| <= i {
        assert s[i] == b[i - |a|] && s[j] == b[j - |a|];
      } else {
        assert s[i] == a[i] && s[j] == b[j - |a|];
      }
    }
  }

  /** The codes are not listed in increasing order, but in three increasing
      runs: the early 0x1c00xxxx codes, the 0x1c01xxxx codes, and later
      0x1c00xxxx codes that lie between the other two runs. */
  lemma RejectionCodesDistinct()
    ensures Distinct(RejectionCodes, RejectionValue)
  {
    EarlyCodesRun();
    RangeCodesRun();
    LateCodesRun();
    DistinctRuns(EarlyCodes, RangeCodes, RejectionValue, 0x1c000008, 0x1c00000c);
    var first := EarlyCodes + RangeCodes;
    assert Outside(first, RejectionValue, 0x1c00001c, 0x1c000020) by {
      forall i | 0 <= i < |first| ensures RejectionValue(first[i]) < 0x1c00001c || 0x1c000020 < RejectionValue(first[i]) {
        if i < 5 {
          assert first[i] == EarlyCodes[i];
        } else {
          assert first[i] == RangeCodes[i - 5];
        }
      }
    }
    DistinctRuns(first, LateCodes, RejectionValue, 0x1c00001c, 0x1c000020);
  }

  /** The early codes increase, from 0x1c000008 to 0x1c00000c. */
  lemma EarlyCodesRun()
    ensures Distinct(EarlyCodes, RejectionValue)
    ensures Within(EarlyCodes, RejectionValue, 0x1c000008, 0x1c00000c)
  {
    IncreasingDistinct(EarlyCodes, RejectionValue);
  }

  /** The 0x1c01xxxx codes increase. */
  lemma RangeCodesRun()
    ensures Distinct(RangeCodes, RejectionValue)
    ensures Outside(RangeCodes, RejectionValue, 0x1c000008, 0x1c00000c)
  {
    IncreasingDistinct(RangeCodes, RejectionValue);
  }

  /** The late codes increase, from 0x1c00001c to 0x1c000020. */
  lemma LateCodesRun()
    ensures Distinct(LateCodes, RejectionValue)
    ensures Within(LateCodes, RejectionValue, 0x1c00001c, 0x1c000020)
  {
    IncreasingDistinct(LateCodes, RejectionValue);
  }

  /** Where a rejection code stands in `values()`. */
  function RejectionIndex(c: RejectionCode): (i: nat)
    ensures i < |RejectionCodes| && RejectionCodes[i] == c
  {
    match c
    case RpcVersionMismatch => 0
    case UnspecReject => 1
    case BadActId => 2
    case WhoAreYouFailed => 3
    case ManagerNotEntered => 4
    case OpRangeError => 5
    case UnknownInterface => 6
    case WrongBootTime => 7
    case YouCrashed => 8
    case ProtocolError => 9
    case OutArgsTooBig => 10
    case ServerTooBusy => 11
    case UnsupportedType => 12
    case InvalidPresContextId => 13
    case UnsupportedAuthnLevel => 14
    case InvalidChecksum => 15
    case InvalidCrc => 16
  }

  /** Every rejection code is listed; `parse` undoes `getValue`, so no two
      codes share a value. */
  lemma ParseRejectionCodeValue(c: RejectionCode, d: RejectionCode)
    ensures ParseRejectionCode(c.Value()) == Ok(c)
    ensures c.Value() == d.Value() ==> c == d
  {
    ParseRejectionCodeFinds(c);
    ParseRejectionCodeFinds(d);
  }

  lemma ParseRejectionCodeFinds(c: RejectionCode)
    ensures ParseRejectionCode(c.Value()) == Ok(c)
  {
    RejectionCodesDistinct();
    FindDistinct(RejectionCodes, RejectionValue, RejectionIndex(c));
  }

  /** A value that is not a listed code is rejected. */
  lemma ParseRejectionCodeRejects(v: int32)
    ensures ParseRejectionCode(v).Ok? <==> exists c: RejectionCode :: c.Value() == v
  {
    if ParseRejectionCode(v).Err? {
      forall c: RejectionCode ensures c.Value() != v {
        assert RejectionValue(RejectionCodes[RejectionIndex(c)]) != v;
      }
    }
  }
}

=== FILE: pdu_flags.dfy ===
/** The two flag bytes of a connectionless PDU header (`PDUFlags`,
    `PDUFlag1`, `PDUFlag2`).  The flags are kept as their bit patterns;
    Java's `byte` arithmetic on them only ever touches the low eight bits,
    so `bv8` operations are exact.
 */
module PduFlags {
  import opened Wrappers
  import opened Bytes
  import opened AlignedStreams
  import opened NdrWriter
  import opened NdrReader

  /** `PDUFlag1`: the flags of the first byte, one bit each. */
  datatype Flag1 = Reserved01 | LastFrag | Frag | NoFack | Maybe | Idempotent | Broadcast | Reserved80 {
    function Mask(): bv8 {
      match this
      case Reserved01 => 0x01
      case LastFrag => 0x02
      case Frag => 0x04
      case NoFack => 0x08
      case Maybe => 0x10
      case Idempotent => 0x20
      case Broadcast => 0x40
      case Reserved80 => 0x80
    }
  }

  /** `PDUFlag2`: the flags of the second byte, one bit each. */
  datatype Flag2 = Reserved01 | CancelPending | Reserved04 | Reserved08 | Reserved10 | Reserved20
                 | Reserved40 | Reserved80 {
    function Mask(): bv8 {
      match this
      case Reserved01 => 0x01
      case CancelPending => 0x02
      case Reserved04 => 0x04
      case Reserved08 => 0x08
      case Reserved10 => 0x10
      case Reserved20 => 0x20
      case Reserved40 => 0x40
      case Reserved80 => 0x80
    }
  }

  /** Every mask is a single bit, and different flags have different bits. */
  lemma MasksAreBits(f: Flag1, g: Flag1, f2: Flag2, g2: Flag2)
    ensures f.Mask() != 0 && f.Mask() & (f.Mask() - 1) == 0
    ensures f2.Mask() != 0 && f2.Mask() & (f2.Mask() - 1) == 0
    ensures f != g ==> f.Mask() & g.Mask() == 0
    ensures f2 != g2 ==> f2.Mask() & g2.Mask() == 0
  {
  }

  /** `PDUFlags`: `flags1` and `flags2`. */
  datatype Flags = Flags(flags1: bv8, flags2: bv8)

  /** `new PDUFlags()`: no flag set. */
  const NoFlags := Flags(0, 0)

  function IsSet1(x: Flags, f: Flag1): bool {
    x.flags1 & f.Mask() != 0
  }

  function IsSet2(x: Flags, f: Flag2): bool {
    x.flags2 & f.Mask() != 0
  }

  /** `set(PDUFlag1)`: `flags1 |= mask`. */
  function Set1(x: Flags, f: Flag1): (r: Flags)
    ensures IsSet1(r, f)
    ensures forall g: Flag1 | g != f :: IsSet1(r, g) == IsSet1(x, g)
    ensures r.flags2 == x.flags2
  {
    x.(flags1 := x.flags1 | f.Mask())
  }

  /** `unset(PDUFlag1)`: `flags1 &= ~mask`. */
  function Unset1(x: Flags, f: Flag1): (r: Flags)
    ensures !IsSet1(r, f)
    ensures forall g: Flag1 | g != f :: IsSet1(r, g) == IsSet1(x, g)
    ensures r.flags2 == x.flags2
  {
    x.(flags1 := x.flags1 & !f.Mask())
  }

  /** `set(PDUFlag2)`: `flags2 |= mask`. */
  function Set2(x: Flags, f: Flag2): (r: Flags)
    ensures IsSet2(r, f)
    ensures forall g: Flag2 | g != f :: IsSet2(r, g) == IsSet2(x, g)
    ensures r.flags1 == x.flags1
  {
    x.(flags2 := x.flags2 | f.Mask())
  }

  /** `unset(PDUFlag2)`: `flags2 &= ~mask`. */
  function Unset2(x: Flags, f: Flag2): (r: Flags)
    ensures !IsSet2(r, f)
    ensures forall g: Flag2 | g != f :: IsSet2(r, g) == IsSet2(x, g)
    ensures r.flags1 == x.flags1
  {
    x.(flags2 := x.flags2 & !f.Mask())
  }

  /** A byte is fixed by its eight single-bit masks. */
  lemma BitsDetermine(a: bv8, b: bv8)
    requires a & 0x01 == b & 0x01 && a & 0x02 == b & 0x02 && a & 0x04 == b & 0x04 && a & 0x08 == b & 0x08
    requires a & 0x10 == b & 0x10 && a & 0x20 == b & 0x20 && a & 0x40 == b & 0x40 && a & 0x80 == b & 0x80
    ensures a == b
  {
  }

  /** A single bit is either all of `a & m` or none of it. */
  lemma BitIsSet(a: bv8, m: bv8)
    requires m != 0 && m & (m - 1) == 0
    ensures a & m != 0 <==> a & m == m
  {
  }

  /** Two flag values that agree on every flag are equal: the flags cover
      all sixteen bits. */
  lemma FlagsDetermine(x: Flags, y: Flags)
    requires forall f: Flag1 :: IsSet1(x, f) == IsSet1(y, f)
    requires forall f: Flag2 :: IsSet2(x, f) == IsSet2(y, f)
    ensures x == y
  {
    Flags1Determine(x, y);
    Flags2Determine(x, y);
  }

  lemma Flags1Determine(x: Flags, y: Flags)
    requires forall f: Flag1 :: IsSet1(x, f) == IsSet1(y, f)
    ensures x.flags1 == y.flags1
  {
    forall f: Flag1 ensures x.flags1 & f.Mask() == y.flags1 & f.Mask() {
      MaskIsBit1(f);
      BitIsSet(x.flags1, f.Mask());
      BitIsSet(y.flags1, f.Mask());
      assert IsSet1(x, f) == IsSet1(y, f);
    }
    assert Flag1.Reserved01.Mask() == 0x01 && LastFrag.Mask() == 0x02 && Frag.Mask() == 0x04 && NoFack.Mask() == 0x08;
    assert Maybe.Mask() == 0x10 && Idempotent.Mask() == 0x20 && Broadcast.Mask() == 0x40 && Flag1.Reserved80.Mask() == 0x80;
    BitsDetermine(x.flags1, y.flags1);
  }

  lemma Flags2Determine(x: Flags, y: Flags)
    requires forall f: Flag2 :: IsSet2(x, f) == IsSet2(y, f)
    ensures x.flags2 == y.flags2
  {
    forall f: Flag2 ensures x.flags2 & f.Mask() == y.flags2 & f.Mask() {
      MaskIsBit2(f);
      BitIsSet(x.flags2, f.Mask());
      BitIsSet(y.flags2, f.Mask());
      assert IsSet2(x, f) == IsSet2(y, f);
    }
    assert Flag2.Reserved01.Mask() == 0x01 && CancelPending.Mask() == 0x02 && Reserved04.Mask() == 0x04;
    assert Reserved08.Mask() == 0x08 && Reserved10.Mask() == 0x10 && Reserved20.Mask() == 0x20;
    assert Reserved40.Mask() == 0x40 && Flag2.Reserved80.Mask() == 0x80;
    BitsDetermine(x.flags2, y.flags2);
  }

  /** Or-ing in a bit leaves the byte alone exactly when the bit is set;
      clearing it leaves the byte alone exactly when it is clear; each
      undoes the other on that bit. */
  lemma BitSetClear(a: bv8, m: bv8)
    ensures a | m == a <==> a & m == m
    ensures a & !m == a <==> a & m == 0
    ensures (a | m) & !m == a & !m && (a & !m) | m == a | m
  {
    BitSetIdle(a, m);
    BitClearIdle(a, m);
    BitSetClearUndo(a, m);
  }

  lemma BitSetIdle(a: bv8, m: bv8)
    ensures a | m == a <==> a & m == m
  {
  }

  lemma BitClearIdle(a: bv8, m: bv8)
    ensures a & !m == a <==> a & m == 0
  {
  }

  lemma BitSetClearUndo(a: bv8, m: bv8)
    ensures (a | m) & !m == a & !m && (a & !m) | m == a | m
  {
  }

  /** Setting a flag that is set, or unsetting one that is not, changes
      nothing; set and unset undo each other on the flag they name. */
  lemma SetUnsetInverse1(x: Flags, f: Flag1)
    ensures Set1(x, f) == x <==> IsSet1(x, f)
    ensures Unset1(x, f) == x <==> !IsSet1(x, f)
    ensures Unset1(Set1(x, f), f) == Unset1(x, f) && Set1(Unset1(x, f), f) == Set1(x, f)
  {
    SetIdle1(x, f);
    UnsetIdle1(x, f);
    SetUnsetUndo1(x, f);
  }

  lemma SetIdle1(x: Flags, f: Flag1)
    ensures Set1(x, f) == x <==> IsSet1(x, f)
  {
    MaskIsBit1(f);
    SingleBit(x.flags1, f.Mask());
  }

  lemma UnsetIdle1(x: Flags, f: Flag1)
    ensures Unset1(x, f) == x <==> !IsSet1(x, f)
  {
    MaskIsBit1(f);
    SingleBit(x.flags1, f.Mask());
  }

  lemma SetUnsetUndo1(x: Flags, f: Flag1)
    ensures Unset1(Set1(x, f), f) == Unset1(x, f) && Set1(Unset1(x, f), f) == Set1(x, f)
  {
    MaskIsBit1(f);
    SingleBit(x.flags1, f.Mask());
  }

  lemma SetUnsetInverse2(x: Flags, f: Flag2)
    ensures Set2(x, f) == x <==> IsSet2(x, f)
    ensures Unset2(x, f) == x <==> !IsSet2(x, f)
    ensures Unset2(Set2(x, f), f) == Unset2(x, f) && Set2(Unset2(x, f), f) == Set2(x, f)
  {
    SetIdle2(x, f);
    UnsetIdle2(x, f);
    SetUnsetUndo2(x, f);
  }

  lemma SetIdle2(x: Flags, f: Flag2)
    ensures Set2(x, f) == x <==> IsSet2(x, f)
  {
    MaskIsBit2(f);
    SingleBit(x.flags2, f.Mask());
  }

  lemma UnsetIdle2(x: Flags, f: Flag2)
    ensures Unset2(x, f) == x <==> !IsSet2(x, f)
  {
    MaskIsBit2(f);
    SingleBit(x.flags2, f.Mask());
  }

  lemma SetUnsetUndo2(x: Flags, f: Flag2)
    ensures Unset2(Set2(x, f), f) == Unset2(x, f) && Set2(Unset2(x, f), f) == Set2(x, f)
  {
    MaskIsBit2(f);
    SingleBit(x.flags2, f.Mask());
  }

  lemma MaskIsBit1(f: Flag1)
    ensures f.Mask() != 0 && f.Mask() & (f.Mask() - 1) == 0
  {
  }

  lemma MaskIsBit2(f: Flag2)
    ensures f.Mask() != 0 && f.Mask() & (f.Mask() - 1) == 0
  {
  }

  /** Setting and clearing a single bit. */
  lemma SingleBit(a: bv8, m: bv8)
    requires m != 0 && m & (m - 1) == 0
    ensures a | m == a <==> a & m != 0
    ensures a & !m == a <==> a & m == 0
    ensures (a | m) & !m == a & !m && (a & !m) | m == a | m
  {
    BitIsSet(a, m);
    BitSetClear(a, m);
  }

  /** The bit pattern of a flag byte, as the stream carries it. */
  function AsByte(b: bv8): (r: byte)
    ensures r as bv8 == b
  {
    b as int
  }

  /** `equals`: both flag bytes agree. */
  predicate Equals(a: Flags, b: Flags) {
    a.flags1 == b.flags1 && a.flags2 == b.flags2
  }

  /** `hashCode`: `256 * flags1 + flags2` on the signed bytes. */
  function HashCode(x: Flags): (r: int32)
    ensures -0x8080 <= r <= 0x7FFF
  {
    assert Pow256(1) == 256;
    var hi, lo := Signed(AsByte(x.flags1), 1), Signed(AsByte(x.flags2), 1);
    assert -128 <= hi < 128 && -128 <= lo < 128;
    256 * hi + lo
  }

  /** `equals` is value equality, and the hash code tells all flag values
      apart. */
  lemma EqualsHashCode(a: Flags, b: Flags)
    ensures Equals(a, b) <==> a == b
    ensures HashCode(a) == HashCode(b) <==> a == b
  {
    if HashCode(a) == HashCode(b) {
      SignedByteEqual(AsByte(a.flags1), AsByte(a.flags2), AsByte(b.flags1), AsByte(b.flags2));
    }
  }

  /** `256 * hi + lo` on signed bytes determines both bytes. */
  lemma SignedByteEqual(a1: byte, a2: byte, b1: byte, b2: byte)
    requires 256 * Signed(a1, 1) + Signed(a2, 1) == 256 * Signed(b1, 1) + Signed(b2, 1)
    ensures a1 == b1 && a2 == b2
  {
    assert Pow256(1) == 256;
    var s1, s2, t1, t2 := Signed(a1, 1), Signed(a2, 1), Signed(b1, 1), Signed(b2, 1);
    assert s2 - t2 == 256 * (t1 - s1);
    assert s1 == t1;
    WrapSigned(a1, 1);
    WrapSigned(b1, 1);
    WrapSigned(a2, 1);
    WrapSigned(b2, 1);
  }

  /** `ndrSerialize`: the two flag bytes, unaligned. */
  function Serialize(w: Writer, x: Flags): (r: Writer)
    ensures r.formatLabel == w.formatLabel && r.out.count == w.out.count + 2
    ensures r.out.sink == w.out.sink + [AsByte(x.flags1), AsByte(x.flags2)]
  {
    WriteByte(WriteByte(w, AsByte(x.flags1)), AsByte(x.flags2))
  }

  /** `ndrDeserialize` on a fresh `PDUFlags`: two single-byte reads. */
  function Deserialize(rd: Reader): (r: Result<Step<Flags>>)
    ensures r.Ok? <==> |rd.input.rest| >= 2 && rd.input.rest[0] != 0xFF && rd.input.rest[1] != 0xFF
    ensures r.Err? ==> r.error == IO
    ensures r.Ok? ==> AsByte(r.value.value.flags1) == rd.input.rest[0] && AsByte(r.value.value.flags2) == rd.input.rest[1]
    ensures r.Ok? ==> r.value.next == Reader(InStream(rd.input.rest[2..], rd.input.count + 2), rd.formatLabel)
  {
    var a :- ReadByte(rd);
    var b :- ReadByte(a.next);
    BitsOfByte(a.value);
    BitsOfByte(b.value);
    Ok(Step(Flags(a.value as bv8, b.value as bv8), b.next))
  }

  /** A byte's bit pattern gives the byte back. */
  lemma BitsOfByte(v: byte)
    ensures AsByte(v as bv8) == v
  {
  }

  /** The flags come back from the stream unless a byte has all eight bits
      set: the single-byte read takes 0xFF for the end of the stream. */
  lemma SerializeRoundTrip(w: Writer, rd: Reader, x: Flags, tail: seq<byte>)
    requires rd.input.count == w.out.count && rd.formatLabel == w.formatLabel
    requires rd.input.rest == Emitted(w, Serialize(w, x)) + tail
    ensures x.flags1 != 0xFF && x.flags2 != 0xFF ==>
      Deserialize(rd) == Ok(Step(x, Reader(InStream(tail, Serialize(w, x).out.count), w.formatLabel)))
    ensures x.flags1 == 0xFF || x.flags2 == 0xFF ==> Deserialize(rd) == Err(IO)
  {
    assert rd.input.rest[2..] == tail;
    assert (AsByte(x.flags1) as bv8) as int == AsByte(x.flags1);
  }
}

=== FILE: pdu_header.dfy ===
/** `PDUConnectionlessHeader`: the 80-byte header of a connectionless RPC
    PDU (chapter 12 of C706), written and read through the NDR writer and
    reader.  It sets its own format label on the writer, and takes the one
    it reads from the stream as its own.
 */
module PduHeader {
  import opened Wrappers
  import opened Bytes
  import opened FormatLabels
  import opened AlignedStreams
  import opened NdrNumbers
  import opened NdrWriter
  import opened NdrReader
  import opened NdrRoundTrip
  import opened PduEnums
  import PduFlags
  import Uuids

  /** `RPC_VERSION`: the only version the header writes. */
  const RpcVersion: byte := 4

  /** The fields of the header; a Java `null` is `None`.  The Java `byte`
      version is kept as its bit pattern. */
  datatype Header = Header(
    rpcVersion: byte,
    pduType: Option<PduType>,
    pduFlags: Option<PduFlags.Flags>,
    formatLabel: Option<FormatLabel>,
    serialNumber: int16,
    objectId: Option<Uuids.Uuid>,
    interfaceId: Option<Uuids.Uuid>,
    activityId: Option<Uuids.Uuid>,
    serverBootTime: int32,
    interfaceVersion: int32,
    sequenceNumber: int32,
    operationNumber: int16,
    interfaceHint: int16,
    activityHint: int16,
    pduBodyLength: int16,
    fragmentNumber: int16,
    authenticationProtocolId: Option<AuthProtocolId>)

  /** `new PDUConnectionlessHeader()`: version 4, no flag set, a label with
      no component set, no authentication; the type and the three UUIDs are
      null and the numbers zero. */
  const NewHeader := Header(RpcVersion, None, Some(PduFlags.NoFlags), Some(Uninitialized), 0, None, None, None,
                            0, 0, 0, 0, 0, 0, 0, 0, Some(NoAuthentication))

  /** Every field `ndrSerialize` dereferences is set, and the label can be
      written. */
  predicate Complete(h: Header) {
    && h.pduType.Some? && h.pduFlags.Some? && Ready(h.formatLabel)
    && h.objectId.Some? && h.interfaceId.Some? && h.activityId.Some?
    && h.authenticationProtocolId.Some?
  }

  // --------------------------------------------------------- serial number

  /** `(byte) (serialNumber >> 8)`: the arithmetic shift floors, and the
      cast keeps the low eight bits. */
  function SerialHigh(s: int16): (r: byte)
    ensures r == Wrap(s, 2) / 256
  {
    assert Pow256(1) == 256 && Pow256(2) == 0x1_0000;
    if s >= 0 then
      Wrap(s / 256, 1)
    else
      ModUnique(s / 256, 256, -1, s / 256 + 256);
      ModUnique(s + 0x1_0000, 256, s / 256 + 256, s % 256);
      Wrap(s / 256, 1)
  }

  /** `(byte) (serialNumber & BYTE_MASK)`: the low eight bits. */
  function SerialLow(s: int16): (r: byte)
    ensures r == Wrap(s, 2) % 256
  {
    assert Pow256(1) == 256 && Pow256(2) == 0x1_0000;
    if s < 0 then
      ModUnique(s, 256, s / 256, s % 256);
      ModUnique(s + 0x1_0000, 256, s / 256 + 256, s % 256);
      Wrap(s, 1)
    else
      Wrap(s, 1)
  }

  /** The two bytes written are the serial number's 16-bit pattern, high
      byte first. */
  lemma SerialBytes(s: int16)
    ensures 256 * SerialHigh(s) + SerialLow(s) == Wrap(s, 2)
  {
  }

  /** `(short) (readByte() << 8)`: the byte read is sign-extended before
      the shift; the result always fits in a `short`. */
  function SerialShifted(hi: byte): (r: int16)
    ensures r == 256 * Signed(hi, 1)
    ensures Wrap(r, 2) == 256 * hi
  {
    assert Pow256(1) == 256 && Pow256(2) == 0x1_0000;
    var v := 256 * Signed(hi, 1);
    SignedWrap(v, 2);
    assert hi >= 0x80 ==> Wrap(v, 2) == 256 * hi by {
      if hi >= 0x80 {
        ModUnique(v, 0x1_0000, -1, 256 * hi);
      }
    }
    Signed(Wrap(v, 2), 2)
  }

  /** Java's `|` on one byte of two bit patterns. */
  function OrByte(x: byte, y: byte): byte {
    ((x as bv8) | (y as bv8)) as int
  }

  lemma OrByteZero(x: byte)
    ensures OrByte(x, 0) == x && OrByte(0, x) == x
  {
  }

  lemma OrByteAll(x: byte)
    ensures OrByte(x, 0xFF) == 0xFF
  {
  }

  /** `serialNumber |= readByte()` after `SerialShifted(hi)`: the `short`
      and the byte both widen to `int` with their signs, are ORed, and the
      cast back keeps the low 16 bits, which are the OR of the two 16-bit
      patterns byte by byte. */
  function SerialAsWritten(hi: byte, lo: byte): (r: int16) {
    assert Pow256(1) == 256 && Pow256(2) == 0x1_0000;
    var a := Wrap(SerialShifted(hi), 2);
    var b := Wrap(Signed(lo, 1), 2);
    Signed(256 * OrByte(a / 256, b / 256) + OrByte(a % 256, b % 256), 2)
  }

  /** The 16-bit pattern of a sign-extended byte: the byte, with all eight
      high bits set when it is negative. */
  lemma SignExtended(lo: byte)
    ensures Pow256(2) == 0x1_0000
    ensures lo < 0x80 ==> Wrap(Signed(lo, 1), 2) == lo
    ensures lo >= 0x80 ==> Wrap(Signed(lo, 1), 2) == 0xFF00 + lo
  {
    assert Pow256(1) == 256 && Pow256(2) == 0x1_0000;
    if lo >= 0x80 {
      ModUnique(lo - 256, 0x1_0000, -1, 0xFF00 + lo);
    }
  }

  /** What the `|=` computes: the two bytes joined when the low byte is
      below 0x80; otherwise the sign bits of the low byte wipe out the high
      byte, and the serial number is the low byte's signed value. */
  lemma SerialAsWrittenValue(hi: byte, lo: byte)
    ensures lo < 0x80 ==> SerialAsWritten(hi, lo) == Signed(256 * hi + lo, 2)
    ensures lo >= 0x80 ==> SerialAsWritten(hi, lo) == Signed(lo, 1)
  {
    assert Pow256(1) == 256 && Pow256(2) == 0x1_0000;
    var a := Wrap(SerialShifted(hi), 2);
    var b := Wrap(Signed(lo, 1), 2);
    SignExtended(lo);
    ModUnique(a, 256, hi, 0);
    if lo < 0x80 {
      ModUnique(b, 256, 0, lo);
      OrByteZero(hi);
      OrByteZero(lo);
    } else {
      ModUnique(b, 256, 0xFF, lo);
      OrByteAll(hi);
      OrByteZero(lo);
    }
  }

  /** The evident intent of the two reads: the high byte and the low byte
      joined into the 16-bit pattern. */
  function SerialIntended(hi: byte, lo: byte): (r: int16)
    ensures Wrap(r, 2) == 256 * hi + lo
  {
    assert Pow256(1) == 256 && Pow256(2) == 0x1_0000;
    WrapSigned(256 * hi + lo, 2);
    Signed(256 * hi + lo, 2)
  }

  /** The corrected join gives back every serial number written. */
  lemma SerialIntendedRoundTrip(s: int16)
    ensures SerialIntended(SerialHigh(s), SerialLow(s)) == s
  {
    SerialBytes(s);
    SignedWrap(s, 2);
    assert Pow256(2) == 0x1_0000;
  }

  /** As written, serial number 0x0180 comes back as -128: its low byte
      0x80 is sign-extended over the high byte. */
  lemma SerialAsWrittenLosesHighByte()
    ensures SerialHigh(0x0180) == 0x01 && SerialLow(0x0180) == 0x80
    ensures SerialAsWritten(SerialHigh(0x0180), SerialLow(0x0180)) == -128
  {
    assert Pow256(1) == 256 && Pow256(2) == 0x1_0000;
    SerialAsWrittenValue(0x01, 0x80);
  }

  /** As written, the round trip holds exactly for the serial numbers whose
      low byte is below 0x80, and for -128 to -1, whose high byte is all
      sign bits anyway. */
  lemma SerialAsWrittenRoundTrip(s: int16)
    ensures SerialAsWritten(SerialHigh(s), SerialLow(s)) == s <==> SerialLow(s) < 0x80 || SerialHigh(s) == 0xFF
  {
    assert Pow256(1) == 256 && Pow256(2) == 0x1_0000;
    var hi, lo := SerialHigh(s), SerialLow(s);
    var v: int := 256 * (hi as int) + lo as int;
    SerialBytes(s);
    SignedWrap(s, 2);
    assert s == Signed(v, 2);
    SerialAsWrittenValue(hi, lo);
    if lo >= 0x80 {
      var joined: int := lo as int - 256;
      assert SerialAsWritten(hi, lo) == joined;
      if hi == 0xFF {
        assert s == v - 0x1_0000 == joined;
      } else if v < 0x8000 {
        assert s == v && v >= 0x80;
      } else {
        assert s == v - 0x1_0000 && v <= 0xFEFF;
      }
    }
  }

  // --------------------------------------------------------- ndrSerialize

  /** The first four bytes: version 4 whatever the header's own field
      holds, the type and the two flag bytes. */
  function HeadBytes(t: PduType, f: PduFlags.Flags): (r: seq<byte>)
    ensures |r| == 4 && r[0] == RpcVersion && r[1] == t.Value()
  {
    [RpcVersion, t.Value(), PduFlags.AsByte(f.flags1), PduFlags.AsByte(f.flags2)]
  }

  /** The first eight bytes: the head, the label's three bytes and the
      serial number's high byte. */
  function PreambleBytes(h: Header): (r: seq<byte>)
    requires h.pduType.Some? && h.pduFlags.Some? && Ready(h.formatLabel)
    ensures |r| == 8 && r[..4] == HeadBytes(h.pduType.value, h.pduFlags.value) && r[7] == SerialHigh(h.serialNumber)
  {
    HeadBytes(h.pduType.value, h.pduFlags.value)
    + ToByteArray(h.formatLabel.value, ConnectionlessFormatLabelLength).value
    + [SerialHigh(h.serialNumber)]
  }

  /** The version, the type and the flags, written one byte at a time. */
  function WriteHead(w: Writer, t: PduType, f: PduFlags.Flags): (r: Writer)
    ensures r.formatLabel == w.formatLabel && r.out.count == w.out.count + 4
    ensures r.out.sink == w.out.sink + HeadBytes(t, f)
  {
    PduFlags.Serialize(WriteByte(WriteByte(w, RpcVersion), t.Value()), f)
  }

  /** The first six statements of `ndrSerialize`: the header's label
      becomes the writer's, then the version, the type and the flags are
      written (a null type or null flags throw), then the label, which must
      be ready, and the high byte of the serial number. */
  function WritePreamble(w: Writer, h: Header): (r: Result<Writer>)
    ensures h.pduType.None? ==> r == Err(NullPointer)
    ensures h.pduType.Some? && h.pduFlags.None? ==> r == Err(NullPointer)
    ensures h.pduType.Some? && h.pduFlags.Some? && !Ready(h.formatLabel) ==> r == Err(IllegalState)
    ensures r.Ok? <==> h.pduType.Some? && h.pduFlags.Some? && Ready(h.formatLabel)
    ensures r.Ok? ==> r.value.formatLabel == h.formatLabel && r.value.out.count == w.out.count + 8
    ensures r.Ok? ==> r.value.out.sink == w.out.sink + PreambleBytes(h)
  {
    if h.pduType.None? || h.pduFlags.None? then Err(NullPointer)
    else
      var w1 := WriteHead(NdrWriter.SetFormatLabel(w, h.formatLabel), h.pduType.value, h.pduFlags.value);
      var w2 :- WriteFormatLabel(w1, ConnectionlessFormatLabelLength);
      var w3 := WriteByte(w2, SerialHigh(h.serialNumber));
      assert w3.out.sink == w.out.sink + PreambleBytes(h);
      Ok(w3)
  }

  /** The three UUIDs, each through its own `ndrSerialize`; a null one
      throws. */
  function WriteIds(w: Writer, h: Header): (r: Result<Writer>)
    requires Ready(w.formatLabel)
    ensures r.Ok? <==> h.objectId.Some? && h.interfaceId.Some? && h.activityId.Some?
    ensures r.Err? ==> r.error == NullPointer
    ensures r.Ok? ==> r.value.formatLabel == w.formatLabel && w.out.sink <= r.value.out.sink
  {
    if h.objectId.None? then Err(NullPointer)
    else
      var w1 := Uuids.Serialize(w, h.objectId.value).value;
      if h.interfaceId.None? then Err(NullPointer)
      else
        var w2 := Uuids.Serialize(w1, h.interfaceId.value).value;
        if h.activityId.None? then Err(NullPointer)
        else Ok(Uuids.Serialize(w2, h.activityId.value).value)
  }

  /** The server boot time, the interface version and the sequence
      number, as `int`s. */
  function WriteCounters(w: Writer, h: Header): (r: Writer)
    requires Ready(w.formatLabel)
    ensures r.formatLabel == w.formatLabel && w.out.sink <= r.out.sink
  {
    var w1 := WriteInt(w, h.serverBootTime).value;
    var w2 := WriteInt(w1, h.interfaceVersion).value;
    WriteInt(w2, h.sequenceNumber).value
  }

  /** The operation number, the two hints, the body length and the
      fragment number, as `short`s. */
  function WriteHints(w: Writer, h: Header): (r: Writer)
    requires Ready(w.formatLabel)
    ensures r.formatLabel == w.formatLabel && w.out.sink <= r.out.sink
  {
    var w1 := WriteShort(w, h.operationNumber).value;
    var w2 := WriteShort(w1, h.interfaceHint).value;
    var w3 := WriteShort(w2, h.activityHint).value;
    var w4 := WriteShort(w3, h.pduBodyLength).value;
    WriteShort(w4, h.fragmentNumber).value
  }

  /** The last two statements: the authentication protocol (a null one
      throws) and the serial number's low byte. */
  function WriteTrailer(w: Writer, h: Header): (r: Result<Writer>)
    ensures r.Ok? <==> h.authenticationProtocolId.Some?
    ensures r.Err? ==> r.error == NullPointer
    ensures r.Ok? ==> r.value.formatLabel == w.formatLabel && r.value.out.count == w.out.count + 2
    ensures r.Ok? ==> r.value.out.sink == w.out.sink + [h.authenticationProtocolId.value.Value(), SerialLow(h.serialNumber)]
  {
    if h.authenticationProtocolId.None? then Err(NullPointer)
    else Ok(WriteByte(WriteByte(w, h.authenticationProtocolId.value.Value()), SerialLow(h.serialNumber)))
  }

  /** Everything after the UUIDs. */
  function WriteFields(w: Writer, h: Header): (r: Result<Writer>)
    requires Ready(w.formatLabel)
    ensures r.Ok? <==> h.authenticationProtocolId.Some?
    ensures r.Err? ==> r.error == NullPointer
    ensures r.Ok? ==> r.value.formatLabel == w.formatLabel && w.out.sink <= r.value.out.sink
  {
    WriteTrailer(WriteHints(WriteCounters(w, h), h), h)
  }

  /** Everything after the preamble. */
  function WriteBody(w: Writer, h: Header): (r: Result<Writer>)
    requires Ready(w.formatLabel)
    ensures r.Ok? <==> h.objectId.Some? && h.interfaceId.Some? && h.activityId.Some? && h.authenticationProtocolId.Some?
    ensures r.Err? ==> r.error == NullPointer
    ensures r.Ok? ==> r.value.formatLabel == w.formatLabel && w.out.sink <= r.value.out.sink
  {
    var w1 :- WriteIds(w, h);
    WriteFields(w1, h)
  }

  /** `ndrSerialize`: fails on the first null field it meets, and with
      `IllegalStateException` when the type and the flags are set but the
      label is not ready; otherwise the writer ends up with the header's
      label. */
  function Serialize(w: Writer, h: Header): (r: Result<Writer>)
    ensures r.Ok? <==> Complete(h)
    ensures r.Err? ==> r.error == if h.pduType.Some? && h.pduFlags.Some? && !Ready(h.formatLabel) then IllegalState else NullPointer
    ensures r.Ok? ==> r.value.formatLabel == h.formatLabel && w.out.sink <= r.value.out.sink
  {
    var w1 :- WritePreamble(w, h);
    WriteBody(w1, h)
  }

  /** A new header cannot be written until its type is set. */
  lemma NewHeaderNeedsType(w: Writer)
    ensures Serialize(w, NewHeader) == Err(NullPointer)
    ensures Serialize(w, NewHeader.(pduType := Some(Request))) == Err(IllegalState)
  {
  }

  // ------------------------------------------------------- ndrDeserialize

  /** What the first six reads deliver. */
  datatype Preamble = Preamble(version: byte, pduType: PduType, flags: PduFlags.Flags,
                               formatLabel: Option<FormatLabel>, serialHigh: byte)

  /** The version byte, taken as it comes; the type byte, which must name
      a type; the flags. */
  function ReadHead(rd: Reader): (r: Result<Step<(byte, PduType, PduFlags.Flags)>>)
    ensures r.Ok? ==> 4 <= |rd.input.rest| && r.value.value.0 == rd.input.rest[0]
                      && r.value.value.1.Value() == rd.input.rest[1]
    ensures r.Ok? ==> r.value.next == Reader(InStream(rd.input.rest[4..], rd.input.count + 4), rd.formatLabel)
  {
    var v :- ReadByte(rd);
    var t :- ReadByte(v.next);
    var pduType :- ParsePduType(t.value);
    var f :- PduFlags.Deserialize(t.next);
    Ok(Step((v.value, pduType, f.value), f.next))
  }

  /** The first six statements of `ndrDeserialize`: the head; the label,
      which the reader adopts; the serial number's high byte. */
  function ReadPreamble(rd: Reader): (r: Result<Step<Preamble>>)
    ensures r.Ok? ==> Ready(r.value.next.formatLabel) && r.value.value.formatLabel == r.value.next.formatLabel
    ensures r.Ok? ==> 2 <= |rd.input.rest| && r.value.value.version == rd.input.rest[0]
                      && r.value.value.pduType.Value() == rd.input.rest[1]
  {
    var head :- ReadHead(rd);
    var l :- ReadFormatLabel(head.next, ConnectionlessFormatLabelLength);
    var s :- ReadByte(l);
    Ok(Step(Preamble(head.value.0, head.value.1, head.value.2, l.formatLabel, s.value), s.next))
  }

  /** The three UUIDs, each read into a new `UUID`. */
  function ReadIds(rd: Reader): (r: Result<Step<(Uuids.Uuid, Uuids.Uuid, Uuids.Uuid)>>)
    ensures r.Ok? ==> r.value.next.formatLabel == rd.formatLabel
    ensures !Ready(rd.formatLabel) ==> r == Err(IllegalState)
  {
    var o :- Uuids.Deserialize(rd);
    var i :- Uuids.Deserialize(o.next);
    var a :- Uuids.Deserialize(i.next);
    Ok(Step((o.value, i.value, a.value), a.next))
  }

  function ReadCounters(rd: Reader): (r: Result<Step<(int32, int32, int32)>>)
    ensures r.Ok? ==> r.value.next.formatLabel == rd.formatLabel
  {
    var b :- ReadInt(rd);
    var v :- ReadInt(b.next);
    var n :- ReadInt(v.next);
    Ok(Step((b.value, v.value, n.value), n.next))
  }

  function ReadHints(rd: Reader): (r: Result<Step<(int16, int16, int16, int16, int16)>>)
    ensures r.Ok? ==> r.value.next.formatLabel == rd.formatLabel
  {
    var o :- ReadShort(rd);
    var i :- ReadShort(o.next);
    var a :- ReadShort(i.next);
    var l :- ReadShort(a.next);
    var f :- ReadShort(l.next);
    Ok(Step((o.value, i.value, a.value, l.value, f.value), f.next))
  }

  /** The authentication protocol, which must be a known one, and the
      serial number's low byte. */
  function ReadTrailer(rd: Reader): (r: Result<Step<(AuthProtocolId, byte)>>)
    ensures r.Ok? ==> r.value.next.formatLabel == rd.formatLabel
    ensures r.Ok? ==> 2 <= |rd.input.rest| && r.value.value.0.Value() == rd.input.rest[0]
                      && r.value.value.1 == rd.input.rest[1]
  {
    var a :- ReadByte(rd);
    var auth :- ParseAuthProtocolId(a.value);
    var s :- ReadByte(a.next);
    Ok(Step((auth, s.value), s.next))
  }

  /** The counters, the hints and the trailer. */
  function ReadFields(rd: Reader): (r: Result<Step<((int32, int32, int32), (int16, int16, int16, int16, int16), (AuthProtocolId, byte))>>)
    ensures r.Ok? ==> r.value.next.formatLabel == rd.formatLabel
  {
    var c :- ReadCounters(rd);
    var hs :- ReadHints(c.next);
    var t :- ReadTrailer(hs.next);
    Ok(Step((c.value, hs.value, t.value), t.next))
  }

  /** Everything `ndrDeserialize` reads, in the order it reads it. */
  datatype Parts = Parts(preamble: Preamble, ids: (Uuids.Uuid, Uuids.Uuid, Uuids.Uuid),
                         counters: (int32, int32, int32), hints: (int16, int16, int16, int16, int16),
                         trailer: (AuthProtocolId, byte))

  function ReadParts(rd: Reader): (r: Result<Step<Parts>>)
    ensures r.Ok? ==> Ready(r.value.next.formatLabel) && r.value.next.formatLabel == r.value.value.preamble.formatLabel
  {
    var p :- ReadPreamble(rd);
    var ids :- ReadIds(p.next);
    var f :- ReadFields(ids.next);
    Ok(Step(Parts(p.value, ids.value, f.value.0, f.value.1, f.value.2), f.next))
  }

  /** The header the reads fill in, with the serial number as given. */
  function Assemble(p: Parts, serial: int16): (r: Header)
    requires Ready(p.preamble.formatLabel)
    ensures Complete(r) && r.formatLabel == p.preamble.formatLabel && r.serialNumber == serial
  {
    Header(p.preamble.version, Some(p.preamble.pduType), Some(p.preamble.flags), p.preamble.formatLabel, serial,
           Some(p.ids.0), Some(p.ids.1), Some(p.ids.2), p.counters.0, p.counters.1, p.counters.2,
           p.hints.0, p.hints.1, p.hints.2, p.hints.3, p.hints.4, Some(p.trailer.0))
  }

  /** `ndrDeserialize`, with the serial number put together as the code
      does it: the low byte sign-extended and or-ed in. */
  function Deserialize(rd: Reader): (r: Result<Step<Header>>)
    ensures r.Ok? ==> Complete(r.value.value) && r.value.next.formatLabel == r.value.value.formatLabel
    ensures r.Ok? <==> ReadParts(rd).Ok?
    ensures r.Ok? ==> ReadParts(rd).Ok? && r.value.value.serialNumber == SerialAsWritten(ReadParts(rd).value.value.preamble.serialHigh,
                                                                                       ReadParts(rd).value.value.trailer.1)
  {
    var p :- ReadParts(rd);
    Ok(Step(Assemble(p.value, SerialAsWritten(p.value.preamble.serialHigh, p.value.trailer.1)), p.next))
  }

  /** `ndrDeserialize` with the low byte taken unsigned. */
  function DeserializeIntended(rd: Reader): (r: Result<Step<Header>>)
    ensures r.Ok? ==> Complete(r.value.value) && r.value.next.formatLabel == r.value.value.formatLabel
    ensures r.Ok? <==> ReadParts(rd).Ok?
    ensures r.Ok? ==> ReadParts(rd).Ok? && Wrap(r.value.value.serialNumber, 2) == 256 * ReadParts(rd).value.value.preamble.serialHigh
                                                                                + ReadParts(rd).value.value.trailer.1
  {
    var p :- ReadParts(rd);
    Ok(Step(Assemble(p.value, SerialIntended(p.value.preamble.serialHigh, p.value.trailer.1)), p.next))
  }

  /** Assembling with another serial number changes that field only. */
  lemma AssembleSerial(p: Parts, s1: int16, s2: int16)
    requires Ready(p.preamble.formatLabel)
    ensures Assemble(p, s1) == Assemble(p, s2).(serialNumber := s1)
  {
  }

  /** The two readings fail together and differ at most in the serial
      number, which they agree on whenever the low byte is below 0x80. */
  lemma DeserializeAgree(rd: Reader)
    ensures Deserialize(rd).Ok? <==> DeserializeIntended(rd).Ok?
    ensures Deserialize(rd).Ok? ==>
      && Deserialize(rd).value.next == DeserializeIntended(rd).value.next
      && Deserialize(rd).value.value == DeserializeIntended(rd).value.value.(serialNumber := Deserialize(rd).value.value.serialNumber)
    ensures Deserialize(rd).Ok? && ReadParts(rd).value.value.trailer.1 < 0x80 ==> Deserialize(rd) == DeserializeIntended(rd)
  {
    if ReadParts(rd).Ok? {
      var p := ReadParts(rd).value;
      var hi, lo := p.value.preamble.serialHigh, p.value.trailer.1;
      var a, b := SerialAsWritten(hi, lo), SerialIntended(hi, lo);
      assert Deserialize(rd) == Ok(Step(Assemble(p.value, a), p.next));
      assert DeserializeIntended(rd) == Ok(Step(Assemble(p.value, b), p.next));
      AssembleSerial(p.value, a, b);
      if lo < 0x80 {
        SerialAsWrittenValue(hi, lo);
        assert a == b;
      }
    }
  }

  /** Reading the head does not look at the reader's label, and passes it
      on unchanged. */
  lemma HeadIgnoresLabel(rd: Reader, l: Option<FormatLabel>)
    ensures ReadHead(rd.(formatLabel := l)).Ok? <==> ReadHead(rd).Ok?
    ensures ReadHead(rd).Err? ==> ReadHead(rd.(formatLabel := l)) == ReadHead(rd)
    ensures ReadHead(rd).Ok? ==>
      && ReadHead(rd.(formatLabel := l)).value.value == ReadHead(rd).value.value
      && ReadHead(rd.(formatLabel := l)).value.next == ReadHead(rd).value.next.(formatLabel := l)
  {
  }

  /** `ndrDeserialize` reads the label embedded in the header and uses it for
      everything after, whatever label the reader held before. */
  lemma PresetLabelIgnored(rd: Reader, l: Option<FormatLabel>)
    ensures Deserialize(rd.(formatLabel := l)) == Deserialize(rd)
    ensures DeserializeIntended(rd.(formatLabel := l)) == DeserializeIntended(rd)
  {
    var rd' := rd.(formatLabel := l);
    HeadIgnoresLabel(rd, l);
    if ReadHead(rd).Ok? {
      var n := ReadHead(rd).value.next;
      assert ReadFormatLabel(n.(formatLabel := l), ConnectionlessFormatLabelLength)
          == ReadFormatLabel(n, ConnectionlessFormatLabelLength);
    }
    assert ReadPreamble(rd') == ReadPreamble(rd);
    assert ReadParts(rd') == ReadParts(rd);
  }

  /** A type byte that names no packet type stops `ndrDeserialize` with
      `IllegalArgumentException`. */
  lemma UnknownTypeRejected(rd: Reader)
    requires 2 <= |rd.input.rest| && rd.input.rest[0] != 0xFF && rd.input.rest[1] != 0xFF
    requires forall t: PduType :: t.Value() != rd.input.rest[1]
    ensures Deserialize(rd) == Err(IllegalArgument)
    ensures DeserializeIntended(rd) == Err(IllegalArgument)
  {
    var v := ReadByte(rd).value;
    assert ReadByte(v.next).value.value == rd.input.rest[1];
    assert ParsePduType(rd.input.rest[1]).Err?;
  }

  /** An authentication byte other than 0 and 1 stops the trailer, and with
      it `ndrDeserialize`, with `IllegalArgumentException`. */
  lemma UnknownAuthRejected(rd: Reader)
    requires 1 <= |rd.input.rest| && 1 < rd.input.rest[0] != 0xFF
    ensures ReadTrailer(rd) == Err(IllegalArgument)
  {
    ParseAuthProtocolIdValue(NoAuthentication, rd.input.rest[0]);
  }

  // ------------------------------------------------------------ round trip

  /** The bytes `readByte` returns as -1, and so refuses: none of the
      header's single-byte fields may hold 0xFF to be read back (the flags,
      both serial number bytes, the UUIDs' clock bytes). */
  predicate SingleBytesClear(h: Header)
    requires Complete(h)
  {
    && h.pduFlags.value.flags1 != 0xFF && h.pduFlags.value.flags2 != 0xFF
    && SerialHigh(h.serialNumber) != 0xFF && SerialLow(h.serialNumber) != 0xFF
    && ClockClear(h.objectId.value) && ClockClear(h.interfaceId.value) && ClockClear(h.activityId.value)
  }

  predicate ClockClear(u: Uuids.Uuid) {
    u.clockSeqHighAndReserved != 0xFF && u.clockSeqLow != 0xFF
  }

  /** The head reads back as written, version 4 included. */
  lemma HeadRoundTrip(rd: Reader, t: PduType, f: PduFlags.Flags, tail: seq<byte>)
    requires f.flags1 != 0xFF && f.flags2 != 0xFF
    requires rd.input.rest == HeadBytes(t, f) + tail
    ensures ReadHead(rd) == Ok(Step((RpcVersion, t, f), Reader(InStream(tail, rd.input.count + 4), rd.formatLabel)))
  {
    var c := rd.input.count;
    var rest := rd.input.rest;
    var b2, b3 := PduFlags.AsByte(f.flags1), PduFlags.AsByte(f.flags2);
    assert rest[0] == RpcVersion && rest[1..] == [t.Value(), b2, b3] + tail;
    var rd1 := Reader(InStream(rest[1..], c + 1), rd.formatLabel);
    assert ReadByte(rd) == Ok(Step(RpcVersion, rd1));
    assert rd1.input.rest[0] == t.Value() && rd1.input.rest[1..] == [b2, b3] + tail;
    var rd2 := Reader(InStream([b2, b3] + tail, c + 2), rd.formatLabel);
    assert ReadByte(rd1) == Ok(Step(t.Value(), rd2));
    ParsePduTypeValue(t, t);
    PreambleFlags(rd2, f, tail);
  }

  /** The preamble reads back, version 4 included, and leaves the reader
      with the header's label. */
  lemma PreambleRoundTrip(w: Writer, rd: Reader, h: Header, tail: seq<byte>)
    requires h.pduType.Some? && h.pduFlags.Some? && Ready(h.formatLabel)
    requires h.pduFlags.value.flags1 != 0xFF && h.pduFlags.value.flags2 != 0xFF && SerialHigh(h.serialNumber) != 0xFF
    requires rd.input.count == w.out.count
    requires rd.input.rest == Emitted(w, WritePreamble(w, h).value) + tail
    ensures ReadPreamble(rd) == Ok(Step(Preamble(RpcVersion, h.pduType.value, h.pduFlags.value, h.formatLabel, SerialHigh(h.serialNumber)),
                                        After(WritePreamble(w, h).value, tail)))
  {
    var w1 := WritePreamble(w, h).value;
    assert Emitted(w, w1) == PreambleBytes(h);
    assert After(w1, tail) == Reader(InStream(tail, rd.input.count + 8), h.formatLabel);
    PreambleBytesRoundTrip(rd, h, tail);
  }

  lemma PreambleBytesRoundTrip(rd: Reader, h: Header, tail: seq<byte>)
    requires h.pduType.Some? && h.pduFlags.Some? && Ready(h.formatLabel)
    requires h.pduFlags.value.flags1 != 0xFF && h.pduFlags.value.flags2 != 0xFF && SerialHigh(h.serialNumber) != 0xFF
    requires rd.input.rest == PreambleBytes(h) + tail
    ensures ReadPreamble(rd) == Ok(Step(Preamble(RpcVersion, h.pduType.value, h.pduFlags.value, h.formatLabel, SerialHigh(h.serialNumber)),
                                        Reader(InStream(tail, rd.input.count + 8), h.formatLabel)))
  {
    var lb := ToByteArray(h.formatLabel.value, ConnectionlessFormatLabelLength).value;
    var sh := SerialHigh(h.serialNumber);
    var more := lb + ([sh] + tail);
    assert rd.input.rest == HeadBytes(h.pduType.value, h.pduFlags.value) + more;
    HeadRoundTrip(rd, h.pduType.value, h.pduFlags.value, more);
    LabelAndSerialRoundTrip(Reader(InStream(more, rd.input.count + 4), rd.formatLabel), h.formatLabel, sh, tail);
  }

  /** The label's bytes read back as the label, which the reader adopts,
      and the byte after them as itself. */
  lemma LabelAndSerialRoundTrip(rd: Reader, l: Option<FormatLabel>, b: byte, tail: seq<byte>)
    requires Ready(l) && b != 0xFF
    requires rd.input.rest == ToByteArray(l.value, ConnectionlessFormatLabelLength).value + ([b] + tail)
    ensures ReadFormatLabel(rd, ConnectionlessFormatLabelLength).Ok?
    ensures ReadByte(ReadFormatLabel(rd, ConnectionlessFormatLabelLength).value)
            == Ok(Step(b, Reader(InStream(tail, rd.input.count + 4), l)))
  {
    var lb := ToByteArray(l.value, ConnectionlessFormatLabelLength).value;
    ParseToByteArray(l.value, ConnectionlessFormatLabelLength);
    ReadParsedLabel(rd, ConnectionlessFormatLabelLength, lb, [b] + tail, l);
    assert ([b] + tail)[0] == b && ([b] + tail)[1..] == tail;
  }

  /** The three UUIDs read back in order. */
  lemma IdsRoundTrip(w: Writer, rd: Reader, h: Header, tail: seq<byte>)
    requires Ready(w.formatLabel) && Synced(w, rd)
    requires h.objectId.Some? && h.interfaceId.Some? && h.activityId.Some?
    requires ClockClear(h.objectId.value) && ClockClear(h.interfaceId.value) && ClockClear(h.activityId.value)
    requires rd.input.rest == Emitted(w, WriteIds(w, h).value) + tail
    ensures ReadIds(rd) == Ok(Step((h.objectId.value, h.interfaceId.value, h.activityId.value),
                                   After(WriteIds(w, h).value, tail)))
  {
    var o, i, a := h.objectId.value, h.interfaceId.value, h.activityId.value;
    var w1 := Uuids.Serialize(w, o).value;
    var w2 := Uuids.Serialize(w1, i).value;
    var w3 := Uuids.Serialize(w2, a).value;
    assert w3 == WriteIds(w, h).value;

    Peel(w, w1, w3, rd, tail);
    Uuids.SerializeRoundTrip(w, rd, o, Emitted(w1, w3) + tail);
    var rd1 := After(w1, Emitted(w1, w3) + tail);

    Peel(w1, w2, w3, rd1, tail);
    Uuids.SerializeRoundTrip(w1, rd1, i, Emitted(w2, w3) + tail);
    var rd2 := After(w2, Emitted(w2, w3) + tail);

    Uuids.SerializeRoundTrip(w2, rd2, a, tail);
    var r := ReadIds(rd);
    assert r.Ok? && r.value.value == (o, i, a);
    StepIs(r, (o, i, a), After(w3, tail));
  }

  /** The three `int`s read back in order. */
  lemma CountersRoundTrip(w: Writer, rd: Reader, h: Header, tail: seq<byte>)
    requires Ready(w.formatLabel) && Synced(w, rd)
    requires rd.input.rest == Emitted(w, WriteCounters(w, h)) + tail
    ensures ReadCounters(rd) == Ok(Step((h.serverBootTime, h.interfaceVersion, h.sequenceNumber),
                                        After(WriteCounters(w, h), tail)))
  {
    var w1 := WriteInt(w, h.serverBootTime).value;
    var w2 := WriteInt(w1, h.interfaceVersion).value;
    var w3 := WriteInt(w2, h.sequenceNumber).value;
    assert w3 == WriteCounters(w, h);
    assert w.out.sink <= w1.out.sink <= w2.out.sink <= w3.out.sink;

    Peel(w, w1, w3, rd, tail);
    IntRoundTrip(w, rd, h.serverBootTime, Emitted(w1, w3) + tail);
    var rd1 := After(w1, Emitted(w1, w3) + tail);

    Peel(w1, w2, w3, rd1, tail);
    IntRoundTrip(w1, rd1, h.interfaceVersion, Emitted(w2, w3) + tail);
    var rd2 := After(w2, Emitted(w2, w3) + tail);

    IntRoundTrip(w2, rd2, h.sequenceNumber, tail);
    var r := ReadCounters(rd);
    assert r.Ok? && r.value.value == (h.serverBootTime, h.interfaceVersion, h.sequenceNumber);
    StepIs(r, (h.serverBootTime, h.interfaceVersion, h.sequenceNumber), After(w3, tail));
  }

  /** The five `short`s read back in order. */
  lemma HintsRoundTrip(w: Writer, rd: Reader, h: Header, tail: seq<byte>)
    requires Ready(w.formatLabel) && Synced(w, rd)
    requires rd.input.rest == Emitted(w, WriteHints(w, h)) + tail
    ensures ReadHints(rd) == Ok(Step((h.operationNumber, h.interfaceHint, h.activityHint, h.pduBodyLength, h.fragmentNumber),
                                     After(WriteHints(w, h), tail)))
  {
    var w1 := WriteShort(w, h.operationNumber).value;
    var w2 := WriteShort(w1, h.interfaceHint).value;
    var w3 := WriteShort(w2, h.activityHint).value;
    var w4 := WriteShort(w3, h.pduBodyLength).value;
    var w5 := WriteShort(w4, h.fragmentNumber).value;
    assert w5 == WriteHints(w, h);
    assert w.out.sink <= w1.out.sink <= w2.out.sink <= w3.out.sink <= w4.out.sink <= w5.out.sink;

    Peel(w, w1, w5, rd, tail);
    ShortRoundTrip(w, rd, h.operationNumber, Emitted(w1, w5) + tail);
    var rd1 := After(w1, Emitted(w1, w5) + tail);

    Peel(w1, w2, w5, rd1, tail);
    ShortRoundTrip(w1, rd1, h.interfaceHint, Emitted(w2, w5) + tail);
    var rd2 := After(w2, Emitted(w2, w5) + tail);

    Peel(w2, w3, w5, rd2, tail);
    ShortRoundTrip(w2, rd2, h.activityHint, Emitted(w3, w5) + tail);
    var rd3 := After(w3, Emitted(w3, w5) + tail);

    Peel(w3, w4, w5, rd3, tail);
    ShortRoundTrip(w3, rd3, h.pduBodyLength, Emitted(w4, w5) + tail);
    var rd4 := After(w4, Emitted(w4, w5) + tail);

    ShortRoundTrip(w4, rd4, h.fragmentNumber, tail);
    var v := (h.operationNumber, h.interfaceHint, h.activityHint, h.pduBodyLength, h.fragmentNumber);
    var r := ReadHints(rd);
    assert r.Ok? && r.value.value == v;
    StepIs(r, v, After(w5, tail));
  }

  /** The authentication protocol and the serial number's low byte read
      back, unless that byte is 0xFF. */
  lemma TrailerRoundTrip(w: Writer, rd: Reader, h: Header, tail: seq<byte>)
    requires h.authenticationProtocolId.Some? && SerialLow(h.serialNumber) != 0xFF && Synced(w, rd)
    requires rd.input.rest == Emitted(w, WriteTrailer(w, h).value) + tail
    ensures ReadTrailer(rd) == Ok(Step((h.authenticationProtocolId.value, SerialLow(h.serialNumber)),
                                       After(WriteTrailer(w, h).value, tail)))
  {
    var a := h.authenticationProtocolId.value;
    var lo := SerialLow(h.serialNumber);
    var w2 := WriteTrailer(w, h).value;
    var c := rd.input.count;
    assert rd.input.rest == [a.Value(), lo] + tail;
    ParseAuthProtocolIdValue(a, a.Value());
    var rd1 := Reader(InStream(rd.input.rest[1..], c + 1), rd.formatLabel);
    assert ReadByte(rd) == Ok(Step(a.Value(), rd1));
    assert rd1.input.rest == [lo] + tail;
    assert ([lo] + tail)[1..] == tail;
    assert After(w2, tail) == Reader(InStream(tail, c + 2), rd.formatLabel);
    assert ReadByte(rd1) == Ok(Step(lo, After(w2, tail)));
  }

  /** The two flag bytes read back as the flags written. */
  lemma PreambleFlags(rd: Reader, f: PduFlags.Flags, tail: seq<byte>)
    requires f.flags1 != 0xFF && f.flags2 != 0xFF
    requires rd.input.rest == [PduFlags.AsByte(f.flags1), PduFlags.AsByte(f.flags2)] + tail
    ensures PduFlags.Deserialize(rd) == Ok(Step(f, Reader(InStream(tail, rd.input.count + 2), rd.formatLabel)))
  {
    assert rd.input.rest[2..] == tail;
    var g := PduFlags.Deserialize(rd).value.value;
    assert PduFlags.AsByte(g.flags1) as bv8 == g.flags1;
    assert PduFlags.AsByte(g.flags2) as bv8 == g.flags2;
  }

  /** The counters, the hints and the trailer, as `ndrDeserialize` reads
      them back. */
  function FieldsOf(h: Header): ((int32, int32, int32), (int16, int16, int16, int16, int16), (AuthProtocolId, byte))
    requires h.authenticationProtocolId.Some?
  {
    ((h.serverBootTime, h.interfaceVersion, h.sequenceNumber),
     (h.operationNumber, h.interfaceHint, h.activityHint, h.pduBodyLength, h.fragmentNumber),
     (h.authenticationProtocolId.value, SerialLow(h.serialNumber)))
  }

  /** The counters, the hints and the trailer read back. */
  lemma FieldsRoundTrip(w: Writer, rd: Reader, h: Header, tail: seq<byte>)
    requires Ready(w.formatLabel) && Synced(w, rd)
    requires h.authenticationProtocolId.Some? && SerialLow(h.serialNumber) != 0xFF
    requires rd.input.rest == Emitted(w, WriteFields(w, h).value) + tail
    ensures ReadFields(rd) == Ok(Step(FieldsOf(h), After(WriteFields(w, h).value, tail)))
  {
    var w1 := WriteCounters(w, h);
    var w2 := WriteHints(w1, h);
    var w3 := WriteTrailer(w2, h).value;
    assert w3 == WriteFields(w, h).value;
    assert w.out.sink <= w1.out.sink <= w2.out.sink <= w3.out.sink;

    Peel(w, w1, w3, rd, tail);
    CountersRoundTrip(w, rd, h, Emitted(w1, w3) + tail);
    var rd1 := After(w1, Emitted(w1, w3) + tail);

    Peel(w1, w2, w3, rd1, tail);
    HintsRoundTrip(w1, rd1, h, Emitted(w2, w3) + tail);
    var rd2 := After(w2, Emitted(w2, w3) + tail);

    TrailerRoundTrip(w2, rd2, h, tail);
    var r := ReadFields(rd);
    assert r.Ok? && r.value.value == FieldsOf(h);
    StepIs(r, FieldsOf(h), After(w3, tail));
  }

  /** What `ndrDeserialize` reads from a complete header's bytes. */
  function PartsOf(h: Header): (r: Parts)
    requires Complete(h)
    ensures Ready(r.preamble.formatLabel) && Assemble(r, h.serialNumber) == h.(rpcVersion := RpcVersion)
  {
    var f := FieldsOf(h);
    Parts(Preamble(RpcVersion, h.pduType.value, h.pduFlags.value, h.formatLabel, SerialHigh(h.serialNumber)),
          (h.objectId.value, h.interfaceId.value, h.activityId.value), f.0, f.1, f.2)
  }

  /** Every field `ndrSerialize` writes, `ndrDeserialize` reads back. */
  lemma PartsRoundTrip(w: Writer, rd: Reader, h: Header, tail: seq<byte>)
    requires Complete(h) && SingleBytesClear(h) && rd.input.count == w.out.count
    requires rd.input.rest == Emitted(w, Serialize(w, h).value) + tail
    ensures ReadParts(rd) == Ok(Step(PartsOf(h), After(Serialize(w, h).value, tail)))
  {
    var w1 := WritePreamble(w, h).value;
    var w2 := WriteIds(w1, h).value;
    var w3 := WriteFields(w2, h).value;
    assert w3 == Serialize(w, h).value;
    assert w.out.sink <= w1.out.sink <= w2.out.sink <= w3.out.sink;

    Peel(w, w1, w3, rd, tail);
    PreambleRoundTrip(w, rd, h, Emitted(w1, w3) + tail);
    var rd1 := After(w1, Emitted(w1, w3) + tail);

    Peel(w1, w2, w3, rd1, tail);
    IdsRoundTrip(w1, rd1, h, Emitted(w2, w3) + tail);
    var rd2 := After(w2, Emitted(w2, w3) + tail);

    FieldsRoundTrip(w2, rd2, h, tail);
    var r := ReadParts(rd);
    assert r.Ok? && r.value.value == PartsOf(h);
    StepIs(r, PartsOf(h), After(w3, tail));
  }

  /** A header written and read back comes back with version 4, and with its
      serial number only when the low byte is below 0x80: otherwise the
      sign-extended low byte wipes out the high one. */
  lemma SerializeRoundTrip(w: Writer, rd: Reader, h: Header, tail: seq<byte>)
    requires Complete(h) && SingleBytesClear(h) && rd.input.count == w.out.count
    requires rd.input.rest == Emitted(w, Serialize(w, h).value) + tail
    ensures SerialLow(h.serialNumber) < 0x80 ==>
      Deserialize(rd) == Ok(Step(h.(rpcVersion := RpcVersion), After(Serialize(w, h).value, tail)))
    ensures SerialLow(h.serialNumber) >= 0x80 ==>
      && Deserialize(rd) == Ok(Step(h.(rpcVersion := RpcVersion, serialNumber := Signed(SerialLow(h.serialNumber), 1)),
                                    After(Serialize(w, h).value, tail)))
      && Signed(SerialLow(h.serialNumber), 1) != h.serialNumber
  {
    PartsRoundTrip(w, rd, h, tail);
    var p := PartsOf(h);
    var hi, lo := SerialHigh(h.serialNumber), SerialLow(h.serialNumber);
    var a := SerialAsWritten(hi, lo);
    assert Deserialize(rd) == Ok(Step(Assemble(p, a), After(Serialize(w, h).value, tail)));
    AssembleSerial(p, a, h.serialNumber);
    SerialAsWrittenRoundTrip(h.serialNumber);
    SerialAsWrittenValue(hi, lo);
  }

  /** With the low byte taken unsigned, every header written reads back,
      version 4 aside. */
  lemma IntendedRoundTrip(w: Writer, rd: Reader, h: Header, tail: seq<byte>)
    requires Complete(h) && SingleBytesClear(h) && rd.input.count == w.out.count
    requires rd.input.rest == Emitted(w, Serialize(w, h).value) + tail
    ensures DeserializeIntended(rd) == Ok(Step(h.(rpcVersion := RpcVersion), After(Serialize(w, h).value, tail)))
  {
    PartsRoundTrip(w, rd, h, tail);
    var p := PartsOf(h);
    var b := SerialIntended(SerialHigh(h.serialNumber), SerialLow(h.serialNumber));
    assert DeserializeIntended(rd) == Ok(Step(Assemble(p, b), After(Serialize(w, h).value, tail)));
    AssembleSerial(p, b, h.serialNumber);
    SerialIntendedRoundTrip(h.serialNumber);
  }

  // --------------------------------------------------------------- layout

  /** On an aligned stream an `int` goes out without padding. */
  lemma AlignedInt(w: Writer, v: int32)
    requires Ready(w.formatLabel) && w.out.count % 4 == 0
    ensures WriteInt(w, v).value.out.sink == w.out.sink + EncodeNumber(w.formatLabel.value.integer.value, Wrap(v, 4), 4)
    ensures WriteInt(w, v).value.out.count == w.out.count + 4 && WriteInt(w, v).value.formatLabel == w.formatLabel
  {
    PaddingAligns(w.out.count, 4);
    assert Zeros(0) == [];
  }

  /** On a stream at an even count a `short` goes out without padding. */
  lemma AlignedShort(w: Writer, v: int16)
    requires Ready(w.formatLabel) && w.out.count % 2 == 0
    ensures WriteShort(w, v).value.out.sink == w.out.sink + EncodeNumber(w.formatLabel.value.integer.value, Wrap(v, 2), 2)
    ensures WriteShort(w, v).value.out.count == w.out.count + 2 && WriteShort(w, v).value.formatLabel == w.formatLabel
  {
    PaddingAligns(w.out.count, 2);
    assert Zeros(0) == [];
  }

  /** The three UUIDs, sixteen bytes each. */
  function IdBytes(e: IntRep, h: Header): (r: seq<byte>)
    requires h.objectId.Some? && h.interfaceId.Some? && h.activityId.Some?
    ensures |r| == 48
  {
    Uuids.NdrBytes(e, h.objectId.value) + Uuids.NdrBytes(e, h.interfaceId.value) + Uuids.NdrBytes(e, h.activityId.value)
  }

  function CounterBytes(e: IntRep, h: Header): (r: seq<byte>)
    ensures |r| == 12
  {
    EncodeNumber(e, Wrap(h.serverBootTime, 4), 4) + EncodeNumber(e, Wrap(h.interfaceVersion, 4), 4)
    + EncodeNumber(e, Wrap(h.sequenceNumber, 4), 4)
  }

  function HintBytes(e: IntRep, h: Header): (r: seq<byte>)
    ensures |r| == 10
  {
    EncodeNumber(e, Wrap(h.operationNumber, 2), 2) + EncodeNumber(e, Wrap(h.interfaceHint, 2), 2)
    + EncodeNumber(e, Wrap(h.activityHint, 2), 2) + EncodeNumber(e, Wrap(h.pduBodyLength, 2), 2)
    + EncodeNumber(e, Wrap(h.fragmentNumber, 2), 2)
  }

  /** The counters, the hints, the authentication protocol and the serial
      number's low byte. */
  function FieldBytes(e: IntRep, h: Header): (r: seq<byte>)
    requires h.authenticationProtocolId.Some?
    ensures |r| == 24
  {
    CounterBytes(e, h) + HintBytes(e, h) + [h.authenticationProtocolId.value.Value(), SerialLow(h.serialNumber)]
  }

  function BodyBytes(e: IntRep, h: Header): (r: seq<byte>)
    requires h.objectId.Some? && h.interfaceId.Some? && h.activityId.Some? && h.authenticationProtocolId.Some?
    ensures |r| == 72
  {
    IdBytes(e, h) + FieldBytes(e, h)
  }

  /** The eighty bytes of a connectionless header, in the byte order of its
      own label: the version at 0, the type at 1, the label at 4 to 6, the
      serial number's high byte at 7 and its low byte at 79, the
      authentication protocol at 78. */
  function HeaderBytes(h: Header): (r: seq<byte>)
    requires Complete(h)
    ensures |r| == 80
    ensures r[0] == RpcVersion && r[1] == h.pduType.value.Value() && r[7] == SerialHigh(h.serialNumber)
    ensures r[4..7] == ToByteArray(h.formatLabel.value, ConnectionlessFormatLabelLength).value
    ensures r[78] == h.authenticationProtocolId.value.Value() && r[79] == SerialLow(h.serialNumber)
  {
    PreambleBytes(h) + BodyBytes(h.formatLabel.value.integer.value, h)
  }

  /** What a writer emitted, put back after what it started from. */
  lemma SinkIs(w: Writer, w1: Writer)
    requires w.out.sink <= w1.out.sink
    ensures w1.out.sink == w.out.sink + Emitted(w, w1)
  {
  }

  /** Two appends in a row are one append of the two parts. */
  lemma Appended2(s0: seq<byte>, s1: seq<byte>, s2: seq<byte>, a: seq<byte>, b: seq<byte>)
    requires s1 == s0 + a && s2 == s1 + b
    ensures s2 == s0 + (a + b)
  {
  }

  /** Three appends in a row are one append of the three parts. */
  lemma Appended3(s0: seq<byte>, s1: seq<byte>, s2: seq<byte>, s3: seq<byte>, a: seq<byte>, b: seq<byte>, c: seq<byte>)
    requires s1 == s0 + a && s2 == s1 + b && s3 == s2 + c
    ensures s3 == s0 + (a + b + c)
  {
  }

  /** One UUID written on an aligned stream: sixteen bytes, no padding, and
      the stream still aligned after it. */
  lemma IdLayout(w: Writer, u: Uuids.Uuid)
    requires Ready(w.formatLabel) && w.out.count % 4 == 0
    ensures Uuids.Serialize(w, u).Ok?
    ensures Uuids.Serialize(w, u).value.out.sink == w.out.sink + Uuids.NdrBytes(w.formatLabel.value.integer.value, u)
    ensures Uuids.Serialize(w, u).value.out.count == w.out.count + 16
    ensures Uuids.Serialize(w, u).value.out.count % 4 == 0
    ensures Uuids.Serialize(w, u).value.formatLabel == w.formatLabel
  {
    Uuids.SerializeLayout(w, u);
    SinkIs(w, Uuids.Serialize(w, u).value);
    ModUnique(w.out.count + 16, 4, w.out.count / 4 + 4, 0);
  }

  lemma IdsLayout(w: Writer, h: Header)
    requires Ready(w.formatLabel) && w.out.count % 4 == 0
    requires h.objectId.Some? && h.interfaceId.Some? && h.activityId.Some?
    ensures WriteIds(w, h).value.out.sink == w.out.sink + IdBytes(w.formatLabel.value.integer.value, h)
    ensures WriteIds(w, h).value.out.count == w.out.count + 48
  {
    var e := w.formatLabel.value.integer.value;
    var o, i, a := h.objectId.value, h.interfaceId.value, h.activityId.value;
    var w1 := Uuids.Serialize(w, o).value;
    var w2 := Uuids.Serialize(w1, i).value;
    var w3 := Uuids.Serialize(w2, a).value;
    IdLayout(w, o);
    IdLayout(w1, i);
    IdLayout(w2, a);
    Appended3(w.out.sink, w1.out.sink, w2.out.sink, w3.out.sink, Uuids.NdrBytes(e, o), Uuids.NdrBytes(e, i), Uuids.NdrBytes(e, a));
  }

  lemma CountersLayout(w: Writer, h: Header)
    requires Ready(w.formatLabel) && w.out.count % 4 == 0
    ensures WriteCounters(w, h).out.sink == w.out.sink + CounterBytes(w.formatLabel.value.integer.value, h)
    ensures WriteCounters(w, h).out.count == w.out.count + 12
  {
    var e := w.formatLabel.value.integer.value;
    var c := w.out.count;
    var w1 := WriteInt(w, h.serverBootTime).value;
    var w2 := WriteInt(w1, h.interfaceVersion).value;
    AlignedInt(w, h.serverBootTime);
    ModUnique(c + 4, 4, c / 4 + 1, 0);
    AlignedInt(w1, h.interfaceVersion);
    ModUnique(c + 8, 4, c / 4 + 2, 0);
    AlignedInt(w2, h.sequenceNumber);
    assert WriteCounters(w, h).out.sink == w.out.sink + CounterBytes(e, h);
  }

  lemma HintsLayout(w: Writer, h: Header)
    requires Ready(w.formatLabel) && w.out.count % 2 == 0
    ensures WriteHints(w, h).out.sink == w.out.sink + HintBytes(w.formatLabel.value.integer.value, h)
    ensures WriteHints(w, h).out.count == w.out.count + 10
  {
    var e := w.formatLabel.value.integer.value;
    var c := w.out.count;
    var w1 := WriteShort(w, h.operationNumber).value;
    var w2 := WriteShort(w1, h.interfaceHint).value;
    var w3 := WriteShort(w2, h.activityHint).value;
    var w4 := WriteShort(w3, h.pduBodyLength).value;
    AlignedShort(w, h.operationNumber);
    ModUnique(c + 2, 2, c / 2 + 1, 0);
    AlignedShort(w1, h.interfaceHint);
    ModUnique(c + 4, 2, c / 2 + 2, 0);
    AlignedShort(w2, h.activityHint);
    ModUnique(c + 6, 2, c / 2 + 3, 0);
    AlignedShort(w3, h.pduBodyLength);
    ModUnique(c + 8, 2, c / 2 + 4, 0);
    AlignedShort(w4, h.fragmentNumber);
    assert WriteHints(w, h).out.sink == w.out.sink + HintBytes(e, h);
  }

  lemma FieldsLayout(w: Writer, h: Header)
    requires Ready(w.formatLabel) && w.out.count % 4 == 0 && h.authenticationProtocolId.Some?
    ensures WriteFields(w, h).Ok?
    ensures WriteFields(w, h).value.out.sink == w.out.sink + FieldBytes(w.formatLabel.value.integer.value, h)
    ensures WriteFields(w, h).value.out.count == w.out.count + 24
  {
    var e := w.formatLabel.value.integer.value;
    var w1 := WriteCounters(w, h);
    var w2 := WriteHints(w1, h);
    var w3 := WriteTrailer(w2, h).value;
    var q := w.out.count / 4;
    CountersLayout(w, h);
    ModUnique(w.out.count + 12, 2, 2 * q + 6, 0);
    HintsLayout(w1, h);
    assert WriteFields(w, h) == Ok(w3);
    Appended3(w.out.sink, w1.out.sink, w2.out.sink, w3.out.sink, CounterBytes(e, h), HintBytes(e, h),
              [h.authenticationProtocolId.value.Value(), SerialLow(h.serialNumber)]);
  }

  lemma BodyLayout(w: Writer, h: Header)
    requires Ready(w.formatLabel) && w.out.count % 4 == 0
    requires h.objectId.Some? && h.interfaceId.Some? && h.activityId.Some? && h.authenticationProtocolId.Some?
    ensures WriteBody(w, h).Ok?
    ensures WriteBody(w, h).value.out.sink == w.out.sink + BodyBytes(w.formatLabel.value.integer.value, h)
    ensures WriteBody(w, h).value.out.count == w.out.count + 72
  {
    var e := w.formatLabel.value.integer.value;
    var w1 := WriteIds(w, h).value;
    IdsLayout(w, h);
    ModUnique(w.out.count + 48, 4, w.out.count / 4 + 12, 0);
    FieldsLayout(w1, h);
    var w2 := WriteFields(w1, h).value;
    assert WriteBody(w, h) == Ok(w2);
    Appended2(w.out.sink, w1.out.sink, w2.out.sink, IdBytes(e, h), FieldBytes(e, h));
  }

  /** Written from a four-byte boundary, a complete header takes exactly
      eighty bytes, laid out as `HeaderBytes` says; no padding goes in. */
  lemma HeaderLayout(w: Writer, h: Header)
    requires Complete(h) && w.out.count % 4 == 0
    ensures Serialize(w, h).Ok?
    ensures Emitted(w, Serialize(w, h).value) == HeaderBytes(h)
    ensures Serialize(w, h).value.out.count == w.out.count + 80
  {
    var e := h.formatLabel.value.integer.value;
    var w1 := WritePreamble(w, h).value;
    ModUnique(w.out.count + 8, 4, w.out.count / 4 + 2, 0);
    BodyLayout(w1, h);
    var w2 := WriteBody(w1, h).value;
    assert Serialize(w, h) == Ok(w2);
    Appended2(w.out.sink, w1.out.sink, w2.out.sink, PreambleBytes(h), BodyBytes(e, h));
  }
}

=== FILE: uuid.dfy ===
/** `UUID`: the DCE universally unique identifier of appendix A of C706,
    with its 36-character string form and its 16-byte NDR form.

    Java keeps the two 16-bit fields as signed `short` and the time-low
    field as a signed `int`; the string form prints and parses their
    unsigned bit patterns.
 */
module Uuids {
  import opened Wrappers
  import opened Bytes
  import opened HexDigits
  import opened FormatLabels
  import opened AlignedStreams
  import opened NdrNumbers
  import opened NdrWriter
  import opened NdrReader
  import opened NdrRoundTrip

  /** `NODE_LENGTH`. */
  const NodeLength: nat := 6

  /** `UUID_STRING_LENGTH`. */
  const StringLength: nat := 36

  /** The six node bytes; every UUID holds exactly six. */
  type Node = s: seq<byte> | |s| == NodeLength witness [0, 0, 0, 0, 0, 0]

  datatype Uuid = Uuid(timeLow: int32, timeMid: int16, timeHighAndVersion: int16,
                       clockSeqHighAndReserved: byte, clockSeqLow: byte, node: Node)

  /** `new UUID()`: all fields zero (the deserialization target). */
  const Empty := Uuid(0, 0, 0, 0, 0, [0, 0, 0, 0, 0, 0])

  /** The six-argument constructor: the node must be present and six long;
      a copy is kept. */
  function NewUuid(timeLow: int32, timeMid: int16, timeHighAndVersion: int16,
                   clockSeqHighAndReserved: byte, clockSeqLow: byte, node: Option<seq<byte>>): (r: Result<Uuid>)
    ensures r.Ok? <==> node.Some? && |node.value| == NodeLength
    ensures r.Err? ==> r.error == IllegalArgument
    ensures r.Ok? ==> r.value.node == node.value && r.value.timeLow == timeLow && r.value.timeMid == timeMid
    ensures r.Ok? ==> r.value.timeHighAndVersion == timeHighAndVersion
    ensures r.Ok? ==> r.value.clockSeqHighAndReserved == clockSeqHighAndReserved && r.value.clockSeqLow == clockSeqLow
  {
    if node.None? then Err(IllegalArgument)
    else if |node.value| != NodeLength then Err(IllegalArgument)
    else Ok(Uuid(timeLow, timeMid, timeHighAndVersion, clockSeqHighAndReserved, clockSeqLow, node.value))
  }

  // ----------------------------------------------------------- string form

  /** The positions of the four hyphens of the 8-4-4-4-12 form. */
  predicate IsSeparator(i: int) {
    i == 8 || i == 13 || i == 18 || i == 23
  }

  /** The string form of appendix A: hex digits of either case in groups of
      8, 4, 4, 4 and 12, separated by hyphens. */
  predicate Canonical(t: string) {
    && |t| == StringLength
    && forall i :: 0 <= i < |t| ==> if IsSeparator(i) then t[i] == '-' else IsHexDigit(t[i])
  }

  /** The five groups of a canonical string. */
  function Groups(t: string): (r: seq<string>)
    requires |t| == StringLength
    ensures |r| == 5
  {
    [t[0..8], t[9..13], t[14..18], t[19..23], t[24..36]]
  }

  /** `PART_LENGTHS`. */
  const PartLengths: seq<nat> := [8, 4, 4, 4, 2 * NodeLength]

  /** `toString`: `%08x-%04x-%04x-%02x%02x-` and the six node bytes as
      `%02x`, each field printed as its unsigned bit pattern. */
  function ToString(u: Uuid): (r: string)
    ensures |r| == StringLength && Canonical(r)
    ensures forall i :: 0 <= i < |r| && !IsSeparator(i) ==> IsLowerHexDigit(r[i])
  {
    var parts := UuidGroups(u);
    JoinIsCanonical(parts);
    JoinIsLower(parts);
    Join(parts)
  }

  /** The five groups `toString` prints. */
  function UuidGroups(u: Uuid): (r: seq<string>)
    ensures |r| == 5
    ensures forall g | 0 <= g < 5 :: |r[g]| == PartLengths[g] && IsLowerHex(r[g])
  {
    Pow16Twice(4);
    Pow16Twice(2);
    Pow16Twice(1);
    HexNatLength(Wrap(u.timeLow, 4), 8);
    HexNatLength(Wrap(u.timeMid, 2), 4);
    HexNatLength(Wrap(u.timeHighAndVersion, 2), 4);
    HexNatLength(u.clockSeqHighAndReserved, 2);
    HexNatLength(u.clockSeqLow, 2);
    var r := [HexNat(Wrap(u.timeLow, 4), 8),
              HexNat(Wrap(u.timeMid, 2), 4),
              HexNat(Wrap(u.timeHighAndVersion, 2), 4),
              HexNat(u.clockSeqHighAndReserved, 2) + HexNat(u.clockSeqLow, 2),
              HexBytes(u.node)];
    assert IsLowerHex(r[3]);
    r
  }

  /** Java's `String.trim`: drops every character up to U+0020 at both ends. */
  function Trim(s: string): (r: string)
    ensures |r| <= |s|
    ensures |s| > 0 && s[0] > ' ' && s[|s| - 1] > ' ' ==> r == s
  {
    TrimEnd(TrimStart(s))
  }

  function TrimStart(s: string): (r: string)
    ensures |r| <= |s|
    ensures |r| > 0 ==> r[0] > ' '
  {
    if |s| > 0 && s[0] <= ' ' then TrimStart(s[1..]) else s
  }

  function TrimEnd(s: string): (r: string)
    ensures |r| <= |s|
    ensures |r| > 0 ==> r[|r| - 1] > ' '
  {
    if |s| > 0 && s[|s| - 1] <= ' ' then TrimEnd(s[..|s| - 1]) else s
  }

  /** `TrimStart` drops a run of characters up to U+0020 and keeps the rest. */
  lemma {:induction false} TrimStartDrops(s: string)
    ensures var k := |s| - |TrimStart(s)|;
      TrimStart(s) == s[k..] && forall i | 0 <= i < k :: s[i] <= ' '
    decreases |s|
  {
    if |s| > 0 && s[0] <= ' ' {
      TrimStartDrops(s[1..]);
    }
  }

  /** `TrimEnd` drops such a run from the end and keeps the rest. */
  lemma {:induction false} TrimEndDrops(s: string)
    ensures var n := |TrimEnd(s)|;
      TrimEnd(s) == s[..n] && forall i | n <= i < |s| :: s[i] <= ' '
    decreases |s|
  {
    if |s| > 0 && s[|s| - 1] <= ' ' {
      TrimEndDrops(s[..|s| - 1]);
    }
  }

  /** No piece holds a hyphen. */
  predicate HyphenFree(parts: seq<string>) {
    forall i :: 0 <= i < |parts| ==> '-' !in parts[i]
  }

  /** `s.split("-")` before Java drops the trailing empty strings: the
      maximal hyphen-free pieces, empty ones included. */
  function SplitAll(s: string): (r: seq<string>)
    ensures |r| >= 1 && HyphenFree(r)
  {
    if |s| == 0 then [""]
    else if s[0] == '-' then [""] + SplitAll(s[1..])
    else
      var rest := SplitAll(s[1..]);
      [[s[0]] + rest[0]] + rest[1..]
  }

  /** The pieces put back together with hyphens between them. */
  function Join(parts: seq<string>): (r: string)
    requires |parts| >= 1
  {
    if |parts| == 1 then parts[0] else parts[0] + "-" + Join(parts[1..])
  }

  function DropTrailingEmpty(parts: seq<string>): (r: seq<string>)
    ensures |r| <= |parts| && r == parts[..|r|]
    ensures |r| > 0 ==> r[|r| - 1] != ""
  {
    if |parts| > 0 && parts[|parts| - 1] == "" then DropTrailingEmpty(parts[..|parts| - 1]) else parts
  }

  /** `s.split("-")`: the whole string when it holds no hyphen, otherwise
      the pieces without the trailing empty ones. */
  function JavaSplit(s: string): (r: seq<string>)
    ensures HyphenFree(r)
  {
    if '-' !in s then [s] else DropTrailingEmpty(SplitAll(s))
  }

  /** A group Java's radix-16 `parseLong`, `parseInt` and `parseShort`
      accept: at least one hex digit, optionally after a `+` sign.  A `-`
      sign cannot reach them, the string having been split at the hyphens. */
  predicate IsNumeral(s: string) {
    if |s| > 0 && s[0] == '+' then |s| > 1 && IsHex(s[1..]) else |s| > 0 && IsHex(s)
  }

  /** The value of such a group; the sign does not change it. */
  function NumeralValue(s: string): (r: nat)
    requires IsNumeral(s)
    ensures r < Pow16(|s|)
  {
    if s[0] == '+' then
      assert Pow16(|s|) == 16 * Pow16(|s| - 1);
      HexValue(s[1..])
    else HexValue(s)
  }

  /** The digit pairs of the node group, each a numeral on its own, as the
      source passes each `substring(2 * i, 2 * i + 2)` to `parseShort`. */
  predicate PairsNumeral(g: string)
    decreases |g|
  {
    |g| % 2 == 0 && (|g| == 0 || (IsNumeral(g[..2]) && PairsNumeral(g[2..])))
  }

  /** The bytes the digit pairs denote: `(byte) Short.parseShort(pair, 16)`. */
  function PairsValue(g: string): (r: seq<byte>)
    requires PairsNumeral(g)
    ensures |r| == |g| / 2
    decreases |g|
  {
    if |g| == 0 then []
    else
      assert Pow16(2) == 256;
      [NumeralValue(g[..2])] + PairsValue(g[2..])
  }

  /** Five groups of the canonical lengths that the number parsers accept. */
  predicate ValidGroups(parts: seq<string>) {
    && |parts| == 5
    && (forall g | 0 <= g < 5 :: |parts[g]| == PartLengths[g])
    && IsNumeral(parts[0]) && IsNumeral(parts[1]) && IsNumeral(parts[2]) && IsNumeral(parts[3])
    && PairsNumeral(parts[4])
  }

  /** `parse`: trims, checks the length 36, splits at the hyphens, checks the
      group lengths, and reads each group with Java's radix-16 number
      parsing.  A malformed number is a `NumberFormatException`, which is an
      `IllegalArgumentException`. */
  function Parse(s: Option<string>): (r: Result<Uuid>)
    ensures r.Err? ==> r.error == IllegalArgument
    ensures s.None? ==> r.Err?
  {
    if s.None? || |Trim(s.value)| != StringLength then Err(IllegalArgument)
    else
      var parts := JavaSplit(Trim(s.value));
      if |parts| != |PartLengths| then Err(IllegalArgument)
      else if exists g | 0 <= g < 5 :: |parts[g]| != PartLengths[g] then Err(IllegalArgument)
      else if !ValidGroups(parts) then Err(IllegalArgument)
      else Ok(FromGroups(parts))
  }

  /** The fields the five groups denote: `(int) Long.parseLong`,
      `(short) Integer.parseInt`, the clock sequence split into its high and
      low byte, and `(byte) Short.parseShort` of each node digit pair. */
  function FromGroups(parts: seq<string>): (r: Uuid)
    requires ValidGroups(parts)
  {
    Pow16Twice(4);
    Pow16Twice(2);
    var clockSeq := NumeralValue(parts[3]);
    assert clockSeq < 0x1_0000 by { assert Pow256(2) == 0x1_0000; }
    var node := PairsValue(parts[4]);
    Uuid(Signed(NumeralValue(parts[0]), 4), Signed(NumeralValue(parts[1]), 2), Signed(NumeralValue(parts[2]), 2),
         clockSeq / 256, clockSeq % 256, node)
  }

  /** Hyphens at the four separator positions and nowhere else. */
  predicate Shaped(t: string) {
    && |t| == StringLength
    && forall i :: 0 <= i < |t| ==> (t[i] == '-' <==> IsSeparator(i))
  }

  /** The trimmed strings `parse` accepts: the 8-4-4-4-12 shape, with every
      group a numeral the number parsers take. */
  predicate Accepted(t: string) {
    Shaped(t) && ValidGroups(Groups(t))
  }

  // ------------------------------------------------- lemmas on the strings

  lemma {:induction false} JoinSplitAll(s: string)
    ensures Join(SplitAll(s)) == s
    decreases |s|
  {
    if |s| > 0 {
      JoinSplitAll(s[1..]);
      var rest := SplitAll(s[1..]);
      if s[0] != '-' && |rest| > 1 {
        var r := SplitAll(s);
        assert r[0] == [s[0]] + rest[0] && r[1..] == rest[1..];
        assert Join(rest) == rest[0] + "-" + Join(rest[1..]);
      }
    }
  }

  /** Splitting hyphen-free pieces joined by hyphens gives the pieces back. */
  lemma {:induction false} SplitAllJoin(parts: seq<string>)
    requires |parts| >= 1 && HyphenFree(parts)
    ensures SplitAll(Join(parts)) == parts
    decreases |parts|, |parts[0]|
  {
    var head, s := parts[0], Join(parts);
    if |head| == 0 {
      if |parts| > 1 {
        var tail := parts[1..];
        assert HyphenFree(tail) by {
          forall i | 0 <= i < |tail| ensures '-' !in tail[i] { assert tail[i] == parts[i + 1]; }
        }
        SplitAllJoin(tail);
        assert s == "-" + Join(tail);
        assert s[1..] == Join(tail);
        assert SplitAll(s) == [""] + tail;
      }
    } else {
      var shorter := [head[1..]] + parts[1..];
      assert HyphenFree(shorter) by {
        assert '-' !in head;
        forall i | 0 <= i < |shorter| ensures '-' !in shorter[i] {
          if i > 0 { assert shorter[i] == parts[i]; }
        }
      }
      SplitAllJoin(shorter);
      assert s[0] == head[0] && head[0] != '-';
      if |parts| == 1 {
        assert s[1..] == Join(shorter);
      } else {
        assert shorter[1..] == parts[1..];
        assert Join(shorter) == head[1..] + "-" + Join(parts[1..]);
        assert s[1..] == Join(shorter);
      }
      var rest := SplitAll(s[1..]);
      assert rest == shorter;
      assert head == [head[0]] + head[1..];
      assert SplitAll(s) == [[s[0]] + rest[0]] + rest[1..];
    }
  }

  /** Dropping pieces at the end only shortens the joined string. */
  lemma {:induction false} JoinPrefix(parts: seq<string>, n: nat)
    requires 1 <= n <= |parts|
    ensures Join(parts[..n]) <= Join(parts)
    decreases |parts|
  {
    if n < |parts| {
      if n == 1 {
        assert Join(parts[..1]) == parts[0];
      } else {
        JoinPrefix(parts[1..], n - 1);
        assert parts[..n][1..] == parts[1..][..n - 1];
      }
    } else {
      assert parts[..n] == parts;
    }
  }

  /** The joined form of five groups of the canonical lengths. */
  lemma JoinFive(parts: seq<string>)
    requires |parts| == 5 && forall g | 0 <= g < 5 :: |parts[g]| == PartLengths[g]
    ensures |Join(parts)| == StringLength
    ensures Groups(Join(parts)) == parts
    ensures forall i | 0 <= i < StringLength && IsSeparator(i) :: Join(parts)[i] == '-'
  {
    var j4 := Join(parts[4..]);
    var j3 := Join(parts[3..]);
    var j2 := Join(parts[2..]);
    var j1 := Join(parts[1..]);
    var t := Join(parts);
    assert j4 == parts[4];
    assert parts[3..][1..] == parts[4..];
    assert j3 == parts[3] + "-" + j4;
    assert parts[2..][1..] == parts[3..];
    assert j2 == parts[2] + "-" + j3;
    assert parts[1..][1..] == parts[2..];
    assert j1 == parts[1] + "-" + j2;
    assert t == parts[0] + "-" + j1;
    assert |j3| == 17 && |j2| == 22 && |j1| == 27;
    assert t[0..8] == parts[0] && t[8] == '-' && t[9..] == j1;
    assert j1[0..4] == parts[1] && j1[4] == '-' && j1[5..] == j2;
    assert j2[0..4] == parts[2] && j2[4] == '-' && j2[5..] == j3;
    assert j3[0..4] == parts[3] && j3[4] == '-' && j3[5..] == j4;
    assert t[9..13] == j1[0..4];
    assert t[14..18] == j2[0..4];
    assert t[19..23] == j3[0..4];
    assert t[24..36] == j4;
  }

  /** Where each character of the joined form comes from. */
  lemma JoinFiveAt(parts: seq<string>, i: nat)
    requires |parts| == 5 && forall g | 0 <= g < 5 :: |parts[g]| == PartLengths[g]
    requires i < StringLength && !IsSeparator(i)
    ensures |Join(parts)| == StringLength
    ensures var g, off := GroupOf(i), [0, 9, 14, 19, 24][GroupOf(i)];
      0 <= i - off < |parts[g]| && Join(parts)[i] == parts[g][i - off]
  {
    JoinFive(parts);
    var t := Join(parts);
    var g, off := GroupOf(i), [0, 9, 14, 19, 24][GroupOf(i)];
    assert t[off..off + PartLengths[g]] == Groups(t)[g] == parts[g];
  }

  /** The group that character i of the 8-4-4-4-12 form lies in. */
  function GroupOf(i: nat): (g: nat)
    requires i < StringLength && !IsSeparator(i)
    ensures g < 5 && [0, 9, 14, 19, 24][g] <= i < [0, 9, 14, 19, 24][g] + PartLengths[g]
  {
    if i < 8 then 0 else if i < 13 then 1 else if i < 18 then 2 else if i < 23 then 3 else 4
  }

  /** A string of the 8-4-4-4-12 shape is its groups joined by hyphens. */
  lemma ShapedIsJoin(t: string)
    requires Shaped(t)
    ensures t == Join(Groups(t)) && HyphenFree(Groups(t))
  {
    var gs := Groups(t);
    JoinFive(gs);
    var j := Join(gs);
    forall i | 0 <= i < |t|
      ensures t[i] == j[i]
    {
      if !IsSeparator(i) {
        JoinFiveAt(gs, i);
      }
    }
    forall g | 0 <= g < 5
      ensures '-' !in gs[g]
    {
      var off := [0, 9, 14, 19, 24][g];
      assert forall k | 0 <= k < |gs[g]| :: gs[g][k] == t[off + k] && !IsSeparator(off + k);
    }
  }

  /** A canonical string has the 8-4-4-4-12 shape and hex groups. */
  lemma CanonicalIsJoin(t: string)
    requires Canonical(t)
    ensures Shaped(t)
    ensures t == Join(Groups(t)) && HyphenFree(Groups(t))
    ensures forall g | 0 <= g < 5 :: IsHex(Groups(t)[g]) && |Groups(t)[g]| == PartLengths[g]
  {
    assert Shaped(t);
    ShapedIsJoin(t);
    var gs := Groups(t);
    forall g | 0 <= g < 5
      ensures IsHex(gs[g])
    {
      var off := [0, 9, 14, 19, 24][g];
      assert forall k | 0 <= k < |gs[g]| :: gs[g][k] == t[off + k] && !IsSeparator(off + k);
    }
  }

  /** Five hex groups of the canonical lengths, joined, are canonical. */
  lemma JoinIsCanonical(parts: seq<string>)
    requires |parts| == 5 && forall g | 0 <= g < 5 :: |parts[g]| == PartLengths[g] && IsHex(parts[g])
    ensures Canonical(Join(parts))
  {
    JoinFive(parts);
    var t := Join(parts);
    forall i | 0 <= i < |t|
      ensures if IsSeparator(i) then t[i] == '-' else IsHexDigit(t[i])
    {
      if !IsSeparator(i) {
        JoinFiveAt(parts, i);
      }
    }
  }

  /** Five hyphen-free groups of the canonical lengths, joined, have the
      8-4-4-4-12 shape. */
  lemma JoinIsShaped(parts: seq<string>)
    requires |parts| == 5 && HyphenFree(parts) && forall g | 0 <= g < 5 :: |parts[g]| == PartLengths[g]
    ensures Shaped(Join(parts))
  {
    JoinFive(parts);
    var t := Join(parts);
    forall i | 0 <= i < |t|
      ensures t[i] == '-' <==> IsSeparator(i)
    {
      if !IsSeparator(i) {
        JoinFiveAt(parts, i);
        var g := GroupOf(i);
        assert parts[g][i - [0, 9, 14, 19, 24][g]] in parts[g];
      }
    }
  }

  /** The split of a string of the 8-4-4-4-12 shape is its five groups. */
  lemma SplitShaped(t: string)
    requires Shaped(t)
    ensures JavaSplit(t) == Groups(t)
  {
    ShapedIsJoin(t);
    var gs := Groups(t);
    SplitAllJoin(gs);
    assert t[8] == '-';
    assert gs[4] != "";
  }

  /** A 36-character string that splits into five groups of the canonical
      lengths has the 8-4-4-4-12 shape, and those are its groups. */
  lemma SplitIsShaped(t: string)
    requires |t| == StringLength
    requires var parts := JavaSplit(t);
      |parts| == 5 && forall g | 0 <= g < 5 :: |parts[g]| == PartLengths[g]
    ensures Shaped(t) && JavaSplit(t) == Groups(t)
  {
    var parts := JavaSplit(t);
    assert '-' in t;
    var all := SplitAll(t);
    JoinSplitAll(t);
    JoinPrefix(all, |parts|);
    assert parts == all[..|parts|];
    JoinFive(parts);
    assert Join(parts) == t;
    JoinIsShaped(parts);
  }

  /** A string whose trimmed form has the 8-4-4-4-12 shape parses when its
      groups are numerals, to the UUID they denote. */
  lemma ParseShaped(s: string)
    requires Shaped(Trim(s))
    ensures JavaSplit(Trim(s)) == Groups(Trim(s))
    ensures Parse(Some(s)) == if ValidGroups(Groups(Trim(s))) then Ok(FromGroups(Groups(Trim(s)))) else Err(IllegalArgument)
  {
    var t := Trim(s);
    SplitShaped(t);
    var gs := Groups(t);
    assert forall g | 0 <= g < 5 :: |gs[g]| == PartLengths[g];
  }

  /** Only a string whose trimmed form has that shape parses. */
  lemma ParseOkShaped(s: string)
    requires Parse(Some(s)).Ok?
    ensures Shaped(Trim(s))
  {
    var t := Trim(s);
    var parts := JavaSplit(t);
    assert |t| == StringLength && |parts| == 5;
    assert forall g | 0 <= g < 5 :: |parts[g]| == PartLengths[g];
    SplitIsShaped(t);
  }

  /** `parse` accepts exactly the strings whose trimmed form is `Accepted`,
      and then reads the groups of that form. */
  lemma ParseAccepts(s: string)
    ensures Parse(Some(s)).Ok? <==> Accepted(Trim(s))
    ensures Parse(Some(s)).Ok? ==> JavaSplit(Trim(s)) == Groups(Trim(s))
  {
    if Shaped(Trim(s)) {
      ParseShaped(s);
    } else if Parse(Some(s)).Ok? {
      ParseOkShaped(s);
    }
  }

  /** Hex digit pairs are numerals, and they denote the bytes the hex
      digits do. */
  lemma {:induction false} HexPairs(g: string)
    requires IsHex(g) && |g| % 2 == 0
    ensures PairsNumeral(g) && PairsValue(g) == BytesOfHex(g)
    decreases |g|
  {
    if |g| > 0 {
      assert IsHex(g[..2]) && IsHex(g[2..]);
      HexPairs(g[2..]);
      var pair := g[..2];
      assert HexValue(pair) == 16 * HexValue(pair[..1]) + DigitValue(pair[1]);
      assert pair[..1] == [g[0]];
      assert HexValue([g[0]]) == 16 * HexValue([g[0]][..0]) + DigitValue(g[0]);
      assert NumeralValue(pair) == PairValue(g[0], g[1]);
    }
  }

  /** Hex groups of the canonical lengths are valid, and each denotes its
      hex value. */
  lemma HexGroupsValid(parts: seq<string>)
    requires |parts| == 5 && forall g | 0 <= g < 5 :: |parts[g]| == PartLengths[g] && IsHex(parts[g])
    ensures ValidGroups(parts)
    ensures forall g | 0 <= g < 4 :: NumeralValue(parts[g]) == HexValue(parts[g])
    ensures PairsValue(parts[4]) == BytesOfHex(parts[4])
  {
    HexPairs(parts[4]);
  }

  /** Every canonical string is accepted, whatever the case of its digits. */
  lemma CanonicalAccepted(t: string)
    requires Canonical(t)
    ensures Accepted(t)
  {
    CanonicalIsJoin(t);
    HexGroupsValid(Groups(t));
  }

  /** The groups of a signed UUID string: a `+` in front of the first
      group, the second group and every node digit pair. */
  const SignedGroups: seq<string> := ["+0000000", "+000", "0000", "0000", "+0+0+0+0+0+0"]

  /** The signed string, `+0000000-+000-0000-0000-+0+0+0+0+0+0`. */
  const SignedExample: string := Join(SignedGroups)

  /** The groups of the signed string. */
  lemma SignedExampleSplit()
    ensures |SignedExample| == StringLength
    ensures Groups(SignedExample) == SignedGroups
  {
    JoinFive(SignedGroups);
  }

  /** No signed group holds a hyphen. */
  lemma SignedGroupsHyphenFree()
    ensures HyphenFree(SignedGroups)
  {
    var gs := SignedGroups;
    forall g | 0 <= g < 5
      ensures '-' !in gs[g]
    {
      assert forall k | 0 <= k < |gs[g]| :: gs[g][k] != '-';
    }
  }

  /** The signed string starts with `+` and ends with `0`. */
  lemma SignedExampleEnds()
    ensures |SignedExample| == StringLength
    ensures SignedExample[0] == '+' && SignedExample[StringLength - 1] == '0'
  {
    JoinFiveAt(SignedGroups, 0);
    JoinFiveAt(SignedGroups, StringLength - 1);
  }

  /** The signed string is trimmed already and has the 8-4-4-4-12 shape, but
      it is not canonical. */
  lemma SignedExampleShape()
    ensures Trim(SignedExample) == SignedExample
    ensures Shaped(SignedExample) && !Canonical(SignedExample)
  {
    SignedGroupsHyphenFree();
    JoinIsShaped(SignedGroups);
    SignedExampleEnds();
    assert !IsHexDigit(SignedExample[0]);
  }

  /** A `+` and a single zero digit denote zero. */
  lemma SignedZero()
    ensures IsNumeral("+0") && NumeralValue("+0") == 0
  {
    assert "+0"[1..] == "0";
    assert HexValue("0") == 16 * HexValue("") + DigitValue('0');
  }

  /** Signed zero pairs, `+0+0…`, denote zero bytes. */
  lemma {:induction false} SignedZeroPairs(g: string)
    requires |g| % 2 == 0
    requires forall i :: 0 <= i < |g| ==> g[i] == if i % 2 == 0 then '+' else '0'
    ensures PairsNumeral(g) && PairsValue(g) == Zeros(|g| / 2)
    decreases |g|
  {
    if |g| > 0 {
      assert g[..2] == "+0";
      SignedZero();
      SignedZeroPairs(g[2..]);
      assert Zeros(|g| / 2) == [0] + Zeros(|g[2..]| / 2);
    }
  }

  /** Zero digits denote zero. */
  lemma {:induction false} ZerosValue(s: string)
    requires forall i | 0 <= i < |s| :: s[i] == '0'
    ensures IsHex(s) && HexValue(s) == 0
  {
    if |s| > 0 {
      ZerosValue(s[..|s| - 1]);
    }
  }

  /** The groups of the signed string are valid and denote the empty UUID. */
  lemma SignedExampleGroups()
    ensures ValidGroups(SignedGroups) && FromGroups(SignedGroups) == Empty
  {
    var gs := SignedGroups;
    ZerosNumeral("+0000000");
    ZerosNumeral("+000");
    ZerosNumeral("0000");
    SignedZeroPairs(gs[4]);
    assert ValidGroups(gs);
    assert FromGroups(gs).node == Zeros(6);
  }

  /** Zero digits, signed or not, make a numeral denoting zero. */
  lemma ZerosNumeral(s: string)
    requires |s| > 1 && (s[0] == '+' || s[0] == '0') && forall i | 1 <= i < |s| :: s[i] == '0'
    ensures IsNumeral(s) && NumeralValue(s) == 0
  {
    if s[0] == '+' {
      ZerosValue(s[1..]);
    } else {
      ZerosValue(s);
    }
  }

  /** Java's number parsing also takes a `+` sign in front of a group or of
      a node digit pair, so `parse` accepts the signed string, which is not
      canonical, as the empty UUID. */
  lemma SignedExampleParses()
    ensures Parse(Some(SignedExample)) == Ok(Empty)
  {
    SignedExampleShape();
    SignedExampleSplit();
    SignedExampleGroups();
    ParseAcceptedValue(SignedExample);
  }

  /** Lower-case groups join to a string whose digits are lower-case. */
  lemma JoinIsLower(parts: seq<string>)
    requires |parts| == 5 && forall g | 0 <= g < 5 :: |parts[g]| == PartLengths[g] && IsLowerHex(parts[g])
    ensures |Join(parts)| == StringLength
    ensures forall i :: 0 <= i < StringLength && !IsSeparator(i) ==> IsLowerHexDigit(Join(parts)[i])
  {
    JoinFive(parts);
    forall i | 0 <= i < StringLength && !IsSeparator(i)
      ensures IsLowerHexDigit(Join(parts)[i])
    {
      JoinFiveAt(parts, i);
    }
  }

  /** The groups of a UUID read back as its fields. */
  lemma FromUuidGroups(u: Uuid)
    ensures ValidGroups(UuidGroups(u))
    ensures FromGroups(UuidGroups(u)) == u
  {
    var p := UuidGroups(u);
    HexGroupsValid(p);
    var v := FromGroups(p);
    HexValueOfHexNat(Wrap(u.timeLow, 4), 8);
    SignedWrap(u.timeLow, 4);
    assert v.timeLow == u.timeLow;
    HexValueOfHexNat(Wrap(u.timeMid, 2), 4);
    SignedWrap(u.timeMid, 2);
    assert v.timeMid == u.timeMid;
    HexValueOfHexNat(Wrap(u.timeHighAndVersion, 2), 4);
    SignedWrap(u.timeHighAndVersion, 2);
    assert v.timeHighAndVersion == u.timeHighAndVersion;
    ClockOfHex(u.clockSeqHighAndReserved, u.clockSeqLow);
    assert v.clockSeqHighAndReserved == u.clockSeqHighAndReserved;
    assert v.clockSeqLow == u.clockSeqLow;
    BytesOfHexBytes(u.node);
    assert v.node == u.node;
  }

  /** An accepted string parses to the UUID its groups denote. */
  lemma ParseAcceptedValue(s: string)
    requires Accepted(Trim(s))
    ensures Parse(Some(s)) == Ok(FromGroups(Groups(Trim(s))))
  {
    ParseShaped(s);
  }

  /** The string of a UUID parses back to the UUID. */
  lemma ParseToString(u: Uuid)
    ensures Parse(Some(ToString(u))) == Ok(u)
  {
    var t := ToString(u);
    var parts := UuidGroups(u);
    assert t == Join(parts);
    JoinFive(parts);
    assert Trim(t) == t;
    CanonicalAccepted(t);
    ParseAcceptedValue(t);
    FromUuidGroups(u);
  }

  /** Printing the clock-sequence bytes and reading them back as one 16-bit
      group separates them again. */
  lemma ClockOfHex(hi: byte, lo: byte)
    ensures IsHex(HexNat(hi, 2) + HexNat(lo, 2))
    ensures HexValue(HexNat(hi, 2) + HexNat(lo, 2)) / 256 == hi
    ensures HexValue(HexNat(hi, 2) + HexNat(lo, 2)) % 256 == lo
  {
    Pow16Twice(1);
    HexNatLength(hi, 2);
    HexNatLength(lo, 2);
    HexValueAppend(HexNat(hi, 2), HexNat(lo, 2));
    HexValueOfHexNat(hi, 2);
    HexValueOfHexNat(lo, 2);
    ModUnique(hi * 256 + lo, 256, hi, lo);
  }

  /** A lower-case canonical string is the string of the UUID it parses to. */
  lemma ToStringParse(s: string)
    requires Canonical(s) && forall i :: 0 <= i < |s| && !IsSeparator(i) ==> IsLowerHexDigit(s[i])
    ensures Parse(Some(s)).Ok? && ToString(Parse(Some(s)).value) == s
  {
    assert s[0] > ' ' && s[35] > ' ';
    ParseAccepts(s);
    CanonicalIsJoin(s);
    LowerGroups(s);
    GroupsOfFromGroups(Groups(s));
  }

  /** The groups of a lower-case canonical string are lower-case. */
  lemma LowerGroups(s: string)
    requires Canonical(s) && forall i :: 0 <= i < |s| && !IsSeparator(i) ==> IsLowerHexDigit(s[i])
    ensures forall g | 0 <= g < 5 :: IsLowerHex(Groups(s)[g])
  {
    var gs := Groups(s);
    forall g | 0 <= g < 5
      ensures IsLowerHex(gs[g])
    {
      var off := [0, 9, 14, 19, 24][g];
      assert forall k | 0 <= k < |gs[g]| :: gs[g][k] == s[off + k] && !IsSeparator(off + k);
    }
  }

  /** Lower-case groups of the canonical lengths are the groups of the UUID
      they denote. */
  lemma GroupsOfFromGroups(gs: seq<string>)
    requires |gs| == 5 && forall g | 0 <= g < 5 :: |gs[g]| == PartLengths[g] && IsHex(gs[g]) && IsLowerHex(gs[g])
    ensures ValidGroups(gs)
    ensures UuidGroups(FromGroups(gs)) == gs
  {
    HexGroupsValid(gs);
    var u := FromGroups(gs);
    var p := UuidGroups(u);
    Pow16Twice(4);
    Pow16Twice(2);
    WrapSigned(HexValue(gs[0]), 4);
    HexNatOfHexValue(gs[0]);
    assert p[0] == gs[0];
    WrapSigned(HexValue(gs[1]), 2);
    HexNatOfHexValue(gs[1]);
    assert p[1] == gs[1];
    WrapSigned(HexValue(gs[2]), 2);
    HexNatOfHexValue(gs[2]);
    assert p[2] == gs[2];
    HexOfClock(gs[3]);
    assert p[3] == gs[3];
    HexBytesOfHex(gs[4]);
    LowerOfLower(gs[4]);
    assert p[4] == gs[4];
  }

  /** Reading a four-digit group and printing its two bytes gives it back. */
  lemma HexOfClock(g: string)
    requires |g| == 4 && IsLowerHex(g)
    ensures HexNat(HexValue(g) / 256, 2) + HexNat(HexValue(g) % 256, 2) == g
  {
    var hi, lo := g[..2], g[2..];
    assert g == hi + lo;
    HexValueAppend(hi, lo);
    ModUnique(HexValue(g), 256, HexValue(hi), HexValue(lo));
    HexNatOfHexValue(hi);
    HexNatOfHexValue(lo);
  }

  lemma LowerOfLower(s: string)
    requires IsLowerHex(s)
    ensures LowerString(s) == s
  {
  }

  // -------------------------------------------------------------- NDR form

  /** `ndrSerialize`: the three integer fields, the two clock bytes, then
      the node as a fixed array. */
  function Serialize(w: Writer, u: Uuid): (r: Result<Writer>)
    ensures r.Ok? <==> Ready(w.formatLabel)
    ensures r.Err? ==> r.error == IllegalState
    ensures r.Ok? ==> r.value.formatLabel == w.formatLabel && w.out.sink <= r.value.out.sink
  {
    var w3 :- WriteTimeFields(w, u);
    Ok(WriteClockAndNode(w3, u))
  }

  /** The first three statements of `ndrSerialize`. */
  function WriteTimeFields(w: Writer, u: Uuid): (r: Result<Writer>)
    ensures r.Ok? <==> Ready(w.formatLabel)
    ensures r.Err? ==> r.error == IllegalState
    ensures r.Ok? ==> r.value.formatLabel == w.formatLabel && w.out.sink <= r.value.out.sink
  {
    var w1 :- WriteInt(w, u.timeLow);
    var w2 := WriteShort(w1, u.timeMid).value;
    Ok(WriteShort(w2, u.timeHighAndVersion).value)
  }

  /** The last three statements of `ndrSerialize`: eight unaligned bytes. */
  function WriteClockAndNode(w: Writer, u: Uuid): (r: Writer)
    ensures r.formatLabel == w.formatLabel && r.out.count == w.out.count + 8
    ensures r.out.sink == w.out.sink + [u.clockSeqHighAndReserved, u.clockSeqLow] + u.node
  {
    var w5 := WriteByte(WriteByte(w, u.clockSeqHighAndReserved), u.clockSeqLow);
    assert u.node[0..NodeLength] == u.node;
    WriteBytesFixed(w5, Some(u.node), 0, NodeLength).value
  }

  /** `ndrDeserialize`: reads the fields in the order they are written; the
      node is read into the six bytes of a fresh UUID. */
  function Deserialize(rd: Reader): (r: Result<Step<Uuid>>)
    ensures r.Ok? ==> r.value.next.formatLabel == rd.formatLabel
    ensures !Ready(rd.formatLabel) ==> r == Err(IllegalState)
  {
    var t :- ReadTimeFields(rd);
    var d :- ReadByte(t.next);
    var e :- ReadByte(d.next);
    var f :- ReadBytesFixed(e.next, Empty.node, 0, NodeLength);
    Ok(Step(Uuid(t.value.0, t.value.1, t.value.2, d.value, e.value, f.value.buf), f.next))
  }

  /** The first three statements of `ndrDeserialize`. */
  function ReadTimeFields(rd: Reader): (r: Result<Step<(int32, int16, int16)>>)
    ensures r.Ok? ==> r.value.next.formatLabel == rd.formatLabel
    ensures !Ready(rd.formatLabel) ==> r == Err(IllegalState)
  {
    var a :- ReadInt(rd);
    var b :- ReadShort(a.next);
    var c :- ReadShort(b.next);
    Ok(Step((a.value, b.value, c.value), c.next))
  }

  /** The 16 bytes of a UUID on the wire when no padding is needed: its
      fields in order, the integers in the byte order e. */
  function NdrBytes(e: IntRep, u: Uuid): (r: seq<byte>)
    ensures |r| == 16
  {
    EncodeNumber(e, Wrap(u.timeLow, 4), 4) + EncodeNumber(e, Wrap(u.timeMid, 2), 2)
    + EncodeNumber(e, Wrap(u.timeHighAndVersion, 2), 2)
    + [u.clockSeqHighAndReserved, u.clockSeqLow] + u.node
  }

  /** On a stream position that is a multiple of four no padding is needed:
      the UUID takes 16 bytes, its fields in order in the label's byte order. */
  lemma SerializeLayout(w: Writer, u: Uuid)
    requires Ready(w.formatLabel) && w.out.count % 4 == 0
    ensures && Serialize(w, u).Ok?
            && Emitted(w, Serialize(w, u).value) == NdrBytes(w.formatLabel.value.integer.value, u)
            && Serialize(w, u).value.out.count == w.out.count + 16
  {
    var e := w.formatLabel.value.integer.value;
    var c := w.out.count;
    PaddingAligns(c, 4);
    ModUnique(c + 4, 2, c / 2 + 2, 0);
    PaddingAligns(c + 4, 2);
    ModUnique(c + 6, 2, c / 2 + 3, 0);
    PaddingAligns(c + 6, 2);
    var w1 := WriteInt(w, u.timeLow).value;
    var w2 := WriteShort(w1, u.timeMid).value;
    var w3 := WriteShort(w2, u.timeHighAndVersion).value;
    assert w1.out.sink == w.out.sink + EncodeNumber(e, Wrap(u.timeLow, 4), 4);
    assert w2.out.sink == w1.out.sink + EncodeNumber(e, Wrap(u.timeMid, 2), 2);
    assert w3.out.sink == w2.out.sink + EncodeNumber(e, Wrap(u.timeHighAndVersion, 2), 2);
    assert w3 == WriteTimeFields(w, u).value;
  }

  /** The three time fields come back in order. */
  lemma TimeFieldsRoundTrip(w: Writer, rd: Reader, u: Uuid, tail: seq<byte>)
    requires Ready(w.formatLabel) && Synced(w, rd)
    requires rd.input.rest == Emitted(w, WriteTimeFields(w, u).value) + tail
    ensures ReadTimeFields(rd) == Ok(Step((u.timeLow, u.timeMid, u.timeHighAndVersion),
                                          After(WriteTimeFields(w, u).value, tail)))
  {
    var w1 := WriteInt(w, u.timeLow).value;
    var w2 := WriteShort(w1, u.timeMid).value;
    var w3 := WriteShort(w2, u.timeHighAndVersion).value;
    assert w3 == WriteTimeFields(w, u).value;
    assert w.out.sink <= w1.out.sink <= w2.out.sink <= w3.out.sink;

    Peel(w, w1, w3, rd, tail);
    IntRoundTrip(w, rd, u.timeLow, Emitted(w1, w3) + tail);
    var rd1 := After(w1, Emitted(w1, w3) + tail);

    Peel(w1, w2, w3, rd1, tail);
    ShortRoundTrip(w1, rd1, u.timeMid, Emitted(w2, w3) + tail);
    var rd2 := After(w2, Emitted(w2, w3) + tail);

    ShortRoundTrip(w2, rd2, u.timeHighAndVersion, tail);
    var r := ReadTimeFields(rd);
    assert r.Ok? && r.value.value == (u.timeLow, u.timeMid, u.timeHighAndVersion);
    StepIs(r, (u.timeLow, u.timeMid, u.timeHighAndVersion), After(w3, tail));
  }

  /** What `ndrSerialize` writes, `ndrDeserialize` reads back, unless a clock
      byte is 0xFF: the single-byte read takes that byte for the end of the
      stream. */
  lemma SerializeRoundTrip(w: Writer, rd: Reader, u: Uuid, tail: seq<byte>)
    requires Ready(w.formatLabel) && Synced(w, rd)
    requires rd.input.rest == Emitted(w, Serialize(w, u).value) + tail
    ensures u.clockSeqHighAndReserved != 0xFF && u.clockSeqLow != 0xFF
            ==> Deserialize(rd) == Ok(Step(u, After(Serialize(w, u).value, tail)))
    ensures u.clockSeqHighAndReserved == 0xFF || u.clockSeqLow == 0xFF ==> Deserialize(rd) == Err(IO)
  {
    var w3 := WriteTimeFields(w, u).value;
    var w6 := Serialize(w, u).value;
    assert w6 == WriteClockAndNode(w3, u);
    var clock := [u.clockSeqHighAndReserved, u.clockSeqLow];
    assert Emitted(w3, w6) == clock + u.node;
    Peel(w, w3, w6, rd, tail);
    TimeFieldsRoundTrip(w, rd, u, Emitted(w3, w6) + tail);
    var rd3 := After(w3, Emitted(w3, w6) + tail);
    Assoc(clock, u.node, tail);
    assert rd3.input.rest == [u.clockSeqHighAndReserved, u.clockSeqLow] + (u.node + tail);
    ClockAndNodeRead(rd3, u, tail);
    var t := ReadTimeFields(rd);
    assert t.Ok? && t.value.next == rd3 && t.value.value == (u.timeLow, u.timeMid, u.timeHighAndVersion);
    var r := Deserialize(rd);
    if u.clockSeqHighAndReserved != 0xFF && u.clockSeqLow != 0xFF {
      var d := ReadByte(rd3).value;
      var e := ReadByte(d.next).value;
      var f := ReadBytesFixed(e.next, Empty.node, 0, NodeLength).value;
      assert f.next == After(w6, tail);
      assert r.Ok? && r.value.value == Uuid(u.timeLow, u.timeMid, u.timeHighAndVersion, d.value, e.value, f.value.buf);
      StepIs(r, u, After(w6, tail));
    }
  }

  /** The two clock bytes and the node, read back from the stream. */
  lemma ClockAndNodeRead(rd: Reader, u: Uuid, tail: seq<byte>)
    requires rd.input.rest == [u.clockSeqHighAndReserved, u.clockSeqLow] + (u.node + tail)
    ensures var d := ReadByte(rd);
      && (u.clockSeqHighAndReserved == 0xFF ==> d == Err(IO))
      && (u.clockSeqHighAndReserved != 0xFF ==> d.Ok? && d.value.value == u.clockSeqHighAndReserved)
      && (u.clockSeqHighAndReserved != 0xFF && u.clockSeqLow == 0xFF ==> ReadByte(d.value.next) == Err(IO))
      && (u.clockSeqHighAndReserved != 0xFF && u.clockSeqLow != 0xFF ==>
           var e := ReadByte(d.value.next);
           && e.Ok? && e.value.value == u.clockSeqLow
           && var f := ReadBytesFixed(e.value.next, Empty.node, 0, NodeLength);
           && f.Ok? && f.value.value.buf == u.node
           && f.value.next == Reader(InStream(tail, rd.input.count + 8), rd.formatLabel))
  {
    var rest := rd.input.rest;
    assert rest[0] == u.clockSeqHighAndReserved && rest[1..] == [u.clockSeqLow] + (u.node + tail);
    if u.clockSeqHighAndReserved != 0xFF {
      var d := ReadByte(rd).value.next;
      assert d.input.rest[0] == u.clockSeqLow && d.input.rest[1..] == u.node + tail;
      if u.clockSeqLow != 0xFF {
        var e := ReadByte(d).value.next;
        ReadFixedOf(e, u.node, tail, Empty.node, 0);
        assert Overwrite(Empty.node, 0, u.node) == u.node;
      }
    }
  }
}

=== FILE: wireshark_viewer.dfy ===
/** `WireSharkViewer`: bytes shown the way WireShark's hex view and bits
    view show them.  A hex-view line holds sixteen bytes:

      0000  00 00 00 00 12 34 56 78  48 65 6c 6c 6f 20 77 6f   .....4Vx Hello wo

    a bits-view line eight:

      0000  00000000 00000000 00000000 00000000 00010010 00110100 01010110 01111000   .....4Vx
 */
module WireSharkViewer {
  import opened Wrappers
  import opened Bytes
  import opened HexDigits
  import opened FormatLabels
  import Uuids

  /** `FIRST_PRINTABLE_CHAR`: bytes below it show as a dot. */
  const FirstPrintableChar := 0x10

  /** `NUM_BYTES_PER_HEXVIEW_LINE`. */
  const BytesPerHexLine := 16

  /** `NUM_BITS_PER_BITSVIEW_LINE`, which counts bytes, eight to a line. */
  const BytesPerBitsLine := 8

  /** `byteToChar`: a dot below `FIRST_PRINTABLE_CHAR`, otherwise the byte
      decoded alone in the character set. */
  function ByteToChar(b: byte, cs: Charset): char {
    if b < FirstPrintableChar then '.' else cs.decodeByte(b)
  }

  /** The readable form of some bytes, one character each. */
  function Readable(bytes: seq<byte>, cs: Charset): (r: string)
    ensures |r| == |bytes|
  {
    seq(|bytes|, i requires 0 <= i < |bytes| => ByteToChar(bytes[i], cs))
  }

  // ------------------------------------------------------------ line count

  /** The loop bound `(numBytes + perLine - 1) / perLine`, the sum in Java
      `int` arithmetic; a bound of zero or less runs no line. */
  function LineCount(numBytes: int32, perLine: nat): (r: nat)
    requires perLine == BytesPerHexLine || perLine == BytesPerBitsLine
    ensures numBytes <= 0 ==> r == 0
    ensures 0 < numBytes && numBytes + perLine - 1 <= 0x7FFF_FFFF ==>
      r > 0 && (r - 1) * perLine < numBytes <= r * perLine
    ensures numBytes + perLine - 1 > 0x7FFF_FFFF ==> r == 0
  {
    var sum := AddInt(numBytes, perLine - 1);
    if sum <= 0 then 0 else sum / perLine
  }

  /** Line l of a view over `data`: the next `perLine` bytes, fewer on the
      last line (`Math.min(numBytes - line * perLine, perLine)`). */
  function Chunk(data: seq<byte>, l: nat, perLine: nat): (r: seq<byte>)
    requires perLine > 0 && l * perLine < |data|
    ensures 0 < |r| <= perLine
  {
    var count := if |data| - l * perLine < perLine then |data| - l * perLine else perLine;
    data[l * perLine..l * perLine + count]
  }

  /** All the bytes, one after another. */
  function Flatten(chunks: seq<seq<byte>>): seq<byte> {
    if |chunks| == 0 then [] else Flatten(chunks[..|chunks| - 1]) + chunks[|chunks| - 1]
  }

  /** The first k chunks of a view. */
  function Chunks(data: seq<byte>, perLine: nat, k: nat): (r: seq<seq<byte>>)
    requires perLine > 0 && (k == 0 || (k - 1) * perLine < |data|)
    ensures |r| == k
  {
    seq(k, l requires 0 <= l < k => Chunk(data, l, perLine))
  }

  /** Where chunk l ends. */
  lemma ChunkEnd(data: seq<byte>, perLine: nat, l: nat, start: nat)
    requires perLine > 0 && start == l * perLine && start < |data|
    ensures (l + 1) * perLine == start + perLine
    ensures Chunk(data, l, perLine) == data[start..if start + perLine < |data| then start + perLine else |data|]
  {
  }

  /** The lines of a view take every byte once, in order. */
  lemma {:induction false} ChunksCover(data: seq<byte>, perLine: nat, k: nat)
    requires perLine > 0 && k > 0 && (k - 1) * perLine < |data|
    ensures Flatten(Chunks(data, perLine, k)) == data[..if k * perLine < |data| then k * perLine else |data|]
    decreases k
  {
    var chunks := Chunks(data, perLine, k);
    var start := (k - 1) * perLine;
    ChunkEnd(data, perLine, k - 1, start);
    var end := if start + perLine < |data| then start + perLine else |data|;
    assert chunks[k - 1] == data[start..end];
    if k == 1 {
      assert chunks[..0] == [];
      assert Flatten(chunks[..0]) == [];
    } else {
      var before := (k - 2) * perLine;
      ChunkEnd(data, perLine, k - 2, before);
      ChunksCover(data, perLine, k - 1);
      assert chunks[..k - 1] == Chunks(data, perLine, k - 1);
      assert data[..end] == data[..start] + data[start..end];
    }
  }

  /** The lines of a view over `numBytes` bytes take each of them once. */
  lemma ViewCover(data: seq<byte>, numBytes: int32, perLine: nat)
    requires perLine == BytesPerHexLine || perLine == BytesPerBitsLine
    requires |data| == numBytes && LineCount(numBytes, perLine) > 0
    ensures var count := LineCount(numBytes, perLine);
      && (count - 1) * perLine < |data| <= count * perLine
      && Flatten(Chunks(data, perLine, count)) == data
  {
    var count := LineCount(numBytes, perLine);
    ChunksCover(data, perLine, count);
    assert data[..|data|] == data;
  }

  /** `line > 0 ? "\n" : ""` before each line. */
  function Join(lines: seq<string>): (r: string)
    ensures |lines| == 1 ==> r == lines[0]
  {
    if |lines| == 0 then ""
    else if |lines| == 1 then lines[0]
    else Join(lines[..|lines| - 1]) + "\n" + lines[|lines| - 1]
  }

  // -------------------------------------------------------------- hex view

  /** The three spaces that stand for a missing byte and that separate the
      columns of a line. */
  const Gap: string := "   "

  /** The nine spaces that stand for a missing byte in the bits column. */
  const NoBits: string := "         "

  /** One step of the inner loop in the hex column: a space before byte 0
      and byte 8, then ` xx` for a byte of the line, three spaces past its
      end. */
  function HexCell(chunk: seq<byte>, k: nat): (r: string)
    ensures |r| == (if k % 8 == 0 then 4 else 3)
    ensures k < |chunk| ==> HexAt(r, |r| - 2, chunk[k])
    ensures k >= |chunk| ==> BlankAt(r, |r| - 3)
  {
    (if k % 8 == 0 then " " else "") + (if k < |chunk| then " " + ByteHex(chunk[k]) else Gap)
  }

  /** The two digits of b at position x of s. */
  predicate HexAt(s: string, x: nat, b: byte) {
    x + 2 <= |s| && s[x] == ByteHex(b)[0] && s[x + 1] == ByteHex(b)[1]
  }

  /** Three spaces at position x of s. */
  predicate BlankAt(s: string, x: nat) {
    x + 3 <= |s| && s[x] == ' ' && s[x + 1] == ' ' && s[x + 2] == ' '
  }

  /** The hex column after i steps. */
  function HexCells(chunk: seq<byte>, i: nat): (r: string)
    requires i <= BytesPerHexLine
    ensures |r| == CellsLength(i)
  {
    if i == 0 then "" else HexCells(chunk, i - 1) + HexCell(chunk, i - 1)
  }

  /** One step in the readable column: the same separators, one character
      for a byte of the line. */
  function ReadableCell(chunk: seq<byte>, k: nat, cs: Charset): string {
    (if k % 8 == 0 then " " else "") + (if k < |chunk| then [ByteToChar(chunk[k], cs)] else "")
  }

  /** The readable column after i steps. */
  function ReadableCells(chunk: seq<byte>, i: nat, cs: Charset): string
    requires i <= BytesPerHexLine
  {
    if i == 0 then "" else ReadableCells(chunk, i - 1, cs) + ReadableCell(chunk, i - 1, cs)
  }

  /** One line of the hex view: `%04x` of the line's first byte number, the
      hex column, three spaces, the readable column trimmed. */
  function HexLine(address: nat, chunk: seq<byte>, cs: Charset): string
    requires |chunk| <= BytesPerHexLine
  {
    HexNat(address, 4) + HexCells(chunk, BytesPerHexLine) + Gap + Uuids.Trim(ReadableCells(chunk, BytesPerHexLine, cs))
  }

  /** The length of the hex column after i steps: three characters a
      byte and a space before each group of eight. */
  function CellsLength(i: nat): nat {
    if i == 0 then 0 else if i <= 8 then 3 * i + 1 else 3 * i + 2
  }

  /** Where byte j's two digits start in the hex column. */
  function HexColumn(j: nat): nat {
    if j < 8 then 3 * j + 2 else 3 * j + 3
  }

  /** Cell j ends two characters past `HexColumn(j)`. */
  lemma CellEnd(j: nat)
    requires j < BytesPerHexLine
    ensures HexColumn(j) + 2 == CellsLength(j + 1)
    ensures CellsLength(j + 1) == CellsLength(j) + (if j % 8 == 0 then 4 else 3)
  {
  }

  /** Character t of cell j keeps its place as the column grows. */
  lemma {:induction false} HexCellsChar(chunk: seq<byte>, i: nat, j: nat, t: nat)
    requires j < i <= BytesPerHexLine && t < |HexCell(chunk, j)|
    ensures CellsLength(j) + t < CellsLength(i)
    ensures HexCells(chunk, i)[CellsLength(j) + t] == HexCell(chunk, j)[t]
    decreases i
  {
    CellEnd(j);
    if j < i - 1 {
      HexCellsChar(chunk, i - 1, j, t);
      CellEnd(i - 2);
    }
  }

  /** Byte j's digits sit at `HexColumn(j)`, however many steps follow. */
  lemma HexCellsAt(chunk: seq<byte>, i: nat, j: nat)
    requires j < i <= BytesPerHexLine && j < |chunk|
    ensures HexAt(HexCells(chunk, i), HexColumn(j), chunk[j])
  {
    var cell := HexCell(chunk, j);
    CellEnd(j);
    HexCellsChar(chunk, i, j, |cell| - 2);
    HexCellsChar(chunk, i, j, |cell| - 1);
  }

  /** A missing byte leaves three spaces where its cell would be. */
  lemma HexCellsBlank(chunk: seq<byte>, i: nat, j: nat)
    requires |chunk| <= j < i <= BytesPerHexLine
    ensures 1 <= HexColumn(j) && BlankAt(HexCells(chunk, i), HexColumn(j) - 1)
  {
    var cell := HexCell(chunk, j);
    CellEnd(j);
    HexCellsChar(chunk, i, j, |cell| - 3);
    HexCellsChar(chunk, i, j, |cell| - 2);
    HexCellsChar(chunk, i, j, |cell| - 1);
  }

  /** One more byte, one more character. */
  lemma ReadableSnoc(bytes: seq<byte>, x: nat, y: nat, cs: Charset)
    requires x <= y < |bytes|
    ensures Readable(bytes[x..y + 1], cs) == Readable(bytes[x..y], cs) + [ByteToChar(bytes[y], cs)]
  {
    assert bytes[x..y + 1] == bytes[x..y] + [bytes[y]];
  }

  /** The first group of the readable column: a space, then the characters
      of the bytes among the first i. */
  lemma {:induction false} ReadableFirstGroup(chunk: seq<byte>, i: nat, cs: Charset)
    requires 0 < i <= 8
    ensures ReadableCells(chunk, i, cs) == " " + Readable(chunk[..if |chunk| < i then |chunk| else i], cs)
    decreases i
  {
    if i > 1 {
      ReadableFirstGroup(chunk, i - 1, cs);
      assert ReadableCells(chunk, i, cs) == ReadableCells(chunk, i - 1, cs) + ReadableCell(chunk, i - 1, cs);
      if i - 1 < |chunk| {
        ReadableSnoc(chunk, 0, i - 1, cs);
        assert chunk[0..i - 1] == chunk[..i - 1] && chunk[0..i] == chunk[..i];
      }
    } else if |chunk| > 0 {
      ReadableSnoc(chunk, 0, 0, cs);
      assert chunk[0..1] == chunk[..1];
    }
  }

  /** The second group: another space, then the characters of the bytes
      from the eighth among the first i. */
  lemma {:induction false} ReadableSecondGroup(chunk: seq<byte>, i: nat, cs: Charset)
    requires 8 < i <= BytesPerHexLine
    ensures var m := if |chunk| < 8 then |chunk| else 8;
      ReadableCells(chunk, i, cs) == ReadableCells(chunk, 8, cs) + " " + Readable(chunk[m..if |chunk| < i then |chunk| else i], cs)
    decreases i
  {
    var m := if |chunk| < 8 then |chunk| else 8;
    if i > 9 {
      ReadableSecondGroup(chunk, i - 1, cs);
      if i - 1 < |chunk| {
        ReadableSnoc(chunk, m, i - 1, cs);
      }
    } else if |chunk| > 8 {
      ReadableSnoc(chunk, m, 8, cs);
      assert chunk[8..8] == [];
    } else {
      assert chunk[m..m] == [];
    }
  }

  /** The readable column is the line's characters in two groups of eight,
      each after a space. */
  lemma ReadableGroups(chunk: seq<byte>, cs: Charset)
    requires |chunk| <= BytesPerHexLine
    ensures var m := if |chunk| < 8 then |chunk| else 8;
      ReadableCells(chunk, BytesPerHexLine, cs) == " " + Readable(chunk[..m], cs) + " " + Readable(chunk[m..], cs)
  {
    ReadableFirstGroup(chunk, 8, cs);
    ReadableSecondGroup(chunk, BytesPerHexLine, cs);
    assert chunk[if |chunk| < 8 then |chunk| else 8..|chunk|] == chunk[if |chunk| < 8 then |chunk| else 8..];
  }

  /** A line of four parts: each part sits after the ones before it. */
  lemma LineParts(h: string, cells: string, gap: string, text: string)
    ensures var line := h + cells + gap + text;
      && |line| == |h| + |cells| + |gap| + |text|
      && line[..|h|] == h
      && line[|h|..|h| + |cells|] == cells
      && line[|h| + |cells|..|h| + |cells| + |gap|] == gap
      && line[|h| + |cells| + |gap|..] == text
  {
    var line := h + cells + gap + text;
    assert line == h + (cells + (gap + text));
  }

  /** Character x of the middle column, found in the whole line. */
  lemma InLine(h: string, cells: string, gap: string, text: string, x: nat)
    requires x < |cells|
    ensures |h| + x < |h + cells + gap + text|
    ensures (h + cells + gap + text)[|h| + x] == cells[x]
  {
    assert h + cells + gap + text == h + (cells + (gap + text));
  }

  /** The four parts of a hex-view line. */
  lemma HexLineParts(address: nat, chunk: seq<byte>, cs: Charset)
    requires |chunk| <= BytesPerHexLine
    ensures var line := HexLine(address, chunk, cs);
      var a := |HexNat(address, 4)|;
      && |line| == a + 53 + |Uuids.Trim(ReadableCells(chunk, BytesPerHexLine, cs))|
      && line[..a] == HexNat(address, 4)
      && line[a..a + 50] == HexCells(chunk, BytesPerHexLine)
      && line[a + 50..a + 53] == Gap
      && line[a + 53..] == Uuids.Trim(ReadableCells(chunk, BytesPerHexLine, cs))
  {
    var h := HexNat(address, 4);
    var cells := HexCells(chunk, BytesPerHexLine);
    var text := Uuids.Trim(ReadableCells(chunk, BytesPerHexLine, cs));
    assert HexLine(address, chunk, cs) == h + cells + Gap + text;
    LineParts(h, cells, Gap, text);
  }

  /** Character x of the hex column, found in a hex-view line. */
  lemma HexLineChar(address: nat, chunk: seq<byte>, cs: Charset, x: nat)
    requires |chunk| <= BytesPerHexLine && x < CellsLength(BytesPerHexLine)
    ensures var line := HexLine(address, chunk, cs);
      var a := |HexNat(address, 4)|;
      a + x < |line| && line[a + x] == HexCells(chunk, BytesPerHexLine)[x]
  {
    var h := HexNat(address, 4);
    var cells := HexCells(chunk, BytesPerHexLine);
    var text := Uuids.Trim(ReadableCells(chunk, BytesPerHexLine, cs));
    assert HexLine(address, chunk, cs) == h + cells + Gap + text;
    InLine(h, cells, Gap, text, x);
  }

  /** Byte j's digits in a hex-view line. */
  lemma HexLineDigits(address: nat, chunk: seq<byte>, cs: Charset, j: nat)
    requires |chunk| <= BytesPerHexLine && j < |chunk|
    ensures HexAt(HexLine(address, chunk, cs), |HexNat(address, 4)| + HexColumn(j), chunk[j])
  {
    HexCellsAt(chunk, BytesPerHexLine, j);
    HexLineChar(address, chunk, cs, HexColumn(j));
    HexLineChar(address, chunk, cs, HexColumn(j) + 1);
  }

  /** The blanks of a missing byte in a hex-view line. */
  lemma HexLineBlank(address: nat, chunk: seq<byte>, cs: Charset, j: nat)
    requires |chunk| <= j < BytesPerHexLine
    ensures 1 <= HexColumn(j) && BlankAt(HexLine(address, chunk, cs), |HexNat(address, 4)| + HexColumn(j) - 1)
  {
    HexCellsBlank(chunk, BytesPerHexLine, j);
    HexLineChar(address, chunk, cs, HexColumn(j) - 1);
    HexLineChar(address, chunk, cs, HexColumn(j));
    HexLineChar(address, chunk, cs, HexColumn(j) + 1);
  }

  /** A hex-view line starts with its address in hex and ends, past three
      spaces, with the readable column. */
  lemma HexLineHead(address: nat, chunk: seq<byte>, cs: Charset)
    requires |chunk| <= BytesPerHexLine
    ensures var line := HexLine(address, chunk, cs);
      var a := |HexNat(address, 4)|;
      && |line| == a + 53 + |Uuids.Trim(ReadableCells(chunk, BytesPerHexLine, cs))|
      && IsHex(line[..a]) && HexValue(line[..a]) == address
      && line[a + 50..a + 53] == Gap
  {
    HexLineParts(address, chunk, cs);
    HexValueOfHexNat(address, 4);
  }

  /** The readable column of a hex-view line: a space, the first eight
      characters, a space, the rest, trimmed. */
  lemma HexLineText(address: nat, chunk: seq<byte>, cs: Charset)
    requires |chunk| <= BytesPerHexLine
    ensures var line := HexLine(address, chunk, cs);
      var a := |HexNat(address, 4)|;
      var m := if |chunk| < 8 then |chunk| else 8;
      && a + 53 <= |line|
      && line[a + 53..] == Uuids.Trim(" " + Readable(chunk[..m], cs) + " " + Readable(chunk[m..], cs))
  {
    HexLineParts(address, chunk, cs);
    ReadableGroups(chunk, cs);
  }

  /** Each byte of a chunk shown as two digits at its `HexColumn`, past a
      prefix of length a. */
  predicate DigitsShown(line: string, a: nat, chunk: seq<byte>) {
    forall j | 0 <= j < |chunk| :: HexAt(line, a + HexColumn(j), chunk[j])
  }

  /** Each place past the end of a chunk shown as three spaces ending at
      its `HexColumn`'s second digit. */
  predicate BlanksShown(line: string, a: nat, chunk: seq<byte>) {
    forall j | |chunk| <= j < BytesPerHexLine :: 1 <= HexColumn(j) && BlankAt(line, a + HexColumn(j) - 1)
  }

  /** Every byte's digits in a hex-view line. */
  lemma HexLineAllDigits(address: nat, chunk: seq<byte>, cs: Charset)
    requires |chunk| <= BytesPerHexLine
    ensures DigitsShown(HexLine(address, chunk, cs), |HexNat(address, 4)|, chunk)
  {
    forall j | 0 <= j < |chunk| {
      HexLineDigits(address, chunk, cs, j);
    }
  }

  /** Every missing byte's blanks in a hex-view line. */
  lemma HexLineAllBlanks(address: nat, chunk: seq<byte>, cs: Charset)
    requires |chunk| <= BytesPerHexLine
    ensures BlanksShown(HexLine(address, chunk, cs), |HexNat(address, 4)|, chunk)
  {
    forall j | |chunk| <= j < BytesPerHexLine {
      HexLineBlank(address, chunk, cs, j);
    }
  }

  /** A hex-view line: the line's address in hex, byte j's digits at
      `HexColumn(j)` after it, blanks for missing bytes, and the readable
      column last: a space, the first eight characters, a space, the rest,
      trimmed. */
  lemma HexLineLayout(address: nat, chunk: seq<byte>, cs: Charset)
    requires |chunk| <= BytesPerHexLine
    ensures var line := HexLine(address, chunk, cs);
      var a := |HexNat(address, 4)|;
      var m := if |chunk| < 8 then |chunk| else 8;
      && |line| == a + 53 + |Uuids.Trim(ReadableCells(chunk, BytesPerHexLine, cs))|
      && IsHex(line[..a]) && HexValue(line[..a]) == address
      && DigitsShown(line, a, chunk)
      && BlanksShown(line, a, chunk)
      && line[a + 50..a + 53] == Gap
      && line[a + 53..] == Uuids.Trim(" " + Readable(chunk[..m], cs) + " " + Readable(chunk[m..], cs))
  {
    HexLineHead(address, chunk, cs);
    HexLineText(address, chunk, cs);
    HexLineAllDigits(address, chunk, cs);
    HexLineAllBlanks(address, chunk, cs);
  }

  /** The bytes read back from a hex-view line: two digits at each
      `HexColumn(j)` past the address. */
  function HexLineBytes(line: string, a: nat, count: nat): (r: seq<byte>)
    requires forall j | 0 <= j < count :: a + HexColumn(j) + 1 < |line|
    requires forall j | 0 <= j < count :: IsHexDigit(line[a + HexColumn(j)]) && IsHexDigit(line[a + HexColumn(j) + 1])
    ensures |r| == count
  {
    seq(count, j requires 0 <= j < count => PairValue(line[a + HexColumn(j)], line[a + HexColumn(j) + 1]))
  }

  /** Reading a hex-view line's digits gives its bytes back. */
  lemma HexLineRoundTrip(address: nat, chunk: seq<byte>, cs: Charset)
    requires |chunk| <= BytesPerHexLine
    ensures var line := HexLine(address, chunk, cs);
      var a := |HexNat(address, 4)|;
      && (forall j | 0 <= j < |chunk| :: a + HexColumn(j) + 1 < |line|)
      && (forall j | 0 <= j < |chunk| :: IsHexDigit(line[a + HexColumn(j)]) && IsHexDigit(line[a + HexColumn(j) + 1]))
      && HexLineBytes(line, a, |chunk|) == chunk
  {
    var line := HexLine(address, chunk, cs);
    var a := |HexNat(address, 4)|;
    forall j | 0 <= j < |chunk|
      ensures a + HexColumn(j) + 1 < |line|
      ensures IsHexDigit(line[a + HexColumn(j)]) && IsHexDigit(line[a + HexColumn(j) + 1])
      ensures PairValue(line[a + HexColumn(j)], line[a + HexColumn(j) + 1]) == chunk[j]
    {
      HexLineDigits(address, chunk, cs, j);
      PairOfByteHex(chunk[j]);
    }
  }

  /** What a reader recovers from a hex-view line: the hex prefix reads back
      as the address, and the digit pairs at the byte columns read back as
      the chunk. */
  predicate HexLineShows(line: string, address: nat, chunk: seq<byte>) {
    var a := |HexNat(address, 4)|;
    && a <= |line| && IsHex(line[..a]) && HexValue(line[..a]) == address
    && (forall j | 0 <= j < |chunk| :: a + HexColumn(j) + 1 < |line|)
    && (forall j | 0 <= j < |chunk| :: IsHexDigit(line[a + HexColumn(j)]) && IsHexDigit(line[a + HexColumn(j) + 1]))
    && HexLineBytes(line, a, |chunk|) == chunk
  }

  lemma HexLineShown(address: nat, chunk: seq<byte>, cs: Charset)
    requires |chunk| <= BytesPerHexLine
    ensures HexLineShows(HexLine(address, chunk, cs), address, chunk)
  {
    HexLineLayout(address, chunk, cs);
    HexLineRoundTrip(address, chunk, cs);
  }

  /** The lines of the hex view over `data`: line l shows address 16 l and
      reads back as the l-th chunk of 16 bytes. */
  function HexLines(data: seq<byte>, count: nat, cs: Charset): (r: seq<string>)
    requires count == 0 || (count - 1) * BytesPerHexLine < |data|
    ensures |r| == count
    ensures forall l | 0 <= l < count :: r[l] == HexLine(l * BytesPerHexLine, Chunk(data, l, BytesPerHexLine), cs)
    ensures forall l | 0 <= l < count :: HexLineShows(r[l], l * BytesPerHexLine, Chunk(data, l, BytesPerHexLine))
  {
    assert forall l | 0 <= l < count ::
      HexLineShows(HexLine(l * BytesPerHexLine, Chunk(data, l, BytesPerHexLine), cs), l * BytesPerHexLine, Chunk(data, l, BytesPerHexLine)) by {
      forall l | 0 <= l < count
        ensures HexLineShows(HexLine(l * BytesPerHexLine, Chunk(data, l, BytesPerHexLine), cs), l * BytesPerHexLine, Chunk(data, l, BytesPerHexLine))
      {
        HexLineShown(l * BytesPerHexLine, Chunk(data, l, BytesPerHexLine), cs);
      }
    }
    seq(count, l requires 0 <= l < count => HexLine(l * BytesPerHexLine, Chunk(data, l, BytesPerHexLine), cs))
  }

  /** `getHexView(bytes, offset, numBytes, charset)`.  No line runs when the
      loop bound is not positive, whatever the array; otherwise a null array
      and a byte outside it fail on the first access.  Line l shows the
      bytes from `offset + 16 l`, and the lines together show each of the
      `numBytes` bytes once. */
  function HexView(bytes: Option<seq<byte>>, offset: int32, numBytes: int32, cs: Charset): (r: Result<string>)
    ensures LineCount(numBytes, BytesPerHexLine) == 0 ==> r == Ok("")
    ensures LineCount(numBytes, BytesPerHexLine) > 0 && bytes.None? ==> r == Err(NullPointer)
    ensures LineCount(numBytes, BytesPerHexLine) > 0 && bytes.Some? ==>
      (r.Ok? <==> 0 <= offset && offset + numBytes <= |bytes.value|)
    ensures r.Err? && bytes.Some? ==> r.error == IndexOutOfBounds
    ensures r.Ok? && LineCount(numBytes, BytesPerHexLine) > 0 ==>
      var count := LineCount(numBytes, BytesPerHexLine);
      var data := bytes.value[offset..offset + numBytes];
      && (count - 1) * BytesPerHexLine < |data| <= count * BytesPerHexLine
      && Flatten(Chunks(data, BytesPerHexLine, count)) == data
      && r.value == Join(HexLines(data, count, cs))
  {
    var count := LineCount(numBytes, BytesPerHexLine);
    if count == 0 then Ok("")
    else if bytes.None? then Err(NullPointer)
    else if offset < 0 || offset + numBytes > |bytes.value| then Err(IndexOutOfBounds)
    else
      var data := bytes.value[offset..offset + numBytes];
      ViewCover(data, numBytes, BytesPerHexLine);
      Ok(Join(HexLines(data, count, cs)))
  }

  // ------------------------------------------------------------- bits view

  /** `(aByte >>> k) & 0x01`: bit k of the byte.  The shift is of the
      sign-extended `int`, whose bits 0 to 7 are the byte's own, and each
      step of it halves the value. */
  function Bit(b: byte, k: nat): (r: nat)
    requires k < 8
    ensures r < 2
  {
    if k == 0 then b % 2 else Bit(b / 2, k - 1)
  }

  function Pow2(k: nat): (r: nat)
    ensures r >= 1
  {
    if k == 0 then 1 else 2 * Pow2(k - 1)
  }

  /** `appendBitsOfByte` after the steps for bits `n - 1` down to 0: one
      digit per bit, the most significant first. */
  function BitDigits(b: byte, n: nat): (r: string)
    requires n <= 8
    ensures |r| == n
  {
    seq(n, i requires 0 <= i < n => if Bit(b, n - 1 - i) == 0 then '0' else '1')
  }

  /** The value of a binary numeral, most significant digit first. */
  function BinaryValue(s: string): nat {
    if |s| == 0 then 0 else 2 * BinaryValue(s[..|s| - 1]) + (if s[|s| - 1] == '1' then 1 else 0)
  }

  /** The digits of bits n - 1 down to 1 of b are those of n - 1 bits of
      `b / 2`, the last digit is bit 0. */
  lemma BitDigitsSplit(b: byte, n: nat)
    requires 0 < n <= 8
    ensures BitDigits(b, n) == BitDigits(b / 2, n - 1) + [if b % 2 == 0 then '0' else '1']
  {
    var s := BitDigits(b, n);
    var t := BitDigits(b / 2, n - 1) + [if b % 2 == 0 then '0' else '1'];
    forall i | 0 <= i < n
      ensures s[i] == t[i]
    {
      if i < n - 1 {
        assert Bit(b, n - 1 - i) == Bit(b / 2, n - 2 - i);
      }
    }
  }

  /** Halving and the lowest bit rebuild the low n bits. */
  lemma LowBits(x: nat, n: nat)
    requires n > 0
    ensures x % Pow2(n) == 2 * ((x / 2) % Pow2(n - 1)) + x % 2
  {
    var p := Pow2(n - 1);
    var q := (x / 2) / p;
    var low := 2 * ((x / 2) % p) + x % 2;
    assert Pow2(n) == 2 * p;
    assert x == 2 * (x / 2) + x % 2;
    assert x / 2 == q * p + (x / 2) % p;
    assert x == q * (2 * p) + low;
    ModUnique(x, 2 * p, q, low);
  }

  /** The low n bits of a byte, read back. */
  lemma {:induction false} BitDigitsValue(b: byte, n: nat)
    requires n <= 8
    ensures BinaryValue(BitDigits(b, n)) == b % Pow2(n)
    decreases n
  {
    if n > 0 {
      var s := BitDigits(b, n);
      BitDigitsSplit(b, n);
      assert s[..n - 1] == BitDigits(b / 2, n - 1);
      BitDigitsValue(b / 2, n - 1);
      LowBits(b, n);
    } else {
      assert BitDigits(b, 0) == "";
    }
  }

  /** `appendBitsOfByte`: the byte's eight bits, read back as the byte. */
  lemma BitsOfByteRoundTrip(b: byte)
    ensures |BitDigits(b, 8)| == 8 && BinaryValue(BitDigits(b, 8)) == b
  {
    BitDigitsValue(b, 8);
    assert Pow2(8) == 256;
  }

  /** One step of the bits view's inner loop: ` bbbbbbbb` for a byte of the
      line, nine spaces past its end. */
  function BitsCell(chunk: seq<byte>, k: nat): (r: string)
    ensures |r| == 9
    ensures k < |chunk| ==> r[1..] == BitDigits(chunk[k], 8)
  {
    if k < |chunk| then " " + BitDigits(chunk[k], 8) else NoBits
  }

  /** The bits column after i steps. */
  function BitsCells(chunk: seq<byte>, i: nat): (r: string)
    requires i <= BytesPerBitsLine
    ensures |r| == 9 * i
  {
    if i == 0 then "" else BitsCells(chunk, i - 1) + BitsCell(chunk, i - 1)
  }

  /** Bit digit t of byte j in the bits column. */
  lemma {:induction false} BitsCellsChar(chunk: seq<byte>, i: nat, j: nat, t: nat)
    requires j < i <= BytesPerBitsLine && j < |chunk| && t < 8
    ensures BitsCells(chunk, i)[9 * j + 1 + t] == BitDigits(chunk[j], 8)[t]
    decreases i
  {
    if j < i - 1 {
      BitsCellsChar(chunk, i - 1, j, t);
    }
  }

  /** One line of the bits view: `%04x ` of the line's first byte number,
      the bits column, three spaces, the line's characters trimmed. */
  function BitsLine(address: nat, chunk: seq<byte>, cs: Charset): string
    requires |chunk| <= BytesPerBitsLine
  {
    HexNat(address, 4) + " " + BitsCells(chunk, BytesPerBitsLine) + Gap + Uuids.Trim(Readable(chunk, cs))
  }

  /** The eight characters of cell j, past a prefix of length a, read back
      as the byte b. */
  predicate BitsAt(line: string, a: nat, j: nat, b: byte) {
    a + 9 * j + 10 <= |line| && BinaryValue(line[a + 9 * j + 2..a + 9 * j + 10]) == b
  }

  /** Bit digit t of byte j in a bits-view line. */
  lemma BitsLineChar(address: nat, chunk: seq<byte>, cs: Charset, j: nat, t: nat)
    requires |chunk| <= BytesPerBitsLine && j < |chunk| && t < 8
    ensures var line := BitsLine(address, chunk, cs);
      var x := |HexNat(address, 4)| + 9 * j + 2 + t;
      x < |line| && line[x] == BitDigits(chunk[j], 8)[t]
  {
    var h := HexNat(address, 4);
    var cells := " " + BitsCells(chunk, BytesPerBitsLine);
    var text := Uuids.Trim(Readable(chunk, cs));
    assert BitsLine(address, chunk, cs) == h + cells + Gap + text;
    BitsCellsChar(chunk, BytesPerBitsLine, j, t);
    InLine(h, cells, Gap, text, 9 * j + 2 + t);
  }

  /** Byte j's bits in a bits-view line, read back as the byte. */
  lemma BitsLineBits(address: nat, chunk: seq<byte>, cs: Charset, j: nat)
    requires |chunk| <= BytesPerBitsLine && j < |chunk|
    ensures BitsAt(BitsLine(address, chunk, cs), |HexNat(address, 4)|, j, chunk[j])
  {
    var line := BitsLine(address, chunk, cs);
    var x := |HexNat(address, 4)| + 9 * j + 2;
    var digits := BitDigits(chunk[j], 8);
    BitsLineChar(address, chunk, cs, j, 7);
    forall t | 0 <= t < 8 ensures line[x..x + 8][t] == digits[t] {
      BitsLineChar(address, chunk, cs, j, t);
    }
    assert line[x..x + 8] == digits;
    BitsOfByteRoundTrip(chunk[j]);
  }

  /** The parts of a bits-view line around its bits column. */
  lemma BitsLineParts(address: nat, chunk: seq<byte>, cs: Charset)
    requires |chunk| <= BytesPerBitsLine
    ensures var line := BitsLine(address, chunk, cs);
      var a := |HexNat(address, 4)|;
      && |line| == a + 76 + |Uuids.Trim(Readable(chunk, cs))|
      && line[..a] == HexNat(address, 4)
      && line[a + 73..a + 76] == Gap
      && line[a + 76..] == Uuids.Trim(Readable(chunk, cs))
  {
    var h := HexNat(address, 4);
    var cells := " " + BitsCells(chunk, BytesPerBitsLine);
    var text := Uuids.Trim(Readable(chunk, cs));
    assert BitsLine(address, chunk, cs) == h + cells + Gap + text;
    LineParts(h, cells, Gap, text);
  }

  /** Every byte's bits in a bits-view line. */
  lemma BitsLineAllBits(address: nat, chunk: seq<byte>, cs: Charset)
    requires |chunk| <= BytesPerBitsLine
    ensures forall j | 0 <= j < |chunk| :: BitsAt(BitsLine(address, chunk, cs), |HexNat(address, 4)|, j, chunk[j])
  {
    forall j | 0 <= j < |chunk| {
      BitsLineBits(address, chunk, cs, j);
    }
  }

  /** A bits-view line: the address in hex, byte j's bits at `9 j + 2`
      after it, read back as the byte, and the readable column last. */
  lemma BitsLineLayout(address: nat, chunk: seq<byte>, cs: Charset)
    requires |chunk| <= BytesPerBitsLine
    ensures var line := BitsLine(address, chunk, cs);
      var a := |HexNat(address, 4)|;
      && |line| == a + 76 + |Uuids.Trim(Readable(chunk, cs))|
      && IsHex(line[..a]) && HexValue(line[..a]) == address
      && (forall j | 0 <= j < |chunk| :: BitsAt(line, a, j, chunk[j]))
      && line[a + 73..a + 76] == Gap
      && line[a + 76..] == Uuids.Trim(Readable(chunk, cs))
  {
    BitsLineParts(address, chunk, cs);
    HexValueOfHexNat(address, 4);
    BitsLineAllBits(address, chunk, cs);
  }

  /** What a reader recovers from a bits-view line: the hex prefix reads
      back as the address, and the eight binary digits of cell j as byte j
      of the chunk. */
  predicate BitsLineShows(line: string, address: nat, chunk: seq<byte>) {
    var a := |HexNat(address, 4)|;
    && a <= |line| && IsHex(line[..a]) && HexValue(line[..a]) == address
    && (forall j | 0 <= j < |chunk| :: BitsAt(line, a, j, chunk[j]))
  }

  lemma BitsLineShown(address: nat, chunk: seq<byte>, cs: Charset)
    requires |chunk| <= BytesPerBitsLine
    ensures BitsLineShows(BitsLine(address, chunk, cs), address, chunk)
  {
    BitsLineLayout(address, chunk, cs);
  }

  /** The lines of the bits view over `data`: line l shows address 8 l and
      reads back as the l-th chunk of 8 bytes. */
  function BitsLines(data: seq<byte>, count: nat, cs: Charset): (r: seq<string>)
    requires count == 0 || (count - 1) * BytesPerBitsLine < |data|
    ensures |r| == count
    ensures forall l | 0 <= l < count :: r[l] == BitsLine(l * BytesPerBitsLine, Chunk(data, l, BytesPerBitsLine), cs)
    ensures forall l | 0 <= l < count :: BitsLineShows(r[l], l * BytesPerBitsLine, Chunk(data, l, BytesPerBitsLine))
  {
    assert forall l | 0 <= l < count ::
      BitsLineShows(BitsLine(l * BytesPerBitsLine, Chunk(data, l, BytesPerBitsLine), cs), l * BytesPerBitsLine, Chunk(data, l, BytesPerBitsLine)) by {
      forall l | 0 <= l < count
        ensures BitsLineShows(BitsLine(l * BytesPerBitsLine, Chunk(data, l, BytesPerBitsLine), cs), l * BytesPerBitsLine, Chunk(data, l, BytesPerBitsLine))
      {
        BitsLineShown(l * BytesPerBitsLine, Chunk(data, l, BytesPerBitsLine), cs);
      }
    }
    seq(count, l requires 0 <= l < count => BitsLine(l * BytesPerBitsLine, Chunk(data, l, BytesPerBitsLine), cs))
  }

  /** `getBitsView(bytes, offset, numBytes, charset)`: as `getHexView`, with
      eight bytes to a line shown as bits. */
  function BitsView(bytes: Option<seq<byte>>, offset: int32, numBytes: int32, cs: Charset): (r: Result<string>)
    ensures LineCount(numBytes, BytesPerBitsLine) == 0 ==> r == Ok("")
    ensures LineCount(numBytes, BytesPerBitsLine) > 0 && bytes.None? ==> r == Err(NullPointer)
    ensures LineCount(numBytes, BytesPerBitsLine) > 0 && bytes.Some? ==>
      (r.Ok? <==> 0 <= offset && offset + numBytes <= |bytes.value|)
    ensures r.Err? && bytes.Some? ==> r.error == IndexOutOfBounds
    ensures r.Ok? && LineCount(numBytes, BytesPerBitsLine) > 0 ==>
      var count := LineCount(numBytes, BytesPerBitsLine);
      var data := bytes.value[offset..offset + numBytes];
      && (count - 1) * BytesPerBitsLine < |data| <= count * BytesPerBitsLine
      && Flatten(Chunks(data, BytesPerBitsLine, count)) == data
      && r.value == Join(BitsLines(data, count, cs))
  {
    var count := LineCount(numBytes, BytesPerBitsLine);
    if count == 0 then Ok("")
    else if bytes.None? then Err(NullPointer)
    else if offset < 0 || offset + numBytes > |bytes.value| then Err(IndexOutOfBounds)
    else
      var data := bytes.value[offset..offset + numBytes];
      ViewCover(data, numBytes, BytesPerBitsLine);
      Ok(Join(BitsLines(data, count, cs)))
  }
}

=== FILE: wol_packet.dfy ===
/** `WOLPacket` of the UDP tools: a Wake-on-LAN magic packet.  Six `0xFF`
    bytes, then the target's MAC address sixteen times, then optionally a
    six-byte SecureOn password.
 */
module WolPackets {
  import opened Wrappers
  import opened Bytes
  import opened HexDigits
  import opened HexUtils
  import opened MacAddresses

  /** `DEFAULT_PORT`: the UDP port the packet goes to. */
  const DefaultPort := 9

  /** `PREFIX`. */
  const Prefix: seq<byte> := [0xFF, 0xFF, 0xFF, 0xFF, 0xFF, 0xFF]

  /** `NUM_MAC_ADDRESSES`. */
  const NumMacAddresses := 16

  /** `NUM_SECURE_ON_BYTES`. */
  const NumSecureOnBytes := 6

  /** `MIN_PACKET_LENGTH`: the packet without a password. */
  const MinPacketLength := |Prefix| + NumMacAddresses * NumBytes

  /** `MAX_PACKET_LENGTH`: the packet with a password. */
  const MaxPacketLength := MinPacketLength + NumSecureOnBytes

  /** A `DatagramPacket`'s buffer and the window in it that holds the
      packet.  Its constructor refuses a window outside the buffer. */
  datatype Datagram = Datagram(data: seq<byte>, offset: nat, length: nat) {
    predicate Valid() {
      offset + length <= |data| <= MaxArrayLength
    }

    /** The bytes of the packet. */
    function Payload(): seq<byte>
      requires Valid()
    {
      data[offset..offset + length]
    }
  }

  datatype WolPacket = WolPacket(datagram: Datagram)

  /** The address, repeated n times. */
  function Repeat(mac: MacAddress, n: nat): (r: seq<byte>)
    ensures |r| == NumBytes * n
  {
    if n == 0 then [] else mac + Repeat(mac, n - 1)
  }

  /** Copy i of the address sits at 6i. */
  lemma {:induction false} RepeatAt(mac: MacAddress, n: nat, i: nat)
    requires i < n
    ensures Repeat(mac, n)[NumBytes * i..NumBytes * i + NumBytes] == mac
    decreases n
  {
    if i > 0 {
      RepeatAt(mac, n - 1, i - 1);
      var r := Repeat(mac, n);
      assert r[NumBytes * i..NumBytes * i + NumBytes] == Repeat(mac, n - 1)[NumBytes * (i - 1)..NumBytes * (i - 1) + NumBytes];
    }
  }

  /** A run whose every six-byte block is the address is the repetition. */
  lemma {:induction false} RepeatOfBlocks(s: seq<byte>, mac: MacAddress, n: nat)
    requires |s| == NumBytes * n
    requires forall i | 0 <= i < n :: s[NumBytes * i..NumBytes * i + NumBytes] == mac
    ensures s == Repeat(mac, n)
    decreases n
  {
    if n > 0 {
      var t := s[NumBytes..|s|];
      forall i | 0 <= i < n - 1
        ensures t[NumBytes * i..NumBytes * i + NumBytes] == mac
      {
        SliceOfSlice(s, NumBytes, |s|, NumBytes * i, NumBytes * i + NumBytes);
        assert NumBytes + NumBytes * i == NumBytes * (i + 1);
      }
      RepeatOfBlocks(t, mac, n - 1);
      assert s[NumBytes * 0..NumBytes * 0 + NumBytes] == mac;
      assert s == s[0..NumBytes] + t;
    }
  }

  /** What `parse` checks of a buffer: the prefix, then sixteen copies of the
      six bytes that follow it. */
  predicate IsFrame(p: seq<byte>)
    requires |p| >= MinPacketLength
  {
    && p[..|Prefix|] == Prefix
    && forall i | 0 <= i < NumMacAddresses ::
         p[|Prefix| + NumBytes * i..|Prefix| + NumBytes * i + NumBytes] == p[|Prefix|..|Prefix| + NumBytes]
  }

  /** The checks of `parse` pass exactly on the prefix followed by one
      address sixteen times. */
  lemma FrameIsRepetition(p: seq<byte>)
    requires |p| >= MinPacketLength
    ensures IsFrame(p) <==>
      var mac: MacAddress := p[|Prefix|..|Prefix| + NumBytes];
      p[..MinPacketLength] == Prefix + Repeat(mac, NumMacAddresses)
  {
    var mac: MacAddress := p[|Prefix|..|Prefix| + NumBytes];
    var body := p[|Prefix|..MinPacketLength];
    assert p[..MinPacketLength] == p[..|Prefix|] + body;
    forall i | 0 <= i < NumMacAddresses
      ensures body[NumBytes * i..NumBytes * i + NumBytes] == p[|Prefix| + NumBytes * i..|Prefix| + NumBytes * i + NumBytes]
    {
      SliceOfSlice(p, |Prefix|, MinPacketLength, NumBytes * i, NumBytes * i + NumBytes);
    }
    if IsFrame(p) {
      RepeatOfBlocks(body, mac, NumMacAddresses);
    }
    if p[..MinPacketLength] == Prefix + Repeat(mac, NumMacAddresses) {
      assert p[..|Prefix|] == p[..MinPacketLength][..|Prefix|];
      assert body == Repeat(mac, NumMacAddresses);
      forall i | 0 <= i < NumMacAddresses
        ensures p[|Prefix| + NumBytes * i..|Prefix| + NumBytes * i + NumBytes] == mac
      {
        RepeatAt(mac, NumMacAddresses, i);
      }
    }
  }

  // ----------------------------------------------------------- construct

  /** The bytes the constructor lays out. */
  function Frame(mac: MacAddress, password: seq<byte>): (r: seq<byte>)
  {
    Prefix + Repeat(mac, NumMacAddresses) + password
  }

  /** The laid-out bytes pass the checks of `parse` and carry the address
      and the password where the readers look for them. */
  lemma FrameLayout(mac: MacAddress, password: seq<byte>)
    ensures |Frame(mac, password)| == MinPacketLength + |password|
    ensures IsFrame(Frame(mac, password))
    ensures Frame(mac, password)[|Prefix|..|Prefix| + NumBytes] == mac
    ensures Frame(mac, password)[MinPacketLength..] == password
  {
    var f := Frame(mac, password);
    assert f[..MinPacketLength] == Prefix + Repeat(mac, NumMacAddresses);
    RepeatAt(mac, NumMacAddresses, 0);
    assert f[|Prefix|..|Prefix| + NumBytes] == Repeat(mac, NumMacAddresses)[..NumBytes];
    FrameIsRepetition(f);
  }

  /** The SecureOn password after `hexToBytes` and the constructor's
      checks: none when absent or empty, an error when not six bytes. */
  function Password(hex: Option<string>): (r: Result<Option<seq<byte>>>)
    ensures r.Ok? <==> hex.None? || (IsHex(hex.value) && (|hex.value| == 0 || (|hex.value| + 1) / 2 == NumSecureOnBytes))
    ensures r.Err? ==> r.error == IllegalArgument
    ensures r.Ok? && r.value.Some? ==> hex.Some? && |r.value.value| == NumSecureOnBytes && HexBytes(r.value.value) == EvenHex(hex.value)
    ensures r.Ok? && hex.Some? && |hex.value| > 0 ==> r.value.Some?
  {
    var bytes :- HexToBytes(hex);
    if bytes.Some? && |bytes.value| == 0 then Ok(None)
    else if bytes.Some? && |bytes.value| != NumSecureOnBytes then Err(IllegalArgument)
    else Ok(bytes)
  }

  /** `new WOLPacket(macAddressHex, secureOnPasswordHex)`: a malformed
      password is an error, then a MAC address `parse` refuses is a null
      dereference; otherwise the packet fills its whole buffer. */
  function Build(macHex: Option<string>, passwordHex: Option<string>): (r: Result<WolPacket>)
    ensures r.Ok? <==> Password(passwordHex).Ok? && Parse(macHex).Some?
    ensures Password(passwordHex).Err? ==> r == Err(IllegalArgument)
    ensures Password(passwordHex).Ok? && Parse(macHex).None? ==> r == Err(NullPointer)
    ensures r.Ok? ==>
      var d := r.value.datagram;
      var password := Password(passwordHex).value;
      && d.Valid() && d.offset == 0 && d.length == |d.data|
      && d.length == (if password.Some? then MaxPacketLength else MinPacketLength)
      && IsFrame(d.data)
      && d.data[|Prefix|..|Prefix| + NumBytes] == Parse(macHex).value
      && (password.Some? ==> d.data[MinPacketLength..] == password.value)
  {
    var mac := Parse(macHex);
    var password :- Password(passwordHex);
    if mac.None? then Err(NullPointer)
    else
      var bytes := Frame(mac.value, if password.Some? then password.value else []);
      FrameLayout(mac.value, if password.Some? then password.value else []);
      Ok(WolPacket(Datagram(bytes, 0, |bytes|)))
  }

  // --------------------------------------------------------------- read

  /** `getMACAddress`: the six bytes after the prefix of the buffer, read
      from the start of the buffer whatever the packet's offset. */
  function MacAddressOf(p: WolPacket): (r: Result<MacAddress>)
    requires p.datagram.Valid()
    ensures r.Ok? <==> |p.datagram.data| >= |Prefix| + NumBytes
    ensures r.Ok? ==> r.value == p.datagram.data[|Prefix|..|Prefix| + NumBytes]
    ensures r.Err? ==> r.error == IllegalArgument
  {
    FromBytes(Some(p.datagram.data), |Prefix|)
  }

  /** `getSecureOnPassword`: for a packet of the longer length, a buffer over
      the six bytes after the addresses, again counted from the start of the
      buffer. */
  function SecureOnPassword(p: WolPacket): (r: Option<ByteBuffer>)
    requires p.datagram.Valid()
    ensures r.Some? <==> p.datagram.length == MaxPacketLength
    ensures r.Some? ==> r.value.Valid() && r.value.Remaining() == p.datagram.data[MinPacketLength..MaxPacketLength]
  {
    if p.datagram.length == MaxPacketLength then
      Some(ByteBuffer(p.datagram.data, 0, MinPacketLength, MaxPacketLength))
    else None
  }

  /** The password part of `toString`: the password buffer in hex. */
  lemma PasswordHex(p: WolPacket)
    requires p.datagram.Valid()
    ensures var hex := BufferToHex(SecureOnPassword(p));
      && (hex.Some? <==> p.datagram.length == MaxPacketLength)
      && (hex.Some? ==> hex.value == HexBytes(p.datagram.data[MinPacketLength..MaxPacketLength]))
  {
    var hex := BufferToHex(SecureOnPassword(p));
    if hex.Some? {
      var bytes := SecureOnPassword(p).value.Remaining();
      HexBytesOfHex(hex.value);
      LowerOfLowerHex(hex.value);
    }
  }

  /** `toString`: the address as `MACAddress` prints it, then the password
      in lower-case hex between brackets when there is one. */
  function ToText(p: WolPacket): (r: Result<string>)
    requires p.datagram.Valid()
    ensures r.Ok? <==> MacAddressOf(p).Ok?
    ensures r.Ok? ==>
      var mac := MacAddresses.ToString(MacAddressOf(p).value);
      && |r.value| >= |mac|
      && r.value[..|mac|] == mac
      && (p.datagram.length == MaxPacketLength ==>
            r.value[|mac|..] == " [" + HexBytes(p.datagram.data[MinPacketLength..MaxPacketLength]) + "]")
      && (p.datagram.length != MaxPacketLength ==> r.value == mac)
  {
    var password := SecureOnPassword(p);
    var mac :- MacAddressOf(p);
    var hex := BufferToHex(password);
    PasswordHex(p);
    var text := MacAddresses.ToString(mac);
    if hex.None? then Ok(text)
    else
      assert (text + " [" + hex.value + "]")[..|text|] == text;
      assert (text + " [" + hex.value + "]")[|text|..] == " [" + hex.value + "]";
      Ok(text + " [" + hex.value + "]")
  }

  // -------------------------------------------------------------- parse

  /** `WOLPacket.parse` as written.  The checks wrap the buffer from
      `arrayOffset()`, which is 0 for a wrapped array, so they read the
      buffer's first bytes rather than the packet's; the packet returned
      starts at 0 too, keeping only the length. */
  function ParseAsWritten(d: Datagram): (r: Option<WolPacket>)
    requires d.Valid()
    ensures r.Some? <==> (d.length == MinPacketLength || d.length == MaxPacketLength) && IsFrame(d.data)
    ensures r.Some? ==> r.value.datagram == Datagram(d.data, 0, d.length) && r.value.datagram.Valid()
  {
    if d.length != MinPacketLength && d.length != MaxPacketLength then None
    else if d.data[..|Prefix|] != Prefix then None
    else if !IsFrame(d.data) then None
    else Some(WolPacket(Datagram(d.data, 0, d.length)))
  }

  /** `parse` as evidently intended: the checks read the packet where it
      lies in the buffer, and the packet returned holds its own bytes, so
      that the readers, which count from the start, find them. */
  function ParseIntended(d: Datagram): (r: Option<WolPacket>)
    requires d.Valid()
    ensures r.Some? <==> (d.length == MinPacketLength || d.length == MaxPacketLength) && IsFrame(d.Payload())
    ensures r.Some? ==> r.value.datagram == Datagram(d.Payload(), 0, d.length) && r.value.datagram.Valid()
  {
    if d.length != MinPacketLength && d.length != MaxPacketLength then None
    else if !IsFrame(d.Payload()) then None
    else Some(WolPacket(Datagram(d.Payload(), 0, d.length)))
  }

  /** A built packet parses back to itself, and its readers give the
      address and the password it was built from. */
  lemma BuildParse(macHex: Option<string>, passwordHex: Option<string>)
    requires Build(macHex, passwordHex).Ok?
    ensures var p := Build(macHex, passwordHex).value;
      && ParseAsWritten(p.datagram) == Some(p)
      && ParseIntended(p.datagram) == Some(p)
      && MacAddressOf(p) == Ok(Parse(macHex).value)
      && (SecureOnPassword(p).Some? <==> Password(passwordHex).value.Some?)
      && (SecureOnPassword(p).Some? ==> SecureOnPassword(p).value.Remaining() == Password(passwordHex).value.value)
  {
    var p := Build(macHex, passwordHex).value;
    assert p.datagram.Payload() == p.datagram.data;
  }

  /** Wherever a packet lies in its buffer, the intended parse finds the
      address and the password it carries. */
  lemma ParseIntendedAnywhere(prefix: seq<byte>, mac: MacAddress, password: seq<byte>, suffix: seq<byte>)
    requires |password| == 0 || |password| == NumSecureOnBytes
    requires |prefix| + MaxPacketLength + |suffix| <= MaxArrayLength
    ensures var f := Frame(mac, password);
      var d := Datagram(prefix + f + suffix, |prefix|, |f|);
      && d.Valid()
      && ParseIntended(d).Some?
      && MacAddressOf(ParseIntended(d).value) == Ok(mac)
      && (SecureOnPassword(ParseIntended(d).value).Some? <==> |password| == NumSecureOnBytes)
      && (|password| == NumSecureOnBytes ==> SecureOnPassword(ParseIntended(d).value).value.Remaining() == password)
  {
    var f := Frame(mac, password);
    var d := Datagram(prefix + f + suffix, |prefix|, |f|);
    FrameLayout(mac, password);
    assert d.Payload() == f;
  }

  /** The frame of the address 00:00:00:00:00:00 without a password, one
      byte into its buffer. */
  const ShiftedFrame: Datagram := Datagram([0] + Frame([0, 0, 0, 0, 0, 0], []), 1, MinPacketLength)

  /** As written, `parse` refuses a well-formed packet that does not start
      its buffer, which the intended reading accepts. */
  lemma ParseAsWrittenMissesOffset()
    ensures ShiftedFrame.Valid()
    ensures IsFrame(ShiftedFrame.Payload())
    ensures ParseAsWritten(ShiftedFrame).None?
    ensures ParseIntended(ShiftedFrame).Some?
  {
    var mac: MacAddress := [0, 0, 0, 0, 0, 0];
    FrameLayout(mac, []);
    assert ShiftedFrame.Payload() == Frame(mac, []);
    assert ShiftedFrame.data[..|Prefix|][0] == 0;
  }
}

=== FILE: wrappers.dfy ===
/** Failure-compatible datatypes shared by the whole model.

    `Option` stands for a Java reference that may be `null` where the source
    tests for it; `Result` stands for a computation that either completes with
    a value or throws one of the exceptions the marshalling code throws.
 */
module Wrappers {

  datatype Option<+T> = None | Some(value: T) {
    predicate IsFailure() {
      None?
    }

    function PropagateFailure<U>(): Option<U>
      requires None?
    {
      None
    }

    function Extract(): T
      requires Some?
    {
      value
    }
  }

  /** The Java exception classes the marshalling code can raise. */
  datatype Error =
    | IllegalState        // java.lang.IllegalStateException
    | IllegalArgument     // java.lang.IllegalArgumentException
    | IO                  // java.io.IOException
    | Unsupported         // java.lang.UnsupportedOperationException
    | IndexOutOfBounds    // java.lang.IndexOutOfBoundsException
    | NullPointer         // java.lang.NullPointerException
    | NegativeArraySize   // java.lang.NegativeArraySizeException

  datatype Result<+T> = Ok(value: T) | Err(error: Error) {
    predicate IsFailure() {
      Err?
    }

    function PropagateFailure<U>(): Result<U>
      requires Err?
    {
      Err(error)
    }

    function Extract(): T
      requires Ok?
    {
      value
    }
  }

  /** Fails with `e` unless `cond` holds; used for the source's guard clauses. */
  function Need(cond: bool, e: Error): (r: Result<()>)
    ensures r.Ok? <==> cond
    ensures r.Err? ==> r.error == e
  {
    if cond then Ok(()) else Err(e)
  }
}
